=== FILE: README.md ===
# ReMind core, modelled in Dafny

ReMind is a personal knowledge tool. It stores *sources* (notes and their
text) in a document database, cuts their text into embedded chunks for vector
search, attaches *insights* that language models write about them, answers
questions with numbered citations, quizzes the user on old notes by spaced
repetition, and routes each prompt to a configured language model. This
project models the deterministic rules of that core as pure Dafny functions
over an explicit store value and proves what those rules guarantee.

The model is one module per source file, plus three shared modules:

| module | file | models |
|---|---|---|
| `Wrappers` | wrappers.dfy | `Option`, `Result` and the exception kinds that escape to callers |
| `Text` | text.dfy | the Python `str` operations the code uses (`strip`, `split`, `join`, `replace`, …) |
| `Store` | store.dfy | `remind/database/mongodb.py`: collections as ordered document sequences, ObjectIds, query, insert, `$set` update, upsert, `delete_one`, the vector-index ensure |
| `Objects` | objects.dfy | `ObjectModel` of `remind/domain/base.py` and its six document classes: class lookup by table name, construction, `get`, `get_all`, `save` with its embedding branch, `delete` |
| `Records` | records.dfy | `RecordModel`: one instance per `record_id`, `update`, `clear_instance`, `patch` |
| `Notes` | notes.dfy | `Source.vectorize`, `add_insight`, `get_insights`, `get_context`, `delete`, `embedded_chunks` |
| `Catalog` | catalog.dfy | `MODEL_CLASS_MAP`, the (type, provider) validity table |
| `Manager` | manager.dfy | `ModelManager`: the keyed instance cache, default models and their fallbacks |
| `Routing` | routing.dfy | `provision_langchain_model`: the 105 000-token large-context router |
| `Sorting` | sorting.dfy | Python's stable `list.sort`, as insertion by a total order on position-tagged elements |
| `Search` | search.dfy | `remind/graphs/ask.py`: vector search (score filter, stable sort, truncation), the fan-out of searches, the answer payloads |
| `Citations` | citations.dfy | `remind/webui/tabs/ask.py`: `[kind:id]` references replaced by numbers, `add_user_query` |
| `Selector` | selector.dfy | the model dropdown and `get_model_from_key` |
| `ModelsTab` | modelstab.dfy | provider availability, the add form's types, `delete_model`, `save_default_models` |
| `Quiz` | quiz.dfy | `remind/process_content/get_quiz.py`: the due rule, today's record, the next note |
| `QuizTab` | quiztab.dfy | the question-advance state machine and `judge_answer` |
| `TransformTab` | transformtab.dfy | the transformations tab: open-state list, create, update, delete, run |
| `Calendar` | calendar.dfy | `create_activity_chart`: day rows, per-day tallies, week columns |
| `TransformGraph` | transformgraph.dfy | `remind/graphs/transformation.py`: prompt and content composition, markdown-fence extraction |
| `YouTube` | youtube.dfy | `get_youtube_id` and `TranscriptFormatter` |
| `Speech` | speech.dfy | `sanitize_text` |
| `Title` | title.dfy | the title cleaning of `run_title` |

Conventions used throughout:

- Times are integers: microseconds since 0001-01-01 00:00. A day is `Quiz.DAY`.
- An ObjectId is `VOid(n)`, and the store hands out `n` in increasing order.
- Every raise is a `Failure` carrying the exception kind that reaches the caller.
- Every collaborator the code cannot see is a parameter of the function that calls it. This covers the clock, the embedding model, the text splitter, the token counter, the language models and NFKC normalisation.

Points where the model follows what the code does rather than what its
docstrings, names or comments suggest:

- `Source.delete` removes at most one chunk and one insight. The code uses `delete_one`, not a cascade (see Findings).
- Citation numbers follow the iteration order of a Python `set`, not the order of first occurrence. The order is a parameter that enumerates the distinct references.
- With no embedding model, `save` stores `embedding = []`. It does not leave the field out.
- `vectorize` does not stop at the first failed chunk save. `executor.map` followed by the pool's shutdown attempts every save, and the error is raised afterwards.

## Model

| member | source | states |
|---|---|---|
| Store.ParseOid | remind/domain/base.py:38-43 | a text is an ObjectId exactly when it is 24 hexadecimal digits, upper or lower case; any other text is invalid |
| Store.ParseOidPrints | remind/domain/base.py:38-43 | an accepted text names an ObjectId that prints back as the text in lower case |
| Store.HexTextRoundTrip | remind/domain/base.py:38-43 | hexadecimal text read as a number and printed at the same width is the text in lower case, and the number fits that width |
| Store.HexValueChar | remind/domain/base.py:38-43 | a hexadecimal digit's value prints back as the digit in lower case |
| Store.OidRoundTrip | remind/domain/base.py:38-43 | every ObjectId written as 24 hex digits parses back to the same id |
| Store.Select | remind/database/mongodb.py:21-26 | the filtered documents are exactly those of the collection that satisfy every clause, never more than the collection holds |
| Store.SelectAppend | remind/database/mongodb.py:21-26 | filtering distributes over concatenation, so results keep the collection's natural order |
| Store.SelectHead | remind/database/mongodb.py:21-26 | a query has a first result exactly when some document matches, and that result is the earliest match |
| Store.Query | remind/database/mongodb.py:21-26 | `collection_query` returns precisely the matching documents of the named collection |
| Store.FirstMatch | remind/database/mongodb.py:47-51 | the document `update_one` touches is the earliest match: it matches and no earlier one does; none means no document matches |
| Store.Create | remind/database/mongodb.py:33-37 | `insert_one` fails with a duplicate key exactly when the id is taken; otherwise it appends the document with its id and changes no other collection or index |
| Store.CreateReadBack | remind/database/mongodb.py:33-37 | after an insert, ids stay unique and a query by the returned id yields exactly the inserted document |
| Store.Update | remind/database/mongodb.py:47-51 | `$set` merges the data into the first match only, counts at most one modification, refuses a changed `_id`, and is a no-op when nothing matches |
| Store.Upsert | remind/database/mongodb.py:40-44 | with a match the upsert is the update and returns no id; without one it inserts the filter's equality fields plus the data and returns the new id |
| Store.UpsertReadBack | remind/database/mongodb.py:40-44 | whichever branch ran, the first document the filter selects afterwards holds every field of the data |
| Store.UpsertUpdated | remind/database/mongodb.py:40-44 | an upsert on an existing match keeps that document first and merges the data into it |
| Store.UpsertInserted | remind/database/mongodb.py:40-44 | an upsert with no match makes the new document selectable by the filter, holding the data |
| Store.Delete | remind/database/mongodb.py:54-58 | `delete_one` removes at most one document, exactly the first match, and nothing when no document matches |
| Store.Reject | remind/database/mongodb.py:54-58 | the kept documents are exactly those that do not match |
| Store.DeleteMany | remind/domain/notes.py:163-166 | the `source_id` cascade leaves no matching document, keeps every other one, and reports how many went |
| Store.EnsureVectorIndex | remind/database/mongodb.py:61-86 | after the call the collection has an index named `vector_knn_index`; an existing one leaves the store untouched, otherwise exactly one index is appended |
| Store.EnsureVectorIndexIdempotent | remind/database/mongodb.py:61-86 | the check-then-create is idempotent whatever dimensions the second call asks for, leaving exactly one index of that name |
| Objects.TableName | remind/domain/notes.py:24-25 | every concrete class has a non-empty `table_name` (`source_embedding`, `source_insight`, `source`, `model`, `transformation`, `quiz`) |
| Objects.TableNameInjective | remind/domain/notes.py:24-25 | no two concrete classes share a table name, so a table name identifies its class |
| Objects.FindByTable | remind/domain/base.py:120-123 | the scan returns a listed class whose table name is the one asked for, and none only when no listed class has it |
| Objects.ClassByTableName | remind/domain/base.py:109-123 | `_get_class_by_table_name` finds a class exactly when some model class owns the table name |
| Objects.SubclassesComplete | remind/domain/base.py:113-118 | the depth-first subclass walk visits every model class |
| Objects.SchemaDistinct | remind/domain/base.py:45-49 | inherited and declared field names never clash, so a record has one value per field |
| Objects.CoerceOids | remind/domain/quiz.py:6-7 | a list of ObjectIds validates element by element and keeps its length |
| Objects.CoerceOidsSound | remind/domain/quiz.py:6-7 | a validated id list holds exactly the coerced form of each element, all ObjectIds |
| Objects.CoerceOidsKeepsOids | remind/domain/quiz.py:6-7 | a list that already holds ObjectIds validates to itself |
| Objects.CoerceStrict | remind/domain/base.py:199-204 | coercion yields a value of the field's strict type and is idempotent, so the strict re-validation in `save` accepts it |
| Objects.Build | remind/domain/base.py:45-49 | construction succeeds exactly when every declared field resolves, and the record holds exactly the declared fields with their resolved values |
| Objects.Construct | remind/domain/base.py:66-70 | `cls(**doc)` succeeds exactly when every field resolves from the document or its default, failing with a validation error otherwise |
| Objects.ConstructRoundTrip | remind/domain/base.py:135 | a constructed object is valid, and constructing again from its own fields yields the same object |
| Objects.DefaultsCoerce | remind/domain/notes.py:73-78 | every field default is already of its field's strict type |
| Objects.IdTable | remind/domain/base.py:84-87 | a text id names its table by the text before its first colon, or the whole text when it has no colon |
| Objects.TargetClass | remind/domain/base.py:89-97 | the calling class is used when its table matches, otherwise the class owning the table; none exactly when no class owns it |
| Objects.Get | remind/domain/base.py:78-107 | `get` fails exactly on an empty id, an unknown table, no stored document or a document that does not construct; only the empty id is an invalid-input error, every other failure is reported as not-found; success yields a valid object of the id's table with that id |
| Objects.GetFindsStored | remind/domain/base.py:99-103 | with unique ids, getting a stored document by its ObjectId yields that document's object, or not-found when it does not construct |
| Objects.GetTextIdNeverSucceeds | remind/domain/base.py:84-103 | a text id never finds a document, because stored ids are ObjectIds and the query compares the text itself |
| Objects.ConstructAll | remind/domain/base.py:64-72 | the objects returned are exactly the constructible stored documents; one that fails to construct is skipped rather than aborting the listing |
| Objects.GetAll | remind/domain/base.py:51-76 | `get_all` on the base class fails with a database-operation error; on a model class it lists the objects of every constructible document of its table and nothing else, in the table's order |
| Objects.ConstructAllAppend | remind/domain/base.py:64-72 | listing keeps stored order: the objects of two runs of documents are those of the first run followed by those of the second |
| Wrappers.SuccessesAppend | remind/domain/base.py:64-72 | skipping failures keeps order: collecting over `a + b` is collecting over `a` then over `b` |
| Objects.EmbeddingContent | remind/domain/notes.py:29-33 | only chunks and insights offer embedding content |
| Objects.PrepareSaveData | remind/domain/base.py:181-183 | the saved data keeps every non-null field with its value and drops exactly the null ones |
| Objects.EmbeddingValue | remind/domain/base.py:147-151 | the stored embedding is a list as long as the embedding vector |
| Objects.SaveData | remind/domain/base.py:136-153 | the save data stamps `updated`, keeps the non-null fields, and adds an embedding only for embeddable objects with content; no embedding model means an empty embedding and no index; a failed model lookup is a database-operation error |
| Objects.WriteBack | remind/domain/base.py:163-171 | after a write each declared field takes the stored value when the stored document has it, and keeps the object's own value otherwise; the id never changes |
| Objects.Save | remind/domain/base.py:131-179 | an invalid object is refused with the store unchanged; failures are validation or database-operation errors; success keeps the kind, yields an id (the same one when it had one), and touches only the class's own table |
| Objects.SaveIndexes | remind/domain/base.py:139-155 | a successful save leaves the search indexes of other tables alone, and adds the vector index to its own table exactly when an embedding was computed |
| Objects.IndexFor | remind/domain/base.py:152-153 | the vector index is ensured exactly when an embedding dimension was computed, and documents are not touched |
| Objects.Persist | remind/domain/base.py:155-161 | the write inserts a new object and updates an existing one; a failure leaves the store unchanged; other tables and indexes are untouched |
| Objects.Insert | remind/domain/base.py:155-157 | an insert either fails leaving the store unchanged or yields an object with a fresh id, touching only its own table |
| Objects.Rewrite | remind/domain/base.py:158-161 | updating an object that has an id always succeeds and keeps that id |
| Objects.InsertReadsBack | remind/domain/base.py:155-171 | an insert appends the row with its new id, and the returned object is the written-back stored row |
| Objects.RewriteReadsBack | remind/domain/base.py:158-171 | an update keeps the table's size, and the returned object is the old document merged with the new row, written back |
| Objects.SaveDataFacts | remind/domain/base.py:136-153 | successful save data carries the `updated` stamp and every non-null field of the object |
| Objects.InsertFields | remind/domain/base.py:155-171 | the insert branch appends one row with a fresh unique id that carries every non-null field; the object gets `created` and `updated` stamps and keeps its non-null fields |
| Objects.RewriteFields | remind/domain/base.py:158-171 | the update branch keeps `created`, stamps `updated`, and leaves each field as the object's non-null value or else the stored one |
| Objects.SaveInserts | remind/domain/base.py:131-171 | saving an object without an id appends exactly one row holding its non-null fields under a fresh unique id, and stamps both times |
| Objects.SaveUpdates | remind/domain/base.py:131-171 | saving an object with a stored id keeps the row count and `created`, stamps `updated`, and fields set to None keep their stored values |
| Objects.NamesOfSchema | remind/domain/base.py:45-49 | every class declares `_id`, `created` and `updated`, and none declares `embedding` |
| Objects.ReadBack | remind/domain/base.py:163-171 | the write-back keeps kind and id, and leaves the object unchanged when the query finds nothing |
| Objects.Delete | remind/domain/base.py:185-197 | deleting an object without an id is an invalid-input error with the store unchanged; otherwise at most one document of its table goes and nothing is added |
| Records.RecordIdInjective | remind/domain/models.py:21-22 | `default_models` and `default_prompts` are distinct record ids, so the two singletons never share a document |
| Records.FieldType | remind/domain/models.py:21-30 | a field has a declared type exactly when the record class declares it |
| Records.SetAttr | remind/domain/base.py:214-217 | with assignment validation, setting a declared field fails exactly when the value does not coerce to its type; an undeclared key is kept as an extra attribute |
| Records.ApplyKwargs | remind/domain/base.py:226-228 | assigning the keyword arguments in order keeps the instance well-formed; no arguments change nothing; failures are validation errors |
| Records.Overlay | remind/domain/base.py:243-250 | the initial data holds every keyword argument and keeps every stored value the arguments do not override |
| Records.Init | remind/domain/base.py:252-253 | building an instance fails exactly when some declared field's value does not coerce; on success every declared field holds its coerced value or None, and undeclared keys become extras |
| Records.DefaultKept | remind/domain/models.py:23-29 | every declared field's default None is a valid value for it |
| Records.Stored | remind/domain/base.py:241-246 | the stored record, when there is one, is a document of the `record` collection |
| Records.New | remind/domain/base.py:221-256 | an existing instance is reused with the arguments assigned onto it; otherwise one is built from the stored record overlaid with the arguments and registered; other record ids are untouched |
| Records.NewIsSingleton | remind/domain/base.py:221-234 | asking again, whatever the database now holds, returns the same instance and leaves the registry as it was |
| Records.NewKeepsWellFormed | remind/domain/base.py:221-256 | every registered instance stays fully built |
| Records.ClearInstance | remind/domain/base.py:289-293 | `clear_instance` removes exactly this class's instance and keeps every other |
| Records.Refresh | remind/domain/base.py:279-285 | reloading after the write only overwrites attributes the instance already has |
| Records.Update | remind/domain/base.py:269-287 | `update` touches only the `record` collection, leaves it unchanged on failure, and keeps the instance's set of fields |
| Records.UpdateStoresFields | remind/domain/base.py:269-287 | after `update` the stored record holds every declared field's value, and the instance keeps those values |
| Records.UpdateReloadRoundTrip | remind/domain/base.py:269-293 | `update`, then `clear_instance`, then a fresh instance gives back the same declared fields |
| Records.InitFromStored | remind/domain/base.py:241-253 | building from a record that holds a well-formed instance's fields gives back those fields |
| Records.LastKw | remind/domain/base.py:226-228 | a name has no keyword value exactly when no argument carries it |
| Records.LastKwFront | remind/domain/base.py:226-228 | for repeated names, a later keyword argument overrides an earlier one |
| Records.ApplyKwargsAssigns | remind/domain/base.py:226-228 | after a successful assignment every declared field holds the coerced value of its last keyword argument, and the instance's own value when it has none |
| Records.Patch | remind/domain/base.py:295-299 | `patch` writes nothing when an assignment fails validation; on success the stored record and the instance hold the coerced keyword values and the instance's other fields, and other tables are untouched |
| Records.PatchStores | remind/domain/base.py:295-299 | a successful patch stores a record whose fields are the coerced keyword values over the instance's own |
| Notes.EmbeddedChunks | remind/domain/notes.py:94-104 | `embedded_chunks` counts the chunks that belong to the source, never more than the chunk table holds |
| Notes.ChunkObjects | remind/domain/notes.py:140 | one chunk object per piece, in order; building them fails exactly when the source's id is not an ObjectId |
| Notes.ChunkObjectFresh | remind/domain/notes.py:140 | a new chunk has no id yet, holds its piece as content and the source's id |
| Notes.SaveChunk | remind/domain/notes.py:134-135 | saving a fresh chunk appends exactly one row holding it to the chunk table |
| Notes.ChunksAppendedStep | remind/domain/notes.py:139-142 | chunk saves compose: the rows appended by successive saves are the chunks in order |
| Notes.SaveEach | remind/domain/notes.py:139-142 | saving the chunks one after another touches only the chunk table, and when all succeed it appends exactly those chunks in order |
| Notes.Vectorize | remind/domain/notes.py:118-148 | no text, or no pieces, writes nothing and succeeds; failures are database-operation errors; a source without an ObjectId writes nothing and fails; a successful run appends one chunk per piece, in order, holding the piece and the source's id, keeping ids unique |
| Notes.StoreChunks | remind/domain/notes.py:134-148 | for a non-empty list of pieces, any failure is a database-operation error; a source id that is not an ObjectId fails before anything is written; only the chunk table changes; success appends the pieces in order under the source's id, keeping ids unique, and raises the source's chunk count by the number of pieces |
| Notes.ChunksOfPieces | remind/domain/notes.py:140-142 | the appended rows hold the pieces in order, each tagged with the source's id |
| Notes.ChunksCounted | remind/domain/notes.py:94-100 | appending rows of one source raises its chunk count by exactly the number appended |
| Notes.AddInsight | remind/domain/notes.py:150-161 | an empty insight type or content is an invalid-input error with nothing written; other failures are validation or database-operation errors; only the insight table changes |
| Notes.InsightObject | remind/domain/notes.py:154-158 | the insight built for a source is a `SourceInsight`, or a validation error |
| Notes.AddInsightStores | remind/domain/notes.py:150-158 | a successful `add_insight` appends exactly one insight row holding the type, the content and the source's id |
| Notes.InsightObjectFields | remind/domain/notes.py:154-158 | the new insight has no id and carries the type, the content and the coerced source id |
| Notes.SaveInsight | remind/domain/notes.py:154-158 | saving a new insight appends one row with its type, content and source id, keeping ids unique |
| Notes.Insights | remind/domain/notes.py:106-116 | `insights` constructs every stored insight of the source, in order, and fails as a whole with a database-operation error when any of them does not construct |
| Notes.ConstructEach | remind/domain/notes.py:112 | the list comprehension constructs every document and fails when any one fails |
| Notes.GetContext | remind/domain/notes.py:80-92 | the context carries the source's id, title and insights, and the full text exactly for the "long" size |
| Notes.DeleteAsWritten | remind/domain/notes.py:163-166 | as written, `delete` removes at most one chunk and one insight of the source before the source itself |
| Notes.DeleteCascade | remind/domain/notes.py:163-166 | the intended cascade leaves no chunk and no insight of the source and keeps every other one |
| Notes.DeleteAsWrittenLeavesChunks | remind/domain/notes.py:163-166 | a source with two chunks still has one after the delete as written, and none after the cascade |
| Catalog.Providers | remind/models/__init__.py:27-57 | the providers listed for a type are exactly those compatible with it |
| Catalog.ExactlyFiveTypes | remind/models/__init__.py:27-57 | the class map knows exactly five distinct model types: language, vision, embedding, speech-to-text and text-to-speech |
| Catalog.LanguageProviders | remind/models/__init__.py:28-39 | a language model can be served by exactly the ten listed providers |
| Catalog.SingleProviderTypes | remind/models/__init__.py:40-42 | vision is served only by ollama and text-to-speech only by chatterbox |
| Catalog.EmbeddingAndSpeechProviders | remind/models/__init__.py:43-53 | embeddings come from openai, gemini, vertexai or ollama; speech-to-text from openai, groq or parakeet |
| Manager.GetModel | remind/domain/models.py:48-82 | no id gives None; a cached instance is returned without reading the store, unless it is a vision model, which is a type error; otherwise a missing descriptor is not found, an incompatible type or provider is a value error, and a compatible one is instantiated and cached under the id-and-arguments key; failures leave the manager unchanged |
| Manager.Build | remind/domain/models.py:70-82 | a loaded descriptor fails with a value error exactly when its type and provider are not a pair of the class map, changing nothing; otherwise the instance built from its type, provider and name is returned and cached under the key |
| Manager.GetModelCachesInstance | remind/domain/models.py:52-63 | a successful lookup is cached, so asking again with the same key returns the same instance whatever the store now holds |
| Manager.VisionModelOnlyOnce | remind/domain/models.py:54-62 | a vision model is served once; every later request with the same key fails the `isinstance` test |
| Manager.TextKeySharesCache | remind/domain/models.py:52 | the cache is keyed by text, so an ObjectId's hex text finds the instance cached for that id, although the text alone never finds a stored descriptor |
| Manager.ClearCache | remind/domain/models.py:168-170 | `clear_cache` empties the cache and keeps the defaults |
| Manager.ClearCacheForgets | remind/domain/models.py:168-170 | after clearing, a descriptor that is gone from the store is not found even if it had been cached |
| Manager.RefreshDefaults | remind/domain/models.py:84-86 | `refresh_defaults` takes the registered `DefaultModels` singleton when there is one, else loads it, and keeps the cache |
| Manager.IdArgOf | remind/domain/models.py:141-164 | only a set id is used: None is "no model", an ObjectId is looked up as itself |
| Manager.DefaultId | remind/domain/models.py:141-164 | each role reads its own slot; transformation and tools fall back to the chat slot when theirs is unset; an unknown role has no id |
| Manager.Or | remind/domain/models.py:146-153 | `a or b` takes the first slot when it is set and the second otherwise |
| Manager.GetDefaultModel | remind/domain/models.py:133-166 | no id for the role gives None; otherwise the result is `get_model` on that id |
| Manager.FallbackToChat | remind/domain/models.py:145-153 | with its own slot unset the transformation or tools role gets the chat model; with it set the chat slot plays no part |
| Manager.Attr | remind/domain/base.py:214-217 | attribute access finds a declared field or an extra attribute, and is an attribute error otherwise |
| Manager.GetDefaultModelAsWritten | remind/domain/models.py:160-161 | as written, the large-context role fails with an attribute error exactly when the record carries no extra `large_context_model` attribute; other roles are unaffected |
| Manager.LargeContextAttributeMissing | remind/domain/models.py:160-161 | with the configured large-context slot set, the code as written fails where the declared slot would yield the configured model |
| Manager.Typed | remind/domain/models.py:97-131 | the property yields None when the slot is unset, passes on lookup failures, and otherwise returns the model only when it has the expected type, an assertion error if not; the manager is updated either way |
| Manager.SpeechToText | remind/domain/models.py:97-107 | `speech_to_text` yields only speech-to-text models, and None when no default is set |
| Manager.TextToSpeech | remind/domain/models.py:109-119 | `text_to_speech` yields only text-to-speech models, and None when no default is set |
| Manager.EmbeddingModel | remind/domain/models.py:121-131 | `embedding_model` yields only embedding models, and None when no default is set |
| Manager.ModelsByType | remind/domain/models.py:15-18 | `get_models_by_type` constructs every stored model of the type, in order, failing when one does not validate |
| Manager.ConstructModels | remind/domain/models.py:18 | every document is constructed as a `Model`; the whole list fails when any one fails |
| Routing.RequireLanguage | remind/graphs/utils.py:45 | the final assertion passes exactly when a language model was found, and passes on earlier failures |
| Routing.Provision | remind/graphs/utils.py:24-46 | above 105000 tokens the large-context default is used; otherwise the requested model, else the default of the given type; the result is always a language model |
| Routing.ProvisionAsWritten | remind/graphs/utils.py:35-39 | as written, short prompts route as intended while long ones fail with an attribute error unless the record carries the undeclared attribute |
| Routing.LargeContextOverrides | remind/graphs/utils.py:35-43 | above the threshold neither the requested model nor the default type matters |
| Routing.ThresholdIsStrict | remind/graphs/utils.py:35 | exactly 105000 tokens routes like a short prompt; one more routes to the large-context model |
| Routing.UnsetDefaultFails | remind/graphs/utils.py:42-45 | an unset default fails the assertion rather than returning None |
| Sorting.Insert | remind/graphs/ask.py:150 | inserting into an increasing list keeps it increasing and adds exactly the one element |
| Sorting.SortFrom | remind/graphs/ask.py:150 | the sort is a permutation of its input and its output is increasing |
| Sorting.Sort | remind/graphs/ask.py:150 | sorting under a strict total order is a permutation of the hits, of the same length, in increasing order |
| Sorting.IncreasingUnique | remind/graphs/ask.py:150 | two increasing arrangements of the same hits are equal, so the sorted order is the one Python's stable sort produces |
| Sorting.MapPermutes | remind/graphs/ask.py:151 | projecting permuted hits to their objects gives permuted objects |
| Search.Passing | remind/graphs/ask.py:114-117 | the rows that pass are exactly the rows scoring at least the minimum, and when every row passes all are kept |
| Search.Scored | remind/graphs/ask.py:114-117 | the scan fails exactly when a row scoring at least the minimum fails to build, and every row it keeps passed and was built from one of the rows |
| Search.ScoredPassing | remind/graphs/ask.py:114-117 | a successful scan returns one built row for each passing row, in the rows' order |
| Search.Keep | remind/graphs/ask.py:114-117 | a collection's search fails with a validation error exactly when a row scoring at least the minimum does not validate; otherwise it keeps one object per passing row, every passing row's object among them, and rows below the minimum are never built |
| Search.KeepFacts | remind/graphs/ask.py:114-117 | a successful keep has as many objects as passing rows, and holds the object of every passing row |
| Search.Tag | remind/graphs/ask.py:150 | each kept hit is tagged with its discovery position |
| Search.TagOrdered | remind/graphs/ask.py:150 | score-descending, then discovery order, is a strict total order on the tagged hits |
| Search.PrefixSlice | remind/graphs/ask.py:151 | `[:results]` keeps the first `results` items, and for a negative count drops that many from the end, as Python slicing does |
| Search.KeptOf | remind/graphs/ask.py:88-148 | a disabled collection contributes nothing; an enabled one contributes what its keep returns |
| Search.Joined | remind/graphs/ask.py:88-148 | chunk hits followed by insight hits are eligible, chunks first, as many as the passing rows of the enabled collections, and hold every passing row of each |
| Search.Discovered | remind/graphs/ask.py:88-148 | discovery fails exactly when an enabled collection's keep fails; otherwise it returns one eligible hit per passing row of each enabled collection, every such row found, chunk hits before insight hits; with both kinds disabled nothing is found |
| Search.SortKeepsChunksFirst | remind/graphs/ask.py:150 | the stable sort keeps chunks ahead of insights among equal scores |
| Search.SortKeepsEligible | remind/graphs/ask.py:150 | sorting keeps every hit eligible |
| Search.SliceLength | remind/graphs/ask.py:151 | `s[:n]` keeps `min(n, len)` elements for a non-negative `n`, and never more than the sequence holds |
| Search.PrefixIsBest | remind/graphs/ask.py:150-151 | a prefix of the hits in score-descending order is a sub-multiset of the hits, of the sliced length, and every hit left out ranks below every hit kept |
| Search.SliceIsBest | remind/graphs/ask.py:150-151 | `sorted(...)[:results]` picks the top `results` hits: every hit left out ranks below every hit kept |
| Search.Rank | remind/graphs/ask.py:150-151 | the sorted, truncated hits are at most `results`, eligible, in strictly descending rank with chunks first among ties, and are the top `results` of the discovered hits |
| Search.Ranked | remind/graphs/ask.py:82-151 | an empty keyword finds nothing; an unset embedding model fails; otherwise the search fails exactly when discovery fails, and returns the top `results` discovered hits (as many as `[:results]` keeps), in descending score with ties in discovery order |
| Search.VectorSearch | remind/graphs/ask.py:48-152 | `vector_search` fails exactly when ranking fails, returns the objects of the ranked hits in order, at most `results` of them, of enabled kinds, and nothing for an empty keyword |
| Search.TriggerQueries | remind/graphs/ask.py:171-182 | one branch per planned search, in order, each carrying the question, the term and the instructions |
| Search.Label | remind/graphs/ask.py:194-198 | a chunk is cited as `note:<id>` and an insight as `insight:<id>` |
| Search.PayloadItems | remind/graphs/ask.py:193-200 | one payload item per hit, in order, carrying its label and content |
| Search.AnswerPayload | remind/graphs/ask.py:187-203 | the payload keeps the branch's question, term and instructions, and its results and ids list the hits' labels in order |
| Search.ProvideAnswer | remind/graphs/ask.py:185-213 | a branch whose search finds nothing answers nothing; a failing search or provisioning fails; otherwise the one answer is the provisioned model's reply to the payload |
| Search.AddAnswers | remind/graphs/ask.py:44 | the answers channel concatenates each update after the answers so far |
| Search.GatherCounts | remind/graphs/ask.py:44 | with at most one answer per branch, the gathered answers number the branches that answered, and which answers appear does not depend on the order branches finish |
| Citations.WordRunEnd | remind/webui/tabs/ask.py:22 | `[\w\d]+` extends to the first non-word character |
| Citations.TagAtMatches | remind/webui/tabs/ask.py:22 | a tag is recognised at a position exactly when `insight:`, `note:` or `source:` occurs there |
| Citations.HasAtOccurs | remind/webui/tabs/ask.py:22 | matching a literal character by character is the same as finding it as a slice |
| Citations.MatchEnd | remind/webui/tabs/ask.py:22 | a match starts at a `[` and ends just after a later `]` |
| Citations.MatchEndSound | remind/webui/tabs/ask.py:22 | what a match encloses is a well-formed reference |
| Citations.MatchEndFinds | remind/webui/tabs/ask.py:22 | wherever a well-formed reference is cited in brackets, the pattern matches there and ends just after its `]` |
| Citations.RefAt | remind/webui/tabs/ask.py:22 | a known tag, a colon and a run of word characters form a reference |
| Citations.FindFrom | remind/webui/tabs/ask.py:22-23 | the scan from a position finds at most one reference per remaining character |
| Citations.FindFromSound | remind/webui/tabs/ask.py:22-23 | every reference the scan finds is well formed and cited in brackets in the text; text without `[` has none |
| Citations.FindFromFinds | remind/webui/tabs/ask.py:22-23 | every citation at or after the scan's start is found: no earlier match runs past it |
| Citations.RefHasNoBracket | remind/webui/tabs/ask.py:22 | no well-formed reference contains `[`, so no citation begins inside another |
| Citations.FindRefs | remind/webui/tabs/ask.py:22-23 | `findall` yields exactly the well-formed references cited in brackets in the text, and none when the text has no `[` |
| Citations.LoneCitationFound | remind/webui/tabs/ask.py:22-23 | a lone bracketed reference is found, and only it |
| Citations.SplitRef | remind/webui/tabs/ask.py:27-30 | `split(":", 1)` has two parts exactly when the reference has a colon, the first part colon-free and the parts joining back to the reference |
| Citations.Lookup | remind/webui/tabs/ask.py:31-54 | an id that is not ObjectId text raises; a missing object gives nothing; a stored one that does not validate raises; otherwise the object of the tag's class |
| Citations.Step | remind/webui/tabs/ask.py:26-54 | a reference fails exactly when it breaks; an unresolved reference changes nothing; a resolved one is appended with the object its lookup gives, and replaced by its number everywhere in the text |
| Citations.RunFails | remind/webui/tabs/ask.py:26-54 | the loop fails exactly when one of the references it visits breaks |
| Citations.RunFetches | remind/webui/tabs/ask.py:26-54 | the loop keeps every object equal to what looking up its reference gives |
| Citations.Run | remind/webui/tabs/ask.py:26-54 | the loop only appends to the replaced references, one object per reference |
| Citations.RunNumbers | remind/webui/tabs/ask.py:37-53 | the final text numbers the replaced references consecutively from the next free number |
| Citations.NumberStep | remind/webui/tabs/ask.py:37-53 | numbering one reference and then the rest equals numbering them all in order |
| Citations.ResolvedIn | remind/webui/tabs/ask.py:26-54 | the references kept are exactly the iterated ones whose object exists |
| Citations.RunReplaced | remind/webui/tabs/ask.py:26-54 | the loop replaces exactly the resolved references, in iteration order |
| Citations.RunParses | remind/webui/tabs/ask.py:32-48 | a completed loop means every known reference had ObjectId text |
| Citations.Convert | remind/webui/tabs/ask.py:20-55 | `convert_source_references` fails exactly when a found reference has an invalid id or a stored document that does not validate; otherwise it replaces exactly the cited references whose objects exist, numbering them 1, 2, … in iteration order, each kept object being the one its reference looks up |
| Citations.ConvertFails | remind/webui/tabs/ask.py:20-55 | the loop from the empty state fails exactly when a found reference breaks |
| Citations.FoundRefsKnown | remind/webui/tabs/ask.py:22-30 | every reference the pattern finds splits and has a known tag |
| Citations.RefSplits | remind/webui/tabs/ask.py:27-30 | a reference splits at the colon after its tag |
| Citations.NothingCited | remind/webui/tabs/ask.py:20-55 | text that cites nothing comes back unchanged with no objects |
| Citations.AddUserQuery | remind/webui/tabs/ask.py:15-18 | the query is appended as a user message to the history (an empty one when there is none) and the input box is cleared |
| Citations.RenumberAll | remind/webui/tabs/ask.py:94-96 | every earlier message keeps its role and has the replaced references numbered from 1 |
| Citations.SameNumbering | remind/webui/tabs/ask.py:93-96 | a message holding the final answer's text gets exactly the numbering the final answer got |
| Selector.StrLessIrreflexive | remind/webui/components/model_selector.py:18 | Python's string comparison is irreflexive |
| Selector.StrLessTransitive | remind/webui/components/model_selector.py:18 | Python's string comparison is transitive |
| Selector.StrLessTotal | remind/webui/components/model_selector.py:18 | any two distinct strings are ordered one way or the other |
| Selector.Labels | remind/webui/components/model_selector.py:19 | one `provider - name` label per model, in order |
| Selector.TagOrdered | remind/webui/components/model_selector.py:18 | the (provider, name) key, ties broken by list position, is a strict total order on the fetched models |
| Selector.SortModels | remind/webui/components/model_selector.py:18 | the sorted models are a permutation of the fetched ones, and no model precedes one with a smaller (provider, name) key; that equal keys keep fetched order is proved through `Selector.SortedProjection` and `Sorting.IncreasingUnique`, not stated here |
| Selector.SortedProjection | remind/webui/components/model_selector.py:18 | the stable sort's objects are ordered by (provider, name) and are the fetched models |
| Selector.NotBoth | remind/webui/components/model_selector.py:18 | the key order is asymmetric, and equal keys are never ordered |
| Selector.FirstId | remind/webui/components/model_selector.py:23-24 | `model_ids.index(selected_id)` is the first position holding the id, absent exactly when no model has it |
| Selector.FirstLabel | remind/webui/components/model_selector.py:51-52 | `model_keys.index(key)` is the first position with that label, absent exactly when no model has it |
| Selector.ModelSelector | remind/webui/components/model_selector.py:17 | the selector fails exactly when fetching the models of the type fails, and otherwise builds its dropdown from exactly the fetched models |
| Selector.Choose | remind/webui/components/model_selector.py:18-36 | the choices are the labels of the sorted models and hold each fetched model's label once; the value is the label of the first sorted model with the selected id, else of the first model, and None exactly when there are no models |
| Selector.ChooseRoundTrip | remind/webui/components/model_selector.py:18-53 | the chosen label is found again among the fetched models; with distinct labels it leads back to the model whose id was selected |
| Selector.GetModelFromKey | remind/webui/components/model_selector.py:39-53 | an empty key gives None without a query; no models gives None; otherwise the first model with that label, else the first model |
| Selector.SelectionRoundTrip | remind/webui/components/model_selector.py:9-53 | the dropdown's value maps back to a model with that label; with distinct labels, to the very model whose id was selected |
| Selector.LabelFoundBack | remind/webui/components/model_selector.py:51-52 | a label of the sorted list is a label of the fetched list |
| Selector.IdFoundAfterSort | remind/webui/components/model_selector.py:23-24 | an id present before sorting is present after it |
| Selector.UniqueLabelBack | remind/webui/components/model_selector.py:51-53 | with distinct labels, the lookup by a sorted model's label returns that same model |
| ModelsTab.WithStatus | remind/webui/tabs/models.py:55-56 | the listed providers are exactly those with the wanted status |
| ModelsTab.StatusPartition | remind/webui/tabs/models.py:55-56 | the available and unavailable lists together hold every provider exactly once |
| ModelsTab.ProvidersPartitioned | remind/webui/tabs/models.py:55-56 | a provider is available exactly when its status holds, and unavailable exactly when it does not |
| ModelsTab.AllListed | remind/webui/tabs/models.py:22-53 | every provider has a status entry |
| ModelsTab.LitellmAvailability | remind/webui/tabs/models.py:44-53 | litellm is available exactly when one of its six backends is; chatterbox and parakeet always are |
| ModelsTab.ThreeVariableProviders | remind/webui/tabs/models.py:26-41 | openrouter needs all three of its variables, and the two vertex providers all three of theirs; one missing variable disables them |
| ModelsTab.Keep | remind/webui/tabs/models.py:130-133 | the form lists exactly the kept types |
| ModelsTab.KeepOrdered | remind/webui/tabs/models.py:130-133 | filtering keeps the form's type order |
| ModelsTab.TypesFor | remind/webui/tabs/models.py:128-141 | the form offers exactly the types whose class map lists the provider, in the form's order |
| ModelsTab.FormCoversCatalog | remind/webui/tabs/models.py:14-20 | the form's five types are exactly the class map's types |
| ModelsTab.SingleProviderForms | remind/webui/tabs/models.py:43 | elevenlabs is offered no model type at all; chatterbox only text-to-speech |
| ModelsTab.ClearSlots | remind/webui/tabs/models.py:61-64 | clearing the slots that hold the id keeps the record's set of fields |
| ModelsTab.Changed | remind/webui/tabs/models.py:61-64 | the module-level `default_models` is changed in place, so the registry holds the changed instance |
| ModelsTab.ClearKeepsWellFormed | remind/webui/tabs/models.py:61-64 | setting slots to None keeps the record well formed |
| ModelsTab.SlotsAreNotKeys | remind/domain/models.py:21-30 | no slot of `DefaultModels` is `record_id` or `_id` |
| ModelsTab.TablesApart | remind/domain/base.py:277 | the `record` collection is no model class's table, so writing the defaults never touches model records |
| ModelsTab.UpdateKeepsInstance | remind/domain/base.py:269-287 | writing a well-formed defaults record gives back the same declared fields |
| ModelsTab.RegisterDefaults | remind/domain/base.py:221-234 | registering a well-formed defaults instance keeps the registry well formed |
| ModelsTab.Persist | remind/webui/tabs/models.py:65-66 | after `update()` and `refresh_defaults()` the registry holds the changed instance, a successful write stores every declared field, only the `record` collection changes, and the model cache is kept |
| ModelsTab.DeleteRecord | remind/webui/tabs/models.py:67 | `model.delete()` fails only for a model without an id, and removes one record exactly when some record has the id |
| ModelsTab.DeleteCount | remind/domain/base.py:185-190 | deleting by id removes one record exactly when a record has that id |
| ModelsTab.DeleteModel | remind/webui/tabs/models.py:60-68 | a model no slot names is only deleted; otherwise every slot holding its id is set to None and the others kept before the model record is deleted |
| ModelsTab.DeleteUnreferencedKeepsDefaults | remind/webui/tabs/models.py:60-68 | deleting a model no slot names leaves the defaults, the registry and the manager as they were |
| ModelsTab.DeleteTwiceOnlyDeletes | remind/webui/tabs/models.py:60-68 | a second delete of the same model finds no slot naming it and only deletes |
| ModelsTab.Choices | remind/webui/tabs/models.py:80-95 | one lookup per dropdown, in order, each of the dropdown's model type |
| ModelsTab.AssignAll | remind/webui/tabs/models.py:80-95 | the assignments keep the record well formed, give each attribute its chosen value, and leave every other attribute alone |
| ModelsTab.AssignStep | remind/webui/tabs/models.py:81 | one assignment sets its attribute and changes no other |
| ModelsTab.SaveDefaultModels | remind/webui/tabs/models.py:70-97 | after a successful save each declared slot holds the id of the model its dropdown chose, or None, and the stored record holds every declared field; only the `record` collection changes |
| ModelsTab.AssignedSlots | remind/webui/tabs/models.py:80-95 | the assignments leave each declared slot with its dropdown's choice |
| ModelsTab.SaveOrderDistinct | remind/webui/tabs/models.py:80-95 | the eight assignments target eight different attributes |
| ModelsTab.Attrs | remind/webui/tabs/models.py:80-95 | the assigned attributes, in source order |
| ModelsTab.Types | remind/webui/tabs/models.py:80-95 | the model types looked up, in source order |
| ModelsTab.SaveOverwritesEverySlot | remind/webui/tabs/models.py:70-97 | the saved slots depend only on the dropdown keys and the stored models, not on the previous defaults |
| ModelsTab.SlotsDetermine | remind/webui/tabs/models.py:80-95 | two records with the declared fields that both hold the chosen ids are equal |
| ModelsTab.VisionChoiceIsExtra | remind/webui/tabs/models.py:88-89 | the vision choice goes to an undeclared attribute, stored as an extra and never written by `update` |
| Quiz.StartOfDay | remind/process_content/get_quiz.py:15 | midnight of the current day: a whole number of days, at most the clock reading and less than a day before it |
| Quiz.LastMatch | remind/process_content/get_quiz.py:15-17 | the index of a matching record after which no record matches, or none when nothing matches |
| Quiz.SelectLast | remind/process_content/get_quiz.py:15-17 | the query's result is non-empty exactly when some record matches, and its last element (`quizzed[-1]`) is the last matching record |
| Quiz.TodayQuizzed | remind/process_content/get_quiz.py:13-18 | today's record is the last quiz record created since midnight, or a fresh id-less record with an empty list; every listed id is an ObjectId; the only failure is a validation error |
| Quiz.Appended | remind/process_content/get_quiz.py:58 | appending keeps the kind and id and lists exactly the old ids followed by the note's id |
| Quiz.SaveQuizzedNote | remind/process_content/get_quiz.py:53-59 | a note already listed today writes nothing; on success only the quiz collection changes, ids stay unique ObjectIds, and today's list afterwards is exactly the previous list plus the note |
| Quiz.InsertListed | remind/process_content/get_quiz.py:58-59 | with no record today, the inserted record becomes today's record and lists the previous ids plus the note |
| Quiz.RewriteListed | remind/process_content/get_quiz.py:58-59 | with a record today, the record is rewritten in place, stays today's last record and lists the previous ids plus the note |
| Quiz.SaveQuizzedNoteIdempotent | remind/process_content/get_quiz.py:55-57 | marking the same note a second time writes nothing and succeeds |
| Quiz.Owed | remind/process_content/get_quiz.py:40-45 | a note is owed at most three quizzes, and none in its first two days |
| Quiz.DueIffOwed | remind/process_content/get_quiz.py:40-45 | the 30/7/2-day rule with counts below 3/2/1 selects a note exactly when it has had fewer quizzes than day marks passed; a note at most two days old is never due |
| Quiz.AddItems | remind/process_content/get_quiz.py:28-30 | the inner counting loop adds to every id's count the number of times that id appears in the record |
| Quiz.Tally | remind/process_content/get_quiz.py:26-30 | the counting loop leaves each id's count equal to its number of occurrences across all the window's records, repeats included |
| Quiz.QuizLists | remind/process_content/get_quiz.py:27-28 | reading every record's list succeeds exactly when each record has a list under `quizzed`, and yields those lists in order; otherwise a key or type error |
| Quiz.FirstDue | remind/process_content/get_quiz.py:34-46 | the scan picks the first source that is neither skipped nor not due, after records that all pass; none exactly when every record passes; a missing field raises a key error and a bad date a type error |
| Quiz.Pick | remind/process_content/get_quiz.py:34-46 | the picked note is the `Source` built from the first due record; none when no record is due |
| Quiz.Candidates | remind/process_content/get_quiz.py:22-33 | the scan works from the sources created in the last 60 days, today's record, and counts equal to each id's occurrences in the quiz records of the same window |
| Quiz.TodaySkip | remind/process_content/get_quiz.py:35 | the corrected skip test holds exactly for ids in today's list |
| Quiz.NextQuizNote | remind/process_content/get_quiz.py:20-46 | the next note is the first due source of the 60-day window not quizzed today; it was created inside the window and more than two days ago, has an ObjectId, is a stored source, and is never already listed today |
| Quiz.PickedNote | remind/process_content/get_quiz.py:32-46 | a picked note keeps the stored date and id of the record it was built from, which lies in the window and is due |
| Quiz.TodaySkipNeverHolds | remind/process_content/get_quiz.py:35 | as written, `id in today_quizzed` compares the id with the (name, value) pairs a pydantic model yields, so it never holds |
| Quiz.NextQuizNoteAsWritten | remind/process_content/get_quiz.py:20-46 | the as-written scan fails whenever reading the window fails |
| Quiz.AsWrittenRepicksTodaysNote | remind/process_content/get_quiz.py:35 | a ten-day-old note quizzed once, today, is picked again by the code as written and skipped by the corrected test |
| QuizTab.Finished | remind/webui/tabs/quiz.py:21-35 | the completed screen shows the start button and the completed message, hides the question, and resets note, index and pairs |
| QuizTab.Ask | remind/webui/tabs/quiz.py:41-55 | indexing the pairs succeeds exactly for Python's valid indices (negative ones included), otherwise raises an index error; the screen shows that question and advances the index by one |
| QuizTab.LiveSound | remind/webui/tabs/quiz.py:17-20 | the quiz module's save and next-note operations only grow today's list, list the saved note, and hand out unlisted stored sources |
| QuizTab.Advance | remind/webui/tabs/quiz.py:16-39 | each round saves an exhausted note, then fetches the next; the result is the completed screen or the first question of a note not yet listed today; only quiz records change, and an exhausted note is listed once the loop returns |
| QuizTab.GetNextQuestion | remind/webui/tabs/quiz.py:13-55 | within a note it shows question `idx` and advances without touching the store; a bad index raises an index error; otherwise it moves to a note different from the finished one, never one already quizzed today |
| QuizTab.UnlistedShrinks | remind/webui/tabs/quiz.py:17-20 | listing more notes never raises the count of unlisted sources, and listing an unlisted one lowers it |
| QuizTab.AdvanceEnds | remind/webui/tabs/quiz.py:16-39 | with more rounds than sources left unlisted today, the corrected loop always returns |
| QuizTab.GetNextQuestionEnds | remind/webui/tabs/quiz.py:13-55 | with more rounds than sources left unlisted today, `get_next_question` always returns |
| QuizTab.AdvanceAsWritten | remind/webui/tabs/quiz.py:16-39 | the loop as written, which keeps the stale index after a note without questions, returns only while rounds remain |
| QuizTab.GetNextQuestionAsWritten | remind/webui/tabs/quiz.py:13-55 | as written, inside a note it asks question `idx` without touching the store |
| QuizTab.AsWrittenSpins | remind/webui/tabs/quiz.py:15-39 | as written, a fetched note without questions under a nonzero stale index is fetched again forever: the loop never returns |
| QuizTab.AsWrittenNeverAnswers | remind/webui/tabs/quiz.py:13-39 | after finishing a note, when the next due note has no questions the as-written loop never answers |
| QuizTab.StaleIndexCounterexample | remind/webui/tabs/quiz.py:15-39 | on a store with one due source without questions, the as-written loop from index 1 never returns |
| QuizTab.StaleIndexCorrected | remind/webui/tabs/quiz.py:15-39 | on the same store the corrected loop answers within two rounds |
| QuizTab.JudgeAnswer | remind/webui/tabs/quiz.py:57-67 | the judge is asked exactly when the answer has a non-blank character; the display is "Correct" exactly when it was asked and agreed, "Incorrect" otherwise |
| TransformTab.Pad | remind/webui/tabs/transformations.py:37-38 | the padding loop keeps the list as its prefix, grows it to `index + 1` entries when it is shorter, and fills the new entries with False |
| TransformTab.SetOpenState | remind/webui/tabs/transformations.py:36-40 | for a non-negative index the list is padded and entry `index` alone is set, every other entry keeping its value (False when new); a negative index sets Python's entry from the end and fails with an index error exactly when it lies before the start |
| TransformTab.OpenStateReadBack | remind/webui/tabs/transformations.py:36-40 | after setting entry `index`, the accordion at `index` reads the new state and every other accordion reads what it read before |
| TransformTab.SetOpenStateIdempotent | remind/webui/tabs/transformations.py:36-40 | setting the same entry to the same state twice gives the same list as setting it once |
| TransformTab.FirstNamed | remind/webui/tabs/transformations.py:44 | the index of the first transformation with that name, or none exactly when none has it |
| TransformTab.Lookup | remind/webui/tabs/transformations.py:44 | `next(filter(...), None)` is a listed transformation with that name, the first such, and None exactly when no listed transformation has it |
| TransformTab.RunTransformation | remind/webui/tabs/transformations.py:42-53 | the graph gets the input text, the first stored transformation with the picked name (or None), and the id of the language model picked by key; a key naming no model fails as reading `.id` of None |
| TransformTab.Blank | remind/webui/tabs/transformations.py:13-17 | the new transformation is valid, has no id, and has an empty name, description and prompt |
| TransformTab.CreateTransformation | remind/webui/tabs/transformations.py:12-18 | on a table with unique ids, creating appends exactly one record to the transformation table, with a fresh id and an empty name, description and prompt; nothing else changes, and a failed insert changes nothing |
| TransformTab.Edited | remind/webui/tabs/transformations.py:26-28 | the edited object has the three new texts and every other field unchanged, with the same kind and id |
| TransformTab.UpdateTransformation | remind/webui/tabs/transformations.py:20-30 | updating a stored transformation keeps the table's size, its id and its creation date, and reads back the new name, description and prompt; other tables are untouched |
| TransformTab.DeleteTransformation | remind/webui/tabs/transformations.py:32-34 | deleting an object without an id fails and changes nothing; otherwise at most one record of its table goes and other tables are untouched |
| TransformTab.CreateThenDelete | remind/webui/tabs/transformations.py:12-34 | deleting a transformation just created removes exactly that record and restores the table |
| Calendar.YearLength | remind/webui/tabs/calendar.py:24-26 | the days from one January 1 to the next are exactly `366 if calendar.isleap(year) else 365` |
| Calendar.MonthsMakeYear | remind/webui/tabs/calendar.py:24-49 | the lengths of the twelve months add up to the length of the year |
| Calendar.Locate | remind/webui/tabs/calendar.py:48-49 | the month of a day counted into the year is the first month it does not overrun, and its day of month lies within that month |
| Calendar.Rows | remind/webui/tabs/calendar.py:26-49 | the chart has one row for every day of the year |
| Calendar.RowsConsecutive | remind/webui/tabs/calendar.py:26-49 | the rows are consecutive days: each falls on the weekday after the previous one, and only the first is January 1 |
| Calendar.RowsAreDates | remind/webui/tabs/calendar.py:48-49 | every row's day lies between 1 and the length of its month |
| Calendar.Gain | remind/webui/tabs/calendar.py:62-66 | a day opens at most two new week columns: one for a new month and one for a Monday other than January 1 |
| Calendar.WeekNumbers | remind/webui/tabs/calendar.py:57-67 | the loop gives each row a week number: the previous one plus the columns that row opens |
| Calendar.WeeksGood | remind/webui/tabs/calendar.py:57-69 | January 1 is in week 1, week numbers never decrease and grow by at most two a day, and no two days of the year fall in the same (week, weekday) cell |
| Calendar.Offset | remind/webui/tabs/calendar.py:36-37 | a record's day offset is the number of whole days between the start of the year and the day of its `created` time; a record without a date has none |
| Calendar.TopicCount | remind/webui/tabs/calendar.py:39 | `len(doc['topics'])` is the length of a list or a string, a missing `topics` raises a key error, and any other value raises a type error |
| Calendar.Bucket | remind/webui/tabs/calendar.py:31-40 | the loop fails at the first record that raises and otherwise gives, for every day of the year, the total of its records' topics and the number of its records, records outside the year being skipped |
| Calendar.InYear | remind/webui/tabs/calendar.py:29-38 | a record matches the year's query exactly when its day offset lies inside the year, so the range check never skips a queried record |
| Calendar.SelectYear | remind/webui/tabs/calendar.py:29-40 | querying the year's records first changes no day's totals |
| Calendar.High | remind/webui/tabs/calendar.py:76 | the top of the colour scale is at least 1, bounds every day's total, and is either 1 or some day's total |
| Calendar.ActivityChart | remind/webui/tabs/calendar.py:22-76 | for a year `datetime` accepts, the chart has a row per day, each day's topic total and source count over all stored sources, well-formed week columns and a colour top bounding every total; it fails exactly when some queried source's `topics` is missing or has no length (a list or a string counts, so `topics: []` counts 0), and an out-of-range year raises a value error |
| Calendar.ClickedDayListsCounted | remind/webui/tabs/calendar.py:204-205 | clicking a day lists exactly as many sources as the chart counted for that day |
| TransformGraph.WsEnd | remind/graphs/transformation.py:21 | the greedy `\s*` run from a position ends at the first non-space character, or at the end of the text |
| TransformGraph.CloseFrom | remind/graphs/transformation.py:21 | the lazy group `(.*?)` ends at the first position from which `\s*```` matches, and none exists when it ends nowhere |
| TransformGraph.FenceAt | remind/graphs/transformation.py:21 | a match at a position starts with the ```` ```markdown ```` fence, and its group and closing fence lie inside the text in order |
| TransformGraph.FenceGroup | remind/graphs/transformation.py:21 | a matched group has no surrounding whitespace and holds no three backticks in a row |
| TransformGraph.FindAllGroups | remind/graphs/transformation.py:21 | every group `re.findall` returns is trimmed and fence-free |
| TransformGraph.ExtractMarkdown | remind/graphs/transformation.py:20-24 | with exactly one fenced block the output is its trimmed, fence-free group; otherwise the response is returned unchanged |
| TransformGraph.FenceWrap | remind/graphs/transformation.py:21 | a block a model writes around a trimmed, fence-free body is matched with exactly that body as its group, whatever surrounds it |
| TransformGraph.ExtractWrapped | remind/graphs/transformation.py:20-24 | a response that is one such block gives back exactly its body |
| TransformGraph.ExtractTwo | remind/graphs/transformation.py:20-24 | a response of two blocks is returned unchanged |
| TransformGraph.NoOpenUnchanged | remind/graphs/transformation.py:20-24 | a response with no opening fence is returned unchanged |
| TransformGraph.PromptRoundTrip | remind/graphs/transformation.py:34-39 | the composed prompt ends with the input header, starts with the default instructions and a blank line when they are set, and gives the transformation's prompt back |
| TransformGraph.Content | remind/graphs/transformation.py:28-33 | the text to transform is the input text when non-empty and the source's full text otherwise; the assertion fails exactly when there is neither |
| TransformGraph.Respond | remind/graphs/transformation.py:28-50 | the model is called only when there is content and a transformation; missing content fails the assertion first, and a missing transformation fails reading its prompt; the instructions are those `TransformGraph.Loaded` reads |
| TransformGraph.RunAsWritten | remind/graphs/transformation.py:26-56 | as written, the run never writes to the store, fails whenever a source is given, and without a source returns the extracted markdown of the response |
| TransformGraph.AsWrittenNeverStoresInsight | remind/graphs/transformation.py:51-52 | as written, once the model has answered for a source the run raises an attribute error reading `transformation.title`, so no insight is stored |
| TransformGraph.RunTransformation | remind/graphs/transformation.py:26-56 | with a source, exactly one insight is appended, typed by the transformation's name and holding the whole response, before the extracted markdown is returned; only the insight table changes, and a failed call leaves every document unchanged (the vector index may already exist) |
| TransformGraph.InstructionsOf | remind/domain/transformation.py:15-19 | the instructions are present exactly when the instance holds a text under `transformation_instructions` |
| TransformGraph.LoadInstructions | remind/graphs/transformation.py:35 | `DefaultPrompts()` registers the instance as the record singleton does, raises a validation error exactly when building it does, and yields the registered instance's instructions |
| TransformGraph.LoadRegistered | remind/graphs/transformation.py:35 | once registered, the instance's instructions are used and the stored record is not read |
| TransformGraph.LoadStored | remind/graphs/transformation.py:35 | the first time, the instructions are the text stored in the `record` collection |
| TransformGraph.Loaded | remind/graphs/transformation.py:29-35 | the content assertion and `transformation.prompt` are checked before the record is loaded, and a failure there leaves the registry alone |
| TransformGraph.RunNodeAsWritten | remind/graphs/transformation.py:26-56 | the node as written, with the loaded instructions: a load failure raises before the model is called and writes nothing |
| TransformGraph.RunNode | remind/graphs/transformation.py:26-56 | the corrected node, with the loaded instructions: a load failure raises before the model is called and writes nothing |
| TransformGraph.InvalidRecordRaises | remind/graphs/transformation.py:35 | a stored prompt record whose instructions are neither text nor None makes the node raise a validation error, writing nothing and registering nothing |
| YouTube.ValuesOf | remind/process_content/youtube_to_text.py:29-30 | `parse_qs` keeps only non-empty values, so no value it returns is empty |
| YouTube.FirstValue | remind/process_content/youtube_to_text.py:29-30 | `parse_qs(query)[key][0]` is the first non-empty value of the key, and a key error exactly when the key has none |
| YouTube.SlashedHasSegment | remind/process_content/youtube_to_text.py:31-33 | a path starting with `/name/` splits on `/` into at least three pieces, the third being what follows `/name/` up to the next `/` |
| YouTube.SegmentOf | remind/process_content/youtube_to_text.py:31-33 | a path passing one of the `/watch/`, `/embed/` or `/v/` prefix tests carries the id after that prefix as its third piece |
| YouTube.NoSegment | remind/process_content/youtube_to_text.py:31-34 | a path failing the three prefix tests starts with none of `/watch/`, `/embed/`, `/v/` |
| YouTube.PathId | remind/process_content/youtube_to_text.py:30-34 | on a YouTube host, `/watch` reads the first `v` value; a path starting with `/watch/`, `/embed/` or `/v/` gives what follows that prefix up to the next `/`; any other path gives the URL unchanged |
| YouTube.YoutubeId | remind/process_content/youtube_to_text.py:15-34 | a `youtu.be` link gives its path without the slash; a link to another host gives the URL unchanged; on a YouTube host a playlist id wins unless ignored, and otherwise `/watch` gives the first `v` value, a `/watch/`, `/embed/` or `/v/` path the id after its prefix, and any other path the URL; the call fails, with a key error, exactly on `/watch` without a `v` value |
| YouTube.ShortLinkRoundTrip | remind/process_content/youtube_to_text.py:23-24 | `https://youtu.be/<id>` gives back the id |
| YouTube.WatchRoundTrip | remind/process_content/youtube_to_text.py:25-30 | `https://www.youtube.com/watch?v=<id>` gives back the id, on any of the three YouTube hosts |
| YouTube.EmbedRoundTrip | remind/process_content/youtube_to_text.py:25-32 | `https://www.youtube.com/embed/<id>` gives back the id |
| YouTube.WatchPathRoundTrip | remind/process_content/youtube_to_text.py:25-31 | `https://www.youtube.com/watch/<id>` gives back the id |
| YouTube.VPathRoundTrip | remind/process_content/youtube_to_text.py:20-33 | `https://www.youtube.com/v/<id>?<query>` gives back the id for any query without a playlist, such as the `version=3&amp;hl=en_US` of the docstring |
| YouTube.PlaylistWins | remind/process_content/youtube_to_text.py:26-30 | with `v=<vid>&list=<lid>` the playlist id is returned, and the video id when the playlist is ignored |
| YouTube.Flatten | remind/process_content/youtube_to_text.py:46 | newlines become spaces and every other character is kept, position by position |
| YouTube.ReplaceNewlines | remind/process_content/youtube_to_text.py:46 | `text.replace("\n", " ")` turns each newline into a space and changes nothing else |
| YouTube.Clean | remind/process_content/youtube_to_text.py:41-46 | a kept snippet contributes text with no newline and no blank at either end |
| YouTube.Kept | remind/process_content/youtube_to_text.py:40-47 | the snippets kept are at most as many as read, and each contributes one clean line |
| YouTube.KeptStep | remind/process_content/youtube_to_text.py:40-47 | each snippet read adds its cleaned text exactly when it is neither blank nor wholly in brackets |
| YouTube.FormatTranscript | remind/process_content/youtube_to_text.py:37-48 | the formatted transcript is the kept snippets' cleaned texts joined by newlines, with no blank at either end |
| YouTube.StripLines | remind/process_content/youtube_to_text.py:47-48 | stripping the accumulated text removes exactly the final newline |
| YouTube.FormatSplits | remind/process_content/youtube_to_text.py:37-48 | splitting the formatted transcript at newlines gives back exactly the kept snippets' texts |
| YouTube.SplitJoin | remind/process_content/youtube_to_text.py:47-48 | joining pieces free of the separator and splitting again gives the pieces back |
| Speech.SpecialIsOld | remind/process_content/text_to_speech.py:10-19 | the characters the table replaces are exactly the ellipsis, the two dashes, the four zero-width characters and the no-break space |
| Speech.RulesSettled | remind/process_content/text_to_speech.py:10-19 | no replacement text holds a character the table replaces, so the order of the table does not matter |
| Speech.RulesDistinct | remind/process_content/text_to_speech.py:10-19 | no character has two entries in the table |
| Speech.ReplaceIsStep | remind/process_content/text_to_speech.py:22 | `str.replace` of one character rewrites each occurrence of it and keeps every other character |
| Speech.ApplyExpand | remind/process_content/text_to_speech.py:21-22 | for a settled table, the loop of sequential replacements equals putting every character through the table once |
| Speech.ExpandClean | remind/process_content/text_to_speech.py:21-22 | no character the table replaces survives the table |
| Speech.SanitizeText | remind/process_content/text_to_speech.py:7-24 | the sanitized text is the normalized text with every character put through the table, then stripped: it holds no replaced character and no blank at either end |
| Speech.SanitizeClean | remind/process_content/text_to_speech.py:7-24 | text already normalized, free of replaced characters and stripped comes back unchanged |
| Speech.SanitizeRewrites | remind/process_content/text_to_speech.py:10-22 | one replaced character between clean text becomes exactly its table entry and the rest is kept |
| Title.CleanTitle | remind/graphs/title.py:31 | the cleaned title is a slice of the answer with only whitespace and quotes cut from around it, and has no blank at either end |
| Title.RunTitle | remind/graphs/title.py:15-34 | missing or empty content fails the assertion before the model is asked; a model error is passed on; otherwise the title is the answer with only whitespace and quotes cut from around it |
| Title.BareTitleKept | remind/graphs/title.py:31 | an answer that is already a bare title, with no quote or blank at either end, is kept as it is |
| Title.QuotedTitle | remind/graphs/title.py:31 | whitespace, then single quotes, then double quotes around a bare title are all removed, giving back exactly the title |
| Title.InnerQuotesSurvive | remind/graphs/title.py:31 | double quotes outside single quotes are removed but the single quotes stay, since the single quotes are stripped first |
## Left out

- The clock: `datetime.now()` is a parameter (`now`, `createdAt`, or a `clock` function for loops that read it repeatedly).
- Language-model calls: they are parameters. This covers the LangChain `invoke` behind the ask, transformation and title graphs, and the question writer, judge and hint writer of the quiz (`get_quiz_question_answer_pairs`, `judge_correctness`, `get_hint`, which are only calls into LLM graphs). Prompt rendering with Jinja (`remind/prompter.py`) is folded into the same parameter.
- Embedding models: the embedding function is a parameter. Embeddings are opaque value lists, and no cosine arithmetic is done.
- The Atlas `$vectorSearch` aggregation is an input that yields scored rows. Scores are compared as reals, not as IEEE floats.
- The semchunk text splitter and the tiktoken token count are inputs.
- Unicode NFKC normalisation is a parameter of `Speech.SanitizeText`.
- `urlparse` is an input: the URL arrives as hostname, path and query. `parse_qs` percent-decoding and `+`-decoding are not modelled.
- The YouTube transcript fetch and the audio download are network calls. The speech synthesis and transcription providers are left out too.
- The `ThreadPoolExecutor` of `vectorize` runs as a sequential loop that attempts every save. The LangGraph `Send` fan-out of the ask graph is a sequence of branches in plan order.
- Python `set` iteration order in `convert_source_references` is a parameter that enumerates the distinct references.
- QuizTab.Advance: the `while True` loop carries a `fuel` bound, and a `None` result means the bound ran out. `QuizTab.AdvanceEnds` shows that a bound above the number of sources not yet quizzed today always suffices.
- Citations.WordRunEnd: the word class is ASCII letters, digits and `_`. Python's `\w` also matches non-ASCII letters and digits, which the model treats as ending the run.
- Citations.FindRefs: because of that ASCII word class, a reference such as `[note:é1]` is not found. Python finds it, and `convert_source_references` then raises InvalidId.
- Citations.MatchEnd: a match needs its id run to consist of ASCII word characters, for the same reason. Its completeness is stated by `Citations.MatchEndFinds` for ASCII ids.
- Citations.RefAt: a reference's id is a run of ASCII word characters, for the same reason.
- Search.Ranked, Search.VectorSearch, Objects.Save and QuizTab.Advance: the collaborators are total functions and never raise. This covers the embedding function, the vector-search backend, the question writer and each language-model reply. An exception from a provider SDK or the network, raised in the middle of a call, is not modelled. `QuizTab.JudgeAnswer` takes the judge's verdict as a boolean for the same reason.
- Store.Create and Store.Update: a stored time value keeps its full microsecond precision. BSON keeps datetimes to the millisecond, so a datetime read back from a real MongoDB can be up to 999 microseconds earlier than the one written. `Objects.InsertFields`, `Objects.RewriteFields` and `Objects.ReadBack` therefore state that the `created` and `updated` stamps equal the clock readings, with no truncation.
- Quiz.QuizLists: a `quizzed` value that is a string is a type error here, while Python would iterate over its characters. The app itself only ever writes a list there.
- Records.New: when building the first instance fails, Python has already registered the half-built instance, so the next call re-applies the keyword arguments to it. The model leaves the registry unchanged on that failure.
- Gradio layout, event wiring and component rendering are left out, as are the Bokeh figure, its colours, hover text and tap callback.
- `datetime.strptime` of the clicked calendar day is left out. The click is modelled from the day number onward.
- Logging is left out: every `logger` call is dropped.
- The pymongo connection lifecycle is left out. The physical ordering of a real MongoDB collection is modelled as insertion order.
- The provider SDK wrappers in `remind/models/*_models.py` and `llms.py` are left out. A built wrapper records only its type, provider, name and keyword arguments.
- `remind/graphs/topics.py`, `note_to_transcript.py`, `judge.py`, `hint.py` and `quiz.py` are left out: they only wire a prompt to a model and parse its JSON output.
- `remind/process_content/file_to_text.py`, `url_to_text.py` and `upload_image.py` are file and network I/O and are left out.
- Title.RunTitle: it states that the title is the answer with only whitespace and quotes cut from around it, not the exact four-step strip. The exact result is stated by `Title.CleanTitle` and the `Title.QuotedTitle` / `Title.BareTitleKept` lemmas.
- Quiz.NextQuizNoteAsWritten: its contract states only that failure propagates. Its behaviour on today's notes is pinned down by `Quiz.TodaySkipNeverHolds` and `Quiz.AsWrittenRepicksTodaysNote`.

## Findings

| source | as written | input that shows it | evidently intended | confidence | as-written member | corrected member |
|---|---|---|---|---|---|---|
| remind/domain/models.py:160-161 | the large-context branch reads `self.defaults.large_context_model`, but `DefaultModels` declares only `default_large_context_model` (line 25) | any prompt over 105 000 tokens, with a large-context default configured | read the declared slot `default_large_context_model` | high, not executed | Manager.GetDefaultModelAsWritten | Manager.GetDefaultModel |
| remind/graphs/utils.py:35-39 | through that branch, every prompt over 105 000 tokens raises AttributeError | a token count of 105 001 | route to the configured large-context model | high, not executed | Routing.ProvisionAsWritten | Routing.Provision |
| remind/process_content/get_quiz.py:35 | `source["_id"] in today_quizzed` tests membership in the pydantic model, whose iteration yields (name, value) pairs, so it never holds | a note created ten days ago and quizzed once, today: it is picked again | `source["_id"] in today_quizzed.quizzed` | high, not executed | Quiz.AsWrittenRepicksTodaysNote | Quiz.NextQuizNote |
| remind/webui/tabs/quiz.py:15-39 | after a fetched note without questions, `question_idx` keeps its old value, so that note is never saved and is fetched again forever | the user answers the one question of a note (index 1), and the next due note yields no questions | reset the index to 0 for a note without questions, so it is saved and skipped | medium, not executed | QuizTab.StaleIndexCounterexample | QuizTab.StaleIndexCorrected |
| remind/domain/notes.py:163-166 | `collection_delete` is `delete_one`, so deleting a source leaves all but one of its chunks and insights | a source with two chunks: one chunk is left behind | delete every chunk and insight of the source | high, not executed | Notes.DeleteAsWrittenLeavesChunks | Notes.DeleteCascade |
| remind/graphs/transformation.py:51-52 | `transformation.title` names a field `Transformation` does not declare, so running a transformation on a source raises after the model answers | any run with a source and a transformation | type the insight by the transformation's name | medium, not executed | TransformGraph.AsWrittenNeverStoresInsight | TransformGraph.RunTransformation |

=== FILE: calendar.dfy ===
/** The activity heatmap of `remind/webui/tabs/calendar.py`.

    `create_activity_chart` lays out one cell per day of a year: the cell's
    column is a week number, its row the weekday, and its colour the number of
    topics of the sources created that day.  Dates are `VInt` microseconds
    since 0001-01-01 00:00 (see `Store.Value`), so the day number of a time is
    its floor division by `Quiz.DAY`, and day 0 (0001-01-01) is a Monday.
    The Bokeh figure, its styling and callbacks are not part of the model. */
module Calendar {
  import opened Wrappers
  import opened Store
  import Quiz
  import Objects

  const TOPICS := "topics"

  // ---------------------------------------------------------------- the calendar

  /** `calendar.isleap` */
  predicate IsLeap(y: int) {
    y % 4 == 0 && (y % 100 != 0 || y % 400 == 0)
  }

  /** `366 if calendar.isleap(year) else 365` */
  function DaysInYear(y: int): nat {
    if IsLeap(y) then 366 else 365
  }

  /** Day number (days since 0001-01-01) of January 1 of year `y`, by the
      proleptic Gregorian count of the days in the years before it. */
  function YearStart(y: int): int
    requires y >= 1
  {
    365 * (y - 1) + (y - 1) / 4 - (y - 1) / 100 + (y - 1) / 400
  }

  /** Division by a positive constant is determined by quotient and remainder. */
  lemma DivUnique(a: int, k: int, q: int, r: int)
    requires k > 0 && 0 <= r < k && a == k * q + r
    ensures a / k == q
  {
    var q' := a / k;
    assert a == k * q' + a % k;
    if q' < q {
      MulLe(k, q' + 1, q);
    } else if q' > q {
      MulLe(k, q + 1, q');
    }
  }

  lemma MulLe(k: int, a: int, b: int)
    requires k >= 0 && a <= b
    ensures k * (a - 1) + k <= k * b
  {
    var c := b - a;
    assert k * b == k * (a - 1) + k + k * c;
    assert k * c >= 0;
  }

  /** `b / k` exceeds `(b - 1) / k` by one exactly when `k` divides `b`. */
  lemma StepDiv(b: int, k: int)
    requires k > 0
    ensures b / k - (b - 1) / k == (if b % k == 0 then 1 else 0)
  {
    var q, r := b / k, b % k;
    assert b == k * q + r;
    if r > 0 {
      DivUnique(b - 1, k, q, r - 1);
    } else {
      DivUnique(b - 1, k, q - 1, k - 1);
    }
  }

  /** The slots of a year are exactly the days between its January 1 and the
      next one: the leap rule of `calendar.isleap` agrees with the calendar. */
  lemma YearLength(y: int)
    requires y >= 1
    ensures YearStart(y + 1) - YearStart(y) == DaysInYear(y)
  {
    var a := y - 1;
    assert YearStart(y) == 365 * a + a / 4 - a / 100 + a / 400;
    assert YearStart(y + 1) == 365 * a + 365 + y / 4 - y / 100 + y / 400;
    StepDiv(y, 4);
    StepDiv(y, 100);
    StepDiv(y, 400);
    assert y / 4 - a / 4 == (if y % 4 == 0 then 1 else 0);
    assert y / 100 - a / 100 == (if y % 100 == 0 then 1 else 0);
    assert y / 400 - a / 400 == (if y % 400 == 0 then 1 else 0);
    if y % 400 == 0 {
      var q := y / 400;
      assert y == 400 * q;
      ModUnique(y, 100, 4 * q, 0);
      ModUnique(y, 4, 100 * q, 0);
    } else if y % 100 == 0 {
      var q := y / 100;
      assert y == 100 * q;
      ModUnique(y, 4, 25 * q, 0);
    }
  }

  /** The remainder by a positive constant is determined by quotient and
      remainder. */
  lemma ModUnique(a: int, k: int, q: int, r: int)
    requires k > 0 && 0 <= r < k && a == k * q + r
    ensures a % k == r
  {
    DivUnique(a, k, q, r);
    assert a == k * (a / k) + a % k;
  }

  /** `calendar.monthrange(y, m)[1]` */
  function MonthLength(y: int, m: int): nat {
    if m == 2 then (if IsLeap(y) then 29 else 28)
    else if m in {4, 6, 9, 11} then 30
    else 31
  }

  /** The days from the first of month `m` to the end of the year. */
  function DaysFrom(y: int, m: int): nat
    requires 1 <= m <= 12
    decreases 12 - m
  {
    MonthLength(y, m) + (if m == 12 then 0 else DaysFrom(y, m + 1))
  }

  /** The twelve months make up the year. */
  lemma MonthsMakeYear(y: int)
    ensures DaysFrom(y, 1) == DaysInYear(y)
  {
    assert DaysFrom(y, 12) == 31;
    assert DaysFrom(y, 9) == 122;
    assert DaysFrom(y, 5) == 245;
    assert DaysFrom(y, 2) == DaysInYear(y) - 31;
  }

  /** Month and day of month of the `k`-th day (from 0) counted from the
      first of month `m`; inside the rest of the year it is a real date. */
  function Locate(y: int, k: nat, m: int): (r: (int, int))
    requires 1 <= m <= 12
    ensures m <= r.0 <= 12 && r.1 >= 1
    ensures r.0 == m <==> (k < MonthLength(y, m) || m == 12)
    ensures r.0 == m ==> r.1 == k + 1
    ensures k < DaysFrom(y, m) ==> r.1 <= MonthLength(y, r.0)
    decreases 12 - m
  {
    if k < MonthLength(y, m) || m == 12 then (m, k + 1)
    else Locate(y, k - MonthLength(y, m), m + 1)
  }

  /** The fields of one row of the chart's data frame that the week loop reads:
      `d.month`, `d.day` and `d.weekday()` (0 is Monday). */
  datatype Row = Row(month: int, day: int, weekday: int)

  /** The row of `start_date + timedelta(days=k)`, when January 1 of `y`
      has day number `start`. */
  function RowAt(y: int, start: int, k: nat): Row {
    var (m, d) := Locate(y, k, 1);
    Row(m, d, (start + k) % 7)
  }

  /** The first `n` days of year `y` from January 1 on. */
  function RowsFrom(y: int, start: int, n: nat): (r: seq<Row>)
    ensures |r| == n
  {
    seq(n, k requires 0 <= k => RowAt(y, start, k))
  }

  /** `dates`: one row for every day of the year. */
  function Rows(y: int): (r: seq<Row>)
    requires y >= 1
    ensures |r| == DaysInYear(y)
  {
    RowsFrom(y, YearStart(y), DaysInYear(y))
  }

  /** The rows of a year are consecutive days starting on January 1, which no
      other row is. */
  predicate Consecutive(rows: seq<Row>) {
    && |rows| > 0
    && rows[0].month == 1 && rows[0].day == 1
    && (forall k | 0 <= k < |rows| :: 0 <= rows[k].weekday < 7 && rows[k].month != 0)
    && (forall k | 1 <= k < |rows| :: Follows(rows, k))
  }

  /** Row `k` is the day after row `k - 1`. */
  predicate Follows(rows: seq<Row>, k: nat)
    requires 1 <= k < |rows|
  {
    NextDay(rows[k - 1], rows[k])
  }

  /** Row `b` falls on the weekday after row `a`, and is not January 1. */
  predicate NextDay(a: Row, b: Row) {
    b.weekday == (a.weekday + 1) % 7 && !(b.month == 1 && b.day == 1)
  }

  lemma RowsConsecutive(y: int)
    requires y >= 1
    ensures Consecutive(Rows(y))
  {
    FromConsecutive(y, YearStart(y), DaysInYear(y));
  }

  /** Any non-empty run of days from January 1 is consecutive. */
  lemma FromConsecutive(y: int, start: int, n: nat)
    requires n > 0
    ensures Consecutive(RowsFrom(y, start, n))
  {
    RowsFromAt(y, start, n, 0);
    RowsShape(y, start, n);
    RowsFollow(y, start, n);
  }

  /** Every row has a weekday and a month. */
  lemma RowsShape(y: int, start: int, n: nat)
    ensures var rows := RowsFrom(y, start, n);
      forall k | 0 <= k < |rows| :: 0 <= rows[k].weekday < 7 && rows[k].month != 0
  {
    var rows := RowsFrom(y, start, n);
    forall k | 0 <= k < |rows| ensures 0 <= rows[k].weekday < 7 && rows[k].month != 0 {
      RowsFromAt(y, start, n, k);
    }
  }

  /** Each row after the first is the next day, and not January 1. */
  lemma RowsFollow(y: int, start: int, n: nat)
    ensures var rows := RowsFrom(y, start, n);
      forall k | 1 <= k < |rows| :: Follows(rows, k)
  {
    var rows := RowsFrom(y, start, n);
    forall k | 1 <= k < |rows| ensures Follows(rows, k) {
      RowsFromAt(y, start, n, k);
      RowsFromAt(y, start, n, k - 1);
      NextRowAt(y, start, k);
    }
  }

  /** The `k`-th of the first `n` rows. */
  lemma RowsFromAt(y: int, start: int, n: nat, k: nat)
    requires k < n
    ensures RowsFrom(y, start, n)[k] == RowAt(y, start, k)
  {
  }

  /** The day after a row falls on the next weekday, and only the first row
      is January 1. */
  lemma NextRowAt(y: int, start: int, k: nat)
    requires k >= 1
    ensures NextDay(RowAt(y, start, k - 1), RowAt(y, start, k))
  {
    WeekdayNext(start + k - 1);
  }

  /** The weekday after day number `a` is the next one, wrapping at seven. */
  lemma WeekdayNext(a: int)
    ensures (a + 1) % 7 == (a % 7 + 1) % 7
  {
    var q, r := a / 7, a % 7;
    assert a == 7 * q + r;
    if r + 1 < 7 {
      ModUnique(a + 1, 7, q, r + 1);
      ModUnique(r + 1, 7, 0, r + 1);
    } else {
      ModUnique(a + 1, 7, q + 1, 0);
      ModUnique(r + 1, 7, 1, 0);
    }
  }

  /** Every row is a real date of its month. */
  lemma RowsAreDates(y: int)
    requires y >= 1
    ensures forall k | 0 <= k < |Rows(y)| :: 1 <= Rows(y)[k].day <= MonthLength(y, Rows(y)[k].month)
  {
    MonthsMakeYear(y);
    forall k | 0 <= k < |Rows(y)| ensures 1 <= Rows(y)[k].day <= MonthLength(y, Rows(y)[k].month) {
      assert Rows(y)[k] == RowAt(y, YearStart(y), k);
    }
  }

  // ---------------------------------------------------------------- week columns

  /** The number of week columns gained at row `k`: one when the month
      changes, one more on a Monday other than January 1. */
  function Gain(rows: seq<Row>, k: nat): (g: nat)
    requires k < |rows|
    ensures g <= 2
  {
    var prev := if k == 0 then 0 else rows[k - 1].month;
    (if rows[k].month != prev then 1 else 0)
      + (if rows[k].weekday == 0 && !(rows[k].day == 1 && rows[k].month == 1) then 1 else 0)
  }

  /** The week-number loop of `create_activity_chart`. */
  method WeekNumbers(rows: seq<Row>) returns (weeks: seq<int>)
    ensures |weeks| == |rows|
    ensures |rows| > 0 ==> weeks[0] == Gain(rows, 0)
    ensures forall k | 1 <= k < |rows| :: weeks[k] == weeks[k - 1] + Gain(rows, k)
  {
    var current := 0;
    var prevMonth := 0;
    weeks := [];
    var i := 0;
    while i < |rows|
      invariant 0 <= i <= |rows| && |weeks| == i
      invariant i > 0 ==> prevMonth == rows[i - 1].month && current == weeks[i - 1]
      invariant i == 0 ==> prevMonth == 0 && current == 0
      invariant i > 0 ==> weeks[0] == Gain(rows, 0)
      invariant forall k | 1 <= k < i :: weeks[k] == weeks[k - 1] + Gain(rows, k)
    {
      var row := rows[i];
      if row.month != prevMonth {
        current := current + 1;
        prevMonth := row.month;
      }
      if row.weekday == 0 && !(row.day == 1 && row.month == 1) {
        current := current + 1;
      }
      weeks := weeks + [current];
      i := i + 1;
    }
  }

  /** January 1 is in week 1; week numbers never decrease and step by at most
      two; and no two days of the year share a cell. */
  predicate GoodWeeks(rows: seq<Row>, weeks: seq<int>) {
    && |weeks| == |rows| > 0
    && weeks[0] == 1
    && (forall k | 1 <= k < |rows| :: weeks[k - 1] <= weeks[k] <= weeks[k - 1] + 2)
    && (forall i, j | 0 <= i < j < |rows| :: weeks[i] != weeks[j] || rows[i].weekday != rows[j].weekday)
  }

  /** Within one week column, weekdays strictly increase day by day. */
  lemma {:induction false} SameColumn(rows: seq<Row>, weeks: seq<int>, i: nat, j: nat)
    requires Consecutive(rows) && |weeks| == |rows|
    requires forall k | 1 <= k < |rows| :: weeks[k] == weeks[k - 1] + Gain(rows, k)
    requires i <= j < |rows| && weeks[i] == weeks[j]
    ensures rows[j].weekday == rows[i].weekday + (j - i)
    decreases j - i
  {
    if i < j {
      assert weeks[i] <= weeks[j - 1] by { Monotone(rows, weeks, i, j - 1); }
      assert Gain(rows, j) == 0;
      assert Follows(rows, j);
      SameColumn(rows, weeks, i, j - 1);
    }
  }

  lemma {:induction false} Monotone(rows: seq<Row>, weeks: seq<int>, i: nat, j: nat)
    requires |weeks| == |rows|
    requires forall k | 1 <= k < |rows| :: weeks[k] == weeks[k - 1] + Gain(rows, k)
    requires i <= j < |rows|
    ensures weeks[i] <= weeks[j]
    decreases j - i
  {
    if i < j {
      Monotone(rows, weeks, i, j - 1);
    }
  }

  /** The loop's numbering of consecutive days meets `GoodWeeks`. */
  lemma WeeksGood(rows: seq<Row>, weeks: seq<int>)
    requires Consecutive(rows) && |weeks| == |rows|
    requires weeks[0] == Gain(rows, 0)
    requires forall k | 1 <= k < |rows| :: weeks[k] == weeks[k - 1] + Gain(rows, k)
    ensures GoodWeeks(rows, weeks)
  {
    forall i, j | 0 <= i < j < |rows| && weeks[i] == weeks[j]
      ensures rows[i].weekday != rows[j].weekday
    {
      SameColumn(rows, weeks, i, j);
    }
  }

  // ---------------------------------------------------------------- day buckets

  /** `(doc['created'].date() - start_date.date()).days` */
  function Offset(d: Doc, start: int): (r: Result<int>)
    ensures r.Success? <==> Objects.CREATED in d && d[Objects.CREATED].VInt?
    ensures r.Success? ==> start * Quiz.DAY + r.value * Quiz.DAY <= d[Objects.CREATED].i < start * Quiz.DAY + (r.value + 1) * Quiz.DAY
  {
    if Objects.CREATED !in d then Failure(KeyError)
    else match d[Objects.CREATED]
      case VInt(t) => Success(t / Quiz.DAY - start)
      case _ => Failure(AttributeError)
  }

  /** `len(doc['topics'])` */
  function TopicCount(d: Doc): (r: Result<nat>)
    ensures TOPICS in d && d[TOPICS].VList? ==> r == Success(|d[TOPICS].items|)
    ensures TOPICS in d && d[TOPICS].VStr? ==> r == Success(|d[TOPICS].s|)
    ensures TOPICS !in d ==> r == Failure(KeyError)
    ensures r.Failure? ==> r.error in {KeyError, TypeError}
  {
    if TOPICS !in d then Failure(KeyError)
    else match d[TOPICS]
      case VList(xs) => Success(|xs|)
      case VStr(s) => Success(|s|)
      case _ => Failure(TypeError)
  }

  /** What one iteration of the bucketing loop raises, if anything: a missing
      or non-date `created`, or, for a day inside the year only, topics
      without a length. */
  function Check(d: Doc, start: int, n: nat): Result<()> {
    match Offset(d, start)
    case Failure(e) => Failure(e)
    case Success(k) =>
      if 0 <= k < n then (match TopicCount(d) case Failure(e) => Failure(e) case Success(_) => Success(()))
      else Success(())
  }

  /** The number of documents created on day `k` of the year starting on day
      `start`. */
  function CountOn(docs: seq<Doc>, start: int, k: int): nat {
    if |docs| == 0 then 0
    else (if Offset(docs[0], start) == Success(k) then 1 else 0) + CountOn(docs[1..], start, k)
  }

  /** The number of topics of the documents created on day `k`. */
  function SumOn(docs: seq<Doc>, start: int, k: int): nat {
    if |docs| == 0 then 0
    else
      var w := if Offset(docs[0], start) == Success(k) && TopicCount(docs[0]).Success? then TopicCount(docs[0]).value else 0;
      w + SumOn(docs[1..], start, k)
  }

  lemma {:induction false} OnSnoc(docs: seq<Doc>, d: Doc, start: int, k: int)
    ensures CountOn(docs + [d], start, k) == CountOn(docs, start, k) + (if Offset(d, start) == Success(k) then 1 else 0)
    ensures SumOn(docs + [d], start, k) == SumOn(docs, start, k)
      + (if Offset(d, start) == Success(k) && TopicCount(d).Success? then TopicCount(d).value else 0)
  {
    if |docs| > 0 {
      assert (docs + [d])[1..] == docs[1..] + [d];
      OnSnoc(docs[1..], d, start, k);
    } else {
      assert docs + [d] == [d];
    }
  }

  datatype Activity = Activity(values: seq<int>, noteCnt: seq<int>)

  /** The bucketing loop of `create_activity_chart` over the `n` days of the
      year starting on day `start`: it fails at the first document that
      raises, and otherwise each day holds its topic total and its document
      count, documents outside the year being skipped. */
  method Bucket(docs: seq<Doc>, start: int, n: nat) returns (r: Result<Activity>)
    ensures r.Success? <==> forall i | 0 <= i < |docs| :: Check(docs[i], start, n).Success?
    ensures r.Failure? ==> exists i | 0 <= i < |docs| ::
      && Check(docs[i], start, n) == Failure(r.error)
      && forall j | 0 <= j < i :: Check(docs[j], start, n).Success?
    ensures r.Success? ==> |r.value.values| == n && |r.value.noteCnt| == n
    ensures r.Success? ==> forall k | 0 <= k < n ::
      r.value.values[k] == SumOn(docs, start, k) && r.value.noteCnt[k] == CountOn(docs, start, k)
  {
    var values: seq<int> := seq(n, _ => 0);
    var cnt: seq<int> := seq(n, _ => 0);
    var i := 0;
    while i < |docs|
      invariant 0 <= i <= |docs|
      invariant |values| == n && |cnt| == n
      invariant forall j | 0 <= j < i :: Check(docs[j], start, n).Success?
      invariant forall k | 0 <= k < n :: values[k] == SumOn(docs[..i], start, k) && cnt[k] == CountOn(docs[..i], start, k)
    {
      var d := docs[i];
      var off := Offset(d, start);
      if off.Failure? {
        return Failure(off.error);
      }
      if 0 <= off.value < n {
        var t := TopicCount(d);
        if t.Failure? {
          return Failure(t.error);
        }
        values := values[off.value := values[off.value] + t.value];
        cnt := cnt[off.value := cnt[off.value] + 1];
      }
      assert docs[..i + 1] == docs[..i] + [d];
      forall k | 0 <= k < n
        ensures values[k] == SumOn(docs[..i + 1], start, k) && cnt[k] == CountOn(docs[..i + 1], start, k)
      {
        OnSnoc(docs[..i], d, start, k);
      }
      i := i + 1;
    }
    assert docs[..i] == docs;
    return Success(Activity(values, cnt));
  }

  // ---------------------------------------------------------------- the chart

  /** `{"created": {"$gte": datetime(year, 1, 1), "$lt": datetime(year + 1, 1, 1)}}` */
  function YearFilter(year: int): Filter
    requires year >= 1
  {
    [Gte(Objects.CREATED, YearStart(year) * Quiz.DAY), Lt(Objects.CREATED, YearStart(year + 1) * Quiz.DAY)]
  }

  /** A time falls in day `day` exactly when its floor division by a day is
      `day`. */
  lemma DayOf(t: int, day: int)
    ensures day * Quiz.DAY <= t < (day + 1) * Quiz.DAY <==> t / Quiz.DAY == day
  {
    if day * Quiz.DAY <= t < (day + 1) * Quiz.DAY {
      DivUnique(t, Quiz.DAY, day, t - day * Quiz.DAY);
    }
  }

  /** A document matches the year's query exactly when its day offset lies
      inside the year, so the loop's range guard never skips a queried
      document. */
  lemma InYear(d: Doc, year: int)
    requires year >= 1
    ensures Matches(d, YearFilter(year)) <==>
      (Offset(d, YearStart(year)).Success? && 0 <= Offset(d, YearStart(year)).value < DaysInYear(year))
  {
    YearLength(year);
    var f := YearFilter(year);
    if Offset(d, YearStart(year)).Success? {
      var t := d[Objects.CREATED].i;
      DayOf(t, t / Quiz.DAY);
      assert Matches(d, f) <==> Holds(d, f[0]) && Holds(d, f[1]);
    } else {
      assert !Holds(d, f[0]);
    }
  }

  /** Selecting the year's documents first changes no day's tally. */
  lemma {:induction false} SelectYear(docs: seq<Doc>, year: int, k: int)
    requires year >= 1 && 0 <= k < DaysInYear(year)
    ensures CountOn(Select(docs, YearFilter(year)), YearStart(year), k) == CountOn(docs, YearStart(year), k)
    ensures SumOn(Select(docs, YearFilter(year)), YearStart(year), k) == SumOn(docs, YearStart(year), k)
  {
    if |docs| > 0 {
      InYear(docs[0], year);
      SelectYear(docs[1..], year, k);
      var rest := Select(docs[1..], YearFilter(year));
      if Matches(docs[0], YearFilter(year)) {
        assert Select(docs, YearFilter(year)) == [docs[0]] + rest;
        assert ([docs[0]] + rest)[1..] == rest;
      } else {
        assert Select(docs, YearFilter(year)) == rest;
      }
    }
  }

  /** A queried document raises in the loop exactly when its topics have no
      length. */
  lemma QueriedCheck(d: Doc, year: int)
    requires year >= 1 && Matches(d, YearFilter(year))
    ensures Check(d, YearStart(year), DaysInYear(year)) == (match TopicCount(d) case Failure(e) => Failure(e) case Success(_) => Success(()))
  {
    InYear(d, year);
  }

  /** `max(1, max(values))`, the top of the colour scale. */
  function High(values: seq<int>): (r: int)
    requires |values| > 0
    ensures r >= 1 && forall k | 0 <= k < |values| :: values[k] <= r
    ensures r == 1 || exists k | 0 <= k < |values| :: values[k] == r
  {
    if |values| == 1 then (if values[0] > 1 then values[0] else 1)
    else
      var h := High(values[1..]);
      assert forall k | 1 <= k < |values| :: values[k] == values[1..][k - 1];
      if values[0] > h then values[0] else h
  }

  datatype Chart = Chart(rows: seq<Row>, values: seq<int>, noteCnt: seq<int>, weeks: seq<int>, high: int)

  /** A year the chart can be drawn for: `datetime(year, 1, 1)` and
      `datetime(year + 1, 1, 1)` both exist. */
  predicate ChartYear(year: int) {
    1 <= year && year + 1 <= 9999
  }

  /** The data of `create_activity_chart(year)`: day rows, topic totals and
      source counts per day, week columns and the colour-scale top. */
  method ActivityChart(db: Db, year: int) returns (r: Result<Chart>)
    ensures !ChartYear(year) ==> r == Failure(ValueError)
    ensures r.Success? ==>
      && ChartYear(year) && r.value.rows == Rows(year)
      && |r.value.values| == |r.value.noteCnt| == DaysInYear(year)
    ensures r.Success? ==> forall k | 0 <= k < DaysInYear(year) ::
      && r.value.values[k] == SumOn(Docs(db, Quiz.SOURCES), YearStart(year), k)
      && r.value.noteCnt[k] == CountOn(Docs(db, Quiz.SOURCES), YearStart(year), k)
    ensures r.Success? ==> GoodWeeks(r.value.rows, r.value.weeks)
    ensures r.Success? ==> r.value.high >= 1 && forall k | 0 <= k < |r.value.values| :: r.value.values[k] <= r.value.high
    ensures r.Failure? && ChartYear(year) ==> exists d | d in Docs(db, Quiz.SOURCES) ::
      Matches(d, YearFilter(year)) && TopicCount(d) == Failure(r.error)
    ensures ChartYear(year) && (forall d | d in Docs(db, Quiz.SOURCES) && Matches(d, YearFilter(year)) :: TopicCount(d).Success?)
      ==> r.Success?
  {
    if !ChartYear(year) {
      return Failure(ValueError);
    }
    var n := DaysInYear(year);
    var start := YearStart(year);
    var docs := Query(db, Quiz.SOURCES, YearFilter(year));
    forall i | 0 <= i < |docs|
      ensures Check(docs[i], start, n) == (match TopicCount(docs[i]) case Failure(e) => Failure(e) case Success(_) => Success(()))
    {
      assert docs[i] in docs;
      QueriedCheck(docs[i], year);
    }
    var a := Bucket(docs, start, n);
    if a.Failure? {
      return Failure(a.error);
    }
    forall k | 0 <= k < n
      ensures a.value.values[k] == SumOn(Docs(db, Quiz.SOURCES), start, k)
      ensures a.value.noteCnt[k] == CountOn(Docs(db, Quiz.SOURCES), start, k)
    {
      SelectYear(Docs(db, Quiz.SOURCES), year, k);
    }
    var rows := Rows(year);
    var weeks := WeekNumbers(rows);
    RowsConsecutive(year);
    WeeksGood(rows, weeks);
    return Success(Chart(rows, a.value.values, a.value.noteCnt, weeks, High(a.value.values)));
  }

  // ---------------------------------------------------------------- one day

  /** The query of `render_notes` for the clicked day `day`:
      `{"created": {"$gte": cur_date, "$lt": cur_date + timedelta(days=1)}}`. */
  function DayFilter(day: int): Filter {
    [Gte(Objects.CREATED, day * Quiz.DAY), Lt(Objects.CREATED, (day + 1) * Quiz.DAY)]
  }

  /** Clicking day `k` of the year lists exactly as many sources as the
      chart counted for that day. */
  lemma {:induction false} ClickedDayListsCounted(docs: seq<Doc>, start: int, k: int)
    ensures |Select(docs, DayFilter(start + k))| == CountOn(docs, start, k)
  {
    if |docs| > 0 {
      var d := docs[0];
      var f := DayFilter(start + k);
      ClickedDayListsCounted(docs[1..], start, k);
      if Offset(d, start).Success? {
        var t := d[Objects.CREATED].i;
        DayOf(t, start + k);
        assert Matches(d, f) <==> Holds(d, f[0]) && Holds(d, f[1]);
      } else {
        assert !Holds(d, f[0]);
      }
    }
  }
}

=== FILE: catalog.dfy ===
/** `MODEL_CLASS_MAP` of `remind/models/__init__.py`: which providers may
    back which model type.  The map's values are wrapper classes; each is a
    subclass of the base class of its type (`LanguageModel`, `VisionModel`,
    `EmbeddingModel`, `SpeechToTextModel`, `TextToSpeechModel`), so a
    (type, provider) pair determines the class up to what an `isinstance`
    test can see. */
module Catalog {

  const LANGUAGE := "language"
  const VISION := "vision"
  const EMBEDDING := "embedding"
  const SPEECH_TO_TEXT := "speech_to_text"
  const TEXT_TO_SPEECH := "text_to_speech"

  /** The model types, in the map's own order. */
  const MODEL_TYPES: seq<string> := [LANGUAGE, VISION, EMBEDDING, SPEECH_TO_TEXT, TEXT_TO_SPEECH]

  /** The providers listed for each type, in the map's own order. */
  const CLASS_MAP: map<string, seq<string>> := map[
    LANGUAGE := ["ollama", "openrouter", "vertexai-anthropic", "litellm", "vertexai",
                 "anthropic", "openai", "gemini", "xai", "groq"],
    VISION := ["ollama"],
    EMBEDDING := ["openai", "gemini", "vertexai", "ollama"],
    SPEECH_TO_TEXT := ["openai", "groq", "parakeet"],
    TEXT_TO_SPEECH := ["chatterbox"]
  ]

  /** `t in MODEL_CLASS_MAP` */
  predicate KnownType(t: string) {
    t in CLASS_MAP
  }

  /** `p in MODEL_CLASS_MAP[t]` */
  predicate Compatible(t: string, p: string) {
    t in CLASS_MAP && p in CLASS_MAP[t]
  }

  /** The provider list of a type; empty for a type the map lacks. */
  function Providers(t: string): (r: seq<string>)
    ensures forall p :: p in r <==> Compatible(t, p)
  {
    if t in CLASS_MAP then CLASS_MAP[t] else []
  }

  /** Exactly five types are valid, and the order list names each once. */
  lemma ExactlyFiveTypes(t: string)
    ensures KnownType(t) <==> t in MODEL_TYPES
    ensures KnownType(t) <==> t in {"language", "vision", "embedding", "speech_to_text", "text_to_speech"}
    ensures |MODEL_TYPES| == 5 && forall i, j | 0 <= i < j < 5 :: MODEL_TYPES[i] != MODEL_TYPES[j]
  {
  }

  /** The providers a language model may come from. */
  lemma LanguageProviders(p: string)
    ensures Compatible("language", p) <==>
      p in {"ollama", "openrouter", "vertexai-anthropic", "litellm", "vertexai", "anthropic", "openai", "gemini", "xai", "groq"}
  {
  }

  /** Vision and text-to-speech each have one provider. */
  lemma SingleProviderTypes(p: string)
    ensures Compatible("vision", p) <==> p == "ollama"
    ensures Compatible("text_to_speech", p) <==> p == "chatterbox"
  {
  }

  /** The embedding and speech-to-text providers. */
  lemma EmbeddingAndSpeechProviders(p: string)
    ensures Compatible("embedding", p) <==> p in {"openai", "gemini", "vertexai", "ollama"}
    ensures Compatible("speech_to_text", p) <==> p in {"openai", "groq", "parakeet"}
  {
  }
}

=== FILE: citations.dfy ===
/** The citation step of the ask tab, `remind/webui/tabs/ask.py`: the final
    answer cites hits as `[note:<id>]`, `[insight:<id>]` or `[source:<id>]`;
    each distinct citation whose object exists is replaced by its number,
    and the earlier messages of the turn get the same numbering. */
module Citations {
  import opened Wrappers
  import opened Store
  import opened Objects
  import Text

  /** The reference tags, in the pattern's alternation order. */
  const TAGS: seq<string> := ["insight", "note", "source"]

  /** The class a tag cites. */
  function KindOf(tag: string): Kind {
    if tag == "insight" then SourceInsight else if tag == "note" then SourceEmbedding else Source
  }

  predicate AllWord(s: string) {
    forall i | 0 <= i < |s| :: Text.IsWordChar(s[i])
  }

  /** `tag:id` with a known tag and a non-empty run of word characters: what
      the pattern's group captures. */
  predicate IsRef(r: string) {
    exists k | 0 <= k < |TAGS| :: RefWithTag(r, TAGS[k])
  }

  predicate RefWithTag(r: string, tag: string) {
    |r| > |tag| + 1 && r[..|tag| + 1] == tag + ":" && AllWord(r[|tag| + 1..])
  }

  /** `[r]` occurs in `s` at `p`. */
  predicate CitedAt(s: string, r: string, p: int) {
    Text.OccursAt(s, "[" + r + "]", p)
  }

  /** `[r]` occurs somewhere in `s`. */
  predicate Cited(s: string, r: string) {
    exists p | 0 <= p <= |s| :: CitedAt(s, r, p)
  }

  // ---------------------------------------------------------------- scanning

  /** The end of the run of word characters starting at `i`. */
  function WordRunEnd(s: string, i: nat): (r: nat)
    requires i <= |s|
    ensures i <= r <= |s| && AllWord(s[i..r])
    ensures r == |s| || !Text.IsWordChar(s[r])
    decreases |s| - i
  {
    if i < |s| && Text.IsWordChar(s[i]) then
      var r := WordRunEnd(s, i + 1);
      assert s[i..r] == [s[i]] + s[i + 1..r];
      r
    else i
  }

  /** The tag the alternation matches at `i`, if any. */
  function TagAt(s: string, i: nat): Option<string> {
    if HasAt(s, "insight:", i) then Some("insight")
    else if HasAt(s, "note:", i) then Some("note")
    else if HasAt(s, "source:", i) then Some("source")
    else None
  }

  /** `t` occurs in `s` at `i`, character by character. */
  predicate HasAt(s: string, t: string, i: nat) {
    i + |t| <= |s| && forall k | 0 <= k < |t| :: s[i + k] == t[k]
  }

  lemma HasAtOccurs(s: string, t: string, i: nat)
    ensures HasAt(s, t, i) <==> Text.OccursAt(s, t, i)
  {
    if HasAt(s, t, i) {
      assert s[i..i + |t|] == t;
    }
    if Text.OccursAt(s, t, i) {
      forall k | 0 <= k < |t| ensures s[i + k] == t[k] {
        assert s[i + k] == s[i..i + |t|][k];
      }
    }
  }

  /** A tag is recognised at `i` exactly when one of the tags, followed by
      `:`, occurs there. */
  lemma TagAtMatches(s: string, i: nat)
    ensures TagAt(s, i).Some? ==> TagAt(s, i).value in TAGS && Text.OccursAt(s, TagAt(s, i).value + ":", i)
    ensures TagAt(s, i).None? ==> forall k | 0 <= k < |TAGS| :: !Text.OccursAt(s, TAGS[k] + ":", i)
  {
    HasAtOccurs(s, "insight:", i);
    HasAtOccurs(s, "note:", i);
    HasAtOccurs(s, "source:", i);
    assert TAGS[0] + ":" == "insight:" && TAGS[1] + ":" == "note:" && TAGS[2] + ":" == "source:";
  }

  /** Where a match of the pattern starting at `i` ends, if one does.  The
      word run is greedy and `]` is no word character, so the run must stop
      exactly at the `]`. */
  function MatchEnd(s: string, i: nat): (r: Option<nat>)
    requires i <= |s|
    ensures r.Some? ==> i + 2 < r.value <= |s| && s[i] == '[' && s[r.value - 1] == ']'
  {
    if i < |s| && s[i] == '[' then
      match TagAt(s, i + 1)
      case None => None
      case Some(tag) =>
        Closed(s, i + 2 + |tag|)
    else None
  }

  /** After the tag: a non-empty run of word characters from `j` and the
      `]` that stops it; the position after the `]`. */
  function Closed(s: string, j: nat): (r: Option<nat>)
    requires 0 < j <= |s|
    ensures r.Some? ==> j + 1 < r.value <= |s| && s[r.value - 1] == ']'
  {
    var e := WordRunEnd(s, j);
    if e > j && e < |s| && s[e] == ']' then Some(e + 1) else None
  }

  /** What a match encloses is a reference. */
  lemma MatchEndSound(s: string, i: nat)
    requires i <= |s| && MatchEnd(s, i).Some?
    ensures IsRef(s[i + 1..MatchEnd(s, i).value - 1])
  {
    var tag := TagAt(s, i + 1).value;
    TagAtMatches(s, i + 1);
    RefAt(s, i, tag, MatchEnd(s, i).value - 1);
  }

  /** The text between `[` and the end of the word run is a reference. */
  lemma RefAt(s: string, i: nat, tag: string, e: nat)
    requires tag in TAGS && Text.OccursAt(s, tag + ":", i + 1)
    requires i + 2 + |tag| < e <= |s| && AllWord(s[i + 2 + |tag|..e])
    ensures IsRef(s[i + 1..e])
  {
    var x := s[i + 1..e];
    assert x[..|tag| + 1] == s[i + 1..i + 1 + |tag + ":"|];
    assert x[|tag| + 1..] == s[i + 2 + |tag|..e];
    assert RefWithTag(x, tag);
    var k :| 0 <= k < |TAGS| && TAGS[k] == tag;
  }

  /** `re.findall(pattern, text)` from position `i`: the captured references,
      left to right, matches not overlapping. */
  function FindFrom(s: string, i: nat): (r: seq<string>)
    requires i <= |s|
    ensures |r| <= |s| - i
    decreases |s| - i
  {
    if i == |s| then []
    else
      match MatchEnd(s, i)
      case None => FindFrom(s, i + 1)
      case Some(e) => [s[i + 1..e - 1]] + FindFrom(s, e)
  }

  /** Everything the scan finds is a reference cited in `s`, and a text
      with no `[` yields nothing. */
  lemma {:induction false} FindFromSound(s: string, i: nat)
    requires i <= |s|
    ensures forall k | 0 <= k < |FindFrom(s, i)| :: IsRef(FindFrom(s, i)[k]) && Cited(s, FindFrom(s, i)[k])
    ensures '[' !in s ==> FindFrom(s, i) == []
    decreases |s| - i
  {
    if i < |s| {
      var m := MatchEnd(s, i);
      if m.None? {
        FindFromSkip(s, i);
        FindFromSound(s, i + 1);
      } else {
        var e := m.value;
        var x := s[i + 1..e - 1];
        FindFromTake(s, i, e);
        FindFromSound(s, e);
        MatchEndSound(s, i);
        MatchIsCitation(s, i, e);
        ConsSound(s, x, FindFrom(s, e));
      }
    }
  }

  /** A match from `i` to `e` is a citation of what it encloses. */
  lemma MatchIsCitation(s: string, i: nat, e: nat)
    requires i + 2 <= e <= |s| && s[i] == '[' && s[e - 1] == ']'
    ensures CitedAt(s, s[i + 1..e - 1], i)
  {
    assert s[i..e] == [s[i]] + s[i + 1..e - 1] + [s[e - 1]];
  }

  /** A cited reference in front of cited references. */
  lemma ConsSound(s: string, x: string, rest: seq<string>)
    requires IsRef(x) && Cited(s, x)
    requires forall k | 0 <= k < |rest| :: IsRef(rest[k]) && Cited(s, rest[k])
    ensures forall k | 0 <= k < |[x] + rest| :: IsRef(([x] + rest)[k]) && Cited(s, ([x] + rest)[k])
  {
  }

  /** `re.findall(pattern, text)`: the references cited in `s`, and no
      other string. */
  function FindRefs(s: string): (r: seq<string>)
    ensures forall k | 0 <= k < |r| :: IsRef(r[k]) && Cited(s, r[k])
    ensures forall x :: x in r <==> IsRef(x) && Cited(s, x)
    ensures '[' !in s ==> r == []
  {
    FindFromSound(s, 0);
    FindAll(s);
    FindFrom(s, 0)
  }

  /** No reference holds a `[`, so no citation starts inside another. */
  lemma RefHasNoBracket(x: string)
    requires IsRef(x)
    ensures '[' !in x
  {
    var k :| 0 <= k < |TAGS| && RefWithTag(x, TAGS[k]);
    var tag := TAGS[k];
    forall q | 0 <= q < |x| ensures x[q] != '[' {
      if q <= |tag| {
        assert x[q] == (tag + ":")[q];
      } else {
        assert x[q] == x[|tag| + 1..][q - |tag| - 1];
      }
    }
  }

  /** A citation at `i` is what the pattern matches there. */
  lemma {:induction false} MatchEndFinds(s: string, i: nat, x: string)
    requires IsRef(x) && CitedAt(s, x, i)
    ensures MatchEnd(s, i) == Some(i + |x| + 2)
  {
    var k :| 0 <= k < |TAGS| && RefWithTag(x, TAGS[k]);
    var tag := TAGS[k];
    var e := i + |x| + 1;
    Inside(s, i, x);
    TagAtCited(s, i, x, tag);
    assert s[i + 2 + |tag|..e] == x[|tag| + 1..];
    WordRunToEnd(s, i + 2 + |tag|, e);
    MatchEndAt(s, i, tag, e);
  }

  /** A `[`, a tag, a word run and the `]` that stops it make a match. */
  lemma MatchEndAt(s: string, i: nat, tag: string, e: nat)
    requires i < |s| && s[i] == '[' && TagAt(s, i + 1) == Some(tag)
    requires i + 2 + |tag| < e < |s| && WordRunEnd(s, i + 2 + |tag|) == e && s[e] == ']'
    ensures MatchEnd(s, i) == Some(e + 1)
  {
    assert Closed(s, i + 2 + |tag|) == Some(e + 1);
  }

  /** The alternation picks the tag of the reference that follows `i`. */
  lemma TagAtCited(s: string, i: nat, x: string, tag: string)
    requires tag in TAGS && RefWithTag(x, tag)
    requires i + 1 + |x| <= |s| && s[i + 1..i + 1 + |x|] == x
    ensures TagAt(s, i + 1) == Some(tag)
  {
    assert |x| > |tag| + 1 && x[..|tag| + 1] == tag + ":";
    forall k | 0 <= k < |tag + ":"| ensures s[i + 1 + k] == (tag + ":")[k] {
      assert s[i + 1 + k] == s[i + 1..i + 1 + |x|][k] == x[k];
      assert x[k] == x[..|tag| + 1][k];
    }
    assert HasAt(s, tag + ":", i + 1);
    assert s[i + 1 + 0] == (tag + ":")[0];
    if tag == "insight" {
      assert tag + ":" == "insight:";
    } else if tag == "note" {
      assert tag + ":" == "note:" && s[i + 1] == 'n';
      assert !HasAt(s, "insight:", i + 1) by { assert "insight:"[0] == 'i'; }
    } else {
      assert tag == "source";
      assert tag + ":" == "source:" && s[i + 1] == 's';
      assert !HasAt(s, "insight:", i + 1) by { assert "insight:"[0] == 'i'; }
      assert !HasAt(s, "note:", i + 1) by { assert "note:"[0] == 'n'; }
    }
  }

  /** The brackets of a citation at `i`, and what they enclose. */
  lemma Inside(s: string, i: nat, x: string)
    requires CitedAt(s, x, i)
    ensures i + |x| + 2 <= |s| && s[i] == '[' && s[i + |x| + 1] == ']' && s[i + 1..i + |x| + 1] == x
  {
    var w := "[" + x + "]";
    assert |w| == |x| + 2 && s[i..i + |w|] == w;
    forall q | 0 <= q < |x| ensures s[i + 1..i + |x| + 1][q] == x[q] {
      assert s[i + 1 + q] == s[i..i + |w|][1 + q] == w[1 + q];
    }
    assert s[i] == s[i..i + |w|][0];
    assert s[i + |x| + 1] == s[i..i + |w|][|x| + 1];
  }

  /** Over a run of word characters ended by `]` the run reaches the `]`. */
  lemma {:induction false} WordRunToEnd(s: string, j: nat, e: nat)
    requires j <= e < |s| && s[e] == ']' && AllWord(s[j..e])
    ensures WordRunEnd(s, j) == e
    decreases e - j
  {
    if j < e {
      assert s[j..e][0] == s[j];
      assert s[j + 1..e] == s[j..e][1..];
      WordRunToEnd(s, j + 1, e);
    }
  }

  /** Every citation at or after `i` is found by the scan from `i`: a match
      before it ends no later than where it starts. */
  lemma FindFromFinds(s: string, i: nat, x: string, p: nat)
    requires i <= p && IsRef(x) && CitedAt(s, x, p)
    ensures x in FindFrom(s, i)
  {
    Inside(s, p, x);
    MatchEndFinds(s, p, x);
    FindFromReaches(s, i, p, x);
  }

  /** The text `y` a match starting at a `[` at or after `i` encloses is
      among those found. */
  lemma {:induction false} FindFromReaches(s: string, i: nat, p: nat, y: string)
    requires i <= p < |s| && s[p] == '[' && MatchEnd(s, p) == Some(p + |y| + 2) && s[p + 1..p + |y| + 1] == y
    ensures y in FindFrom(s, i)
    decreases |s| - i
  {
    var m := MatchEnd(s, i);
    if i == p {
      FoundHere(s, p, y);
    } else if m.None? {
      FindFromReaches(s, i + 1, p, y);
      FoundAfterSkip(s, i, y);
    } else {
      MatchBeforeEnds(s, i, m.value, p);
      FindFromReaches(s, m.value, p, y);
      FoundLater(s, i, m.value, y);
    }
  }

  /** The match at `p` is the first one found from `p`. */
  lemma FoundHere(s: string, p: nat, y: string)
    requires p < |s| && MatchEnd(s, p) == Some(p + |y| + 2) && s[p + 1..p + |y| + 1] == y
    ensures y in FindFrom(s, p)
  {
    FindFromTake(s, p, p + |y| + 2);
    assert FindFrom(s, p)[0] == y;
  }

  /** What the scan finds after a position where no match starts, it finds
      from that position. */
  lemma FoundAfterSkip(s: string, i: nat, y: string)
    requires i < |s| && MatchEnd(s, i).None? && y in FindFrom(s, i + 1)
    ensures y in FindFrom(s, i)
  {
    FindFromSkip(s, i);
  }

  /** What the scan finds after a match, it finds from the match's start. */
  lemma FoundLater(s: string, i: nat, e: nat, y: string)
    requires i < |s| && MatchEnd(s, i) == Some(e) && y in FindFrom(s, e)
    ensures y in FindFrom(s, i)
  {
    FindFromTake(s, i, e);
    assert FindFrom(s, i)[1..] == FindFrom(s, e);
  }

  /** Where no match starts, the scan moves on by one. */
  lemma FindFromSkip(s: string, i: nat)
    requires i < |s| && MatchEnd(s, i).None?
    ensures FindFrom(s, i) == FindFrom(s, i + 1)
  {
  }

  /** Where a match starts, the scan takes it and goes on after it. */
  lemma FindFromTake(s: string, i: nat, e: nat)
    requires i < |s| && MatchEnd(s, i) == Some(e)
    ensures FindFrom(s, i) == [s[i + 1..e - 1]] + FindFrom(s, e)
  {
  }

  /** A match at `i` ends no later than any `[` after `i`. */
  lemma MatchBeforeEnds(s: string, i: nat, e: nat, p: nat)
    requires i <= |s| && MatchEnd(s, i) == Some(e) && i < p < |s| && s[p] == '['
    ensures e <= p
  {
    if p < e {
      MatchHasNoBracket(s, i, p);
    }
  }

  /** No `[` follows the first character of a match. */
  lemma MatchHasNoBracket(s: string, i: nat, q: nat)
    requires i <= |s| && MatchEnd(s, i).Some? && i < q < MatchEnd(s, i).value
    ensures s[q] != '['
  {
    var e := MatchEnd(s, i).value;
    if q < e - 1 {
      var y := s[i + 1..e - 1];
      MatchEndSound(s, i);
      RefHasNoBracket(y);
      assert s[q] == y[q - i - 1];
    }
  }

  /** Every reference cited in `s` is found. */
  lemma FindAll(s: string)
    ensures forall x | IsRef(x) && Cited(s, x) :: x in FindFrom(s, 0)
  {
    forall x | IsRef(x) && Cited(s, x) ensures x in FindFrom(s, 0) {
      var p :| 0 <= p <= |s| && CitedAt(s, x, p);
      FindFromFinds(s, 0, x, p);
    }
  }

  /** A lone citation is found, whole. */
  lemma LoneCitationFound(x: string)
    requires IsRef(x)
    ensures FindRefs("[" + x + "]") == [x]
  {
    var s := "[" + x + "]";
    assert s[0..|s|] == s;
    assert CitedAt(s, x, 0);
    MatchEndFinds(s, 0, x);
    FindFromTake(s, 0, |s|);
    assert s[1..|s| - 1] == x;
    assert FindFrom(s, |s|) == [];
  }

  // ---------------------------------------------------------------- converting

  /** The state of the conversion loop. */
  datatype Converted = Converted(text: string, objs: seq<Obj>, replaced: seq<string>)

  /** `reference.split(":", 1)`, when it has two parts. */
  function SplitRef(r: string): (p: Option<(string, string)>)
    ensures p.Some? ==> r == p.value.0 + ":" + p.value.1 && ':' !in p.value.0
    ensures p.None? <==> ':' !in r
  {
    if ':' in r then
      var i := Text.IndexOf(r, ':');
      assert r == r[..i] + ":" + r[i + 1..];
      Some((r[..i], r[i + 1..]))
    else None
  }

  /** The part before the first `:`, and the part after it. */
  function TagPart(r: string): string {
    if SplitRef(r).Some? then SplitRef(r).value.0 else r
  }

  function IdPart(r: string): string {
    if SplitRef(r).Some? then SplitRef(r).value.1 else ""
  }

  /** A reference the loop looks up: it splits, and its tag is known. */
  predicate Known(r: string) {
    SplitRef(r).Some? && TagPart(r) in TAGS
  }

  /** The filter `{"_id": ObjectId(id)}`. */
  function ById(n: nat): Filter {
    [Eq(ID_KEY, VOid(n))]
  }

  /** A reference whose object exists: known, its id an ObjectId's text,
      and a document with that id in the tag's collection. */
  predicate Resolved(db: Db, r: string) {
    && Known(r)
    && ParseOid(IdPart(r)).Some?
    && |Query(db, TableName(KindOf(TagPart(r))), ById(ParseOid(IdPart(r)).value))| > 0
  }

  /** The lookup of a known reference: an id that is no ObjectId text
      raises, a missing object gives nothing, a stored document that does
      not validate raises. */
  function Lookup(db: Db, r: string): (c: Result<Option<Obj>>)
    requires Known(r)
    ensures c.Failure? ==> c.error in {InvalidId, ValidationError}
    ensures c == Failure(InvalidId) <==> ParseOid(IdPart(r)).None?
    ensures c == Failure(ValidationError) ==> Resolved(db, r)
    ensures c == Success(None) <==> ParseOid(IdPart(r)).Some? && !Resolved(db, r)
    ensures c.Success? && c.value.Some? ==> Resolved(db, r) && c.value.value.kind == KindOf(TagPart(r))
  {
    match ParseOid(IdPart(r))
    case None => Failure(InvalidId)
    case Some(n) =>
      var docs := Query(db, TableName(KindOf(TagPart(r))), ById(n));
      if |docs| == 0 then Success(None)
      else
        match Construct(KindOf(TagPart(r)), docs[0])
        case Failure(e) => Failure(e)
        case Success(o) => Success(Some(o))
  }

  /** A reference whose lookup raises: a known tag with an id that is no
      ObjectId's text, or a stored document that does not validate. */
  predicate Breaks(db: Db, r: string) {
    Known(r) && Lookup(db, r).Failure?
  }

  /** Every kept object is what looking up its reference gives. */
  ghost predicate Fetched(db: Db, st: Converted) {
    && |st.objs| == |st.replaced|
    && forall k | 0 <= k < |st.objs| :: Known(st.replaced[k]) && Lookup(db, st.replaced[k]) == Success(Some(st.objs[k]))
  }

  /** One reference: a reference that is looked up and found is kept, and
      replaced by its number everywhere in the text. */
  function Step(db: Db, st: Converted, r: string): (c: Result<Converted>)
    ensures c.Failure? ==> c.error in {InvalidId, ValidationError}
    ensures c == Failure(InvalidId) <==> Known(r) && ParseOid(IdPart(r)).None?
    ensures c == Failure(ValidationError) ==> Resolved(db, r)
    ensures c.Failure? <==> Breaks(db, r)
    ensures c.Success? && !Resolved(db, r) ==> c.value == st
    ensures c.Success? && Resolved(db, r) ==>
      && c.value.replaced == st.replaced + [r]
      && |c.value.objs| == |st.objs| + 1 && c.value.objs[..|st.objs|] == st.objs
      && c.value.objs[|st.objs|].kind == KindOf(TagPart(r))
      && Lookup(db, r) == Success(Some(c.value.objs[|st.objs|]))
      && c.value.text == Text.Replace(st.text, r, Text.DecimalText(|st.objs| + 1))
  {
    if !Known(r) then Success(st)
    else
      match Lookup(db, r)
      case Failure(e) => Failure(e)
      case Success(None) => Success(st)
      case Success(Some(o)) =>
        var objs := st.objs + [o];
        assert objs[..|st.objs|] == st.objs;
        Success(Converted(Text.Replace(st.text, r, Text.DecimalText(|objs|)), objs, st.replaced + [r]))
  }

  /** The earlier messages' renumbering: the `i`-th replaced reference, from
      `start` on, becomes `str(i)`. */
  function Renumber(msg: string, refs: seq<string>, start: nat): string
    decreases |refs|
  {
    if |refs| == 0 then msg else Renumber(Text.Replace(msg, refs[0], Text.DecimalText(start)), refs[1..], start + 1)
  }

  /** The loop over the references in iteration order. */
  function Run(db: Db, st: Converted, order: seq<string>): (c: Result<Converted>)
    requires |st.objs| == |st.replaced|
    ensures c.Failure? ==> c.error in {InvalidId, ValidationError}
    ensures c.Success? ==> |c.value.objs| == |c.value.replaced| && |st.replaced| <= |c.value.replaced|
    ensures c.Success? ==> c.value.replaced[..|st.replaced|] == st.replaced
    decreases |order|
  {
    if |order| == 0 then Success(st)
    else
      match Step(db, st, order[0])
      case Failure(e) => Failure(e)
      case Success(st1) =>
        var c := Run(db, st1, order[1..]);
        if c.Success? then
          assert c.value.replaced[..|st.replaced|] == c.value.replaced[..|st1.replaced|][..|st.replaced|];
          c
        else c
  }

  /** The loop fails exactly when one of the references it visits breaks. */
  lemma {:induction false} RunFails(db: Db, st: Converted, order: seq<string>)
    requires |st.objs| == |st.replaced|
    ensures Run(db, st, order).Failure? <==> exists k | 0 <= k < |order| :: Breaks(db, order[k])
    decreases |order|
  {
    if |order| > 0 {
      var s1 := Step(db, st, order[0]);
      if s1.Success? {
        RunFails(db, s1.value, order[1..]);
        assert Run(db, st, order) == Run(db, s1.value, order[1..]);
        ShiftBreaks(db, order);
      }
    }
  }

  /** A reference of `order` after the first breaks exactly when some
      reference of `order[1..]` does. */
  lemma ShiftBreaks(db: Db, order: seq<string>)
    requires |order| > 0 && !Breaks(db, order[0])
    ensures (exists k | 0 <= k < |order| :: Breaks(db, order[k])) <==> (exists k | 0 <= k < |order[1..]| :: Breaks(db, order[1..][k]))
  {
    if exists k | 0 <= k < |order| :: Breaks(db, order[k]) {
      var k :| 0 <= k < |order| && Breaks(db, order[k]);
      assert order[1..][k - 1] == order[k];
    }
    if exists k | 0 <= k < |order[1..]| :: Breaks(db, order[1..][k]) {
      var k :| 0 <= k < |order[1..]| && Breaks(db, order[1..][k]);
      assert order[k + 1] == order[1..][k];
    }
  }

  /** The loop keeps every object what looking up its reference gives. */
  lemma {:induction false} RunFetches(db: Db, st: Converted, order: seq<string>)
    requires Fetched(db, st) && Run(db, st, order).Success?
    ensures Fetched(db, Run(db, st, order).value)
    decreases |order|
  {
    if |order| > 0 {
      var st1 := Step(db, st, order[0]).value;
      StepFetches(db, st, order[0]);
      assert Run(db, st, order) == Run(db, st1, order[1..]);
      RunFetches(db, st1, order[1..]);
    }
  }

  /** One step keeps the objects fetched. */
  lemma StepFetches(db: Db, st: Converted, r: string)
    requires Fetched(db, st) && Step(db, st, r).Success?
    ensures Fetched(db, Step(db, st, r).value)
  {
    var st1 := Step(db, st, r).value;
    if Resolved(db, r) {
      forall k | 0 <= k < |st1.objs|
        ensures Known(st1.replaced[k]) && Lookup(db, st1.replaced[k]) == Success(Some(st1.objs[k]))
      {
        if k < |st.objs| {
          assert st1.objs[k] == st1.objs[..|st.objs|][k];
          assert st1.replaced[k] == st.replaced[k];
        }
      }
    }
  }

  /** A successful loop took a successful first step and ran on from there. */
  lemma RunUnfold(db: Db, st: Converted, order: seq<string>)
    requires |st.objs| == |st.replaced| && |order| > 0
    requires Run(db, st, order).Success?
    ensures Step(db, st, order[0]).Success?
    ensures var st1 := Step(db, st, order[0]).value;
      |st1.objs| == |st1.replaced| && Run(db, st, order) == Run(db, st1, order[1..])
  {
  }

  /** What the loop added to the replaced list. */
  function Added(st: Converted, c: Converted): seq<string>
    requires |st.replaced| <= |c.replaced|
  {
    c.replaced[|st.replaced|..]
  }

  /** The text is renumbered exactly as `Renumber` numbers the added
      references, from the next free number on. */
  lemma {:induction false} RunNumbers(db: Db, st: Converted, order: seq<string>)
    requires |st.objs| == |st.replaced|
    requires Run(db, st, order).Success?
    ensures var c := Run(db, st, order).value;
      c.text == Renumber(st.text, Added(st, c), |st.objs| + 1)
    decreases |order|
  {
    var c := Run(db, st, order).value;
    if |order| == 0 {
      assert Added(st, c) == [];
    } else {
      var r := order[0];
      RunUnfold(db, st, order);
      var st1 := Step(db, st, r).value;
      RunNumbers(db, st1, order[1..]);
      if st1 != st {
        FoundStepNumbers(db, st, r, order[1..]);
      }
    }
  }

  /** The step case of `RunNumbers` for a reference that is found. */
  lemma FoundStepNumbers(db: Db, st: Converted, r: string, rest: seq<string>)
    requires |st.objs| == |st.replaced| && Step(db, st, r).Success? && Step(db, st, r).value != st
    requires Run(db, Step(db, st, r).value, rest).Success?
    requires var st1 := Step(db, st, r).value; var c := Run(db, st1, rest).value;
      c.text == Renumber(st1.text, Added(st1, c), |st1.objs| + 1)
    ensures var c := Run(db, Step(db, st, r).value, rest).value;
      c.text == Renumber(st.text, Added(st, c), |st.objs| + 1)
  {
    var st1 := Step(db, st, r).value;
    NumberStep(st, st1, Run(db, st1, rest).value, r);
  }

  /** One found reference moves the numbering on by one. */
  lemma NumberStep(st: Converted, st1: Converted, c: Converted, r: string)
    requires |st1.replaced| <= |c.replaced| && st1.replaced == st.replaced + [r]
    requires c.replaced[..|st1.replaced|] == st1.replaced
    requires |st1.objs| == |st.objs| + 1
    requires st1.text == Text.Replace(st.text, r, Text.DecimalText(|st.objs| + 1))
    requires c.text == Renumber(st1.text, Added(st1, c), |st1.objs| + 1)
    ensures c.text == Renumber(st.text, Added(st, c), |st.objs| + 1)
  {
    AddedCons(st, st1, c, r);
    assert Added(st, c)[1..] == Added(st1, c);
  }

  /** The references of `order` whose objects exist, in order. */
  function ResolvedIn(db: Db, order: seq<string>): (r: seq<string>)
    ensures forall x :: x in r <==> x in order && Resolved(db, x)
    decreases |order|
  {
    if |order| == 0 then []
    else (if Resolved(db, order[0]) then [order[0]] else []) + ResolvedIn(db, order[1..])
  }

  /** The added references are the listed references that resolve, in
      their listed order. */
  lemma {:induction false} RunReplaced(db: Db, st: Converted, order: seq<string>)
    requires |st.objs| == |st.replaced|
    requires Run(db, st, order).Success?
    ensures Added(st, Run(db, st, order).value) == ResolvedIn(db, order)
    decreases |order|
  {
    var c := Run(db, st, order).value;
    if |order| == 0 {
      assert Added(st, c) == [];
    } else {
      var r := order[0];
      var st1 := Step(db, st, r).value;
      assert Run(db, st, order) == Run(db, st1, order[1..]);
      RunReplaced(db, st1, order[1..]);
      if Resolved(db, r) {
        assert ResolvedIn(db, order) == [r] + ResolvedIn(db, order[1..]);
        AddedCons(st, st1, c, r);
      } else {
        assert ResolvedIn(db, order) == ResolvedIn(db, order[1..]);
        assert st1 == st;
      }
    }
  }

  /** A step that keeps `r` puts it first among the added references. */
  lemma AddedCons(st: Converted, st1: Converted, c: Converted, r: string)
    requires st1.replaced == st.replaced + [r]
    requires |st1.replaced| <= |c.replaced| && c.replaced[..|st1.replaced|] == st1.replaced
    ensures Added(st, c) == [r] + Added(st1, c)
  {
    assert c.replaced[|st.replaced|] == st1.replaced[|st.replaced|];
  }

  /** A completed loop met no known reference with a malformed id. */
  lemma {:induction false} RunParses(db: Db, st: Converted, order: seq<string>)
    requires |st.objs| == |st.replaced|
    requires Run(db, st, order).Success?
    ensures forall x | x in order && Known(x) :: ParseOid(IdPart(x)).Some?
    decreases |order|
  {
    if |order| > 0 {
      var st1 := Step(db, st, order[0]).value;
      assert Run(db, st, order) == Run(db, st1, order[1..]);
      RunParses(db, st1, order[1..]);
      assert order == [order[0]] + order[1..];
    }
  }

  /** `convert_source_references`: `order` is the iteration order of the set
      of found references, so it lists each exactly once. */
  function Convert(db: Db, text: string, order: seq<string>): (c: Result<Converted>)
    requires forall i, j | 0 <= i < j < |order| :: order[i] != order[j]
    requires forall x :: x in order <==> x in FindRefs(text)
    ensures c.Failure? ==> c.error in {InvalidId, ValidationError}
    ensures c.Success? ==> |c.value.objs| == |c.value.replaced|
    ensures c.Success? ==> c.value.replaced == ResolvedIn(db, order)
    ensures c.Success? ==> forall x :: x in c.value.replaced <==> x in FindRefs(text) && Resolved(db, x)
    ensures c.Success? ==> forall k | 0 <= k < |FindRefs(text)| :: ParseOid(IdPart(FindRefs(text)[k])).Some?
    ensures c.Success? ==> c.value.text == Renumber(text, c.value.replaced, 1)
    ensures c.Success? ==> forall k | 0 <= k < |c.value.objs| ::
      Known(c.value.replaced[k]) && Lookup(db, c.value.replaced[k]) == Success(Some(c.value.objs[k]))
    ensures c.Failure? <==> exists x | x in FindRefs(text) :: Breaks(db, x)
  {
    var st := Converted(text, [], []);
    ConvertFails(db, text, order);
    var c := Run(db, st, order);
    if c.Success? then
      ConvertReplaced(db, text, order);
      ConvertNumbered(db, text, order);
      ConvertParses(db, text, order);
      RunFetches(db, st, order);
      c
    else c
  }

  /** The conversion fails exactly when a found reference breaks. */
  lemma ConvertFails(db: Db, text: string, order: seq<string>)
    requires forall x :: x in order <==> x in FindRefs(text)
    ensures Run(db, Converted(text, [], []), order).Failure? <==> exists x | x in FindRefs(text) :: Breaks(db, x)
  {
    RunFails(db, Converted(text, [], []), order);
    if exists x | x in FindRefs(text) :: Breaks(db, x) {
      var x :| x in FindRefs(text) && Breaks(db, x);
      assert x in order;
    }
  }

  /** The loop from the empty state keeps the resolved references, in order. */
  lemma ConvertReplaced(db: Db, text: string, order: seq<string>)
    requires Run(db, Converted(text, [], []), order).Success?
    ensures Run(db, Converted(text, [], []), order).value.replaced == ResolvedIn(db, order)
  {
    var st := Converted(text, [], []);
    RunReplaced(db, st, order);
    assert Added(st, Run(db, st, order).value) == Run(db, st, order).value.replaced;
  }

  /** The loop from the empty state numbers the kept references from 1. */
  lemma ConvertNumbered(db: Db, text: string, order: seq<string>)
    requires Run(db, Converted(text, [], []), order).Success?
    ensures var c := Run(db, Converted(text, [], []), order).value;
      c.text == Renumber(text, c.replaced, 1)
  {
    var st := Converted(text, [], []);
    RunNumbers(db, st, order);
    var c := Run(db, st, order).value;
    assert c.replaced[0..] == c.replaced;
    assert Added(st, c) == c.replaced;
    assert |st.objs| + 1 == 1;
  }

  /** A completed loop over the found references parsed every one of them. */
  lemma ConvertParses(db: Db, text: string, order: seq<string>)
    requires forall x :: x in order <==> x in FindRefs(text)
    requires Run(db, Converted(text, [], []), order).Success?
    ensures forall k | 0 <= k < |FindRefs(text)| :: ParseOid(IdPart(FindRefs(text)[k])).Some?
  {
    RunParses(db, Converted(text, [], []), order);
    FoundRefsKnown(text);
    forall k | 0 <= k < |FindRefs(text)| ensures FindRefs(text)[k] in order {
      assert FindRefs(text)[k] in FindRefs(text);
    }
  }

  /** Every found reference is known to the loop. */
  lemma FoundRefsKnown(text: string)
    ensures forall k | 0 <= k < |FindRefs(text)| :: Known(FindRefs(text)[k])
  {
    forall k | 0 <= k < |FindRefs(text)|
      ensures Known(FindRefs(text)[k])
    {
      var x := FindRefs(text)[k];
      var t :| 0 <= t < |TAGS| && RefWithTag(x, TAGS[t]);
      RefSplits(x, TAGS[t]);
    }
  }

  /** A reference splits at its tag. */
  lemma RefSplits(x: string, tag: string)
    requires tag in TAGS && RefWithTag(x, tag)
    ensures SplitRef(x).Some? && SplitRef(x).value.0 == tag
  {
    assert x == tag + [':'] + x[|tag| + 1..] by {
      assert x[..|tag| + 1] == tag + ":";
    }
    IndexOfAfter(tag, ':', x[|tag| + 1..]);
  }

  /** The first `c` of `a + [c] + b` is the one after `a`, when `a` has none. */
  lemma {:induction false} IndexOfAfter(a: string, c: char, b: string)
    requires c !in a
    ensures Text.IndexOf(a + [c] + b, c) == |a|
  {
    if |a| > 0 {
      assert (a + [c] + b)[1..] == a[1..] + [c] + b;
      IndexOfAfter(a[1..], c, b);
    }
  }

  /** Text citing nothing comes back unchanged with no citations. */
  lemma NothingCited(db: Db, text: string)
    requires '[' !in text
    ensures Convert(db, text, []) == Success(Converted(text, [], []))
  {
  }

  // ---------------------------------------------------------------- messages

  datatype Message = Message(role: string, content: string)

  /** `add_user_query`: a missing history counts as empty; the query is
      appended as a user message and the input box is cleared. */
  function AddUserQuery(history: Option<seq<Message>>, query: string): (r: (seq<Message>, string))
    ensures history.Some? ==> |r.0| == |history.value| + 1 && r.0[..|history.value|] == history.value
    ensures history.None? ==> |r.0| == 1
    ensures r.0[|r.0| - 1] == Message("user", query) && r.1 == ""
  {
    var h := if history.Some? then history.value else [];
    (h + [Message("user", query)], "")
  }

  /** The renumbering of every earlier message of the turn. */
  function RenumberAll(msgs: seq<Message>, refs: seq<string>): (r: seq<Message>)
    ensures |r| == |msgs|
    ensures forall i | 0 <= i < |r| :: r[i].role == msgs[i].role && r[i].content == Renumber(msgs[i].content, refs, 1)
  {
    seq(|msgs|, i requires 0 <= i < |msgs| => Message(msgs[i].role, Renumber(msgs[i].content, refs, 1)))
  }

  /** The final answer and an earlier message with the same text end up the
      same: both are numbered by the one list of replaced references. */
  lemma SameNumbering(db: Db, text: string, order: seq<string>, msgs: seq<Message>, i: nat)
    requires forall a, b | 0 <= a < b < |order| :: order[a] != order[b]
    requires forall x :: x in order <==> x in FindRefs(text)
    requires Convert(db, text, order).Success?
    requires i < |msgs| && msgs[i].content == text
    ensures RenumberAll(msgs, Convert(db, text, order).value.replaced)[i].content == Convert(db, text, order).value.text
  {
  }
}

=== FILE: manager.dfy ===
/** `ModelManager` of `remind/domain/models.py`: model descriptors stored in
    the `model` collection are turned into provider wrapper instances, which
    are cached by id and keyword arguments; the default model of each role is
    read from the `DefaultModels` record.

    The manager is a process-wide singleton; here its state is a value that
    every operation takes and returns.  Building a wrapper instance only
    records what it was built from: the provider SDKs are not modelled. */
module Manager {
  import opened Wrappers
  import opened Store
  import Objects
  import Records
  import Catalog

  /** A wrapper instance: the (type, provider) entry of the class map it was
      built from, `model_name`, and the keyword arguments as `str(kwargs)`
      renders them. */
  datatype ModelInst = ModelInst(mtype: string, provider: string, name: string, kwargs: string)

  /** The `isinstance` test on a cached instance: language, embedding,
      speech-to-text and text-to-speech wrappers pass; vision wrappers, whose
      base class is not in the tuple, do not. */
  predicate Servable(x: ModelInst) {
    x.mtype in {Catalog.LANGUAGE, Catalog.EMBEDDING, Catalog.SPEECH_TO_TEXT, Catalog.TEXT_TO_SPEECH}
  }

  /** `_model_cache` and `_default_models`. */
  datatype Mgr = Mgr(cache: map<string, ModelInst>, defaults: Records.Inst)

  /** The defaults are a fully built `DefaultModels` instance. */
  predicate MgrWellFormed(m: Mgr) {
    Records.WellFormed(Records.DefaultModels, m.defaults)
  }

  /** `str(model_id)`: the hexadecimal text of an ObjectId, or the string. */
  function IdArgText(id: Objects.IdArg): string {
    match id
    case ObjectIdArg(n) => OidText(n)
    case TextArg(s) => s
  }

  /** `f"{model_id}:{str(kwargs)}"` */
  function CacheKey(id: Objects.IdArg, kw: string): string {
    IdArgText(id) + ":" + kw
  }

  /** The string held by a string field (the empty string otherwise). */
  function Str(v: Value): string {
    if v.VStr? then v.s else ""
  }

  /** `ModelManager.get_model`.  An empty id gives None without any lookup.
      A cached instance is returned (after the `isinstance` test) without
      reading the store.  Otherwise the descriptor is loaded with
      `Model.get` (any failure there is a not-found error), its type and
      provider are checked against the class map, and the new instance is
      cached under the key. */
  function GetModel(m: Mgr, db: Db, id: Objects.IdArg, kw: string): (r: (Mgr, Result<Option<ModelInst>>))
    ensures !Objects.IdGiven(id) ==> r == (m, Success(None))
    ensures r.1.Failure? ==> r.0 == m && r.1.error in {TypeError, NotFound, ValueError}
    ensures r.0.defaults == m.defaults
    ensures Objects.IdGiven(id) ==> r.1.Failure? || r.1.value.Some?
    ensures Objects.IdGiven(id) && CacheKey(id, kw) in m.cache ==>
      && r.0 == m
      && r.1 == (if Servable(m.cache[CacheKey(id, kw)]) then Success(Some(m.cache[CacheKey(id, kw)])) else Failure(TypeError))
    ensures Objects.IdGiven(id) && CacheKey(id, kw) !in m.cache ==>
      match Objects.Get(db, Objects.Sub(Objects.Model), id)
      case Failure(_) => r.1 == Failure(NotFound)
      case Success(o) =>
        var t := Str(o.At("type"));
        var p := Str(o.At("provider"));
        && (r.1.Failure? <==> !Catalog.Compatible(t, p))
        && (r.1.Failure? ==> r.1.error == ValueError)
        && (r.1.Success? ==>
              && r.1.value == Some(ModelInst(t, p, Str(o.At("name")), kw))
              && r.0.cache == m.cache[CacheKey(id, kw) := ModelInst(t, p, Str(o.At("name")), kw)])
  {
    if !Objects.IdGiven(id) then (m, Success(None))
    else
      var key := CacheKey(id, kw);
      if key in m.cache then
        var cached := m.cache[key];
        if !Servable(cached) then (m, Failure(TypeError)) else (m, Success(Some(cached)))
      else
        match Objects.Get(db, Objects.Sub(Objects.Model), id)
        case Failure(_) => (m, Failure(NotFound))
        case Success(model) => Build(m, key, model, kw)
  }

  /** Lines 70-82 of `get_model`: the loaded descriptor's type and provider
      are checked against the class map, and the new instance is cached. */
  function Build(m: Mgr, key: string, model: Objects.Obj, kw: string): (r: (Mgr, Result<Option<ModelInst>>))
    ensures var t := Str(model.At("type"));
      var p := Str(model.At("provider"));
      && (r.1.Failure? <==> !Catalog.Compatible(t, p))
      && (r.1.Failure? ==> r == (m, Failure(ValueError)))
      && (r.1.Success? ==>
            && r.1.value == Some(ModelInst(t, p, Str(model.At("name")), kw))
            && r.0 == m.(cache := m.cache[key := ModelInst(t, p, Str(model.At("name")), kw)]))
  {
    var t := Str(model.At("type"));
    if t == "" || !Catalog.KnownType(t) then (m, Failure(ValueError))
    else
      var p := Str(model.At("provider"));
      if p !in Catalog.CLASS_MAP[t] then (m, Failure(ValueError))
      else
        var x := ModelInst(t, p, Str(model.At("name")), kw);
        (m.(cache := m.cache[key := x]), Success(Some(x)))
  }

  /** A successful lookup is cached: asking again with the same id and
      arguments returns the same instance and leaves the manager as it is,
      whatever the store now holds. */
  lemma GetModelCachesInstance(m: Mgr, db: Db, db': Db, id: Objects.IdArg, kw: string)
    requires Objects.IdGiven(id)
    requires GetModel(m, db, id, kw).1.Success?
    ensures var (m1, r1) := GetModel(m, db, id, kw);
      && CacheKey(id, kw) in m1.cache
      && (Servable(r1.value.value) ==> GetModel(m1, db', id, kw) == (m1, r1))
      && (!Servable(r1.value.value) ==> GetModel(m1, db', id, kw) == (m1, Failure(TypeError)))
  {
  }

  /** The first request for a vision model succeeds and caches it; every
      later request with the same key fails the `isinstance` test. */
  lemma VisionModelOnlyOnce(m: Mgr, db: Db, db': Db, id: Objects.IdArg, kw: string)
    requires Objects.IdGiven(id)
    requires GetModel(m, db, id, kw).1.Success?
    requires GetModel(m, db, id, kw).1.value.value.mtype == Catalog.VISION
    ensures GetModel(GetModel(m, db, id, kw).0, db', id, kw).1 == Failure(TypeError)
  {
    GetModelCachesInstance(m, db, db', id, kw);
  }

  /** The cache is keyed by text: once an ObjectId has been looked up, its
      hexadecimal text finds the same instance, although that text alone
      never finds a stored descriptor. */
  lemma TextKeySharesCache(m: Mgr, db: Db, n: nat, kw: string)
    requires GetModel(m, db, Objects.ObjectIdArg(n), kw).1.Success?
    requires Servable(GetModel(m, db, Objects.ObjectIdArg(n), kw).1.value.value)
    ensures var (m1, r1) := GetModel(m, db, Objects.ObjectIdArg(n), kw);
      GetModel(m1, db, Objects.TextArg(OidText(n)), kw) == (m1, r1)
    ensures CacheKey(Objects.TextArg(OidText(n)), kw) !in m.cache ==>
      GetModel(m, db, Objects.TextArg(OidText(n)), kw).1 == Failure(NotFound)
  {
    assert CacheKey(Objects.TextArg(OidText(n)), kw) == CacheKey(Objects.ObjectIdArg(n), kw);
    GetModelCachesInstance(m, db, db, Objects.ObjectIdArg(n), kw);
    assert |OidText(n)| > 0;
    Objects.GetTextIdNeverSucceeds(db, Objects.Sub(Objects.Model), OidText(n));
  }

  /** `clear_cache`: the cache is emptied; the defaults are kept. */
  function ClearCache(m: Mgr): (r: Mgr)
    ensures |r.cache| == 0 && r.defaults == m.defaults
  {
    m.(cache := map[])
  }

  /** After the cache is cleared a lookup reads the store again: a
      descriptor that is gone is not found, even if it had been cached. */
  lemma ClearCacheForgets(m: Mgr, db: Db, id: Objects.IdArg, kw: string)
    requires Objects.IdGiven(id)
    requires Objects.Get(db, Objects.Sub(Objects.Model), id).Failure?
    ensures GetModel(ClearCache(m), db, id, kw) == (ClearCache(m), Failure(NotFound))
  {
  }

  /** `refresh_defaults`: `DefaultModels()`, which is the registered
      singleton when there is one and a record loaded from the store
      otherwise.  The cache is untouched. */
  function RefreshDefaults(m: Mgr, reg: Records.Registry, db: Db): (r: (Records.Registry, Result<Mgr>))
    requires Records.RegistryWellFormed(reg)
    ensures r.1.Success? ==> r.1.value.cache == m.cache && MgrWellFormed(r.1.value)
    ensures r.1.Success? ==> (Records.RecordId(Records.DefaultModels) in r.0 &&
      r.0[Records.RecordId(Records.DefaultModels)] == r.1.value.defaults)
    ensures Records.RecordId(Records.DefaultModels) in reg ==>
      r == (reg, Success(m.(defaults := reg[Records.RecordId(Records.DefaultModels)])))
    ensures r.1.Failure? ==> r.1.error == ValidationError && r.0 == reg
  {
    var rid := Records.RecordId(Records.DefaultModels);
    var (reg1, res) := Records.New(reg, db, Records.DefaultModels, []);
    match res
    case Failure(e) => (reg1, Failure(e))
    case Success(i) =>
      Records.NewKeepsWellFormed(reg, db, Records.DefaultModels, []);
      assert rid in reg ==> reg1 == reg by {
        if rid in reg {
          assert reg[rid := reg[rid]] == reg;
        }
      }
      (reg1, Success(m.(defaults := i)))
  }

  // ---------------------------------------------------------------- defaults

  /** Python truthiness of an id value, and the `get_model` argument it
      stands for: None is false, an ObjectId is always true. */
  function IdArgOf(v: Value): (r: Option<Objects.IdArg>)
    ensures r.Some? ==> Objects.IdGiven(r.value)
    ensures v.VOid? ==> r == Some(Objects.ObjectIdArg(v.oid))
    ensures v == VNull ==> r.None?
  {
    match v
    case VOid(n) => Some(Objects.ObjectIdArg(n))
    case VStr(s) => if |s| > 0 then Some(Objects.TextArg(s)) else None
    case _ => None
  }

  /** Reading a declared slot of the defaults. */
  function Slot(m: Mgr, k: string): Value {
    if k in m.defaults.fields then m.defaults.fields[k] else VNull
  }

  /** The slot `get_default_model` reads for each role of its own. */
  function OwnSlot(role: string): Option<string> {
    if role == "chat" then Some(Records.CHAT_SLOT)
    else if role == "transformation" then Some(Records.TRANSFORMATION_SLOT)
    else if role == "tools" then Some(Records.TOOLS_SLOT)
    else if role == "embedding" then Some(Records.EMBEDDING_SLOT)
    else if role == "text_to_speech" then Some(Records.TEXT_TO_SPEECH_SLOT)
    else if role == "speech_to_text" then Some(Records.SPEECH_TO_TEXT_SLOT)
    else if role == "large_context" then Some(Records.LARGE_CONTEXT_SLOT)
    else None
  }

  /** The id `get_default_model` settles on: the role's own slot, with the
      transformation and tools roles falling back to the chat slot (`a or
      b`); no id for a role it does not know. */
  function DefaultId(m: Mgr, role: string): (r: Option<Objects.IdArg>)
    ensures OwnSlot(role).None? ==> r.None?
    ensures OwnSlot(role).Some? && IdArgOf(Slot(m, OwnSlot(role).value)).Some? ==>
      r == IdArgOf(Slot(m, OwnSlot(role).value))
    ensures OwnSlot(role).Some? && IdArgOf(Slot(m, OwnSlot(role).value)).None? ==>
      r == (if role in {"transformation", "tools"} then IdArgOf(Slot(m, Records.CHAT_SLOT)) else None)
  {
    if role == "chat" then IdArgOf(Slot(m, Records.CHAT_SLOT))
    else if role == "transformation" then Or(Slot(m, Records.TRANSFORMATION_SLOT), Slot(m, Records.CHAT_SLOT))
    else if role == "tools" then Or(Slot(m, Records.TOOLS_SLOT), Slot(m, Records.CHAT_SLOT))
    else if role == "embedding" then IdArgOf(Slot(m, Records.EMBEDDING_SLOT))
    else if role == "text_to_speech" then IdArgOf(Slot(m, Records.TEXT_TO_SPEECH_SLOT))
    else if role == "speech_to_text" then IdArgOf(Slot(m, Records.SPEECH_TO_TEXT_SLOT))
    else if role == "large_context" then IdArgOf(Slot(m, Records.LARGE_CONTEXT_SLOT))
    else None
  }

  /** `a or b` on two id values. */
  function Or(a: Value, b: Value): (r: Option<Objects.IdArg>)
    ensures IdArgOf(a).Some? ==> r == IdArgOf(a)
    ensures IdArgOf(a).None? ==> r == IdArgOf(b)
  {
    if IdArgOf(a).Some? then IdArgOf(a) else IdArgOf(b)
  }

  /** `get_default_model`, with the large-context role reading the slot
      `DefaultModels` declares: no id gives None, otherwise `get_model`. */
  function GetDefaultModel(m: Mgr, db: Db, role: string, kw: string): (r: (Mgr, Result<Option<ModelInst>>))
    ensures DefaultId(m, role).None? ==> r == (m, Success(None))
    ensures DefaultId(m, role).Some? ==> r == GetModel(m, db, DefaultId(m, role).value, kw)
    ensures OwnSlot(role).None? ==> r == (m, Success(None))
  {
    match DefaultId(m, role)
    case None => (m, Success(None))
    case Some(id) => GetModel(m, db, id, kw)
  }

  /** With its own slot unset, the transformation or tools role gets the
      chat model; with it set, the chat slot plays no part. */
  lemma FallbackToChat(m: Mgr, db: Db, role: string, kw: string)
    requires role == "transformation" || role == "tools"
    ensures IdArgOf(Slot(m, OwnSlot(role).value)).None? ==>
      GetDefaultModel(m, db, role, kw) == GetDefaultModel(m, db, "chat", kw)
    ensures IdArgOf(Slot(m, OwnSlot(role).value)).Some? ==>
      GetDefaultModel(m, db, role, kw) == GetModel(m, db, IdArgOf(Slot(m, OwnSlot(role).value)).value, kw)
  {
  }

  /** Attribute access on the defaults instance: a declared field, else an
      extra attribute, else `AttributeError`. */
  function Attr(i: Records.Inst, k: string): (r: Result<Value>)
    ensures r.Failure? <==> k !in i.fields && k !in i.extra
    ensures r.Failure? ==> r.error == AttributeError
  {
    if k in i.fields then Success(i.fields[k])
    else if k in i.extra then Success(i.extra[k])
    else Failure(AttributeError)
  }

  /** `get_default_model` as written: the large-context branch reads the
      attribute `large_context_model`, which `DefaultModels` does not
      declare, so it exists only as an extra attribute of the stored
      record; the other roles are as in `GetDefaultModel`. */
  function GetDefaultModelAsWritten(m: Mgr, db: Db, role: string, kw: string): (r: (Mgr, Result<Option<ModelInst>>))
    requires MgrWellFormed(m)
    ensures role != "large_context" ==> r == GetDefaultModel(m, db, role, kw)
    ensures role == "large_context" ==> ("large_context_model" !in m.defaults.extra <==> r == (m, Failure(AttributeError)))
  {
    if role == "large_context" then
      match Attr(m.defaults, "large_context_model")
      case Failure(e) => (m, Failure(e))
      case Success(v) =>
        match IdArgOf(v)
        case None => (m, Success(None))
        case Some(id) =>
          var r := GetModel(m, db, id, kw);
          assert r.1 != Failure(AttributeError);
          r
    else GetDefaultModel(m, db, role, kw)
  }

  /** The attribute name is declared nowhere: with a large-context default
      configured and nothing extra on the record, the code as written fails
      where the intended reading returns the configured model. */
  lemma LargeContextAttributeMissing(m: Mgr, db: Db, kw: string)
    requires MgrWellFormed(m)
    requires "large_context_model" !in m.defaults.extra
    ensures GetDefaultModelAsWritten(m, db, "large_context", kw) == (m, Failure(AttributeError))
    ensures IdArgOf(Slot(m, Records.LARGE_CONTEXT_SLOT)).Some? ==>
      GetDefaultModel(m, db, "large_context", kw) == GetModel(m, db, IdArgOf(Slot(m, Records.LARGE_CONTEXT_SLOT)).value, kw)
  {
  }

  /** The `speech_to_text`, `text_to_speech` and `embedding_model`
      properties: the slot's model through `get_model` with no keyword
      arguments, asserted to be of the expected type.  The instance is
      cached before the assertion is checked. */
  function Typed(m: Mgr, db: Db, slot: string, want: string): (r: (Mgr, Result<Option<ModelInst>>))
    ensures IdArgOf(Slot(m, slot)).None? ==> r == (m, Success(None))
    ensures r.1.Success? && r.1.value.Some? ==> r.1.value.value.mtype == want
    ensures IdArgOf(Slot(m, slot)).Some? ==>
      var g := GetModel(m, db, IdArgOf(Slot(m, slot)).value, "{}");
      && r.0 == g.0
      && (g.1.Failure? ==> r.1 == g.1)
      && (g.1.Success? ==> (r.1.Success? <==> g.1.value.value.mtype == want))
      && (g.1.Success? && r.1.Failure? ==> r.1.error == AssertionError)
  {
    match IdArgOf(Slot(m, slot))
    case None => (m, Success(None))
    case Some(id) =>
      var (m1, res) := GetModel(m, db, id, "{}");
      match res
      case Failure(e) => (m1, Failure(e))
      case Success(None) => (m1, Success(None))
      case Success(Some(x)) => if x.mtype == want then (m1, Success(Some(x))) else (m1, Failure(AssertionError))
  }

  function SpeechToText(m: Mgr, db: Db): (r: (Mgr, Result<Option<ModelInst>>))
    ensures r.1.Success? && r.1.value.Some? ==> r.1.value.value.mtype == Catalog.SPEECH_TO_TEXT
    ensures IdArgOf(Slot(m, Records.SPEECH_TO_TEXT_SLOT)).None? ==> r == (m, Success(None))
  {
    Typed(m, db, Records.SPEECH_TO_TEXT_SLOT, Catalog.SPEECH_TO_TEXT)
  }

  function TextToSpeech(m: Mgr, db: Db): (r: (Mgr, Result<Option<ModelInst>>))
    ensures r.1.Success? && r.1.value.Some? ==> r.1.value.value.mtype == Catalog.TEXT_TO_SPEECH
    ensures IdArgOf(Slot(m, Records.TEXT_TO_SPEECH_SLOT)).None? ==> r == (m, Success(None))
  {
    Typed(m, db, Records.TEXT_TO_SPEECH_SLOT, Catalog.TEXT_TO_SPEECH)
  }

  function EmbeddingModel(m: Mgr, db: Db): (r: (Mgr, Result<Option<ModelInst>>))
    ensures r.1.Success? && r.1.value.Some? ==> r.1.value.value.mtype == Catalog.EMBEDDING
    ensures IdArgOf(Slot(m, Records.EMBEDDING_SLOT)).None? ==> r == (m, Success(None))
  {
    Typed(m, db, Records.EMBEDDING_SLOT, Catalog.EMBEDDING)
  }

  /** `Model.get_models_by_type`: every stored descriptor whose `type` is
      the given one, in stored order; a document that does not validate
      makes the whole call fail. */
  function ModelsByType(db: Db, t: string): (r: Result<seq<Objects.Obj>>)
    ensures r.Failure? ==> r.error == ValidationError
    ensures r.Success? ==> |r.value| == |Query(db, Objects.TableName(Objects.Model), [Eq("type", VStr(t))])|
    ensures r.Success? ==> forall i | 0 <= i < |r.value| ::
      && r.value[i].kind == Objects.Model
      && Objects.Construct(Objects.Model, Query(db, Objects.TableName(Objects.Model), [Eq("type", VStr(t))])[i]) == Success(r.value[i])
  {
    ConstructModels(Query(db, Objects.TableName(Objects.Model), [Eq("type", VStr(t))]))
  }

  function ConstructModels(docs: seq<Doc>): (r: Result<seq<Objects.Obj>>)
    ensures r.Failure? <==> exists d | d in docs :: Objects.Construct(Objects.Model, d).Failure?
    ensures r.Failure? ==> r.error == ValidationError
    ensures r.Success? ==> |r.value| == |docs| && forall i | 0 <= i < |docs| ::
      Objects.Construct(Objects.Model, docs[i]) == Success(r.value[i]) && r.value[i].kind == Objects.Model
  {
    var r := MapAll(d => Objects.Construct(Objects.Model, d), docs);
    assert r.Failure? ==> exists d | d in docs :: Objects.Construct(Objects.Model, d).Failure?;
    r
  }
}

=== FILE: modelstab.dfy ===
/** The model-administration tab, `remind/webui/tabs/models.py`: which
    providers the environment enables, which model types the add form offers
    for a provider, deleting a model (clearing the default slots that name
    it), and saving the default-model choices.  The tab's `default_models`
    is the `DefaultModels` singleton of the registry; the environment is the
    set of variable names that are set. */
module ModelsTab {
  import opened Wrappers
  import opened Store
  import Objects
  import Records
  import Catalog
  import Manager
  import Selector
  import Sorting

  // ---------------------------------------------------------------- providers

  /** The providers the tab reports on, in `provider_status` insertion
      order. */
  datatype Provider =
    | Ollama | OpenAI | Groq | XAI | VertexAI | VertexAIAnthropic | Gemini
    | OpenRouter | Anthropic | ElevenLabs | LiteLLM | Chatterbox | Parakeet

  const PROVIDERS: seq<Provider> := [Ollama, OpenAI, Groq, XAI, VertexAI, VertexAIAnthropic, Gemini,
                                     OpenRouter, Anthropic, ElevenLabs, LiteLLM, Chatterbox, Parakeet]

  /** The dict key of a provider, the name `MODEL_CLASS_MAP` uses. */
  function Name(p: Provider): string {
    match p
    case Ollama => "ollama"
    case OpenAI => "openai"
    case Groq => "groq"
    case XAI => "xai"
    case VertexAI => "vertexai"
    case VertexAIAnthropic => "vertexai-anthropic"
    case Gemini => "gemini"
    case OpenRouter => "openrouter"
    case Anthropic => "anthropic"
    case ElevenLabs => "elevenlabs"
    case LiteLLM => "litellm"
    case Chatterbox => "chatterbox"
    case Parakeet => "parakeet"
  }

  /** The three variables both Vertex AI providers need. */
  const VERTEX_VARS: set<string> := {"VERTEX_PROJECT", "VERTEX_LOCATION", "GOOGLE_APPLICATION_CREDENTIALS"}

  /** The three variables OpenRouter needs. */
  const OPENROUTER_VARS: set<string> := {"OPENROUTER_API_KEY", "OPENAI_API_KEY", "OPENROUTER_BASE_URL"}

  /** The providers `litellm` can route to, in the order the code tests
      them. */
  const LITELLM_BACKENDS: seq<Provider> := [Ollama, VertexAI, VertexAIAnthropic, Anthropic, OpenAI, Gemini]

  /** `provider_status[p]` for the environment `env` (the names of the
      variables that are set).  `litellm` reads the statuses computed before
      it. */
  function Status(env: set<string>, p: Provider): bool
    decreases if p == LiteLLM then 1 else 0
  {
    match p
    case Ollama => "OLLAMA_API_BASE" in env
    case OpenAI => "OPENAI_API_KEY" in env
    case Groq => "GROQ_API_KEY" in env
    case XAI => "XAI_API_KEY" in env
    case VertexAI => VERTEX_VARS <= env
    case VertexAIAnthropic => VERTEX_VARS <= env
    case Gemini => "GEMINI_API_KEY" in env
    case OpenRouter => OPENROUTER_VARS <= env
    case Anthropic => "ANTHROPIC_API_KEY" in env
    case ElevenLabs => "ELEVENLABS_API_KEY" in env
    case LiteLLM =>
      Status(env, Ollama) || Status(env, VertexAI) || Status(env, VertexAIAnthropic)
      || Status(env, Anthropic) || Status(env, OpenAI) || Status(env, Gemini)
    case Chatterbox => true
    case Parakeet => true
  }

  /** `[k for k, v in provider_status.items() if v == want]` over the keys
      `ps`: the available providers for `want == true`, the unavailable ones
      for `false`. */
  function WithStatus(env: set<string>, ps: seq<Provider>, want: bool): (r: seq<Provider>)
    ensures forall p :: p in r <==> p in ps && Status(env, p) == want
    decreases |ps|
  {
    if |ps| == 0 then []
    else
      assert ps == [ps[0]] + ps[1..];
      (if Status(env, ps[0]) == want then [ps[0]] else []) + WithStatus(env, ps[1..], want)
  }

  function Available(env: set<string>): seq<Provider> {
    WithStatus(env, PROVIDERS, true)
  }

  function Unavailable(env: set<string>): seq<Provider> {
    WithStatus(env, PROVIDERS, false)
  }

  /** The two comprehensions split the keys between them: together they
      hold each key exactly as often as the dict does. */
  lemma {:induction false} StatusPartition(env: set<string>, ps: seq<Provider>)
    ensures multiset(WithStatus(env, ps, true)) + multiset(WithStatus(env, ps, false)) == multiset(ps)
    decreases |ps|
  {
    if |ps| > 0 {
      StatusPartition(env, ps[1..]);
      assert ps == [ps[0]] + ps[1..];
      WithStatusHead(env, ps, true);
      WithStatusHead(env, ps, false);
    }
  }

  /** The head of the list joins the side its status picks. */
  lemma WithStatusHead(env: set<string>, ps: seq<Provider>, want: bool)
    requires |ps| > 0
    ensures multiset(WithStatus(env, ps, want))
      == (if Status(env, ps[0]) == want then multiset{ps[0]} else multiset{}) + multiset(WithStatus(env, ps[1..], want))
  {
    assert WithStatus(env, ps, want) == (if Status(env, ps[0]) == want then [ps[0]] else []) + WithStatus(env, ps[1..], want);
  }

  /** Every provider is listed exactly once, as available when its status
      holds and as unavailable otherwise. */
  lemma ProvidersPartitioned(env: set<string>, p: Provider)
    ensures p in Available(env) <==> Status(env, p)
    ensures p in Unavailable(env) <==> !Status(env, p)
  {
    AllListed(p);
  }

  /** The dict has an entry for every provider. */
  lemma AllListed(p: Provider)
    ensures p in PROVIDERS
  {
    var i := match p
      case Ollama => 0 case OpenAI => 1 case Groq => 2 case XAI => 3 case VertexAI => 4
      case VertexAIAnthropic => 5 case Gemini => 6 case OpenRouter => 7 case Anthropic => 8
      case ElevenLabs => 9 case LiteLLM => 10 case Chatterbox => 11 case Parakeet => 12;
    assert PROVIDERS[i] == p;
  }

  /** `litellm` is available exactly when one of the providers it routes to
      is; `chatterbox` and `parakeet` need nothing. */
  lemma LitellmAvailability(env: set<string>)
    ensures Status(env, LiteLLM) <==> exists q | q in LITELLM_BACKENDS :: Status(env, q)
    ensures Status(env, Chatterbox) && Status(env, Parakeet)
  {
    if Status(env, LiteLLM) {
      var q :| q in LITELLM_BACKENDS && Status(env, q) by {
        if Status(env, Ollama) { assert LITELLM_BACKENDS[0] == Ollama; }
        else if Status(env, VertexAI) { assert LITELLM_BACKENDS[1] == VertexAI; }
        else if Status(env, Anthropic) { assert LITELLM_BACKENDS[3] == Anthropic; }
        else if Status(env, OpenAI) { assert LITELLM_BACKENDS[4] == OpenAI; }
        else { assert LITELLM_BACKENDS[5] == Gemini; }
      }
    }
  }

  /** OpenRouter needs all three of its variables, and each Vertex AI
      provider all three of Vertex's: one missing variable disables it. */
  lemma ThreeVariableProviders(env: set<string>, v: string)
    ensures v in OPENROUTER_VARS && v !in env ==> !Status(env, OpenRouter)
    ensures v in VERTEX_VARS && v !in env ==> !Status(env, VertexAI) && !Status(env, VertexAIAnthropic)
    ensures Status(env, OpenRouter) <==> OPENROUTER_VARS <= env
    ensures Status(env, VertexAI) <==> VERTEX_VARS <= env
  {
  }

  // ---------------------------------------------------------------- add form

  /** `model_types`: the form's own order, which differs from the map's. */
  const FORM_TYPES: seq<string> := [Catalog.LANGUAGE, Catalog.VISION, Catalog.EMBEDDING,
                                    Catalog.TEXT_TO_SPEECH, Catalog.SPEECH_TO_TEXT]

  /** Position of a type in the form's order; 5 for anything else. */
  function Rank(t: string): nat {
    if t == Catalog.LANGUAGE then 0
    else if t == Catalog.VISION then 1
    else if t == Catalog.EMBEDDING then 2
    else if t == Catalog.TEXT_TO_SPEECH then 3
    else if t == Catalog.SPEECH_TO_TEXT then 4
    else 5
  }

  /** The entries of `ts` that `keep` accepts, in order. */
  function Keep(ts: seq<string>, keep: string -> bool): (r: seq<string>)
    ensures forall t :: t in r <==> t in ts && keep(t)
    decreases |ts|
  {
    if |ts| == 0 then []
    else
      var rest := Keep(ts[1..], keep);
      assert forall t | t in ts[1..] :: t in ts;
      assert ts == [ts[0]] + ts[1..];
      (if keep(ts[0]) then [ts[0]] else []) + rest
  }
  /** Strictly increasing in `rank`. */
  predicate Ordered(ts: seq<string>, rank: string -> nat) {
    forall i, j | 0 <= i < j < |ts| :: rank(ts[i]) < rank(ts[j])
  }

  /** Filtering keeps the order of what it keeps. */
  lemma {:induction false} KeepOrdered(ts: seq<string>, keep: string -> bool, rank: string -> nat)
    requires Ordered(ts, rank)
    ensures Ordered(Keep(ts, keep), rank)
    decreases |ts|
  {
    if |ts| > 0 {
      KeepOrdered(ts[1..], keep, rank);
      var rest := Keep(ts[1..], keep);
      var r := Keep(ts, keep);
      assert r == (if keep(ts[0]) then [ts[0]] else []) + rest;
      if keep(ts[0]) {
        forall t | t in rest ensures rank(ts[0]) < rank(t) {
          var k :| 0 <= k < |ts[1..]| && ts[1..][k] == t;
          assert ts[k + 1] == t;
        }
        ConsOrdered(ts[0], rest, rank);
      } else {
        assert r == rest;
      }
    }
  }

  /** An element ranked below everything in an ordered list extends it. */
  lemma ConsOrdered(h: string, t: seq<string>, rank: string -> nat)
    requires Ordered(t, rank)
    requires forall x | x in t :: rank(h) < rank(x)
    ensures Ordered([h] + t, rank)
  {
    var r := [h] + t;
    forall i, j | 0 <= i < j < |r| ensures rank(r[i]) < rank(r[j]) {
      assert r[j] == t[j - 1];
      if i > 0 { assert r[i] == t[i - 1]; }
    }
  }

  /** The add form's type choices for a provider: exactly the form's types
      whose map entry lists the provider, in the form's order. */
  function TypesFor(provider: string): (r: seq<string>)
    ensures forall t :: t in r <==> t in FORM_TYPES && Catalog.Compatible(t, provider)
    ensures Ordered(r, Rank)
  {
    var keep := t => Catalog.Compatible(t, provider);
    assert Ordered(FORM_TYPES, Rank);
    KeepOrdered(FORM_TYPES, keep, Rank);
    Keep(FORM_TYPES, keep)
  }

  /** Every valid model type appears on the form. */
  lemma FormCoversCatalog(t: string)
    ensures Catalog.KnownType(t) <==> t in FORM_TYPES
  {
  }

  /** ElevenLabs, which the tab lists as a provider, is offered no type at
      all, and Chatterbox text-to-speech only. */
  lemma SingleProviderForms(t: string)
    ensures t !in TypesFor(Name(ElevenLabs))
    ensures t in TypesFor(Name(Chatterbox)) <==> t == Catalog.TEXT_TO_SPEECH
  {
    NoTypeForElevenLabs(t);
    ChatterboxSpeaksOnly(t);
  }

  lemma NoTypeForElevenLabs(t: string)
    ensures !Catalog.Compatible(t, Name(ElevenLabs))
  {
  }

  lemma ChatterboxSpeaksOnly(t: string)
    ensures t in FORM_TYPES && Catalog.Compatible(t, Name(Chatterbox)) <==> t == Catalog.TEXT_TO_SPEECH
  {
  }

  // ---------------------------------------------------------------- delete

  /** The state the tab works on: the record registry (which holds the tab's
      `default_models`), the database and the model manager. */
  datatype TabState = TabState(reg: Records.Registry, db: Db, mgr: Manager.Mgr)

  /** Key of the `DefaultModels` singleton in the registry. */
  const DEFAULTS_ID := Records.RecordId(Records.DefaultModels)

  /** `value in vars(default_models).values()`: some declared slot holds
      `v` (extra attributes are not in `vars`). */
  predicate HoldsId(fields: Doc, v: Value) {
    exists k | k in fields :: fields[k] == v
  }

  /** The loop's assignments: every declared slot equal to `v` set to None. */
  function ClearSlots(fields: Doc, v: Value): (r: Doc)
    ensures r.Keys == fields.Keys
  {
    map k | k in fields :: if fields[k] == v then VNull else fields[k]
  }

  /** The tab's state is usable: `default_models` exists, every registered
      instance is fully built, and the manager's `defaults` is that same
      singleton. */
  predicate Ready(s: TabState) {
    DEFAULTS_ID in s.reg && Records.RegistryWellFormed(s.reg) && s.mgr.defaults == s.reg[DEFAULTS_ID]
  }

  /** `default_models` changed in place to `i`: the registry and the manager
      hold the same object, so both see the change. */
  function Changed(s: TabState, i: Records.Inst): (r: TabState)
    requires Ready(s) && Records.WellFormed(Records.DefaultModels, i)
    ensures Ready(r) && r.reg[DEFAULTS_ID] == i && r.db == s.db && r.mgr.cache == s.mgr.cache
  {
    RegisterDefaults(s.reg, i);
    TabState(s.reg[DEFAULTS_ID := i], s.db, s.mgr.(defaults := i))
  }

  /** Clearing slots keeps the instance well formed. */
  lemma ClearKeepsWellFormed(i: Records.Inst, v: Value)
    requires Records.WellFormed(Records.DefaultModels, i)
    ensures Records.WellFormed(Records.DefaultModels, i.(fields := ClearSlots(i.fields, v)))
  {
    var f := ClearSlots(i.fields, v);
    forall k | k in f ensures Objects.Coerce(f[k], Records.FieldType(Records.DefaultModels, k).value) == Some(f[k]) {
      if i.fields[k] == v {
        Records.DefaultKept(Records.DefaultModels, k);
      }
    }
  }

  /** The record's own keys are not slots. */
  lemma SlotsAreNotKeys()
    ensures Records.RECORD_ID_KEY !in Records.FieldNames(Records.DefaultModels)
    ensures ID_KEY !in Records.FieldNames(Records.DefaultModels)
  {
  }

  /** Model records live in another collection than the record store. */
  lemma TablesApart(k: Objects.Kind)
    ensures Objects.TableName(k) != Records.RECORD_TABLE
  {
  }

  /** `update` hands back a well-formed instance with the same slots. */
  lemma UpdateKeepsInstance(db: Db, i: Records.Inst)
    requires Records.WellFormed(Records.DefaultModels, i)
    requires Records.Update(db, Records.DefaultModels, i).1.Success?
    ensures var (db1, r) := Records.Update(db, Records.DefaultModels, i);
      && r.value.fields == i.fields
      && Records.WellFormed(Records.DefaultModels, r.value)
      && Records.Stored(db1, Records.DefaultModels).Some?
      && forall k | k in i.fields :: k in Records.Stored(db1, Records.DefaultModels).value &&
           Records.Stored(db1, Records.DefaultModels).value[k] == i.fields[k]
  {
    SlotsAreNotKeys();
    Records.UpdateStoresFields(db, Records.DefaultModels, i);
  }

  /** Registering a well-formed `default_models` keeps the registry well
      formed. */
  lemma RegisterDefaults(reg: Records.Registry, i: Records.Inst)
    requires Records.RegistryWellFormed(reg) && Records.WellFormed(Records.DefaultModels, i)
    ensures Records.RegistryWellFormed(reg[DEFAULTS_ID := i])
  {
    var reg1 := reg[DEFAULTS_ID := i];
    forall c: Records.RecordClass | Records.RecordId(c) in reg1
      ensures Records.WellFormed(c, reg1[Records.RecordId(c)])
    {
      if c != Records.DefaultModels {
        assert Records.RecordId(c) != DEFAULTS_ID;
      }
    }
  }

  /** `update()` then `refresh_defaults()` after `default_models` has been
      changed to `i`.  The instance is changed in place, so a failed write
      still leaves it registered. */
  function Persist(s: TabState, i: Records.Inst): (r: (TabState, Result<()>))
    requires Ready(s)
    requires Records.WellFormed(Records.DefaultModels, i)
    ensures Ready(r.0) && r.0.reg[DEFAULTS_ID].fields == i.fields && r.0.mgr.cache == s.mgr.cache
    ensures r.1.Success? ==> (
      && Records.Stored(r.0.db, Records.DefaultModels).Some?
      && forall k | k in i.fields :: k in Records.Stored(r.0.db, Records.DefaultModels).value &&
           Records.Stored(r.0.db, Records.DefaultModels).value[k] == i.fields[k])
    ensures forall t | t != Records.RECORD_TABLE :: Docs(r.0.db, t) == Docs(s.db, t)
  {
    var u := Records.Update(s.db, Records.DefaultModels, i);
    if u.1.Failure? then (Changed(s, i), Failure(u.1.error))
    else
      UpdateKeepsInstance(s.db, i);
      RegisterDefaults(s.reg, u.1.value);
      var reg1 := s.reg[DEFAULTS_ID := u.1.value];
      var m := Manager.RefreshDefaults(s.mgr, reg1, u.0).1.value;
      (TabState(reg1, u.0, m), Success(()))
  }

  /** `model.delete()`, the last step of `delete_model`. */
  function DeleteRecord(s: TabState, model: Objects.Obj): (r: (TabState, Result<()>))
    ensures r.0 == s.(db := Objects.Delete(s.db, model).0)
    ensures r.1.Failure? <==> model.Id() == VNull
    ensures r.1.Failure? ==> r.1.error == InvalidInput
    ensures r.1.Success? ==> (
      |Docs(r.0.db, Objects.TableName(model.kind))| ==
      |Docs(s.db, Objects.TableName(model.kind))| - (if IdTaken(Docs(s.db, Objects.TableName(model.kind)), model.Id()) then 1 else 0))
  {
    if model.Id() == VNull then (s, Failure(InvalidInput))
    else
      DeleteCount(s.db, model);
      (s.(db := Objects.Delete(s.db, model).0), Success(()))
  }

  /** `delete` removes one record exactly when some record has the id. */
  lemma DeleteCount(db: Db, model: Objects.Obj)
    requires model.Id() != VNull
    ensures Objects.Delete(db, model).1.Success?
    ensures Objects.Delete(db, model).1.value == 1 <==> IdTaken(Docs(db, Objects.TableName(model.kind)), model.Id())
  {
    var docs := Docs(db, Objects.TableName(model.kind));
    var f := [Eq(ID_KEY, model.Id())];
    if IdTaken(docs, model.Id()) {
      var i :| 0 <= i < |docs| && ID_KEY in docs[i] && docs[i][ID_KEY] == model.Id();
      assert Holds(docs[i], f[0]);
      assert Matches(docs[i], f);
    } else {
      forall j | 0 <= j < |docs| ensures !Matches(docs[j], f) {
        if Matches(docs[j], f) {
          MatchesId(docs[j], model.Id());
        }
      }
    }
  }

  /** `delete_model`: if some declared slot of `default_models` holds the
      model's id, set every such slot to None, write the record and refresh
      the manager's defaults; then delete the model in every case. */
  function DeleteModel(s: TabState, model: Objects.Obj): (r: (TabState, Result<()>))
    requires Ready(s)
    ensures !HoldsId(s.reg[DEFAULTS_ID].fields, model.Id()) ==> r == DeleteRecord(s, model)
    ensures Ready(r.0) && r.0.mgr.cache == s.mgr.cache
    ensures r.1.Success? ==> !HoldsId(r.0.reg[DEFAULTS_ID].fields, model.Id())
    ensures r.1.Success? ==> forall k | k in s.reg[DEFAULTS_ID].fields && s.reg[DEFAULTS_ID].fields[k] != model.Id() ::
      k in r.0.reg[DEFAULTS_ID].fields && r.0.reg[DEFAULTS_ID].fields[k] == s.reg[DEFAULTS_ID].fields[k]
    ensures r.1.Success? ==> (
      && model.Id() != VNull
      && |Docs(r.0.db, Objects.TableName(model.kind))| ==
         |Docs(s.db, Objects.TableName(model.kind))| - (if IdTaken(Docs(s.db, Objects.TableName(model.kind)), model.Id()) then 1 else 0))
  {
    var i := s.reg[DEFAULTS_ID];
    var id := model.Id();
    if !HoldsId(i.fields, id) then
      DeleteRecord(s, model)
    else
      ClearKeepsWellFormed(i, id);
      var p := Persist(s, i.(fields := ClearSlots(i.fields, id)));
      if p.1.Failure? then p
      else
        TablesApart(model.kind);
        DeleteRecord(p.0, model)
  }

  /** Deleting a model no slot names leaves the defaults, the registry and
      the manager exactly as they were. */
  lemma DeleteUnreferencedKeepsDefaults(s: TabState, model: Objects.Obj)
    requires Ready(s) && model.Id() != VNull
    requires forall k | k in Records.SLOTS :: s.reg[DEFAULTS_ID].fields[k] != model.Id()
    ensures DeleteModel(s, model) == (s.(db := Objects.Delete(s.db, model).0), Success(()))
  {
    assert Records.WellFormed(Records.DefaultModels, s.reg[DEFAULTS_ID]);
    assert !HoldsId(s.reg[DEFAULTS_ID].fields, model.Id());
  }

  /** Deleting the same model twice: the second call finds no slot naming
      it, so it only deletes. */
  lemma DeleteTwiceOnlyDeletes(s: TabState, model: Objects.Obj)
    requires Ready(s) && DeleteModel(s, model).1.Success?
    ensures var s1 := DeleteModel(s, model).0;
      DeleteModel(s1, model) == DeleteRecord(s1, model)
  {
  }

  // ---------------------------------------------------------------- save

  /** The attribute `save_default_models` assigns for the vision choice.
      `DefaultModels` declares no such slot, so it becomes an extra attribute,
      which `update` does not write and `delete_model` does not see. */
  const VISION_ATTR := "default_vision_model"

  /** The assignments of `save_default_models`, in source order: the
      attribute and the model type its dropdown lists. */
  const SAVE_ORDER: seq<(string, string)> := [
    (Records.CHAT_SLOT, Catalog.LANGUAGE),
    (Records.TRANSFORMATION_SLOT, Catalog.LANGUAGE),
    (Records.TOOLS_SLOT, Catalog.LANGUAGE),
    (Records.LARGE_CONTEXT_SLOT, Catalog.LANGUAGE),
    (VISION_ATTR, Catalog.VISION),
    (Records.TEXT_TO_SPEECH_SLOT, Catalog.TEXT_TO_SPEECH),
    (Records.SPEECH_TO_TEXT_SLOT, Catalog.SPEECH_TO_TEXT),
    (Records.EMBEDDING_SLOT, Catalog.EMBEDDING)]

  /** The id of the model a key selects, or None (a model object is always
      truthy). */
  function Chosen(db: Db, key: string, t: string): Result<Value> {
    match Selector.GetModelFromKey(db, key, t)
    case Failure(e) => Failure(e)
    case Success(None) => Success(VNull)
    case Success(Some(o)) => Success(o.Id())
  }

  /** What assigning `v` to attribute `k` leaves there: a declared slot
      holds the validated id, an extra attribute the value as given. */
  function AfterAssign(k: string, v: Value): Value {
    if k in Records.SLOTS then
      match Objects.Coerce(v, Objects.TOptOid) case Some(w) => w case None => v
    else v
  }

  /** The value an attribute holds: a declared slot or an extra attribute. */
  function AttrOf(i: Records.Inst, k: string): Option<Value> {
    if k in i.fields then Some(i.fields[k]) else if k in i.extra then Some(i.extra[k]) else None
  }

  /** No attribute is assigned twice. */
  predicate DistinctAttrs(attrs: seq<string>) {
    forall j, j' | 0 <= j < j' < |attrs| :: attrs[j] != attrs[j']
  }

  /** The lookups of the dropdown keys, one per assignment.  They only read
      the database, so doing them ahead of the assignments changes nothing. */
  function Choices(db: Db, types: seq<string>, keys: seq<string>): (r: seq<Result<Value>>)
    requires |keys| == |types|
    ensures |r| == |types| && forall j | 0 <= j < |types| :: r[j] == Chosen(db, keys[j], types[j])
    decreases |types|
  {
    if |types| == 0 then [] else [Chosen(db, keys[0], types[0])] + Choices(db, types[1..], keys[1..])
  }

  /** Every assignment succeeded and its attribute holds what it
      assigned. */
  predicate Assigned(i: Records.Inst, attrs: seq<string>, vals: seq<Result<Value>>)
    requires |vals| == |attrs|
  {
    forall j | 0 <= j < |attrs| :: vals[j].Success? && AttrOf(i, attrs[j]) == Some(AfterAssign(attrs[j], vals[j].value))
  }

  /** Assign the looked-up ids in order.  The first lookup or validation
      failure stops the assignments; those already made stay on the
      instance, which is returned beside the error. */
  function AssignAll(i: Records.Inst, attrs: seq<string>, vals: seq<Result<Value>>): (r: (Records.Inst, Result<()>))
    requires |vals| == |attrs| && DistinctAttrs(attrs)
    requires Records.WellFormed(Records.DefaultModels, i)
    ensures Records.WellFormed(Records.DefaultModels, r.0)
    ensures r.1.Success? ==> Assigned(r.0, attrs, vals)
    ensures forall k | k !in attrs :: AttrOf(r.0, k) == AttrOf(i, k)
    decreases |attrs|
  {
    if |attrs| == 0 then (i, Success(()))
    else
      match vals[0]
      case Failure(e) => (i, Failure(e))
      case Success(v) =>
        match Records.SetAttr(Records.DefaultModels, i, attrs[0], v)
        case Failure(e) => (i, Failure(e))
        case Success(i1) =>
          AssignStep(i, attrs[0], v, i1);
          assert DistinctAttrs(attrs[1..]);
          var r := AssignAll(i1, attrs[1..], vals[1..]);
          assert forall j | 1 <= j < |attrs| :: attrs[1..][j - 1] == attrs[j] && vals[1..][j - 1] == vals[j];
          assert attrs[0] !in attrs[1..];
          r
  }

  /** One assignment: the instance stays well formed, the attribute holds
      the assigned value, and every other attribute keeps its own. */
  lemma AssignStep(i: Records.Inst, k: string, v: Value, i1: Records.Inst)
    requires Records.WellFormed(Records.DefaultModels, i)
    requires Records.SetAttr(Records.DefaultModels, i, k, v) == Success(i1)
    ensures Records.WellFormed(Records.DefaultModels, i1)
    ensures AttrOf(i1, k) == Some(AfterAssign(k, v))
    ensures forall k' | k' != k :: AttrOf(i1, k') == AttrOf(i, k')
    ensures forall k' | k' in i.fields && k' != k :: k' in i1.fields && i1.fields[k'] == i.fields[k']
  {
    if k in Records.FieldNames(Records.DefaultModels) {
      Objects.CoerceStrict(v, Objects.TOptOid);
    }
  }


  /** Each declared slot holds the id of the model chosen for it by its
      dropdown key, or None. */
  predicate SlotsChosen(fields: Doc, db: Db, keys: seq<string>)
    requires |keys| == |SAVE_ORDER|
  {
    forall j | 0 <= j < |SAVE_ORDER| && SAVE_ORDER[j].0 in Records.SLOTS ::
      && Chosen(db, keys[j], SAVE_ORDER[j].1).Success?
      && SAVE_ORDER[j].0 in fields
      && fields[SAVE_ORDER[j].0] == AfterAssign(SAVE_ORDER[j].0, Chosen(db, keys[j], SAVE_ORDER[j].1).value)
  }

  /** `save_default_models`: look up the model chosen in each of the eight
      dropdowns and assign its id (or None) to the matching attribute, then
      write the record and refresh the manager's defaults.  `keys` are the
      dropdown values in parameter order. */
  function SaveDefaultModels(s: TabState, keys: seq<string>): (r: (TabState, Result<()>))
    requires Ready(s) && |keys| == |SAVE_ORDER|
    ensures Ready(r.0) && r.0.mgr.cache == s.mgr.cache
    ensures r.1.Success? ==> SlotsChosen(r.0.reg[DEFAULTS_ID].fields, s.db, keys)
    ensures r.1.Success? ==> (
      && Records.Stored(r.0.db, Records.DefaultModels).Some?
      && forall k | k in r.0.reg[DEFAULTS_ID].fields ::
           k in Records.Stored(r.0.db, Records.DefaultModels).value &&
           Records.Stored(r.0.db, Records.DefaultModels).value[k] == r.0.reg[DEFAULTS_ID].fields[k])
    ensures forall t | t != Records.RECORD_TABLE :: Docs(r.0.db, t) == Docs(s.db, t)
  {
    var attrs := Attrs(SAVE_ORDER);
    var vals := Choices(s.db, Types(SAVE_ORDER), keys);
    SaveOrderDistinct();
    var a := AssignAll(s.reg[DEFAULTS_ID], attrs, vals);
    if a.1.Failure? then (Changed(s, a.0), a.1)
    else
      AssignedSlots(a.0, s.db, keys);
      Persist(s, a.0)
  }

  /** What the assignments did, read slot by slot. */
  lemma AssignedSlots(i: Records.Inst, db: Db, keys: seq<string>)
    requires |keys| == |SAVE_ORDER| && Records.WellFormed(Records.DefaultModels, i)
    requires Assigned(i, Attrs(SAVE_ORDER), Choices(db, Types(SAVE_ORDER), keys))
    ensures SlotsChosen(i.fields, db, keys)
  {
    var attrs := Attrs(SAVE_ORDER);
    var vals := Choices(db, Types(SAVE_ORDER), keys);
    forall j | 0 <= j < |SAVE_ORDER| && SAVE_ORDER[j].0 in Records.SLOTS
      ensures SAVE_ORDER[j].0 in i.fields
      ensures i.fields[SAVE_ORDER[j].0] == AfterAssign(SAVE_ORDER[j].0, Chosen(db, keys[j], SAVE_ORDER[j].1).value)
    {
      assert attrs[j] == SAVE_ORDER[j].0 && vals[j] == Chosen(db, keys[j], SAVE_ORDER[j].1);
    }
  }

  /** No attribute is assigned twice. */
  lemma SaveOrderDistinct()
    ensures DistinctAttrs(Attrs(SAVE_ORDER))
  {
    var attrs := Attrs(SAVE_ORDER);
    assert attrs == [Records.CHAT_SLOT, Records.TRANSFORMATION_SLOT, Records.TOOLS_SLOT, Records.LARGE_CONTEXT_SLOT,
                     VISION_ATTR, Records.TEXT_TO_SPEECH_SLOT, Records.SPEECH_TO_TEXT_SLOT, Records.EMBEDDING_SLOT];
  }

  /** The attribute of each assignment. */
  function Attrs(order: seq<(string, string)>): (r: seq<string>)
    ensures |r| == |order| && forall j | 0 <= j < |order| :: r[j] == order[j].0
  {
    Sorting.Map(order, (e: (string, string)) => e.0)
  }

  /** The model type of each assignment. */
  function Types(order: seq<(string, string)>): (r: seq<string>)
    ensures |r| == |order| && forall j | 0 <= j < |order| :: r[j] == order[j].1
  {
    Sorting.Map(order, (e: (string, string)) => e.1)
  }

  /** Every declared slot is assigned, so what the defaults held before the
      save plays no part in what they hold after. */
  lemma SaveOverwritesEverySlot(s: TabState, s': TabState, keys: seq<string>)
    requires Ready(s) && Ready(s') && s'.db == s.db && |keys| == |SAVE_ORDER|
    requires SaveDefaultModels(s, keys).1.Success? && SaveDefaultModels(s', keys).1.Success?
    ensures SaveDefaultModels(s, keys).0.reg[DEFAULTS_ID].fields == SaveDefaultModels(s', keys).0.reg[DEFAULTS_ID].fields
  {
    var f := SaveDefaultModels(s, keys).0.reg[DEFAULTS_ID].fields;
    var f' := SaveDefaultModels(s', keys).0.reg[DEFAULTS_ID].fields;
    SlotsDetermine(f, f', s.db, keys);
  }

  /** Two well-formed slot maps that both hold the chosen ids are equal. */
  lemma SlotsDetermine(f: Doc, f': Doc, db: Db, keys: seq<string>)
    requires |keys| == |SAVE_ORDER|
    requires f.Keys == Records.FieldNames(Records.DefaultModels) == f'.Keys
    requires SlotsChosen(f, db, keys) && SlotsChosen(f', db, keys)
    ensures f == f'
  {
    forall k | k in f ensures f[k] == f'[k] {
      var j := if k == Records.CHAT_SLOT then 0
        else if k == Records.TRANSFORMATION_SLOT then 1
        else if k == Records.TOOLS_SLOT then 2
        else if k == Records.LARGE_CONTEXT_SLOT then 3
        else if k == Records.TEXT_TO_SPEECH_SLOT then 5
        else if k == Records.SPEECH_TO_TEXT_SLOT then 6
        else 7;
      assert SAVE_ORDER[j].0 == k;
    }
  }
  /** The vision choice lands in an extra attribute, never in a declared
      slot: the stored record and `delete_model` never see it. */
  lemma VisionChoiceIsExtra(i: Records.Inst, v: Value)
    requires Records.WellFormed(Records.DefaultModels, i)
    ensures SAVE_ORDER[4] == (VISION_ATTR, Catalog.VISION)
    ensures VISION_ATTR !in Records.FieldNames(Records.DefaultModels)
    ensures Records.SetAttr(Records.DefaultModels, i, VISION_ATTR, v) == Success(i.(extra := i.extra[VISION_ATTR := v]))
    ensures Records.Dump(i.(extra := i.extra[VISION_ATTR := v])) == Records.Dump(i)
  {
  }
}

=== FILE: notes.dfy ===
/** `Source`, `SourceEmbedding` and `SourceInsight` of
    `remind/domain/notes.py`: ingestion of a source's text as embedded chunks,
    insights attached to a source, the source's context for prompts, and the
    cascade delete. */
module Notes {
  import opened Wrappers
  import opened Store
  import opened Objects

  const CHUNKS := "source_embedding"
  const INSIGHTS := "source_insight"
  const SOURCE_ID := "source_id"
  const CONTENT := "content"
  const INSIGHT_TYPE := "insight_type"

  /** The documents of a table that belong to a source. */
  function OfSource(db: Db, table: string, id: Value): seq<Doc> {
    Query(db, table, [Eq(SOURCE_ID, id)])
  }

  /** `Source.embedded_chunks`: the number of chunks stored for the source. */
  function EmbeddedChunks(db: Db, src: Obj): (r: nat)
    ensures r <= |Docs(db, CHUNKS)|
  {
    |OfSource(db, CHUNKS, src.Id())|
  }

  /** `SourceEmbedding(content=chunk, source_id=id)` */
  function ChunkObject(chunk: string, id: Value): Result<Obj> {
    Construct(SourceEmbedding, map[CONTENT := VStr(chunk), SOURCE_ID := id])
  }

  /** The chunk objects of `vectorize`, all built before any is saved. */
  function ChunkObjects(chunks: seq<string>, id: Value): (r: Result<seq<Obj>>)
    ensures r.Success? ==> |r.value| == |chunks|
    ensures r.Success? ==> forall j | 0 <= j < |chunks| :: ChunkObject(chunks[j], id) == Success(r.value[j])
    ensures r.Failure? ==> r.error == ValidationError
    ensures |chunks| > 0 ==> (r.Success? <==> CoerceOid(id).Some?)
  {
    if |chunks| == 0 then Success([])
    else
      var r := MapAll(c => ChunkObject(c, id), chunks);
      ChunkObjectBuilds(chunks[0], id);
      assert r.Success? <==> CoerceOid(id).Some? by {
        forall j | 0 <= j < |chunks| ensures ChunkObject(chunks[j], id).Success? <==> CoerceOid(id).Some? {
          ChunkObjectBuilds(chunks[j], id);
        }
      }
      r
  }

  /** A chunk object can be built exactly when the source id is an ObjectId. */
  lemma ChunkObjectBuilds(chunk: string, id: Value)
    ensures ChunkObject(chunk, id).Success? <==> CoerceOid(id).Some?
  {
    assert Schema(SourceEmbedding)[4].name == SOURCE_ID && Schema(SourceEmbedding)[3].name == CONTENT;
  }

  /** A chunk ready to be inserted: no id yet, a content and a source id. */
  predicate FreshChunk(o: Obj)
    ensures FreshChunk(o) ==> o.kind == SourceEmbedding
  {
    && o.kind == SourceEmbedding && o.Id() == VNull
    && CONTENT in o.fields && o.fields[CONTENT] != VNull
    && SOURCE_ID in o.fields && o.fields[SOURCE_ID] != VNull
  }

  lemma ChunkObjectFresh(chunk: string, id: Value)
    requires ChunkObject(chunk, id).Success?
    ensures FreshChunk(ChunkObject(chunk, id).value)
    ensures ChunkObject(chunk, id).value.At(CONTENT) == VStr(chunk)
    ensures Some(ChunkObject(chunk, id).value.At(SOURCE_ID)) == CoerceOid(id)
  {
    var s := Schema(SourceEmbedding);
    var d := map[CONTENT := VStr(chunk), SOURCE_ID := id];
    var o := ChunkObject(chunk, id).value;
    assert s[0] == FieldSpec(ID_KEY, TOptOid, Some(VNull)) && ID_KEY !in d;
    assert s[3] == FieldSpec(CONTENT, TStr, None) && s[4] == FieldSpec(SOURCE_ID, TOid, None);
    assert o.fields[ID_KEY] == Resolve(s[0], d).value == VNull;
    assert o.fields[CONTENT] == Resolve(s[3], d).value == VStr(chunk);
    assert o.fields[SOURCE_ID] == Resolve(s[4], d).value == CoerceOid(id).value;
  }

  /** The chunk documents appended after position `n`, in order, carry the
      contents and source ids of `objs`. */
  predicate ChunksFrom(docs: seq<Doc>, n: nat, objs: seq<Obj>) {
    && |docs| == n + |objs|
    && forall j | 0 <= j < |objs| :: Carries(docs[n + j], objs[j])
  }

  /** The document holds the object's content and source id. */
  predicate Carries(d: Doc, o: Obj) {
    && CONTENT in d && d[CONTENT] == o.At(CONTENT)
    && SOURCE_ID in d && d[SOURCE_ID] == o.At(SOURCE_ID)
  }

  /** `after` is `before` with one chunk document per object appended, and
      the ids are still unique. */
  predicate ChunksAppended(before: seq<Doc>, after: seq<Doc>, objs: seq<Obj>) {
    && ChunksFrom(after, |before|, objs)
    && after[..|before|] == before
    && UniqueIds(after)
  }

  /** One successful save of a fresh chunk appends one document holding its
      content and source id. */
  lemma SaveChunk(db: Db, o: Obj, now: int, createdAt: int, model: Result<Option<EmbedFn>>)
    requires FreshChunk(o)
    requires UniqueIds(Docs(db, CHUNKS))
    requires Save(db, o, now, createdAt, model).1.Success?
    ensures ChunksAppended(Docs(db, CHUNKS), Docs(Save(db, o, now, createdAt, model).0, CHUNKS), [o])
  {
    SaveInserts(db, o, now, createdAt, model);
    assert TableName(o.kind) == CHUNKS;
    InsertedChunk(Docs(db, CHUNKS), Docs(Save(db, o, now, createdAt, model).0, CHUNKS), o);
  }

  /** A record appended for a fresh chunk, holding its non-None fields, is a
      run of one appended chunk. */
  lemma InsertedChunk(before: seq<Doc>, after: seq<Doc>, o: Obj)
    requires FreshChunk(o)
    requires |after| == |before| + 1 && after[..|before|] == before && UniqueIds(after)
    requires forall n | n in o.fields && o.fields[n] != VNull && n !in {CREATED, UPDATED, EMBEDDING} ::
      n in after[|before|] && after[|before|][n] == o.fields[n]
    ensures ChunksAppended(before, after, [o])
  {
    assert CONTENT !in {CREATED, UPDATED, EMBEDDING} && SOURCE_ID !in {CREATED, UPDATED, EMBEDDING};
    assert [o][0] == o;
  }

  /** A run of appended chunks followed by one more is a longer run. */
  lemma ChunksAppendedStep(d0: seq<Doc>, d1: seq<Doc>, d2: seq<Doc>, objs: seq<Obj>, o: Obj)
    requires ChunksAppended(d0, d1, objs)
    requires ChunksAppended(d1, d2, [o])
    ensures ChunksAppended(d0, d2, objs + [o])
  {
    var all := objs + [o];
    forall j | 0 <= j < |all| ensures Carries(d2[|d0| + j], all[j]) {
      if j < |objs| {
        assert all[j] == objs[j];
        assert d2[|d0| + j] == d2[..|d1|][|d0| + j] == d1[|d0| + j];
      } else {
        assert all[j] == [o][0];
        assert d2[|d0| + j] == d2[|d1| + 0];
      }
    }
    assert |d2| == |d0| + |all|;
    assert ChunksFrom(d2, |d0|, all);
    assert d2[..|d0|] == d2[..|d1|][..|d0|];
  }

  /** Save every chunk in turn, attempting all of them even after one fails
      (the thread pool runs every task before the first error is re-raised);
      `ok` says whether all succeeded.  Chunk `j` is saved with the clock read
      at `2j` and `2j + 1`.  When all succeed on a table with unique ids, one
      document per chunk has been appended. */
  method SaveEach(db: Db, objs: seq<Obj>, clock: nat -> int, model: Result<Option<EmbedFn>>) returns (db': Db, ok: bool)
    requires forall j | 0 <= j < |objs| :: FreshChunk(objs[j])
    ensures |objs| == 0 ==> db' == db && ok
    ensures forall c | c != CHUNKS :: Docs(db', c) == Docs(db, c)
    ensures ok && UniqueIds(Docs(db, CHUNKS)) ==> ChunksAppended(Docs(db, CHUNKS), Docs(db', CHUNKS), objs)
  {
    db', ok := db, true;
    var i := 0;
    while i < |objs|
      invariant 0 <= i <= |objs|
      invariant i == 0 ==> db' == db && ok
      invariant forall c | c != CHUNKS :: Docs(db', c) == Docs(db, c)
      invariant ok && UniqueIds(Docs(db, CHUNKS)) ==> ChunksAppended(Docs(db, CHUNKS), Docs(db', CHUNKS), objs[..i])
    {
      var o := objs[i];
      var db1, saved := SaveOne(db', o, clock(2 * i), clock(2 * i + 1), model);
      if ok && UniqueIds(Docs(db, CHUNKS)) && saved {
        ChunksAppendedStep(Docs(db, CHUNKS), Docs(db', CHUNKS), Docs(db1, CHUNKS), objs[..i], o);
        PrefixSnoc(objs, i);
      }
      db', ok := db1, ok && saved;
      i := i + 1;
    }
    assert objs[..i] == objs;
  }

  /** One `save` of a fresh chunk: only the chunk table changes, and a
      success on a table with unique ids appends the chunk. */
  method SaveOne(db: Db, o: Obj, now: int, createdAt: int, model: Result<Option<EmbedFn>>) returns (db': Db, ok: bool)
    requires FreshChunk(o)
    ensures forall c | c != CHUNKS :: Docs(db', c) == Docs(db, c)
    ensures ok && UniqueIds(Docs(db, CHUNKS)) ==> ChunksAppended(Docs(db, CHUNKS), Docs(db', CHUNKS), [o])
  {
    var saved := Save(db, o, now, createdAt, model);
    if UniqueIds(Docs(db, CHUNKS)) && saved.1.Success? {
      SaveChunk(db, o, now, createdAt, model);
    }
    db', ok := saved.0, saved.1.Success?;
  }

  /** `Source.vectorize`: nothing happens when there is no text or the
      splitter returns no pieces; otherwise one chunk object per piece of
      `split(full_text)` is saved, and any failure (a source without an id
      cannot make its chunks) is reported as a database-operation error after
      all saves were attempted.  A successful run on a source with an id
      appends exactly one chunk per piece, in order, each holding the piece
      and the source's id, so `embedded_chunks` grows by the number of pieces. */
  method Vectorize(db: Db, src: Obj, split: string -> seq<string>, clock: nat -> int,
                   model: Result<Option<EmbedFn>>) returns (db': Db, r: Result<()>)
    ensures !(src.At("full_text").VStr? && |src.At("full_text").s| > 0) ==> db' == db && r == Success(())
    ensures src.At("full_text").VStr? && |split(src.At("full_text").s)| == 0 ==> db' == db && r == Success(())
    ensures r.Failure? ==> r.error == DatabaseOperation
    ensures (src.At("full_text").VStr? && |src.At("full_text").s| > 0 && |split(src.At("full_text").s)| > 0
             && CoerceOid(src.Id()).None?) ==> db' == db && r == Failure(DatabaseOperation)
    ensures forall c | c != CHUNKS :: Docs(db', c) == Docs(db, c)
    ensures (r.Success? && src.Id().VOid? && src.At("full_text").VStr? && |src.At("full_text").s| > 0
             && UniqueIds(Docs(db, CHUNKS))) ==>
      var chunks := split(src.At("full_text").s);
      var n := |Docs(db, CHUNKS)|;
      && PiecesStored(Docs(db', CHUNKS), n, chunks, src.Id())
      && Docs(db', CHUNKS)[..n] == Docs(db, CHUNKS)
      && UniqueIds(Docs(db', CHUNKS))
      && EmbeddedChunks(db', src) == EmbeddedChunks(db, src) + |chunks|
  {
    var text := src.At("full_text");
    if !(text.VStr? && |text.s| > 0) {
      return db, Success(());
    }
    var chunks := split(text.s);
    if |chunks| == 0 {
      return db, Success(());
    }
    db', r := StoreChunks(db, chunks, src.Id(), clock, model);
  }

  /** The saving half of `vectorize` for a non-empty list of pieces: every
      chunk object is built first, and a source id that is not an ObjectId
      fails before anything is saved. */
  method StoreChunks(db: Db, chunks: seq<string>, id: Value, clock: nat -> int,
                     model: Result<Option<EmbedFn>>) returns (db': Db, r: Result<()>)
    requires |chunks| > 0
    ensures r.Failure? ==> r.error == DatabaseOperation
    ensures CoerceOid(id).None? ==> db' == db && r == Failure(DatabaseOperation)
    ensures forall c | c != CHUNKS :: Docs(db', c) == Docs(db, c)
    ensures (r.Success? && id.VOid? && UniqueIds(Docs(db, CHUNKS))) ==>
      var n := |Docs(db, CHUNKS)|;
      && PiecesStored(Docs(db', CHUNKS), n, chunks, id)
      && Docs(db', CHUNKS)[..n] == Docs(db, CHUNKS)
      && UniqueIds(Docs(db', CHUNKS))
      && |Select(Docs(db', CHUNKS), [Eq(SOURCE_ID, id)])| == |Select(Docs(db, CHUNKS), [Eq(SOURCE_ID, id)])| + |chunks|
  {
    var made := ChunkObjects(chunks, id);
    if made.Failure? {
      return db, Failure(DatabaseOperation);
    }
    var objs := made.value;
    ChunkObjectsFresh(chunks, id, objs);
    var ok;
    db', ok := SaveEach(db, objs, clock, model);
    r := if ok then Success(()) else Failure(DatabaseOperation);
    if ok && id.VOid? && UniqueIds(Docs(db, CHUNKS)) {
      ChunksOfPieces(Docs(db, CHUNKS), Docs(db', CHUNKS), objs, chunks, id);
      ChunksCounted(Docs(db, CHUNKS), Docs(db', CHUNKS), id);
    }
  }

  /** Every built chunk object is fresh and holds its piece and, for an
      ObjectId source, that id. */
  lemma ChunkObjectsFresh(chunks: seq<string>, id: Value, objs: seq<Obj>)
    requires ChunkObjects(chunks, id) == Success(objs)
    ensures forall j | 0 <= j < |objs| :: FreshChunk(objs[j]) && objs[j].At(CONTENT) == VStr(chunks[j])
    ensures id.VOid? ==> forall j | 0 <= j < |objs| :: objs[j].At(SOURCE_ID) == id
  {
    forall j | 0 <= j < |objs|
      ensures FreshChunk(objs[j]) && objs[j].At(CONTENT) == VStr(chunks[j])
      ensures id.VOid? ==> objs[j].At(SOURCE_ID) == id
    {
      ChunkObjectFresh(chunks[j], id);
    }
  }

  lemma {:induction false} SelectAllMatching(docs: seq<Doc>, f: Filter)
    requires forall j | 0 <= j < |docs| :: Matches(docs[j], f)
    ensures Select(docs, f) == docs
  {
    if |docs| > 0 {
      SelectAllMatching(docs[1..], f);
      assert [docs[0]] + docs[1..] == docs;
    }
  }

  /** From position `n` on, `docs` holds one chunk per piece, in order, each
      with the piece as content and `id` as source. */
  predicate PiecesStored(docs: seq<Doc>, n: nat, chunks: seq<string>, id: Value) {
    && |docs| == n + |chunks|
    && forall j | 0 <= j < |chunks| :: PieceAt(docs[n + j], chunks[j], id)
  }

  /** A chunk document holding `piece` for the source `id`. */
  predicate PieceAt(d: Doc, piece: string, id: Value) {
    && CONTENT in d && d[CONTENT] == VStr(piece)
    && SOURCE_ID in d && d[SOURCE_ID] == id
  }

  /** The appended chunk documents hold the pieces and the source's id. */
  lemma ChunksOfPieces(before: seq<Doc>, after: seq<Doc>, objs: seq<Obj>, chunks: seq<string>, id: Value)
    requires |objs| == |chunks|
    requires forall j | 0 <= j < |objs| :: objs[j].At(CONTENT) == VStr(chunks[j]) && objs[j].At(SOURCE_ID) == id
    requires ChunksFrom(after, |before|, objs)
    ensures PiecesStored(after, |before|, chunks, id)
    ensures forall j | |before| <= j < |after| :: SOURCE_ID in after[j] && after[j][SOURCE_ID] == id
  {
    var n := |before|;
    forall j | 0 <= j < |chunks| ensures PieceAt(after[n + j], chunks[j], id) {
      assert objs[j].At(CONTENT) == VStr(chunks[j]) && objs[j].At(SOURCE_ID) == id;
      assert Carries(after[n + j], objs[j]);
    }
    forall j | |before| <= j < |after| ensures SOURCE_ID in after[j] && after[j][SOURCE_ID] == id {
      var i := j - |before|;
      assert objs[i].At(SOURCE_ID) == id && Carries(after[|before| + i], objs[i]);
      assert after[|before| + i] == after[j];
    }
  }

  /** Appending documents that all belong to a source adds their number to
      the count of that source's documents. */
  lemma ChunksCounted(before: seq<Doc>, after: seq<Doc>, id: Value)
    requires |before| <= |after| && after[..|before|] == before
    requires forall j | |before| <= j < |after| :: SOURCE_ID in after[j] && after[j][SOURCE_ID] == id
    ensures |Select(after, [Eq(SOURCE_ID, id)])| == |Select(before, [Eq(SOURCE_ID, id)])| + |after| - |before|
  {
    var f := [Eq(SOURCE_ID, id)];
    var tail := after[|before|..];
    assert after == before + tail;
    forall j | 0 <= j < |tail| ensures Matches(tail[j], f) {
      assert Holds(tail[j], f[0]);
    }
    SelectAppend(before, tail, f);
    SelectAllMatching(tail, f);
  }

  /** `Source.add_insight`: an empty type or content is invalid input and
      nothing is saved; otherwise one insight with this type, content and the
      source's id is saved (a source without an id fails validation). */
  function AddInsight(db: Db, src: Obj, insightType: string, content: string, now: int, createdAt: int,
                      model: Result<Option<EmbedFn>>): (r: (Db, Result<()>))
    ensures r.1.Failure? && r.1.error == InvalidInput <==> |insightType| == 0 || |content| == 0
    ensures |insightType| == 0 || |content| == 0 ==> r.0 == db
    ensures r.1.Failure? ==> r.1.error in {InvalidInput, ValidationError, DatabaseOperation}
    ensures forall c | c != INSIGHTS :: Docs(r.0, c) == Docs(db, c)
  {
    if |insightType| == 0 || |content| == 0 then (db, Failure(InvalidInput))
    else
      match InsightObject(insightType, content, src.Id())
      case Failure(e) => (db, Failure(e))
      case Success(o) =>
        assert TableName(o.kind) == INSIGHTS;
        var (db', res) := Save(db, o, now, createdAt, model);
        (db', match res case Success(_) => Success(()) case Failure(e) => Failure(e))
  }

  function InsightObject(insightType: string, content: string, id: Value): (r: Result<Obj>)
    ensures r.Success? ==> r.value.kind == SourceInsight
    ensures r.Failure? ==> r.error == ValidationError
  {
    Construct(SourceInsight, map[INSIGHT_TYPE := VStr(insightType), CONTENT := VStr(content), SOURCE_ID := id])
  }

  /** A successful `add_insight` appends one insight document carrying the
      given type and content and the source's id. */
  lemma AddInsightStores(db: Db, src: Obj, insightType: string, content: string, now: int, createdAt: int,
                         model: Result<Option<EmbedFn>>)
    requires UniqueIds(Docs(db, INSIGHTS))
    requires AddInsight(db, src, insightType, content, now, createdAt, model).1.Success?
    ensures var db' := AddInsight(db, src, insightType, content, now, createdAt, model).0;
      var n := |Docs(db, INSIGHTS)|;
      && |Docs(db', INSIGHTS)| == n + 1
      && Docs(db', INSIGHTS)[..n] == Docs(db, INSIGHTS)
      && UniqueIds(Docs(db', INSIGHTS))
      && INSIGHT_TYPE in Docs(db', INSIGHTS)[n] && Docs(db', INSIGHTS)[n][INSIGHT_TYPE] == VStr(insightType)
      && CONTENT in Docs(db', INSIGHTS)[n] && Docs(db', INSIGHTS)[n][CONTENT] == VStr(content)
      && SOURCE_ID in Docs(db', INSIGHTS)[n] && Some(Docs(db', INSIGHTS)[n][SOURCE_ID]) == CoerceOid(src.Id())
  {
    var o := InsightObject(insightType, content, src.Id()).value;
    InsightObjectFields(insightType, content, src.Id());
    assert AddInsight(db, src, insightType, content, now, createdAt, model).0 == Save(db, o, now, createdAt, model).0;
    SaveInsight(db, o, now, createdAt, model);
  }

  lemma InsightObjectFields(insightType: string, content: string, id: Value)
    requires InsightObject(insightType, content, id).Success?
    ensures var o := InsightObject(insightType, content, id).value;
      && o.Id() == VNull
      && o.At(INSIGHT_TYPE) == VStr(insightType) && o.At(CONTENT) == VStr(content)
      && Some(o.At(SOURCE_ID)) == CoerceOid(id) && o.At(SOURCE_ID) != VNull
  {
    var s := Schema(SourceInsight);
    var d := map[INSIGHT_TYPE := VStr(insightType), CONTENT := VStr(content), SOURCE_ID := id];
    var o := InsightObject(insightType, content, id).value;
    assert s[0] == FieldSpec(ID_KEY, TOptOid, Some(VNull)) && ID_KEY !in d;
    assert s[3] == FieldSpec(INSIGHT_TYPE, TStr, None) && s[4] == FieldSpec(CONTENT, TStr, None);
    assert s[5] == FieldSpec(SOURCE_ID, TOid, None);
    assert o.fields[ID_KEY] == Resolve(s[0], d).value == VNull;
    assert o.fields[INSIGHT_TYPE] == Resolve(s[3], d).value == VStr(insightType);
    assert o.fields[CONTENT] == Resolve(s[4], d).value == VStr(content);
    assert o.fields[SOURCE_ID] == Resolve(s[5], d).value == CoerceOid(id).value;
  }

  lemma SaveInsight(db: Db, o: Obj, now: int, createdAt: int, model: Result<Option<EmbedFn>>)
    requires o.kind == SourceInsight && o.Id() == VNull
    requires o.At(INSIGHT_TYPE) != VNull && o.At(CONTENT) != VNull && o.At(SOURCE_ID) != VNull
    requires UniqueIds(Docs(db, INSIGHTS))
    requires Save(db, o, now, createdAt, model).1.Success?
    ensures var db' := Save(db, o, now, createdAt, model).0;
      var n := |Docs(db, INSIGHTS)|;
      && |Docs(db', INSIGHTS)| == n + 1
      && Docs(db', INSIGHTS)[..n] == Docs(db, INSIGHTS)
      && UniqueIds(Docs(db', INSIGHTS))
      && INSIGHT_TYPE in Docs(db', INSIGHTS)[n] && Docs(db', INSIGHTS)[n][INSIGHT_TYPE] == o.At(INSIGHT_TYPE)
      && CONTENT in Docs(db', INSIGHTS)[n] && Docs(db', INSIGHTS)[n][CONTENT] == o.At(CONTENT)
      && SOURCE_ID in Docs(db', INSIGHTS)[n] && Docs(db', INSIGHTS)[n][SOURCE_ID] == o.At(SOURCE_ID)
  {
    SaveInserts(db, o, now, createdAt, model);
    assert TableName(o.kind) == INSIGHTS;
    InsertedInsight(Docs(db, INSIGHTS), Docs(Save(db, o, now, createdAt, model).0, INSIGHTS), o);
  }

  /** The record appended for an insight holds its type, content and source id. */
  lemma InsertedInsight(before: seq<Doc>, after: seq<Doc>, o: Obj)
    requires o.At(INSIGHT_TYPE) != VNull && o.At(CONTENT) != VNull && o.At(SOURCE_ID) != VNull
    requires |after| == |before| + 1
    requires forall n | n in o.fields && o.fields[n] != VNull && n !in {CREATED, UPDATED, EMBEDDING} ::
      n in after[|before|] && after[|before|][n] == o.fields[n]
    ensures INSIGHT_TYPE in after[|before|] && after[|before|][INSIGHT_TYPE] == o.At(INSIGHT_TYPE)
    ensures CONTENT in after[|before|] && after[|before|][CONTENT] == o.At(CONTENT)
    ensures SOURCE_ID in after[|before|] && after[|before|][SOURCE_ID] == o.At(SOURCE_ID)
  {
    assert INSIGHT_TYPE !in {CREATED, UPDATED, EMBEDDING};
    assert CONTENT !in {CREATED, UPDATED, EMBEDDING} && SOURCE_ID !in {CREATED, UPDATED, EMBEDDING};
  }

  /** `Source.insights`: every stored insight of the source; one that does
      not validate makes the whole read a database-operation error. */
  function Insights(db: Db, src: Obj): (r: Result<seq<Obj>>)
    ensures r.Success? ==> |r.value| == |OfSource(db, INSIGHTS, src.Id())|
    ensures r.Success? ==> forall j | 0 <= j < |r.value| ::
      Construct(SourceInsight, OfSource(db, INSIGHTS, src.Id())[j]) == Success(r.value[j])
    ensures r.Failure? <==> exists j | 0 <= j < |OfSource(db, INSIGHTS, src.Id())| ::
      Construct(SourceInsight, OfSource(db, INSIGHTS, src.Id())[j]).Failure?
    ensures r.Failure? ==> r.error == DatabaseOperation
  {
    ConstructEach(OfSource(db, INSIGHTS, src.Id()))
  }

  function ConstructEach(docs: seq<Doc>): (r: Result<seq<Obj>>)
    ensures r.Success? ==> |r.value| == |docs| && forall j | 0 <= j < |docs| :: Construct(SourceInsight, docs[j]) == Success(r.value[j])
    ensures r.Failure? <==> exists j | 0 <= j < |docs| :: Construct(SourceInsight, docs[j]).Failure?
    ensures r.Failure? ==> r.error == DatabaseOperation
  {
    match MapAll(d => Construct(SourceInsight, d), docs)
    case Success(os) => Success(os)
    case Failure(_) => Failure(DatabaseOperation)
  }

  /** What `get_context` returns; the full text only in the long form. */
  datatype Context = Context(id: Value, title: Value, insights: seq<Obj>, fullText: Option<Value>)

  /** `Source.get_context`: id, title and the insights; the full text as well
      when the size is "long" (any other size gives the short form). */
  function GetContext(db: Db, src: Obj, size: string): (r: Result<Context>)
    ensures r.Success? ==> r.value.id == src.Id() && r.value.title == src.At("title")
    ensures r.Success? ==> (r.value.fullText.Some? <==> size == "long")
    ensures r.Success? && size == "long" ==> r.value.fullText == Some(src.At("full_text"))
    ensures r.Success? <==> Insights(db, src).Success?
    ensures r.Success? ==> r.value.insights == Insights(db, src).value
  {
    match Insights(db, src)
    case Failure(e) => Failure(e)
    case Success(ins) =>
      if size == "long" then Success(Context(src.Id(), src.At("title"), ins, Some(src.At("full_text"))))
      else Success(Context(src.Id(), src.At("title"), ins, None))
  }

  /** `Source.delete` as written: `delete_one` on the chunks and on the
      insights of the source, then the source itself. */
  function DeleteAsWritten(db: Db, src: Obj): (r: (Db, Result<nat>))
    requires src.kind == Source
    ensures r.1.Failure? <==> src.Id() == VNull
    ensures |Docs(r.0, CHUNKS)| >= |Docs(db, CHUNKS)| - 1
    ensures |Docs(r.0, INSIGHTS)| >= |Docs(db, INSIGHTS)| - 1
  {
    var (db1, _) := Store.Delete(db, CHUNKS, [Eq(SOURCE_ID, src.Id())]);
    var (db2, _) := Store.Delete(db1, INSIGHTS, [Eq(SOURCE_ID, src.Id())]);
    Objects.Delete(db2, src)
  }

  /** The cascade as evidently intended: every chunk and every insight of the
      source is removed, then the source itself. */
  function DeleteCascade(db: Db, src: Obj): (r: (Db, Result<nat>))
    requires src.kind == Source
    ensures r.1.Failure? <==> src.Id() == VNull
    ensures r.1.Success? ==> |OfSource(r.0, CHUNKS, src.Id())| == 0 && |OfSource(r.0, INSIGHTS, src.Id())| == 0
    ensures forall d | d in Docs(db, CHUNKS) && !Matches(d, [Eq(SOURCE_ID, src.Id())]) :: d in Docs(r.0, CHUNKS)
    ensures forall d | d in Docs(db, INSIGHTS) && !Matches(d, [Eq(SOURCE_ID, src.Id())]) :: d in Docs(r.0, INSIGHTS)
  {
    var f := [Eq(SOURCE_ID, src.Id())];
    var (db1, _) := DeleteMany(db, CHUNKS, f);
    var (db2, _) := DeleteMany(db1, INSIGHTS, f);
    var r := Objects.Delete(db2, src);
    assert Docs(r.0, CHUNKS) == Docs(db2, CHUNKS);
    assert Docs(r.0, INSIGHTS) == Docs(db2, INSIGHTS);
    NoneLeft(Docs(r.0, CHUNKS), f);
    NoneLeft(Docs(r.0, INSIGHTS), f);
    r
  }

  lemma NoneLeft(docs: seq<Doc>, f: Filter)
    requires forall d | d in docs :: !Matches(d, f)
    ensures |Select(docs, f)| == 0
  {
    SelectNone(docs, f);
  }

  /** A source with two stored chunks and no insights. */
  const EXAMPLE_SRC := Obj(Source, map[ID_KEY := VOid(1)])
  const EXAMPLE_CHUNK1: Doc := map[ID_KEY := VOid(2), SOURCE_ID := VOid(1)]
  const EXAMPLE_CHUNK2: Doc := map[ID_KEY := VOid(3), SOURCE_ID := VOid(1)]
  const EXAMPLE_DB := Db(map[CHUNKS := [EXAMPLE_CHUNK1, EXAMPLE_CHUNK2], "source" := [map[ID_KEY := VOid(1)]]], map[], 4)

  /** The delete as written leaves chunks behind: a source with two stored
      chunks still has one after `delete`, where the cascade leaves none. */
  lemma DeleteAsWrittenLeavesChunks()
    ensures EmbeddedChunks(DeleteAsWritten(EXAMPLE_DB, EXAMPLE_SRC).0, EXAMPLE_SRC) == 1
    ensures EmbeddedChunks(DeleteCascade(EXAMPLE_DB, EXAMPLE_SRC).0, EXAMPLE_SRC) == 0
  {
    var src := EXAMPLE_SRC;
    assert src.Id() == VOid(1);
    AsWrittenKeepsSecondChunk();
    var f := [Eq(SOURCE_ID, VOid(1))];
    assert Holds(EXAMPLE_CHUNK2, f[0]);
    SelectOne(EXAMPLE_CHUNK2, f);
    assert OfSource(DeleteAsWritten(EXAMPLE_DB, src).0, CHUNKS, src.Id()) == [EXAMPLE_CHUNK2];
    assert DeleteCascade(EXAMPLE_DB, src).1.Success?;
  }

  lemma AsWrittenKeepsSecondChunk()
    ensures Docs(DeleteAsWritten(EXAMPLE_DB, EXAMPLE_SRC).0, CHUNKS) == [EXAMPLE_CHUNK2]
  {
    var db, src := EXAMPLE_DB, EXAMPLE_SRC;
    var f := [Eq(SOURCE_ID, src.Id())];
    assert Holds(EXAMPLE_CHUNK1, f[0]) && Holds(EXAMPLE_CHUNK2, f[0]);
    assert FirstMatch([EXAMPLE_CHUNK1, EXAMPLE_CHUNK2], f) == Some(0);
    var db1 := Store.Delete(db, CHUNKS, f).0;
    assert Docs(db1, CHUNKS) == [EXAMPLE_CHUNK2];
    var db2 := Store.Delete(db1, INSIGHTS, f).0;
    assert Docs(db2, CHUNKS) == Docs(db1, CHUNKS);
    assert DeleteAsWritten(db, src).0 == Objects.Delete(db2, src).0;
  }
}

=== FILE: objects.dfy ===
/** `ObjectModel` of `remind/domain/base.py` and the six document classes that
    derive from it (`remind/domain/notes.py`, `models.py`, `transformation.py`,
    `quiz.py`).

    An object is its class plus the values of its declared fields, keyed by
    the stored name (`_id` for the id).  Construction from a stored document
    follows pydantic's lax rules for the field types these classes use;
    extra keys are ignored, as `ObjectModel` does by default. */
module Objects {
  import opened Wrappers
  import opened Store
  import Text

  /** The concrete `ObjectModel` subclasses. */
  datatype Kind = Source | SourceEmbedding | SourceInsight | Model | Transformation | Quizzed

  /** The class a classmethod is called on: `ObjectModel` itself, or a subclass. */
  datatype Class = Base | Sub(kind: Kind)

  /** The `table_name` class variables. */
  function TableName(k: Kind): (r: string)
    ensures r != ""
  {
    match k
    case Source => "source"
    case SourceEmbedding => "source_embedding"
    case SourceInsight => "source_insight"
    case Model => "model"
    case Transformation => "transformation"
    case Quizzed => "quiz"
  }

  function ClassTable(c: Class): string {
    match c
    case Base => ""
    case Sub(k) => TableName(k)
  }

  /** No two classes share a table name. */
  lemma TableNameInjective(a: Kind, b: Kind)
    requires TableName(a) == TableName(b)
    ensures a == b
  {
  }

  /** Depth-first order of `ObjectModel.__subclasses__()`, which is the order
      in which the modules defining them are imported. */
  const SUBCLASSES: seq<Kind> := [SourceEmbedding, SourceInsight, Source, Model, Transformation, Quizzed]

  function FindByTable(ks: seq<Kind>, t: string): (r: Option<Kind>)
    ensures r.Some? ==> r.value in ks && TableName(r.value) == t
    ensures r.None? ==> forall k | k in ks :: TableName(k) != t
  {
    if |ks| == 0 then None
    else if TableName(ks[0]) == t then Some(ks[0])
    else FindByTable(ks[1..], t)
  }

  /** `_get_class_by_table_name`: the subclass whose `table_name` is `t`. */
  function ClassByTableName(t: string): (r: Option<Kind>)
    ensures r.Some? <==> exists k: Kind :: TableName(k) == t
    ensures r.Some? ==> TableName(r.value) == t
  {
    SubclassesComplete();
    FindByTable(SUBCLASSES, t)
  }

  lemma SubclassesComplete()
    ensures forall k: Kind :: k in SUBCLASSES
  {
    forall k: Kind ensures k in SUBCLASSES {
      match k
      case SourceEmbedding => assert SUBCLASSES[0] == k;
      case SourceInsight => assert SUBCLASSES[1] == k;
      case Source => assert SUBCLASSES[2] == k;
      case Model => assert SUBCLASSES[3] == k;
      case Transformation => assert SUBCLASSES[4] == k;
      case Quizzed => assert SUBCLASSES[5] == k;
    }
  }

  // ---------------------------------------------------------------- fields

  /** The pydantic types of the declared fields. */
  datatype FieldType =
    | TStr          // str
    | TOptStr       // Optional[str]
    | TOid          // PyObjectId
    | TOptOid       // Optional[PyObjectId]
    | TOidList      // list[PyObjectId]
    | TOptTime      // Optional[datetime]
    | TOptStrList   // Optional[List[str]]
    | TOptAsset     // Optional[Asset]

  /** A declared field; `default` is None for a required field. */
  datatype FieldSpec = FieldSpec(name: string, ty: FieldType, default: Option<Value>)

  const CREATED := "created"
  const UPDATED := "updated"

  /** Field declarations of each class, the inherited ones first. */
  function Schema(k: Kind): seq<FieldSpec> {
    [FieldSpec(ID_KEY, TOptOid, Some(VNull)),
     FieldSpec(CREATED, TOptTime, Some(VNull)),
     FieldSpec(UPDATED, TOptTime, Some(VNull))]
    + match k
      case Source =>
        [FieldSpec("asset", TOptAsset, Some(VNull)),
         FieldSpec("title", TOptStr, Some(VNull)),
         FieldSpec("topics", TOptStrList, Some(VList([]))),
         FieldSpec("full_text", TOptStr, Some(VNull))]
      case SourceEmbedding =>
        [FieldSpec("content", TStr, None),
         FieldSpec("source_id", TOid, None)]
      case SourceInsight =>
        [FieldSpec("insight_type", TStr, None),
         FieldSpec("content", TStr, None),
         FieldSpec("source_id", TOid, None)]
      case Model =>
        [FieldSpec("name", TStr, None),
         FieldSpec("provider", TStr, None),
         FieldSpec("type", TStr, None)]
      case Transformation =>
        [FieldSpec("name", TStr, None),
         FieldSpec("description", TStr, None),
         FieldSpec("prompt", TStr, None)]
      case Quizzed =>
        [FieldSpec("quizzed", TOidList, None)]
  }

  function Names(specs: seq<FieldSpec>): set<string> {
    set i | 0 <= i < |specs| :: specs[i].name
  }

  predicate DistinctNames(specs: seq<FieldSpec>) {
    forall i, j | 0 <= i < j < |specs| :: specs[i].name != specs[j].name
  }

  lemma SchemaDistinct(k: Kind)
    ensures DistinctNames(Schema(k))
  {
    match k
    case Source =>
    case SourceEmbedding =>
    case SourceInsight =>
    case Model =>
    case Transformation =>
    case Quizzed =>
  }

  /** A stored id as `PyObjectId` validates it: an ObjectId, or text that
      parses as one (converted to an ObjectId). */
  function CoerceOid(v: Value): Option<Value> {
    match v
    case VOid(_) => Some(v)
    case VStr(s) => (match ParseOid(s) case Some(n) => Some(VOid(n)) case None => None)
    case _ => None
  }

  function CoerceOids(items: seq<Value>): (r: Option<seq<Value>>)
    ensures r.Some? ==> |r.value| == |items|
  {
    if |items| == 0 then Some([])
    else
      match CoerceOid(items[0])
      case None => None
      case Some(v) =>
        match CoerceOids(items[1..])
        case None => None
        case Some(rest) => Some([v] + rest)
  }

  predicate AllStr(items: seq<Value>) {
    forall i | 0 <= i < |items| :: items[i].VStr?
  }

  /** Lax validation of one value against a field type: the value stored on
      the object, or None when pydantic rejects it. */
  function Coerce(v: Value, t: FieldType): Option<Value> {
    match t
    case TStr => if v.VStr? then Some(v) else None
    case TOptStr => if v.VStr? || v.VNull? then Some(v) else None
    case TOid => CoerceOid(v)
    case TOptOid => if v.VNull? then Some(v) else CoerceOid(v)
    case TOidList =>
      (if v.VList? then (match CoerceOids(v.items) case Some(xs) => Some(VList(xs)) case None => None) else None)
    case TOptTime => if v.VInt? || v.VNull? then Some(v) else None
    case TOptStrList => if v.VNull? || (v.VList? && AllStr(v.items)) then Some(v) else None
    case TOptAsset => if v.VNull? || v.VOpaque? then Some(v) else None
  }

  predicate StrictOid(v: Value) {
    v.VOid? || (v.VStr? && ParseOid(v.s).Some?)
  }

  /** Strict validation, as `save` runs it on the object's own dump. */
  predicate Strict(v: Value, t: FieldType) {
    match t
    case TStr => v.VStr?
    case TOptStr => v.VStr? || v.VNull?
    case TOid => StrictOid(v)
    case TOptOid => v.VNull? || StrictOid(v)
    case TOidList => v.VList? && forall i | 0 <= i < |v.items| :: StrictOid(v.items[i])
    case TOptTime => v.VInt? || v.VNull?
    case TOptStrList => v.VNull? || (v.VList? && AllStr(v.items))
    case TOptAsset => v.VNull? || v.VOpaque?
  }

  lemma {:induction false} CoerceOidsSound(items: seq<Value>)
    requires CoerceOids(items).Some?
    ensures forall i | 0 <= i < |items| :: CoerceOid(items[i]).Some? && CoerceOids(items).value[i] == CoerceOid(items[i]).value
    ensures forall i | 0 <= i < |items| :: CoerceOids(items).value[i].VOid?
  {
    if |items| > 0 {
      CoerceOidsSound(items[1..]);
    }
  }

  lemma {:induction false} CoerceOidsKeepsOids(items: seq<Value>)
    requires forall i | 0 <= i < |items| :: items[i].VOid?
    ensures CoerceOids(items) == Some(items)
  {
    if |items| > 0 {
      CoerceOidsKeepsOids(items[1..]);
      assert [items[0]] + items[1..] == items;
    }
  }

  /** What lax validation accepts passes strict validation, and validating
      it again changes nothing. */
  lemma CoerceStrict(v: Value, t: FieldType)
    requires Coerce(v, t).Some?
    ensures Strict(Coerce(v, t).value, t)
    ensures Coerce(Coerce(v, t).value, t) == Coerce(v, t)
  {
    if t == TOidList {
      CoerceOidsSound(v.items);
      CoerceOidsKeepsOids(Coerce(v, t).value.items);
    }
  }

  // ---------------------------------------------------------------- objects

  datatype Obj = Obj(kind: Kind, fields: Doc) {
    /** Attribute access; a field the object does not hold reads as None. */
    function At(k: string): Value {
      if k in fields then fields[k] else VNull
    }

    function Id(): Value {
      At(ID_KEY)
    }
  }

  /** The value a field gets from a document: the validated stored value, or
      the default when the key is absent; None when construction fails. */
  function Resolve(f: FieldSpec, doc: Doc): Option<Value> {
    if f.name in doc then Coerce(doc[f.name], f.ty) else f.default
  }

  function Build(specs: seq<FieldSpec>, doc: Doc): (r: Option<Doc>)
    requires DistinctNames(specs)
    ensures r.Some? <==> forall i | 0 <= i < |specs| :: Resolve(specs[i], doc).Some?
    ensures r.Some? ==> r.value.Keys == Names(specs)
    ensures r.Some? ==> forall i | 0 <= i < |specs| :: r.value[specs[i].name] == Resolve(specs[i], doc).value
  {
    if |specs| == 0 then Some(map[])
    else
      match Resolve(specs[0], doc)
      case None => None
      case Some(v) =>
        match Build(specs[1..], doc)
        case None => None
        case Some(rest) =>
          NamesCons(specs);
          Some(rest[specs[0].name := v])
  }

  lemma NamesCons(specs: seq<FieldSpec>)
    requires |specs| > 0
    ensures Names(specs) == {specs[0].name} + Names(specs[1..])
  {
    forall n | n in Names(specs) ensures n in {specs[0].name} + Names(specs[1..]) {
      var i :| 0 <= i < |specs| && specs[i].name == n;
      if i > 0 { assert specs[1..][i - 1].name == n; }
    }
  }

  /** `cls(**doc)`: every declared field is validated or defaulted, and
      construction fails with a validation error when one is not. */
  function Construct(k: Kind, doc: Doc): (r: Result<Obj>)
    ensures r.Success? <==> forall i | 0 <= i < |Schema(k)| :: Resolve(Schema(k)[i], doc).Some?
    ensures r.Failure? ==> r.error == ValidationError
    ensures r.Success? ==> r.value.kind == k && r.value.fields.Keys == Names(Schema(k))
    ensures r.Success? ==> forall i | 0 <= i < |Schema(k)| ::
      r.value.fields[Schema(k)[i].name] == Resolve(Schema(k)[i], doc).value
  {
    SchemaDistinct(k);
    match Build(Schema(k), doc)
    case Some(fs) => Success(Obj(k, fs))
    case None => Failure(ValidationError)
  }

  /** The `model_validate(..., strict=True)` check at the start of `save`. */
  predicate Valid(o: Obj) {
    forall i | 0 <= i < |Schema(o.kind)| :: Strict(o.At(Schema(o.kind)[i].name), Schema(o.kind)[i].ty)
  }

  /** Every constructed object is valid, and constructing again from its own
      fields gives it back. */
  lemma ConstructRoundTrip(k: Kind, doc: Doc)
    requires Construct(k, doc).Success?
    ensures Valid(Construct(k, doc).value)
    ensures Construct(k, Construct(k, doc).value.fields) == Construct(k, doc)
  {
    var specs := Schema(k);
    SchemaDistinct(k);
    forall i | 0 <= i < |specs| && specs[i].default.Some?
      ensures Strict(specs[i].default.value, specs[i].ty) && Coerce(specs[i].default.value, specs[i].ty) == specs[i].default
    {
      DefaultsCoerce(k, i);
    }
    BuildRoundTrip(specs, doc);
  }

  /** Building from built fields gives them back, and every built value
      passes strict validation, when the defaults do. */
  lemma BuildRoundTrip(specs: seq<FieldSpec>, doc: Doc)
    requires DistinctNames(specs)
    requires forall i | 0 <= i < |specs| && specs[i].default.Some? ::
      Strict(specs[i].default.value, specs[i].ty) && Coerce(specs[i].default.value, specs[i].ty) == specs[i].default
    requires Build(specs, doc).Some?
    ensures forall i | 0 <= i < |specs| :: Strict(Build(specs, doc).value[specs[i].name], specs[i].ty)
    ensures Build(specs, Build(specs, doc).value) == Build(specs, doc)
  {
    var fs := Build(specs, doc).value;
    forall i | 0 <= i < |specs|
      ensures Strict(fs[specs[i].name], specs[i].ty) && Resolve(specs[i], fs) == Some(fs[specs[i].name])
    {
      var f := specs[i];
      assert f.name in fs.Keys;
      if f.name in doc {
        CoerceStrict(doc[f.name], f.ty);
      }
    }
    var fs' := Build(specs, fs).value;
    assert fs'.Keys == fs.Keys;
    assert forall n | n in fs.Keys :: fs'[n] == fs[n] by {
      forall n | n in fs.Keys ensures fs'[n] == fs[n] {
        var i :| 0 <= i < |specs| && specs[i].name == n;
      }
    }
    assert fs' == fs;
  }

  /** Every default is a value of its field's type that validation keeps. */
  lemma DefaultsCoerce(k: Kind, i: int)
    requires 0 <= i < |Schema(k)| && Schema(k)[i].default.Some?
    ensures Strict(Schema(k)[i].default.value, Schema(k)[i].ty)
    ensures Coerce(Schema(k)[i].default.value, Schema(k)[i].ty) == Schema(k)[i].default
  {
    var s := Schema(k);
    assert s[i].default.value == VNull || s[i].default.value == VList([]);
    assert s[i].ty in {TOptOid, TOptTime, TOptStr, TOptAsset, TOptStrList};
  }

  // ---------------------------------------------------------------- get / get_all

  /** The `id` argument of `get`: an ObjectId or a string. */
  datatype IdArg = ObjectIdArg(n: nat) | TextArg(s: string)

  /** Python truthiness of the argument: an ObjectId is always true. */
  predicate IdGiven(id: IdArg) {
    id.ObjectIdArg? || |id.s| > 0
  }

  function IdValue(id: IdArg): Value {
    match id
    case ObjectIdArg(n) => VOid(n)
    case TextArg(s) => VStr(s)
  }

  /** The table an id names: the caller's own for an ObjectId, otherwise the
      text before the first ':' (all of it when there is none). */
  function IdTable(c: Class, id: IdArg): (r: string)
    ensures id.TextArg? ==> r == Text.Split(id.s, ':')[0]
    ensures id.TextArg? && ':' !in id.s ==> r == id.s
  {
    match id
    case ObjectIdArg(_) => ClassTable(c)
    case TextArg(s) => Text.BeforeFirst(s, ':')
  }

  /** The class `get` constructs: the caller when its table is the id's,
      else the subclass registered for that table. */
  function TargetClass(c: Class, table: string): (r: Option<Kind>)
    ensures r.Some? ==> TableName(r.value) == table
    ensures r.None? <==> forall k: Kind :: TableName(k) != table
    ensures c.Sub? && TableName(c.kind) == table ==> r == Some(c.kind)
  {
    if ClassTable(c) != "" && ClassTable(c) == table then Some(c.kind) else ClassByTableName(table)
  }

  /** `ObjectModel.get`: an empty id is invalid input; every other failure
      (no class for the table, no such record, a record that does not
      validate) surfaces as not found. */
  function Get(db: Db, c: Class, id: IdArg): (r: Result<Obj>)
    ensures r.Failure? <==> (
      || !IdGiven(id)
      || TargetClass(c, IdTable(c, id)).None?
      || |Query(db, IdTable(c, id), [Eq(ID_KEY, IdValue(id))])| == 0
      || Construct(TargetClass(c, IdTable(c, id)).value, Query(db, IdTable(c, id), [Eq(ID_KEY, IdValue(id))])[0]).Failure?)
    ensures r.Failure? ==> (r.error == InvalidInput <==> !IdGiven(id))
    ensures r.Failure? ==> r.error in {InvalidInput, NotFound}
    ensures r.Success? ==> TableName(r.value.kind) == IdTable(c, id) && Valid(r.value)
    ensures r.Success? && id.ObjectIdArg? ==> r.value.Id() == IdValue(id)
  {
    if !IdGiven(id) then Failure(InvalidInput)
    else
      var table := IdTable(c, id);
      match TargetClass(c, table)
      case None => Failure(NotFound)
      case Some(k) =>
        var docs := Query(db, table, [Eq(ID_KEY, IdValue(id))]);
        if |docs| == 0 then Failure(NotFound)
        else
          match Construct(k, docs[0])
          case Failure(_) => Failure(NotFound)
          case Success(o) =>
            assert docs[0] in docs;
            FoundByIdValue(k, docs[0], id);
            Success(o)
  }

  /** The object built from the record a lookup by id found is valid, and
      an ObjectId lookup gives it that id. */
  lemma FoundByIdValue(k: Kind, d: Doc, id: IdArg)
    requires Matches(d, [Eq(ID_KEY, IdValue(id))])
    requires Construct(k, d).Success?
    ensures Valid(Construct(k, d).value)
    ensures id.ObjectIdArg? ==> Construct(k, d).value.Id() == IdValue(id)
  {
    ConstructRoundTrip(k, d);
    assert Holds(d, [Eq(ID_KEY, IdValue(id))][0]);
    assert Schema(k)[0] == FieldSpec(ID_KEY, TOptOid, Some(VNull));
  }

  /** Looking up a stored document by its ObjectId from its own class finds
      exactly that document. */
  lemma GetFindsStored(db: Db, k: Kind, i: nat)
    requires UniqueIds(Docs(db, TableName(k)))
    requires i < |Docs(db, TableName(k))|
    requires Docs(db, TableName(k))[i][ID_KEY].VOid?
    ensures var d := Docs(db, TableName(k))[i];
      Get(db, Sub(k), ObjectIdArg(d[ID_KEY].oid)) ==
        (if Construct(k, d).Success? then Construct(k, d) else Failure(NotFound))
  {
    var docs := Docs(db, TableName(k));
    var d := docs[i];
    var f := [Eq(ID_KEY, d[ID_KEY])];
    assert Holds(d, f[0]);
    var q := Query(db, TableName(k), f);
    assert d in q;
    forall x | x in q ensures x == d {
      var j :| 0 <= j < |docs| && docs[j] == x;
      assert Holds(x, f[0]);
    }
    assert q[0] in q;
  }

  /** A string id never finds anything: either it names a table and is not
      24 hexadecimal digits, or it contains ':', which no ObjectId text does,
      and the stored `_id` it matches must convert to an ObjectId. */
  lemma GetTextIdNeverSucceeds(db: Db, c: Class, s: string)
    ensures Get(db, c, TextArg(s)).Failure?
  {
    var id := TextArg(s);
    if IdGiven(id) && TargetClass(c, IdTable(c, id)).Some? {
      var table := IdTable(c, id);
      var k := TargetClass(c, table).value;
      var docs := Query(db, table, [Eq(ID_KEY, VStr(s))]);
      if |docs| > 0 {
        assert docs[0] in docs;
        assert Holds(docs[0], [Eq(ID_KEY, VStr(s))][0]);
        TextIdUnparsed(s, k);
        StrIdRejected(k, docs[0], s);
      }
    }
  }

  /** Text holding ':', or a table name, is not an ObjectId. */
  lemma TextIdUnparsed(s: string, k: Kind)
    requires ':' in s || s == TableName(k)
    ensures ParseOid(s).None?
  {
    if ':' in s {
      var j :| 0 <= j < |s| && s[j] == ':';
      assert !IsHex(s[j]);
    } else {
      assert |TableName(k)| < 24;
    }
  }

  /** A stored `_id` that is text but not an ObjectId fails validation. */
  lemma StrIdRejected(k: Kind, d: Doc, s: string)
    requires ID_KEY in d && d[ID_KEY] == VStr(s) && ParseOid(s).None?
    ensures Construct(k, d).Failure?
  {
    assert Schema(k)[0] == FieldSpec(ID_KEY, TOptOid, Some(VNull));
    assert Resolve(Schema(k)[0], d).None?;
  }

  /** Construct every document, skipping those that fail. */
  function ConstructAll(k: Kind, docs: seq<Doc>): (r: seq<Obj>)
    ensures |r| <= |docs|
    ensures forall o | o in r :: exists d | d in docs :: Construct(k, d) == Success(o)
    ensures forall d | d in docs && Construct(k, d).Success? :: Construct(k, d).value in r
  {
    Successes(d => Construct(k, d), docs)
  }

  /** Stored order is kept: the objects built from `a + b` are those built
      from `a`, followed by those built from `b`. */
  lemma ConstructAllAppend(k: Kind, a: seq<Doc>, b: seq<Doc>)
    ensures ConstructAll(k, a + b) == ConstructAll(k, a) + ConstructAll(k, b)
  {
    SuccessesAppend(d => Construct(k, d), a, b);
  }

  /** `ObjectModel.get_all`: only on a subclass (otherwise a database error);
      the objects of every stored document that validates, in stored order. */
  function GetAll(db: Db, c: Class): (r: Result<seq<Obj>>)
    ensures r.Failure? <==> c.Base?
    ensures r.Failure? ==> r.error == DatabaseOperation
    ensures r.Success? ==> |r.value| <= |Docs(db, ClassTable(c))|
    ensures r.Success? ==> forall o | o in r.value ::
      (o.kind == c.kind && Valid(o) && exists d | d in Docs(db, TableName(c.kind)) :: Construct(c.kind, d) == Success(o))
    ensures r.Success? ==> forall d | d in Docs(db, TableName(c.kind)) && Construct(c.kind, d).Success? ::
      Construct(c.kind, d).value in r.value
    ensures r.Success? ==> r.value == ConstructAll(c.kind, Docs(db, ClassTable(c)))
  {
    if ClassTable(c) == "" then Failure(DatabaseOperation)
    else
      var docs := Query(db, ClassTable(c), []);
      assert docs == Docs(db, ClassTable(c)) by { SelectAll(Docs(db, ClassTable(c))); }
      var objs := ConstructAll(c.kind, docs);
      forall o | o in objs ensures o.kind == c.kind && Valid(o) {
        var d :| d in docs && Construct(c.kind, d) == Success(o);
        ConstructRoundTrip(c.kind, d);
      }
      Success(objs)
  }

  /** The empty filter matches everything. */
  lemma {:induction false} SelectAll(docs: seq<Doc>)
    ensures Select(docs, []) == docs
  {
    if |docs| > 0 {
      SelectAll(docs[1..]);
      assert [docs[0]] + docs[1..] == docs;
    }
  }

  // ---------------------------------------------------------------- save / delete

  /** The embedding model's `embed`, when one is configured. */
  type EmbedFn = string -> seq<real>

  /** `needs_embedding()`: true for chunks and insights only. */
  predicate NeedsEmbedding(k: Kind) {
    k == SourceEmbedding || k == SourceInsight
  }

  /** `get_embedding_content()`: the `content` of chunks and insights. */
  function EmbeddingContent(o: Obj): (r: Option<Value>)
    ensures r.Some? <==> NeedsEmbedding(o.kind)
  {
    if NeedsEmbedding(o.kind) then Some(o.At("content")) else None
  }

  /** `_prepare_save_data`: the dump without its None values. */
  function PrepareSaveData(o: Obj): (r: Doc)
    ensures forall k | k in r :: r[k] != VNull
    ensures forall k | k in o.fields && o.fields[k] != VNull :: k in r && r[k] == o.fields[k]
    ensures r.Keys <= o.fields.Keys
  {
    map k | k in o.fields && o.fields[k] != VNull :: o.fields[k]
  }

  function EmbeddingValue(e: seq<real>): (r: Value)
    ensures r.VList? && |r.items| == |e|
  {
    VList(seq(|e|, i requires 0 <= i < |e| => VReal(e[i])))
  }

  const EMBEDDING := "embedding"

  /** The object has text to embed: it needs embedding and its content is a
      non-empty string. */
  predicate Embeds(o: Obj) {
    NeedsEmbedding(o.kind) && o.At("content").VStr? && |o.At("content").s| > 0
  }

  /** The document `save` writes before `created` is set, and the dimension
      of the vector index it must ensure first (if any).  `model` is what
      reading `model_manager.embedding_model` gives: an error, no model, or
      the model's `embed`.  Without a model the embedding is stored empty. */
  function SaveData(o: Obj, now: int, model: Result<Option<EmbedFn>>): (r: Result<(Doc, Option<int>)>)
    ensures r.Failure? <==> Embeds(o) && model.Failure?
    ensures r.Failure? ==> r.error == DatabaseOperation
    ensures r.Success? ==> var (d, dim) := r.value;
      && UPDATED in d && d[UPDATED] == VInt(now)
      && (forall k | k in d && k != UPDATED && k != EMBEDDING :: d[k] != VNull && k in o.fields && d[k] == o.fields[k])
      && (forall k | k in o.fields && o.fields[k] != VNull :: k in d)
      && (!Embeds(o) ==> dim.None? && d == PrepareSaveData(o)[UPDATED := VInt(now)])
      && (Embeds(o) && model.value.None? ==> dim.None? && EMBEDDING in d && d[EMBEDDING] == VList([]))
      && (Embeds(o) && model.value.Some? ==>
            var e := model.value.value(o.At("content").s);
            dim == Some(|e|) && EMBEDDING in d && d[EMBEDDING] == EmbeddingValue(e))
  {
    var base := PrepareSaveData(o)[UPDATED := VInt(now)];
    if Embeds(o) then
      match model
      case Failure(_) => Failure(DatabaseOperation)
      case Success(None) => Success((base[EMBEDDING := VList([])], None))
      case Success(Some(embed)) =>
        var e := embed(o.At("content").s);
        Success((base[EMBEDDING := EmbeddingValue(e)], Some(|e|)))
    else Success((base, None))
  }

  /** The object after `save` copies the stored document's values back into
      its declared fields (`_id` is not an attribute name, so it is kept). */
  function WriteBack(o: Obj, stored: Doc): (r: Obj)
    ensures r.kind == o.kind && r.Id() == o.Id()
    ensures forall n | n in Names(Schema(o.kind)) ::
      r.At(n) == if n != ID_KEY && n in stored then stored[n] else o.At(n)
  {
    var names := Names(Schema(o.kind));
    assert ID_KEY in names by { assert Schema(o.kind)[0].name == ID_KEY; }
    Obj(o.kind, map n | n in names :: if n != ID_KEY && n in stored then stored[n] else o.At(n))
  }

  /** `ObjectModel.save`: strict validation, then the save data (and the
      vector index when a model embedded the content), then insert or update,
      then the stored document read back into the object.  A validation
      error escapes as such; every other error becomes a database-operation
      error.  The two clock readings are `now` (for `updated`) and
      `createdAt`. */
  function Save(db: Db, o: Obj, now: int, createdAt: int, model: Result<Option<EmbedFn>>): (r: (Db, Result<Obj>))
    ensures !Valid(o) ==> r == (db, Failure(ValidationError))
    ensures r.1.Failure? ==> r.1.error in {ValidationError, DatabaseOperation}
    ensures Valid(o) && Embeds(o) && model.Failure? ==> r == (db, Failure(DatabaseOperation))
    ensures r.1.Success? ==> r.1.value.kind == o.kind && r.1.value.Id() != VNull
    ensures r.1.Success? && o.Id() != VNull ==> r.1.value.Id() == o.Id()
    ensures forall c | c != TableName(o.kind) :: Docs(r.0, c) == Docs(db, c)
  {
    if !Valid(o) then (db, Failure(ValidationError))
    else
      match SaveData(o, now, model)
      case Failure(e) => (db, Failure(e))
      case Success((data, dim)) => Persist(IndexFor(db, TableName(o.kind), dim), o, data, createdAt)
  }

  /** A successful save touches only the search indexes of the class's own
      table, and adds the vector index exactly when an embedding was
      computed. */
  lemma SaveIndexes(db: Db, o: Obj, now: int, createdAt: int, model: Result<Option<EmbedFn>>)
    requires Save(db, o, now, createdAt, model).1.Success?
    ensures var db' := Save(db, o, now, createdAt, model).0;
      && (forall c | c != TableName(o.kind) :: Indexes(db', c) == Indexes(db, c))
      && (Embeds(o) && model.value.Some? ==> HasIndexNamed(Indexes(db', TableName(o.kind)), VECTOR_INDEX_NAME))
      && (!(Embeds(o) && model.value.Some?) ==> db'.indexes == db.indexes)
  {
  }

  function IndexFor(db: Db, table: string, dim: Option<int>): (r: Db)
    ensures r.colls == db.colls && r.next == db.next
    ensures dim.None? ==> r == db
    ensures dim.Some? ==> r == EnsureVectorIndex(db, table, dim.value)
  {
    if dim.Some? then EnsureVectorIndex(db, table, dim.value) else db
  }

  /** Insert (no id: a fresh `created`) or update the stored record by id
      (`created` as the object has it). */
  function Persist(db: Db, o: Obj, data: Doc, createdAt: int): (r: (Db, Result<Obj>))
    requires ID_KEY in data <==> o.Id() != VNull
    requires ID_KEY in data ==> data[ID_KEY] == o.Id()
    ensures r.1.Failure? ==> r.1.error == DatabaseOperation && r.0 == db
    ensures r.1.Success? ==> r.1.value.kind == o.kind && r.1.value.Id() != VNull
    ensures r.1.Success? && o.Id() != VNull ==> r.1.value.Id() == o.Id()
    ensures forall c | c != TableName(o.kind) :: Docs(r.0, c) == Docs(db, c)
    ensures r.0.indexes == db.indexes
  {
    if o.Id() == VNull then Insert(db, o, data[CREATED := VInt(createdAt)])
    else Rewrite(db, o, data[CREATED := o.At(CREATED)])
  }

  function Insert(db: Db, o: Obj, row: Doc): (r: (Db, Result<Obj>))
    requires ID_KEY !in row
    ensures r.1.Failure? ==> r.1.error == DatabaseOperation && r.0 == db
    ensures r.1.Success? ==> r.1.value.kind == o.kind && r.1.value.Id() != VNull
    ensures forall c | c != TableName(o.kind) :: Docs(r.0, c) == Docs(db, c)
    ensures r.0.indexes == db.indexes
  {
    var table := TableName(o.kind);
    match Create(db, table, row)
    case Failure(_) => (db, Failure(DatabaseOperation))
    case Success((db2, id)) =>
      var o1 := o.(fields := o.fields[ID_KEY := id]);
      (db2, Success(ReadBack(db2, o1, id)))
  }

  function Rewrite(db: Db, o: Obj, row: Doc): (r: (Db, Result<Obj>))
    requires o.Id() != VNull
    requires ID_KEY in row && row[ID_KEY] == o.Id()
    ensures r.1.Success?
    ensures r.1.Success? ==> r.1.value.kind == o.kind && r.1.value.Id() == o.Id()
    ensures forall c | c != TableName(o.kind) :: Docs(r.0, c) == Docs(db, c)
    ensures r.0.indexes == db.indexes
  {
    var docs := Docs(db, TableName(o.kind));
    var first := FirstMatch(docs, [Eq(ID_KEY, o.Id())]);
    assert first.Some? ==> ID_KEY in docs[first.value] && docs[first.value][ID_KEY] == o.Id() by {
      if first.Some? { MatchesId(docs[first.value], o.Id()); }
    }
    match Update(db, TableName(o.kind), [Eq(ID_KEY, o.Id())], row)
    case Failure(_) => (db, Failure(DatabaseOperation))
    case Success((db2, _)) => (db2, Success(ReadBack(db2, o, o.Id())))
  }

  /** An insert appends the row under its new id and reads exactly it back. */
  lemma InsertReadsBack(db: Db, o: Obj, row: Doc)
    requires ID_KEY !in row
    requires UniqueIds(Docs(db, TableName(o.kind)))
    requires Insert(db, o, row).1.Success?
    ensures var (db', r) := Insert(db, o, row);
      var stored := row[ID_KEY := r.value.Id()];
      && Docs(db', TableName(o.kind)) == Docs(db, TableName(o.kind)) + [stored]
      && UniqueIds(Docs(db', TableName(o.kind)))
      && r.value == WriteBack(o.(fields := o.fields[ID_KEY := r.value.Id()]), stored)
  {
    var table := TableName(o.kind);
    CreateReadBack(db, table, row);
  }

  /** An update of an existing record changes it in place and reads the
      updated document back. */
  lemma RewriteReadsBack(db: Db, o: Obj, row: Doc)
    requires o.Id() != VNull
    requires ID_KEY in row && row[ID_KEY] == o.Id()
    requires |Query(db, TableName(o.kind), [Eq(ID_KEY, o.Id())])| > 0
    ensures var (db', r) := Rewrite(db, o, row);
      var before := Query(db, TableName(o.kind), [Eq(ID_KEY, o.Id())])[0];
      && |Docs(db', TableName(o.kind))| == |Docs(db, TableName(o.kind))|
      && r.value == WriteBack(o, before + row)
  {
    var table := TableName(o.kind);
    var f := [Eq(ID_KEY, o.Id())];
    var docs := Docs(db, table);
    SelectHead(docs, f);
    var i := FirstMatch(docs, f).value;
    MatchesId(docs[i], o.Id());
    var (db2, _) := Update(db, table, f, row).value;
    var after := docs[i] + row;
    var docs2 := Docs(db2, table);
    assert docs2[i] == after;
    assert Matches(after, f) by { assert Holds(after, f[0]); }
    forall j | 0 <= j < i ensures !Matches(docs2[j], f) {
      assert docs2[j] == docs[j];
    }
    FirstMatchAt(docs2, f, i);
    SelectHead(docs2, f);
  }

  /** The facts about the save data that the write step relies on. */
  predicate SaveDataOf(o: Obj, data: Doc, now: int) {
    && UPDATED in data && data[UPDATED] == VInt(now)
    && (ID_KEY in data <==> o.Id() != VNull)
    && (ID_KEY in data ==> data[ID_KEY] == o.Id())
    && (forall n | n in o.fields && o.fields[n] != VNull && n != UPDATED && n != EMBEDDING ::
         n in data && data[n] == o.fields[n])
    && (forall n | n in data && n != UPDATED && n != EMBEDDING :: n in o.fields && data[n] == o.fields[n] != VNull)
  }

  lemma SaveDataFacts(o: Obj, now: int, model: Result<Option<EmbedFn>>)
    requires SaveData(o, now, model).Success?
    ensures SaveDataOf(o, SaveData(o, now, model).value.0, now)
  {
  }

  lemma InsertFields(db: Db, o: Obj, data: Doc, now: int, createdAt: int)
    requires o.Id() == VNull && SaveDataOf(o, data, now)
    requires UniqueIds(Docs(db, TableName(o.kind)))
    requires Insert(db, o, data[CREATED := VInt(createdAt)]).1.Success?
    ensures var (db', r) := Insert(db, o, data[CREATED := VInt(createdAt)]);
      var table := TableName(o.kind);
      && |Docs(db', table)| == |Docs(db, table)| + 1
      && Docs(db', table)[..|Docs(db, table)|] == Docs(db, table)
      && ID_KEY in Docs(db', table)[|Docs(db, table)|]
      && Docs(db', table)[|Docs(db, table)|][ID_KEY] == r.value.Id()
      && UniqueIds(Docs(db', table))
      && (forall n | n in o.fields && o.fields[n] != VNull && n !in {CREATED, UPDATED, EMBEDDING} ::
            n in Docs(db', table)[|Docs(db, table)|] && Docs(db', table)[|Docs(db, table)|][n] == o.fields[n])
      && r.value.At(CREATED) == VInt(createdAt)
      && r.value.At(UPDATED) == VInt(now)
      && forall n | n in Names(Schema(o.kind)) && n !in {ID_KEY, CREATED, UPDATED} && o.At(n) != VNull ::
           r.value.At(n) == o.At(n)
  {
    var row := data[CREATED := VInt(createdAt)];
    InsertReadsBack(db, o, row);
    var (db', r) := Insert(db, o, row);
    var table := TableName(o.kind);
    InsertedShape(o, data, now, createdAt, Docs(db, table), Docs(db', table), r.value.Id(), r.value);
  }

  /** The record appended by an insert, and the object read back from it. */
  lemma InsertedShape(o: Obj, data: Doc, now: int, createdAt: int, before: seq<Doc>, after: seq<Doc>, id: Value, r: Obj)
    requires o.Id() == VNull && SaveDataOf(o, data, now)
    requires after == before + [data[CREATED := VInt(createdAt)][ID_KEY := id]]
    requires r == WriteBack(o.(fields := o.fields[ID_KEY := id]), data[CREATED := VInt(createdAt)][ID_KEY := id])
    ensures |after| == |before| + 1 && after[..|before|] == before
    ensures ID_KEY in after[|before|] && after[|before|][ID_KEY] == id == r.Id()
    ensures forall n | n in o.fields && o.fields[n] != VNull && n !in {CREATED, UPDATED, EMBEDDING} ::
      n in after[|before|] && after[|before|][n] == o.fields[n]
    ensures r.At(CREATED) == VInt(createdAt) && r.At(UPDATED) == VInt(now)
    ensures forall n | n in Names(Schema(o.kind)) && n !in {ID_KEY, CREATED, UPDATED} && o.At(n) != VNull ::
      r.At(n) == o.At(n)
  {
    NamesOfSchema(o.kind);
    assert after[|before|] == data[CREATED := VInt(createdAt)][ID_KEY := id];
  }

  lemma RewriteFields(db: Db, o: Obj, data: Doc, now: int)
    requires o.Id() != VNull && SaveDataOf(o, data, now)
    requires |Query(db, TableName(o.kind), [Eq(ID_KEY, o.Id())])| > 0
    ensures var (db', r) := Rewrite(db, o, data[CREATED := o.At(CREATED)]);
      var table := TableName(o.kind);
      var before := Query(db, table, [Eq(ID_KEY, o.Id())])[0];
      && |Docs(db', table)| == |Docs(db, table)|
      && r.value.At(CREATED) == o.At(CREATED)
      && r.value.At(UPDATED) == VInt(now)
      && forall n | n in Names(Schema(o.kind)) && n !in {ID_KEY, CREATED, UPDATED} ::
           r.value.At(n) == if o.At(n) != VNull then o.At(n) else if n in before then before[n] else VNull
  {
    var row := data[CREATED := o.At(CREATED)];
    RewriteReadsBack(db, o, row);
    var before := Query(db, TableName(o.kind), [Eq(ID_KEY, o.Id())])[0];
    RewrittenShape(o, data, now, before, Rewrite(db, o, row).1.value);
  }

  /** The object read back from a rewritten record. */
  lemma RewrittenShape(o: Obj, data: Doc, now: int, before: Doc, r: Obj)
    requires o.Id() != VNull && SaveDataOf(o, data, now)
    requires r == WriteBack(o, before + data[CREATED := o.At(CREATED)])
    ensures r.At(CREATED) == o.At(CREATED) && r.At(UPDATED) == VInt(now)
    ensures forall n | n in Names(Schema(o.kind)) && n !in {ID_KEY, CREATED, UPDATED} ::
      r.At(n) == if o.At(n) != VNull then o.At(n) else if n in before then before[n] else VNull
  {
    NamesOfSchema(o.kind);
  }

  /** Saving an object without an id appends one record holding its
      non-None fields, `created` and `updated`, and gives the object that
      record's new id, the two timestamps and its own non-None fields. */
  lemma SaveInserts(db: Db, o: Obj, now: int, createdAt: int, model: Result<Option<EmbedFn>>)
    requires o.Id() == VNull
    requires UniqueIds(Docs(db, TableName(o.kind)))
    requires Save(db, o, now, createdAt, model).1.Success?
    ensures var (db', r) := Save(db, o, now, createdAt, model);
      var table := TableName(o.kind);
      && |Docs(db', table)| == |Docs(db, table)| + 1
      && Docs(db', table)[..|Docs(db, table)|] == Docs(db, table)
      && ID_KEY in Docs(db', table)[|Docs(db, table)|]
      && Docs(db', table)[|Docs(db, table)|][ID_KEY] == r.value.Id()
      && UniqueIds(Docs(db', table))
      && (forall n | n in o.fields && o.fields[n] != VNull && n !in {CREATED, UPDATED, EMBEDDING} ::
            n in Docs(db', table)[|Docs(db, table)|] && Docs(db', table)[|Docs(db, table)|][n] == o.fields[n])
      && r.value.At(CREATED) == VInt(createdAt)
      && r.value.At(UPDATED) == VInt(now)
      && forall n | n in Names(Schema(o.kind)) && n !in {ID_KEY, CREATED, UPDATED} && o.At(n) != VNull ::
           r.value.At(n) == o.At(n)
  {
    var (data, dim) := SaveData(o, now, model).value;
    var db1 := IndexFor(db, TableName(o.kind), dim);
    SaveDataFacts(o, now, model);
    assert Save(db, o, now, createdAt, model) == Insert(db1, o, data[CREATED := VInt(createdAt)]);
    InsertFields(db1, o, data, now, createdAt);
  }

  /** Saving an object whose record exists rewrites that record in place; the
      object keeps its `created`, gets the new `updated`, and a field that is
      None on the object takes the value still stored for it: saving None
      never clears a stored value. */
  lemma SaveUpdates(db: Db, o: Obj, now: int, createdAt: int, model: Result<Option<EmbedFn>>)
    requires o.Id() != VNull
    requires |Query(db, TableName(o.kind), [Eq(ID_KEY, o.Id())])| > 0
    requires Save(db, o, now, createdAt, model).1.Success?
    ensures var (db', r) := Save(db, o, now, createdAt, model);
      var table := TableName(o.kind);
      var before := Query(db, table, [Eq(ID_KEY, o.Id())])[0];
      && |Docs(db', table)| == |Docs(db, table)|
      && r.value.At(CREATED) == o.At(CREATED)
      && r.value.At(UPDATED) == VInt(now)
      && forall n | n in Names(Schema(o.kind)) && n !in {ID_KEY, CREATED, UPDATED} ::
           r.value.At(n) == if o.At(n) != VNull then o.At(n) else if n in before then before[n] else VNull
  {
    var (data, dim) := SaveData(o, now, model).value;
    var db1 := IndexFor(db, TableName(o.kind), dim);
    SaveDataFacts(o, now, model);
    assert Save(db, o, now, createdAt, model) == Rewrite(db1, o, data[CREATED := o.At(CREATED)]);
    RewriteFields(db1, o, data, now);
  }

  /** The declared names of every class include the three inherited ones and
      never the stored embedding. */
  lemma NamesOfSchema(k: Kind)
    ensures ID_KEY in Names(Schema(k)) && CREATED in Names(Schema(k)) && UPDATED in Names(Schema(k))
    ensures EMBEDDING !in Names(Schema(k))
  {
    assert Schema(k)[0].name == ID_KEY && Schema(k)[1].name == CREATED && Schema(k)[2].name == UPDATED;
  }

  /** A constructed object holds, under the `i`-th declared name, the value
      that field resolved to. */
  lemma ConstructField(k: Kind, doc: Doc, i: nat)
    requires Construct(k, doc).Success? && i < |Schema(k)|
    ensures Construct(k, doc).value.At(Schema(k)[i].name) == Resolve(Schema(k)[i], doc).value
  {
    assert Schema(k)[i].name in Names(Schema(k));
  }

  /** The read-back step of `save`: unchanged when the record is gone. */
  function ReadBack(db: Db, o: Obj, id: Value): (r: Obj)
    ensures r.kind == o.kind && r.Id() == o.Id()
    ensures |Query(db, TableName(o.kind), [Eq(ID_KEY, id)])| == 0 ==> r == o
  {
    var docs := Query(db, TableName(o.kind), [Eq(ID_KEY, id)]);
    if |docs| == 0 then o else WriteBack(o, docs[0])
  }

  /** `ObjectModel.delete`: an object without an id cannot be deleted;
      otherwise the record with its id is removed (count 0 or 1). */
  function Delete(db: Db, o: Obj): (r: (Db, Result<nat>))
    ensures o.Id() == VNull <==> r.1.Failure?
    ensures r.1.Failure? ==> r.1.error == InvalidInput && r.0 == db
    ensures r.1.Success? ==> (
      && r.1.value <= 1
      && |Docs(r.0, TableName(o.kind))| == |Docs(db, TableName(o.kind))| - r.1.value
      && forall d | d in Docs(r.0, TableName(o.kind)) :: d in Docs(db, TableName(o.kind)))
  {
    if o.Id() == VNull then (db, Failure(InvalidInput))
    else
      var (db', n) := Store.Delete(db, TableName(o.kind), [Eq(ID_KEY, o.Id())]);
      (db', Success(n))
  }
}

=== FILE: quiz.dfy ===
/** The spaced-repetition quiz of `remind/process_content/get_quiz.py`, over
    the `Quizzed` records of `remind/domain/quiz.py`: which note is due for a
    quiz, and the per-day record of the notes already quizzed.  The clock is
    a parameter (microseconds, as everywhere in the model); the question
    writer, the judge and the hint writer are language-model calls and are
    not part of this module. */
module Quiz {
  import opened Wrappers
  import opened Store
  import Objects

  const QUIZ := "quiz"
  const SOURCES := "source"
  const QUIZZED := "quizzed"

  /** One day, in microseconds. */
  const DAY: int := 86_400_000_000

  /** Midnight of the day of `t`: `datetime.combine(t.date(), time.min)`. */
  function StartOfDay(t: int): (r: int)
    ensures r <= t < r + DAY && r % DAY == 0
  {
    t - t % DAY
  }

  /** The filter `{"created": {"$gte": t}}`. */
  function Since(t: int): Filter {
    [Gte(Objects.CREATED, t)]
  }

  // ---------------------------------------------------------------- today's record

  /** Index of the last document matching `f`. */
  function LastMatch(docs: seq<Doc>, f: Filter): (r: Option<nat>)
    ensures r.Some? ==> r.value < |docs| && Matches(docs[r.value], f)
    ensures r.Some? ==> forall j | r.value < j < |docs| :: !Matches(docs[j], f)
    ensures r.None? ==> forall j | 0 <= j < |docs| :: !Matches(docs[j], f)
  {
    if |docs| == 0 then None
    else if Matches(docs[|docs| - 1], f) then Some(|docs| - 1)
    else LastMatch(docs[..|docs| - 1], f)
  }

  /** The last match is determined by which documents match. */
  lemma {:induction false} LastMatchAt(docs: seq<Doc>, f: Filter, i: nat)
    requires i < |docs| && Matches(docs[i], f)
    requires forall j | i < j < |docs| :: !Matches(docs[j], f)
    ensures LastMatch(docs, f) == Some(i)
  {
    if i < |docs| - 1 {
      var front := docs[..|docs| - 1];
      assert front[i] == docs[i];
      LastMatchAt(front, f, i);
    }
  }

  /** The last document a query returns is the last match (`quizzed[-1]`). */
  lemma {:induction false} SelectLast(docs: seq<Doc>, f: Filter)
    ensures |Select(docs, f)| > 0 <==> LastMatch(docs, f).Some?
    ensures LastMatch(docs, f).Some? ==> Select(docs, f)[|Select(docs, f)| - 1] == docs[LastMatch(docs, f).value]
  {
    if |docs| > 0 {
      var n := |docs| - 1;
      assert docs == docs[..n] + [docs[n]];
      SelectAppend(docs[..n], [docs[n]], f);
      SelectLast(docs[..n], f);
      assert [docs[n]][1..] == [];
    }
  }

  /** Every listed id is an ObjectId. */
  predicate AllOids(vs: seq<Value>) {
    forall k | 0 <= k < |vs| :: vs[k].VOid?
  }

  /** The ids a `Quizzed` object lists, `quizzed.quizzed`. */
  function Items(o: Objects.Obj): seq<Value> {
    if o.At(QUIZZED).VList? then o.At(QUIZZED).items else []
  }

  /** A `Quizzed` object built from a document lists the document's ids,
      validated as ObjectIds. */
  lemma QuizRead(doc: Doc)
    ensures var r := Objects.Construct(Objects.Quizzed, doc);
      r.Success? ==>
        && QUIZZED in doc && doc[QUIZZED].VList?
        && Objects.CoerceOids(doc[QUIZZED].items).Some?
        && r.value.At(QUIZZED) == VList(Objects.CoerceOids(doc[QUIZZED].items).value)
        && AllOids(Items(r.value))
  {
    var s := Objects.Schema(Objects.Quizzed);
    assert s[3] == Objects.FieldSpec(QUIZZED, Objects.TOidList, None);
    var r := Objects.Construct(Objects.Quizzed, doc);
    if r.Success? {
      assert Objects.Resolve(s[3], doc).Some?;
      Objects.CoerceOidsSound(doc[QUIZZED].items);
    }
  }

  /** A document whose fields have the stored types reads back as a
      `Quizzed` listing exactly its ids. */
  lemma QuizWellTyped(doc: Doc)
    requires QUIZZED in doc && doc[QUIZZED].VList? && AllOids(doc[QUIZZED].items)
    requires ID_KEY in doc ==> doc[ID_KEY].VOid?
    requires Objects.CREATED in doc ==> doc[Objects.CREATED].VInt?
    requires Objects.UPDATED in doc ==> doc[Objects.UPDATED].VInt?
    ensures Objects.Construct(Objects.Quizzed, doc).Success?
    ensures Items(Objects.Construct(Objects.Quizzed, doc).value) == doc[QUIZZED].items
  {
    var s := Objects.Schema(Objects.Quizzed);
    Objects.CoerceOidsKeepsOids(doc[QUIZZED].items);
    assert s[0].name == ID_KEY && s[1].name == Objects.CREATED && s[2].name == Objects.UPDATED && s[3].name == QUIZZED;
    forall i | 0 <= i < |s| ensures Objects.Resolve(s[i], doc).Some? {
      assert i == 0 || i == 1 || i == 2 || i == 3;
    }
    QuizRead(doc);
  }

  /** `get_today_quizzed`: the last quiz record created since midnight, or a
      new empty one. */
  function TodayQuizzed(db: Db, now: int): (r: Result<Objects.Obj>)
    ensures var docs := Docs(db, QUIZ);
      var last := LastMatch(docs, Since(StartOfDay(now)));
      && (last.None? ==> r.Success? && r.value.Id() == VNull && Items(r.value) == [])
      && (last.Some? ==> r == Objects.Construct(Objects.Quizzed, docs[last.value]))
    ensures r.Success? ==> r.value.kind == Objects.Quizzed && r.value.At(QUIZZED).VList? && AllOids(Items(r.value))
    ensures r.Failure? ==> r.error == ValidationError
  {
    var q := Query(db, QUIZ, Since(StartOfDay(now)));
    SelectLast(Docs(db, QUIZ), Since(StartOfDay(now)));
    if |q| > 0 then
      QuizRead(q[|q| - 1]);
      Objects.Construct(Objects.Quizzed, q[|q| - 1])
    else
      QuizWellTyped(map[QUIZZED := VList([])]);
      QuizRead(map[QUIZZED := VList([])]);
      assert Objects.Schema(Objects.Quizzed)[0] == Objects.FieldSpec(ID_KEY, Objects.TOptOid, Some(VNull));
      Objects.Construct(Objects.Quizzed, map[QUIZZED := VList([])])
  }

  /** `v` is in today's record. */
  predicate Listed(db: Db, now: int, v: Value) {
    TodayQuizzed(db, now).Success? && v in Items(TodayQuizzed(db, now).value)
  }

  /** Every quiz record has an ObjectId, and no two share one: what records
      written by `save` look like. */
  predicate Tidy(db: Db) {
    OidKeyed(Docs(db, QUIZ))
  }

  predicate OidKeyed(docs: seq<Doc>) {
    && UniqueIds(docs)
    && forall i | 0 <= i < |docs| :: docs[i][ID_KEY].VOid?
  }

  /** Appending a record under an unused ObjectId keeps ids unique. */
  lemma OidKeyedAppend(docs: seq<Doc>, d: Doc, n: nat)
    requires OidKeyed(docs) && !IdTaken(docs, VOid(n))
    requires ID_KEY in d && d[ID_KEY] == VOid(n)
    ensures OidKeyed(docs + [d])
  {
    var docs2 := docs + [d];
    forall j | 0 <= j < |docs| ensures docs2[j][ID_KEY] != d[ID_KEY] {
      assert docs2[j] == docs[j];
    }
  }

  /** Rewriting a record without changing its id keeps ids unique. */
  lemma OidKeyedRewrite(docs: seq<Doc>, i: nat, row: Doc)
    requires OidKeyed(docs) && i < |docs|
    requires ID_KEY in row && row[ID_KEY] == docs[i][ID_KEY]
    ensures OidKeyed(docs[i := docs[i] + row])
  {
    var docs2 := docs[i := docs[i] + row];
    forall j | 0 <= j < |docs2| ensures ID_KEY in docs2[j] && docs2[j][ID_KEY] == docs[j][ID_KEY] {
    }
  }

  /** `quizzed.quizzed.append(v)` */
  function Appended(q: Objects.Obj, v: Value): (r: Objects.Obj)
    ensures r.kind == q.kind && r.Id() == q.Id()
    ensures Items(r) == Items(q) + [v]
  {
    q.(fields := q.fields[QUIZZED := VList(Items(q) + [v])])
  }

  /** Today's listed ids after a save are those before it and `v`. */
  ghost predicate Adds(db: Db, db2: Db, now: int, v: Value) {
    forall w :: Listed(db2, now, w) <==> Listed(db, now, w) || w == v
  }

  /** `save_quizzed_note`: list the note in today's record, writing nothing
      when it is already there.  Today's record is updated in place, or a new
      one is inserted when there is none; `createdAt` is the clock reading
      `save` stamps on a new record. */
  function SaveQuizzedNote(db: Db, note: Objects.Obj, now: int, createdAt: int): (r: (Db, Result<()>))
    ensures Listed(db, now, note.Id()) ==> r == (db, Success(()))
    ensures TodayQuizzed(db, now).Failure? ==> r == (db, Failure(ValidationError))
    ensures r.1.Failure? ==> r.0 == db
    ensures forall c | c != QUIZ :: Docs(r.0, c) == Docs(db, c)
    ensures r.1.Success? && Tidy(db) && note.Id().VOid? && StartOfDay(now) <= createdAt ==>
      Tidy(r.0) && Adds(db, r.0, now, note.Id())
  {
    match TodayQuizzed(db, now)
    case Failure(e) => (db, Failure(e))
    case Success(q) =>
      if note.Id() in Items(q) then (db, Success(()))
      else
        var o := Appended(q, note.Id());
        SaveQuizzed(db, o, now, createdAt);
        SaveRecords(db, note.Id(), now, createdAt);
        var (db', res) := Objects.Save(db, o, now, createdAt, Success(None));
        (db', if res.Success? then Success(()) else Failure(res.error))
  }

  /** Saving a `Quizzed` (which embeds nothing) validates it, then inserts or
      rewrites its record. */
  lemma SaveQuizzed(db: Db, o: Objects.Obj, now: int, createdAt: int)
    requires o.kind == Objects.Quizzed
    ensures var data := Objects.PrepareSaveData(o)[Objects.UPDATED := VInt(now)];
      && (ID_KEY in data <==> o.Id() != VNull)
      && (ID_KEY in data ==> data[ID_KEY] == o.Id())
      && Objects.Save(db, o, now, createdAt, Success(None)) ==
         if !Objects.Valid(o) then (db, Failure(ValidationError)) else Objects.Persist(db, o, data, createdAt)
    ensures Objects.TableName(o.kind) == QUIZ
  {
    assert !Objects.Embeds(o);
  }

  /** The record `save` inserts for a `Quizzed` that has no id yet. */
  function InsertedDoc(o: Objects.Obj, now: int, createdAt: int, n: nat): Doc {
    Objects.PrepareSaveData(o)[Objects.UPDATED := VInt(now)][Objects.CREATED := VInt(createdAt)][ID_KEY := VOid(n)]
  }

  /** The fields `save` writes over the stored record of a `Quizzed` with an
      id. */
  function RewriteRow(o: Objects.Obj, now: int): Doc {
    Objects.PrepareSaveData(o)[Objects.UPDATED := VInt(now)][Objects.CREATED := o.At(Objects.CREATED)]
  }

  /** A successful save of a `Quizzed` without an id appends its record
      under a fresh id. */
  lemma SaveInsertsQuizzed(db: Db, o: Objects.Obj, now: int, createdAt: int)
    requires o.kind == Objects.Quizzed && o.Id() == VNull
    requires Objects.Save(db, o, now, createdAt, Success(None)).1.Success?
    ensures Docs(Objects.Save(db, o, now, createdAt, Success(None)).0, QUIZ) == Docs(db, QUIZ) + [InsertedDoc(o, now, createdAt, db.next)]
    ensures !IdTaken(Docs(db, QUIZ), VOid(db.next))
  {
    SaveQuizzed(db, o, now, createdAt);
    var row := Objects.PrepareSaveData(o)[Objects.UPDATED := VInt(now)][Objects.CREATED := VInt(createdAt)];
    assert ID_KEY !in row;
    assert Objects.Save(db, o, now, createdAt, Success(None)) == Objects.Insert(db, o, row);
    assert NewId(db, row) == VOid(db.next);
  }

  /** A successful save of a `Quizzed` with an id rewrites the first record
      holding that id. */
  lemma SaveRewritesQuizzed(db: Db, o: Objects.Obj, now: int, createdAt: int, i: nat)
    requires o.kind == Objects.Quizzed && o.Id() != VNull
    requires FirstMatch(Docs(db, QUIZ), [Eq(ID_KEY, o.Id())]) == Some(i)
    requires Objects.Save(db, o, now, createdAt, Success(None)).1.Success?
    ensures i < |Docs(db, QUIZ)|
    ensures Docs(Objects.Save(db, o, now, createdAt, Success(None)).0, QUIZ) == Docs(db, QUIZ)[i := Docs(db, QUIZ)[i] + RewriteRow(o, now)]
  {
    SaveQuizzed(db, o, now, createdAt);
    var row := RewriteRow(o, now);
    assert Objects.Save(db, o, now, createdAt, Success(None)) == Objects.Rewrite(db, o, row);
    var u := Update(db, QUIZ, [Eq(ID_KEY, o.Id())], row);
    assert u.Success?;
    var docs := Docs(db, QUIZ);
    assert Docs(u.value.0, QUIZ) == docs[i := docs[i] + row];
  }

  /** Once today's record is saved with `v` appended, today's list is the
      old one with `v` added. */
  lemma SaveRecords(db: Db, v: Value, now: int, createdAt: int)
    requires TodayQuizzed(db, now).Success?
    ensures var o := Appended(TodayQuizzed(db, now).value, v);
      var r := Objects.Save(db, o, now, createdAt, Success(None));
      && (r.1.Failure? ==> r.0 == db)
      && (r.1.Success? && Tidy(db) && v.VOid? && StartOfDay(now) <= createdAt ==> Tidy(r.0) && Adds(db, r.0, now, v))
  {
    var q := TodayQuizzed(db, now).value;
    var o := Appended(q, v);
    SaveQuizzed(db, o, now, createdAt);
    var r := Objects.Save(db, o, now, createdAt, Success(None));
    if r.1.Success? && Tidy(db) && v.VOid? && StartOfDay(now) <= createdAt {
      var last := LastMatch(Docs(db, QUIZ), Since(StartOfDay(now)));
      if last.None? {
        RecordedByInsert(db, q, v, now, createdAt);
      } else {
        RecordedByRewrite(db, q, v, now, createdAt, last.value);
      }
      AddsFrom(db, r.0, now, v);
    }
  }

  /** A list grown by `v` lists what it listed and `v`. */
  lemma AddsFrom(db: Db, db2: Db, now: int, v: Value)
    requires TodayQuizzed(db, now).Success? && TodayQuizzed(db2, now).Success?
    requires Items(TodayQuizzed(db2, now).value) == Items(TodayQuizzed(db, now).value) + [v]
    ensures Adds(db, db2, now, v)
  {
    forall w ensures Listed(db2, now, w) <==> Listed(db, now, w) || w == v {
      assert w in Items(TodayQuizzed(db, now).value) + [v] <==> w in Items(TodayQuizzed(db, now).value) || w == v;
    }
  }

  /** Today's list read from the last record created since midnight, when
      that record has the stored types. */
  lemma TodayFrom(db: Db, now: int, i: nat)
    requires i < |Docs(db, QUIZ)|
    requires var d := Docs(db, QUIZ)[i];
      && QUIZZED in d && d[QUIZZED].VList? && AllOids(d[QUIZZED].items)
      && ID_KEY in d && d[ID_KEY].VOid?
      && Objects.CREATED in d && d[Objects.CREATED].VInt? && d[Objects.CREATED].i >= StartOfDay(now)
      && Objects.UPDATED in d && d[Objects.UPDATED].VInt?
    requires forall j | i < j < |Docs(db, QUIZ)| :: !Matches(Docs(db, QUIZ)[j], Since(StartOfDay(now)))
    ensures TodayQuizzed(db, now).Success?
    ensures Items(TodayQuizzed(db, now).value) == Docs(db, QUIZ)[i][QUIZZED].items
  {
    var docs := Docs(db, QUIZ);
    var f := Since(StartOfDay(now));
    assert Matches(docs[i], f) by { assert Holds(docs[i], f[0]); }
    LastMatchAt(docs, f, i);
    QuizWellTyped(docs[i]);
  }

  /** With no record today, the save inserts one listing `v`. */
  lemma RecordedByInsert(db: Db, q: Objects.Obj, v: Value, now: int, createdAt: int)
    requires Tidy(db)
    requires LastMatch(Docs(db, QUIZ), Since(StartOfDay(now))).None?
    requires q.kind == Objects.Quizzed && q.Id() == VNull && AllOids(Items(q))
    requires v.VOid? && StartOfDay(now) <= createdAt
    requires Objects.Save(db, Appended(q, v), now, createdAt, Success(None)).1.Success?
    ensures var db2 := Objects.Save(db, Appended(q, v), now, createdAt, Success(None)).0;
      && Tidy(db2)
      && TodayQuizzed(db2, now).Success?
      && Items(TodayQuizzed(db2, now).value) == Items(q) + [v]
  {
    var o := Appended(q, v);
    SaveInsertsQuizzed(db, o, now, createdAt);
    InsertListed(db, Objects.Save(db, o, now, createdAt, Success(None)).0, q, v, now, createdAt);
  }

  /** The inserted record is today's last, and ids stay unique. */
  lemma InsertListed(db: Db, db2: Db, q: Objects.Obj, v: Value, now: int, createdAt: int)
    requires Tidy(db) && !IdTaken(Docs(db, QUIZ), VOid(db.next))
    requires AllOids(Items(q)) && v.VOid? && StartOfDay(now) <= createdAt
    requires Docs(db2, QUIZ) == Docs(db, QUIZ) + [InsertedDoc(Appended(q, v), now, createdAt, db.next)]
    ensures Tidy(db2)
    ensures TodayQuizzed(db2, now).Success? && Items(TodayQuizzed(db2, now).value) == Items(q) + [v]
  {
    var o := Appended(q, v);
    var nd := InsertedDoc(o, now, createdAt, db.next);
    assert o.fields[QUIZZED] == VList(Items(q) + [v]);
    assert nd[QUIZZED] == VList(Items(q) + [v]);
    var docs := Docs(db, QUIZ);
    var docs2 := Docs(db2, QUIZ);
    assert docs2[|docs|] == nd;
    TodayFrom(db2, now, |docs|);
    OidKeyedAppend(docs, nd, db.next);
  }

  /** With a record today, the save rewrites that record in place, and it
      stays the last record of the day. */
  lemma RecordedByRewrite(db: Db, q: Objects.Obj, v: Value, now: int, createdAt: int, i: nat)
    requires Tidy(db)
    requires LastMatch(Docs(db, QUIZ), Since(StartOfDay(now))) == Some(i)
    requires Objects.Construct(Objects.Quizzed, Docs(db, QUIZ)[i]) == Success(q)
    requires AllOids(Items(q)) && v.VOid?
    requires Objects.Save(db, Appended(q, v), now, createdAt, Success(None)).1.Success?
    ensures var db2 := Objects.Save(db, Appended(q, v), now, createdAt, Success(None)).0;
      && Tidy(db2)
      && TodayQuizzed(db2, now).Success?
      && Items(TodayQuizzed(db2, now).value) == Items(q) + [v]
  {
    var docs := Docs(db, QUIZ);
    assert Holds(docs[i], Since(StartOfDay(now))[0]);
    StoredFieldsKept(docs[i], q);
    FirstById(docs, i);
    var o := Appended(q, v);
    SaveRewritesQuizzed(db, o, now, createdAt, i);
    RewriteListed(db, Objects.Save(db, o, now, createdAt, Success(None)).0, q, v, now, i);
  }

  /** The rewritten record is still today's last, now listing `v` too, and
      every record keeps its id. */
  lemma RewriteListed(db: Db, db2: Db, q: Objects.Obj, v: Value, now: int, i: nat)
    requires Tidy(db)
    requires i < |Docs(db, QUIZ)| && LastMatch(Docs(db, QUIZ), Since(StartOfDay(now))) == Some(i)
    requires q.Id() == Docs(db, QUIZ)[i][ID_KEY]
    requires Objects.CREATED in Docs(db, QUIZ)[i] && q.At(Objects.CREATED) == Docs(db, QUIZ)[i][Objects.CREATED]
    requires AllOids(Items(q)) && v.VOid?
    requires Docs(db2, QUIZ) == Docs(db, QUIZ)[i := Docs(db, QUIZ)[i] + RewriteRow(Appended(q, v), now)]
    ensures Tidy(db2)
    ensures TodayQuizzed(db2, now).Success? && Items(TodayQuizzed(db2, now).value) == Items(q) + [v]
  {
    var docs := Docs(db, QUIZ);
    var docs2 := Docs(db2, QUIZ);
    var f := Since(StartOfDay(now));
    var o := Appended(q, v);
    assert Holds(docs[i], f[0]);
    RewriteRowFields(o, now);
    forall j | i < j < |docs| ensures !Matches(docs2[j], f) {
      assert docs2[j] == docs[j];
    }
    TodayFrom(db2, now, i);
    OidKeyedRewrite(docs, i, RewriteRow(o, now));
  }

  /** With unique ids, a record is the first one holding its id. */
  lemma FirstById(docs: seq<Doc>, i: nat)
    requires UniqueIds(docs) && i < |docs|
    ensures FirstMatch(docs, [Eq(ID_KEY, docs[i][ID_KEY])]) == Some(i)
  {
    var byId := [Eq(ID_KEY, docs[i][ID_KEY])];
    assert Matches(docs[i], byId) by { assert Holds(docs[i], byId[0]); }
    forall j | 0 <= j < i ensures !Matches(docs[j], byId) {
      assert !Holds(docs[j], byId[0]);
    }
    FirstMatchAt(docs, byId, i);
  }

  /** What the rewrite row of a record holds. */
  lemma RewriteRowFields(o: Objects.Obj, now: int)
    requires o.Id() != VNull && o.At(Objects.CREATED) != VNull && o.At(QUIZZED) != VNull
    ensures var row := RewriteRow(o, now);
      && ID_KEY in row && row[ID_KEY] == o.Id()
      && Objects.CREATED in row && row[Objects.CREATED] == o.At(Objects.CREATED)
      && Objects.UPDATED in row && row[Objects.UPDATED] == VInt(now)
      && QUIZZED in row && row[QUIZZED] == o.At(QUIZZED)
  {
  }

  /** A `Quizzed` built from a record with an ObjectId and a date keeps both. */
  lemma StoredFieldsKept(d: Doc, q: Objects.Obj)
    requires Objects.Construct(Objects.Quizzed, d) == Success(q)
    requires ID_KEY in d && d[ID_KEY].VOid?
    requires Objects.CREATED in d && d[Objects.CREATED].VInt?
    ensures q.Id() == d[ID_KEY] && q.At(Objects.CREATED) == d[Objects.CREATED]
  {
    var s := Objects.Schema(Objects.Quizzed);
    assert s[0] == Objects.FieldSpec(ID_KEY, Objects.TOptOid, Some(VNull));
    assert s[1] == Objects.FieldSpec(Objects.CREATED, Objects.TOptTime, Some(VNull));
    Objects.ConstructField(Objects.Quizzed, d, 0);
    Objects.ConstructField(Objects.Quizzed, d, 1);
  }

  /** Marking the same note twice writes only once. */
  lemma SaveQuizzedNoteIdempotent(db: Db, note: Objects.Obj, now: int, createdAt: int, laterAt: int)
    requires Tidy(db) && note.Id().VOid? && StartOfDay(now) <= createdAt
    requires SaveQuizzedNote(db, note, now, createdAt).1.Success?
    ensures var db1 := SaveQuizzedNote(db, note, now, createdAt).0;
      SaveQuizzedNote(db1, note, now, laterAt) == (db1, Success(()))
  {
  }

  // ---------------------------------------------------------------- the due rule

  /** A note is due when it is older than 30 days and was quizzed fewer than
      three times, older than 7 days and quizzed fewer than twice, or older
      than 2 days and never quizzed. */
  predicate Due(age: int, count: nat) {
    || (age > 30 * DAY && count < 3)
    || (age > 7 * DAY && count < 2)
    || (age > 2 * DAY && count < 1)
  }

  /** The quizzes a note of age `age` has been owed: one for each of the 2,
      7 and 30 day marks it has passed. */
  function Owed(age: int): (r: nat)
    ensures r <= 3
    ensures age <= 2 * DAY ==> r == 0
  {
    (if age > 2 * DAY then 1 else 0) + (if age > 7 * DAY then 1 else 0) + (if age > 30 * DAY then 1 else 0)
  }

  /** A note is due exactly when it has had fewer quizzes than it is owed; in
      particular a note at most two days old is never due. */
  lemma DueIffOwed(age: int, count: nat)
    ensures Due(age, count) <==> count < Owed(age)
    ensures age <= 2 * DAY ==> !Due(age, count)
  {
  }

  // ---------------------------------------------------------------- quiz counts

  /** `note_quizzed_cnt.get(t, 0)` */
  function Get(m: map<string, nat>, t: string): nat {
    if t in m then m[t] else 0
  }

  /** How many of `items` have id text `t`. */
  function CountIn(items: seq<Value>, t: string): nat {
    if |items| == 0 then 0 else (if IdText(items[0]) == t then 1 else 0) + CountIn(items[1..], t)
  }

  /** How many times the records list an id with text `t`, repeats included. */
  function Occurrences(lists: seq<seq<Value>>, t: string): nat {
    if |lists| == 0 then 0 else CountIn(lists[0], t) + Occurrences(lists[1..], t)
  }

  /** The inner counting loop over one record. */
  function AddItems(m: map<string, nat>, items: seq<Value>): (r: map<string, nat>)
    ensures forall t :: Get(r, t) == Get(m, t) + CountIn(items, t)
    decreases |items|
  {
    if |items| == 0 then m
    else
      var k := IdText(items[0]);
      AddItems(m[k := Get(m, k) + 1], items[1..])
  }

  /** The outer counting loop over the records. */
  function Tally(m: map<string, nat>, lists: seq<seq<Value>>): (r: map<string, nat>)
    ensures forall t :: Get(r, t) == Get(m, t) + Occurrences(lists, t)
    decreases |lists|
  {
    if |lists| == 0 then m else Tally(AddItems(m, lists[0]), lists[1..])
  }

  /** `quizzed["quizzed"]` of every record: a missing key raises `KeyError`,
      a value that is not a list cannot be iterated. */
  function QuizLists(docs: seq<Doc>): (r: Result<seq<seq<Value>>>)
    ensures r.Success? <==> forall i | 0 <= i < |docs| :: QUIZZED in docs[i] && docs[i][QUIZZED].VList?
    ensures r.Success? ==> |r.value| == |docs| && forall i | 0 <= i < |docs| :: r.value[i] == docs[i][QUIZZED].items
    ensures r.Failure? ==> r.error == KeyError || r.error == TypeError
  {
    if |docs| == 0 then Success([])
    else if QUIZZED !in docs[0] then Failure(KeyError)
    else if !docs[0][QUIZZED].VList? then Failure(TypeError)
    else
      match QuizLists(docs[1..])
      case Failure(e) => Failure(e)
      case Success(rest) => Success([docs[0][QUIZZED].items] + rest)
  }

  // ---------------------------------------------------------------- the next note

  /** The source record passes the scan: skipped as quizzed today, or not due. */
  predicate Passed(d: Doc, counts: map<string, nat>, now: int, skip: Value -> bool) {
    && ID_KEY in d
    && (skip(d[ID_KEY]) || (
         && Objects.CREATED in d && d[Objects.CREATED].VInt?
         && !Due(now - d[Objects.CREATED].i, Get(counts, IdText(d[ID_KEY])))))
  }

  /** The source record is not skipped and is due. */
  predicate Eligible(d: Doc, counts: map<string, nat>, now: int, skip: Value -> bool) {
    && ID_KEY in d && !skip(d[ID_KEY])
    && Objects.CREATED in d && d[Objects.CREATED].VInt?
    && Due(now - d[Objects.CREATED].i, Get(counts, IdText(d[ID_KEY])))
  }

  /** The scan of lines 34-46: the index of the first eligible record, after
      records that all pass; a record without `_id` or `created` raises
      `KeyError`, and a `created` that is not a date raises `TypeError`. */
  function FirstDue(docs: seq<Doc>, counts: map<string, nat>, now: int, skip: Value -> bool): (r: Result<Option<nat>>)
    ensures r.Success? && r.value.Some? ==>
      && r.value.value < |docs|
      && Eligible(docs[r.value.value], counts, now, skip)
      && forall j | 0 <= j < r.value.value :: Passed(docs[j], counts, now, skip)
    ensures r == Success(None) <==> forall j | 0 <= j < |docs| :: Passed(docs[j], counts, now, skip)
    ensures r.Failure? ==> r.error == KeyError || r.error == TypeError
  {
    var r := FindFirst(d => Classify(d, counts, now, skip), docs);
    forall j | 0 <= j < |docs|
      ensures Classify(docs[j], counts, now, skip) == Success(false) <==> Passed(docs[j], counts, now, skip)
      ensures Classify(docs[j], counts, now, skip) == Success(true) <==> Eligible(docs[j], counts, now, skip)
    {
      ClassifyMeans(docs[j], counts, now, skip);
    }
    r
  }

  /** One step of the scan: true for the record to pick, false for one to
      pass over; a record without `_id` or `created` raises `KeyError`, and a
      `created` that is not a date raises `TypeError`. */
  function Classify(d: Doc, counts: map<string, nat>, now: int, skip: Value -> bool): (r: Result<bool>)
    ensures r.Failure? ==> r.error == KeyError || r.error == TypeError
  {
    if ID_KEY !in d then Failure(KeyError)
    else if skip(d[ID_KEY]) then Success(false)
    else if Objects.CREATED !in d then Failure(KeyError)
    else if !d[Objects.CREATED].VInt? then Failure(TypeError)
    else Success(Due(now - d[Objects.CREATED].i, Get(counts, IdText(d[ID_KEY]))))
  }

  lemma ClassifyMeans(d: Doc, counts: map<string, nat>, now: int, skip: Value -> bool)
    ensures Classify(d, counts, now, skip) == Success(false) <==> Passed(d, counts, now, skip)
    ensures Classify(d, counts, now, skip) == Success(true) <==> Eligible(d, counts, now, skip)
  {
  }

  /** `Source(**source)` of the picked record. */
  function Pick(docs: seq<Doc>, counts: map<string, nat>, now: int, skip: Value -> bool): (r: Result<Option<Objects.Obj>>)
    ensures FirstDue(docs, counts, now, skip) == Success(None) ==> r == Success(None)
    ensures var f := FirstDue(docs, counts, now, skip);
      r.Success? && r.value.Some? ==>
        && f.Success? && f.value.Some?
        && Objects.Construct(Objects.Source, docs[f.value.value]) == Success(r.value.value)
    ensures r.Failure? ==> r.error in {KeyError, TypeError, ValidationError}
  {
    match FirstDue(docs, counts, now, skip)
    case Failure(e) => Failure(e)
    case Success(None) => Success(None)
    case Success(Some(i)) =>
      match Objects.Construct(Objects.Source, docs[i])
      case Failure(e) => Failure(e)
      case Success(o) => Success(Some(o))
  }

  /** What the scan works from: the quiz counts over the 60-day window, the
      sources created in the window, and today's record. */
  datatype Window = Window(counts: map<string, nat>, sources: seq<Doc>, today: Objects.Obj)

  function Threshold(now: int): int {
    now - 60 * DAY
  }

  /** Lines 22-33.  The counts are the occurrences of each id text in the
      window's records. */
  function Candidates(db: Db, now: int): (r: Result<Window>)
    ensures r.Success? ==> r.value.sources == Query(db, SOURCES, Since(Threshold(now)))
    ensures r.Success? ==> Success(r.value.today) == TodayQuizzed(db, now)
    ensures r.Success? ==>
      var lists := QuizLists(Query(db, QUIZ, Since(Threshold(now))));
      && lists.Success?
      && forall t :: Get(r.value.counts, t) == Occurrences(lists.value, t)
  {
    match QuizLists(Query(db, QUIZ, Since(Threshold(now))))
    case Failure(e) => Failure(e)
    case Success(lists) =>
      var counts := Tally(map[], lists);
      match TodayQuizzed(db, now)
      case Failure(e) => Failure(e)
      case Success(today) => Success(Window(counts, Query(db, SOURCES, Since(Threshold(now))), today))
  }

  /** `v` is the id of a source record. */
  predicate IsSourceId(db: Db, v: Value) {
    exists i | 0 <= i < |Docs(db, SOURCES)| :: ID_KEY in Docs(db, SOURCES)[i] && Docs(db, SOURCES)[i][ID_KEY] == v
  }

  /** Every source record has an ObjectId, as `save` gives it. */
  predicate SourceIds(db: Db) {
    forall i | 0 <= i < |Docs(db, SOURCES)| :: ID_KEY in Docs(db, SOURCES)[i] && Docs(db, SOURCES)[i][ID_KEY].VOid?
  }

  /** Line 35 as evidently meant: skip a source whose id is in today's list. */
  function TodaySkip(today: Objects.Obj): (skip: Value -> bool)
    ensures forall v :: skip(v) <==> v in Items(today)
  {
    v => v in Items(today)
  }

  /** The note `get_next_quiz_note` picks, with today's notes skipped by
      looking in today's list.  The note is one created in the 60-day window
      and more than two days ago, and it is never one already quizzed
      today. */
  function NextQuizNote(db: Db, now: int): (r: Result<Option<Objects.Obj>>)
    ensures Candidates(db, now).Failure? ==> r.Failure?
    ensures Candidates(db, now).Success? ==>
      var w := Candidates(db, now).value;
      var f := FirstDue(w.sources, w.counts, now, TodaySkip(w.today));
      && (f == Success(None) ==> r == Success(None))
      && (f.Failure? ==> r == Failure(f.error))
      && (f.Success? && f.value.Some? ==>
            var c := Objects.Construct(Objects.Source, w.sources[f.value.value]);
            && (c.Success? ==> r == Success(Some(c.value)))
            && (c.Failure? ==> r == Failure(ValidationError)))
    ensures r.Success? && r.value.Some? ==>
      && r.value.value.At(Objects.CREATED).VInt?
      && Threshold(now) <= r.value.value.At(Objects.CREATED).i
      && now - r.value.value.At(Objects.CREATED).i > 2 * DAY
    ensures SourceIds(db) && r.Success? && r.value.Some? ==>
      && !Listed(db, now, r.value.value.Id())
      && r.value.value.Id().VOid? && IsSourceId(db, r.value.value.Id())
  {
    match Candidates(db, now)
    case Failure(e) => Failure(e)
    case Success(w) =>
      var skip := TodaySkip(w.today);
      var r := Pick(w.sources, w.counts, now, skip);
      if r.Success? && r.value.Some? then
        PickedNote(db, now, w, skip);
        r
      else r
  }

  /** The facts about a picked note that `NextQuizNote` states. */
  lemma PickedNote(db: Db, now: int, w: Window, skip: Value -> bool)
    requires w.sources == Query(db, SOURCES, Since(Threshold(now)))
    requires Success(w.today) == TodayQuizzed(db, now)
    requires forall v :: skip(v) == (v in Items(w.today))
    requires var r := Pick(w.sources, w.counts, now, skip); r.Success? && r.value.Some?
    ensures var o := Pick(w.sources, w.counts, now, skip).value.value;
      && o.At(Objects.CREATED).VInt?
      && Threshold(now) <= o.At(Objects.CREATED).i
      && now - o.At(Objects.CREATED).i > 2 * DAY
      && (SourceIds(db) ==> !Listed(db, now, o.Id()) && o.Id().VOid? && IsSourceId(db, o.Id()))
  {
    var i := FirstDue(w.sources, w.counts, now, skip).value.value;
    var d := w.sources[i];
    var o := Pick(w.sources, w.counts, now, skip).value.value;
    assert d in w.sources;
    assert Holds(d, Since(Threshold(now))[0]);
    DueIffOwed(now - d[Objects.CREATED].i, Get(w.counts, IdText(d[ID_KEY])));
    SourceFieldsKept(d, o);
    if SourceIds(db) {
      assert d in Docs(db, SOURCES);
      var k :| 0 <= k < |Docs(db, SOURCES)| && Docs(db, SOURCES)[k] == d;
    }
  }

  /** A `Source` built from a record keeps its date and its ObjectId. */
  lemma SourceFieldsKept(d: Doc, o: Objects.Obj)
    requires Objects.Construct(Objects.Source, d) == Success(o)
    ensures Objects.CREATED in d && d[Objects.CREATED].VInt? ==> o.At(Objects.CREATED) == d[Objects.CREATED]
    ensures ID_KEY in d && d[ID_KEY].VOid? ==> o.Id() == d[ID_KEY]
  {
    var s := Objects.Schema(Objects.Source);
    assert s[0] == Objects.FieldSpec(ID_KEY, Objects.TOptOid, Some(VNull));
    assert s[1] == Objects.FieldSpec(Objects.CREATED, Objects.TOptTime, Some(VNull));
    Objects.ConstructField(Objects.Source, d, 0);
    Objects.ConstructField(Objects.Source, d, 1);
  }

  // ---------------------------------------------------------------- as written

  /** One of the things iterating a pydantic model yields: a `(name, value)`
      pair for each field.  An ObjectId is a different kind of thing. */
  datatype PyItem = Scalar(v: Value) | Pair(name: string, value: Value)

  /** `v in model` (line 35): Python compares `v` with each pair the model
      yields. */
  predicate InModel(v: Value, o: Objects.Obj) {
    exists n | n in o.fields :: Scalar(v) == Pair(n, o.fields[n])
  }

  /** The line-35 test never holds: no note is ever skipped. */
  lemma TodaySkipNeverHolds(v: Value, o: Objects.Obj)
    ensures !InModel(v, o)
  {
  }

  /** `get_next_quiz_note` as written, testing membership in the model
      instead of in its `quizzed` list. */
  function NextQuizNoteAsWritten(db: Db, now: int): (r: Result<Option<Objects.Obj>>)
    ensures Candidates(db, now).Failure? ==> r.Failure?
  {
    match Candidates(db, now)
    case Failure(e) => Failure(e)
    case Success(w) => Pick(w.sources, w.counts, now, v => InModel(v, w.today))
  }

  /** A note created ten days ago and quizzed once, today, is picked again by
      the code as written (it is owed a second quiz), and skipped by the
      corrected test. */
  lemma AsWrittenRepicksTodaysNote()
    ensures var d := map[ID_KEY := VOid(1), Objects.CREATED := VInt(0)];
      var today := Objects.Obj(Objects.Quizzed, map[QUIZZED := VList([VOid(1)])]);
      var counts := map[IdText(VOid(1)) := 1];
      && VOid(1) in Items(today)
      && FirstDue([d], counts, 10 * DAY, v => InModel(v, today)) == Success(Some(0))
      && FirstDue([d], counts, 10 * DAY, v => v in Items(today)) == Success(None)
  {
    var d := map[ID_KEY := VOid(1), Objects.CREATED := VInt(0)];
    var today := Objects.Obj(Objects.Quizzed, map[QUIZZED := VList([VOid(1)])]);
    var counts := map[IdText(VOid(1)) := 1];
    assert Items(today) == [VOid(1)];
    assert !InModel(VOid(1), today);
    assert Get(counts, IdText(VOid(1))) == 1;
    assert Due(10 * DAY, 1);
  }
}

=== FILE: quiztab.dfy ===
/** The quiz tab of the web UI (`webui/tabs/quiz.py`): the state machine that
    walks through the questions of one note after another, saving each
    exhausted note as quizzed today, and the answer judge's verdict.

    The question writer and the judge are language models; here they are
    parameters: `gen` gives the question list written for a note, `verdict`
    the judge's answer.  The endless `while True` loop gets a `fuel` bound;
    a result of `None` means the loop was still running when the fuel ran
    out. */
module QuizTab {
  import opened Wrappers
  import opened Store
  import Objects
  import Quiz
  import Text

  /** One `QuestionAnswer`. */
  datatype QA = QA(question: string, answer: string)

  /** Visibility of the six widgets `get_next_question` sets. */
  datatype Panels = Panels(
    startButton: bool,
    completedText: bool,
    questionGroup: bool,
    judgedGroup: bool,
    hintButton: bool,
    hintPanel: bool)

  /** "Come back tomorrow": the start button and the completed message. */
  const FINISHED := Panels(true, true, false, false, false, false)
  /** A question on screen, with its hint button. */
  const ASKING := Panels(false, false, true, false, true, false)

  /** What `get_next_question` hands back to the tab: the panels, the three
      state values (note, next question index, questions), and the question
      and model answer on screen.  The cleared answer box is not modelled. */
  datatype Step = Step(
    panels: Panels,
    note: Option<Objects.Obj>,
    idx: int,
    pairs: seq<QA>,
    question: Option<string>,
    modelAnswer: Option<string>)

  /** The completed screen, with the state reset. */
  function Finished(): (r: Step)
    ensures r.note.None? && r.idx == 0 && r.pairs == []
    ensures r.panels.startButton && r.panels.completedText && !r.panels.questionGroup
  {
    Step(FINISHED, None, 0, [], None, None)
  }

  /** Question `idx - 1` of the note is on screen. */
  predicate Shows(t: Step) {
    && t.note.Some?
    && t.panels == ASKING
    && 1 <= t.idx <= |t.pairs|
    && t.question == Some(t.pairs[t.idx - 1].question)
    && t.modelAnswer == Some(t.pairs[t.idx - 1].answer)
  }

  /** The screens the tab moves between. */
  predicate Valid(t: Step) {
    t == Finished() || Shows(t)
  }

  /** `question_answer_pairs[question_idx]` and the screen built from it.
      Python counts a negative index from the end; any other index outside
      the list raises IndexError. */
  function Ask(note: Objects.Obj, idx: int, pairs: seq<QA>): (r: Result<Step>)
    ensures r.Success? <==> -|pairs| <= idx < |pairs|
    ensures r.Failure? ==> r.error == IndexError
    ensures r.Success? ==> r.value.note == Some(note) && r.value.idx == idx + 1 && r.value.pairs == pairs
    ensures r.Success? && 0 <= idx ==> Shows(r.value)
    ensures r.Success? && idx < 0 ==> r.value.question == Some(pairs[|pairs| + idx].question)
  {
    if -|pairs| <= idx < |pairs| then
      var qa := pairs[if idx < 0 then |pairs| + idx else idx];
      Success(Step(ASKING, Some(note), idx + 1, pairs, Some(qa.question), Some(qa.answer)))
    else
      Failure(IndexError)
  }

  /** The note the loop saves before fetching: the current one, when all its
      questions have been asked. */
  predicate Exhausted(note: Option<Objects.Obj>, idx: int, pairs: seq<QA>) {
    note.Some? && idx == |pairs|
  }

  /** The store as the loop sees it: the two operations it calls
      (`save_quizzed_note` and `get_next_quiz_note`), whether a note is
      listed as quizzed today, and whether the store is in shape. */
  datatype Service = Service(
    save: (Db, Objects.Obj) -> (Db, Result<()>),
    next: Db -> Result<Option<Objects.Obj>>,
    listed: (Db, Value) -> bool,
    ok: Db -> bool)

  /** What the tab relies on in the store: today's record is well formed and
      every source has an ObjectId. */
  predicate Inv(db: Db) {
    Quiz.Tidy(db) && Quiz.SourceIds(db)
  }

  /** The quiz module's operations, all reading the clock once as `now`. */
  function Live(now: int): Service {
    Service(
      (d, o) => Quiz.SaveQuizzedNote(d, o, now, now),
      d => Quiz.NextQuizNote(d, now),
      (d, v) => Quiz.Listed(d, now, v),
      Inv)
  }

  /** No note listed in `db` is unlisted in `db2`. */
  ghost predicate Grows(s: Service, db: Db, db2: Db) {
    forall w :: s.listed(db, w) ==> s.listed(db2, w)
  }

  /** What a save does: it touches only the quiz records and nothing on
      failure; on success, from a store in shape and for a note with an
      ObjectId, it keeps the store in shape, unlists nothing and lists the
      note. */
  ghost predicate SavesSound(s: Service) {
    && (forall d, o :: forall c | c != Quiz.QUIZ :: Docs(s.save(d, o).0, c) == Docs(d, c))
    && (forall d, o | s.save(d, o).1.Failure? :: s.save(d, o).0 == d)
    && (forall d, o | s.save(d, o).1.Success? && s.ok(d) && o.Id().VOid? ::
          && s.ok(s.save(d, o).0)
          && Grows(s, d, s.save(d, o).0)
          && s.listed(s.save(d, o).0, o.Id()))
  }

  /** What a fetch gives: a note with an ObjectId, from the sources, and not
      listed today. */
  ghost predicate FetchesSound(s: Service) {
    forall d | s.ok(d) && s.next(d).Success? && s.next(d).value.Some? ::
      && s.next(d).value.value.Id().VOid?
      && Quiz.IsSourceId(d, s.next(d).value.value.Id())
      && !s.listed(d, s.next(d).value.value.Id())
  }

  ghost predicate Sound(s: Service) {
    SavesSound(s) && FetchesSound(s)
  }

  lemma LiveSavesSound(now: int)
    ensures SavesSound(Live(now))
  {
    var s := Live(now);
    forall d, o | s.save(d, o).1.Success? && s.ok(d) && o.Id().VOid?
      ensures s.ok(s.save(d, o).0) && Grows(s, d, s.save(d, o).0) && s.listed(s.save(d, o).0, o.Id())
    {
      assert s.save(d, o) == Quiz.SaveQuizzedNote(d, o, now, now);
      LiveSave(d, o, now);
    }
  }

  /** One save of the live service, in the quiz module's own terms. */
  lemma LiveSave(d: Db, o: Objects.Obj, now: int)
    requires Quiz.SaveQuizzedNote(d, o, now, now).1.Success? && Inv(d) && o.Id().VOid?
    ensures var d2 := Quiz.SaveQuizzedNote(d, o, now, now).0;
      && Inv(d2)
      && (forall w | Quiz.Listed(d, now, w) :: Quiz.Listed(d2, now, w))
      && Quiz.Listed(d2, now, o.Id())
  {
    var d2 := Quiz.SaveQuizzedNote(d, o, now, now).0;
    assert Quiz.StartOfDay(now) <= now;
    assert Quiz.Tidy(d2) && Quiz.Adds(d, d2, now, o.Id());
    assert Docs(d2, Quiz.SOURCES) == Docs(d, Quiz.SOURCES);
    AddsKeeps(d, d2, now, o.Id());
  }

  /** What the save added keeps the store in shape and lists the note. */
  lemma AddsKeeps(d: Db, d2: Db, now: int, v: Value)
    requires Inv(d) && Quiz.Tidy(d2) && Quiz.Adds(d, d2, now, v)
    requires Docs(d2, Quiz.SOURCES) == Docs(d, Quiz.SOURCES)
    ensures Inv(d2) && (forall w | Quiz.Listed(d, now, w) :: Quiz.Listed(d2, now, w)) && Quiz.Listed(d2, now, v)
  {
  }

  /** The quiz module's operations are what the loop relies on. */
  lemma LiveSound(now: int)
    ensures Sound(Live(now))
  {
    LiveSavesSound(now);
  }

  /** The `while True` loop of `get_next_question`, as the code evidently
      means it: a fetched note without questions is taken as the current,
      exhausted note (index 0 of an empty list), so the next round saves it
      and moves on. */
  function Advance(db: Db, s: Service, note: Option<Objects.Obj>, idx: int, pairs: seq<QA>,
                   gen: Objects.Obj -> seq<QA>, fuel: nat): (r: (Db, Option<Result<Step>>))
    ensures r.1.Some? ==> fuel > 0
    ensures r.1.Some? && r.1.value.Success? ==>
      var t := r.1.value.value;
      t == Finished() || (Shows(t) && t.idx == 1 && t.pairs == gen(t.note.value))
    ensures SavesSound(s) ==> forall c | c != Quiz.QUIZ :: Docs(r.0, c) == Docs(db, c)
    ensures Sound(s) && s.ok(db) && (note.Some? ==> note.value.Id().VOid?) ==>
      && s.ok(r.0)
      && Grows(s, db, r.0)
      && (r.1.Some? && r.1.value.Success? && r.1.value.value.note.Some? ==>
            !s.listed(r.0, r.1.value.value.note.value.Id()))
      && (Exhausted(note, idx, pairs) && r.1.Some? && r.1.value.Success? ==>
            s.listed(r.0, note.value.Id()))
    decreases fuel
  {
    if fuel == 0 then (db, None)
    else
      var (db1, saved) := if Exhausted(note, idx, pairs) then s.save(db, note.value) else (db, Success(()));
      if saved.Failure? then (db1, Some(Failure(saved.error)))
      else
        match s.next(db1)
        case Failure(e) => (db1, Some(Failure(e)))
        case Success(None) => (db1, Some(Success(Finished())))
        case Success(Some(n)) =>
          var ps := gen(n);
          if |ps| > 0 then (db1, Some(Ask(n, 0, ps)))
          else Advance(db1, s, Some(n), 0, ps, gen, fuel - 1)
  }

  /** `get_next_question(note, question_idx, question_answer_pairs)`: the next
      question of the current note, or, when there is no note or its
      questions are used up, the first question of the next note due. */
  function GetNextQuestion(db: Db, s: Service, note: Option<Objects.Obj>, idx: int, pairs: seq<QA>,
                           gen: Objects.Obj -> seq<QA>, fuel: nat): (r: (Db, Option<Result<Step>>))
    ensures note.Some? && 0 <= idx < |pairs| ==>
      && r.0 == db
      && r.1.Some? && r.1.value.Success?
      && var t := r.1.value.value;
      && t.note == note && t.idx == idx + 1 && t.pairs == pairs
      && t.question == Some(pairs[idx].question) && t.modelAnswer == Some(pairs[idx].answer)
    ensures note.Some? && idx != |pairs| && !(-|pairs| <= idx < |pairs|) ==>
      r == (db, Some(Failure(IndexError)))
    ensures 0 <= idx && r.1.Some? && r.1.value.Success? ==> Valid(r.1.value.value)
    ensures SavesSound(s) ==> forall c | c != Quiz.QUIZ :: Docs(r.0, c) == Docs(db, c)
    ensures Sound(s) && s.ok(db) && (note.Some? ==> note.value.Id().VOid?) ==>
      && s.ok(r.0)
      && Grows(s, db, r.0)
      && ((note.None? || Exhausted(note, idx, pairs)) && r.1.Some? && r.1.value.Success?
            && r.1.value.value.note.Some? ==>
            !s.listed(r.0, r.1.value.value.note.value.Id()))
      && (Exhausted(note, idx, pairs) && r.1.Some? && r.1.value.Success? ==>
            && s.listed(r.0, note.value.Id())
            && (r.1.value.value.note.Some? ==> r.1.value.value.note.value.Id() != note.value.Id()))
  {
    if note.None? || idx == |pairs| then Advance(db, s, note, idx, pairs, gen, fuel)
    else (db, Some(Ask(note.value, idx, pairs)))
  }

  /** Sources not yet listed as quizzed today. */
  function Unlisted(docs: seq<Doc>, s: Service, db: Db): (r: nat)
    ensures r <= |docs|
  {
    if |docs| == 0 then 0
    else
      (if ID_KEY in docs[0] && !s.listed(db, docs[0][ID_KEY]) then 1 else 0)
      + Unlisted(docs[1..], s, db)
  }

  function Pending(s: Service, db: Db): nat {
    Unlisted(Docs(db, Quiz.SOURCES), s, db)
  }

  /** Listing more notes never adds to the unlisted count, and listing one
      that was unlisted removes it. */
  lemma {:induction false} UnlistedShrinks(docs: seq<Doc>, s: Service, db: Db, db2: Db, v: Value)
    requires Grows(s, db, db2)
    ensures Unlisted(docs, s, db2) <= Unlisted(docs, s, db)
    ensures
      && !s.listed(db, v) && s.listed(db2, v)
      && (exists i | 0 <= i < |docs| :: ID_KEY in docs[i] && docs[i][ID_KEY] == v)
      ==> Unlisted(docs, s, db2) < Unlisted(docs, s, db)
    decreases |docs|
  {
    if |docs| > 0 {
      UnlistedShrinks(docs[1..], s, db, db2, v);
      if !s.listed(db, v) && s.listed(db2, v) {
        if i :| 0 <= i < |docs| && ID_KEY in docs[i] && docs[i][ID_KEY] == v {
          if i > 0 {
            assert docs[1..][i - 1] == docs[i];
          }
        }
      }
    }
  }

  /** An unlisted source is counted. */
  lemma {:induction false} UnlistedCounts(docs: seq<Doc>, s: Service, db: Db, i: int)
    requires 0 <= i < |docs| && ID_KEY in docs[i] && !s.listed(db, docs[i][ID_KEY])
    ensures Unlisted(docs, s, db) > 0
    decreases |docs|
  {
    if i > 0 {
      assert docs[1..][i - 1] == docs[i];
      UnlistedCounts(docs[1..], s, db, i - 1);
    }
  }

  /** One unit of credit for an exhausted note that the next round will list. */
  function Credit(s: Service, db: Db, note: Option<Objects.Obj>, idx: int, pairs: seq<QA>): nat {
    if Exhausted(note, idx, pairs) && Quiz.IsSourceId(db, note.value.Id()) && !s.listed(db, note.value.Id())
    then 1 else 0
  }

  /** The loop ends: every round either stops or lists one more source, so
      one round more than the sources pending today is always enough. */
  lemma {:induction false} AdvanceEnds(db: Db, s: Service, note: Option<Objects.Obj>, idx: int,
                                       pairs: seq<QA>, gen: Objects.Obj -> seq<QA>, fuel: nat)
    requires Sound(s) && s.ok(db) && (note.Some? ==> note.value.Id().VOid?)
    requires fuel + Credit(s, db, note, idx, pairs) > Pending(s, db)
    ensures Advance(db, s, note, idx, pairs, gen, fuel).1.Some?
    decreases fuel
  {
    var (db1, saved) := if Exhausted(note, idx, pairs) then s.save(db, note.value) else (db, Success(()));
    if saved.Success? {
      var v := if note.Some? then note.value.Id() else VNull;
      assert Docs(db1, Quiz.SOURCES) == Docs(db, Quiz.SOURCES);
      UnlistedShrinks(Docs(db, Quiz.SOURCES), s, db, db1, v);
      assert fuel > 0;
      AdvanceUnfold(db, s, note, idx, pairs, gen, fuel);
      if s.next(db1).Success? && s.next(db1).value.Some? && |gen(s.next(db1).value.value)| == 0 {
        var n := s.next(db1).value.value;
        assert Credit(s, db1, Some(n), 0, gen(n)) == 1;
        AdvanceEnds(db1, s, Some(n), 0, gen(n), gen, fuel - 1);
      }
    } else if Credit(s, db, note, idx, pairs) == 1 {
      var i :| 0 <= i < |Docs(db, Quiz.SOURCES)| && ID_KEY in Docs(db, Quiz.SOURCES)[i]
        && Docs(db, Quiz.SOURCES)[i][ID_KEY] == note.value.Id();
      UnlistedCounts(Docs(db, Quiz.SOURCES), s, db, i);
    }
  }

  /** One round of `Advance`: it answers, unless the next note has no
      questions, and then it is the next round. */
  lemma AdvanceUnfold(db: Db, s: Service, note: Option<Objects.Obj>, idx: int, pairs: seq<QA>,
                      gen: Objects.Obj -> seq<QA>, fuel: nat)
    requires fuel > 0
    ensures var (db1, saved) := if Exhausted(note, idx, pairs) then s.save(db, note.value) else (db, Success(()));
      if saved.Success? && s.next(db1).Success? && s.next(db1).value.Some? && |gen(s.next(db1).value.value)| == 0
      then Advance(db, s, note, idx, pairs, gen, fuel)
        == Advance(db1, s, s.next(db1).value, 0, gen(s.next(db1).value.value), gen, fuel - 1)
      else Advance(db, s, note, idx, pairs, gen, fuel).1.Some?
  {
    var (db1, saved) := if Exhausted(note, idx, pairs) then s.save(db, note.value) else (db, Success(()));
    if saved.Success? && s.next(db1).Success? && s.next(db1).value.Some? {
      var n := s.next(db1).value.value;
      assert s.next(db1) == Success(Some(n));
    }
  }

  /** With more rounds than sources pending today, `get_next_question`
      always answers. */
  lemma GetNextQuestionEnds(db: Db, s: Service, note: Option<Objects.Obj>, idx: int, pairs: seq<QA>,
                            gen: Objects.Obj -> seq<QA>, fuel: nat)
    requires Sound(s) && s.ok(db) && (note.Some? ==> note.value.Id().VOid?)
    requires fuel > Pending(s, db)
    ensures GetNextQuestion(db, s, note, idx, pairs, gen, fuel).1.Some?
  {
    if note.None? || idx == |pairs| {
      AdvanceEnds(db, s, note, idx, pairs, gen, fuel);
    }
  }

  /** The loop as written: after a note without questions the index keeps
      its old value, so unless it was 0 that note is never saved. */
  function AdvanceAsWritten(db: Db, s: Service, note: Option<Objects.Obj>, idx: int, pairs: seq<QA>,
                            gen: Objects.Obj -> seq<QA>, fuel: nat): (r: (Db, Option<Result<Step>>))
    ensures r.1.Some? ==> fuel > 0
    decreases fuel
  {
    if fuel == 0 then (db, None)
    else
      var (db1, saved) := if Exhausted(note, idx, pairs) then s.save(db, note.value) else (db, Success(()));
      if saved.Failure? then (db1, Some(Failure(saved.error)))
      else
        match s.next(db1)
        case Failure(e) => (db1, Some(Failure(e)))
        case Success(None) => (db1, Some(Success(Finished())))
        case Success(Some(n)) =>
          var ps := gen(n);
          if |ps| > 0 then (db1, Some(Ask(n, 0, ps)))
          else AdvanceAsWritten(db1, s, Some(n), idx, ps, gen, fuel - 1)
  }

  function GetNextQuestionAsWritten(db: Db, s: Service, note: Option<Objects.Obj>, idx: int, pairs: seq<QA>,
                                    gen: Objects.Obj -> seq<QA>, fuel: nat): (r: (Db, Option<Result<Step>>))
    ensures note.Some? && idx != |pairs| ==> r == (db, Some(Ask(note.value, idx, pairs)))
  {
    if note.None? || idx == |pairs| then AdvanceAsWritten(db, s, note, idx, pairs, gen, fuel)
    else (db, Some(Ask(note.value, idx, pairs)))
  }

  /** As written, a due note without questions fetched with a nonzero stale
      index is fetched again every round, and the store never changes: the
      loop does not end, however many rounds it is given. */
  lemma {:induction false} AsWrittenSpins(db: Db, s: Service, n: Objects.Obj, idx: int,
                                          gen: Objects.Obj -> seq<QA>, fuel: nat)
    requires s.next(db) == Success(Some(n)) && gen(n) == [] && idx != 0
    ensures AdvanceAsWritten(db, s, Some(n), idx, [], gen, fuel) == (db, None)
    decreases fuel
  {
    if fuel > 0 {
      AsWrittenSpins(db, s, n, idx, gen, fuel - 1);
    }
  }

  /** The user finishes a note of `|pairs| > 0` questions, the note is saved,
      and the next note due has no questions: as written, `get_next_question`
      never returns. */
  lemma {:induction false} AsWrittenNeverAnswers(db: Db, db1: Db, s: Service, m: Objects.Obj, pairs: seq<QA>,
                                                 n: Objects.Obj, gen: Objects.Obj -> seq<QA>, fuel: nat)
    requires |pairs| > 0
    requires s.save(db, m) == (db1, Success(()))
    requires s.next(db1) == Success(Some(n)) && gen(n) == []
    ensures GetNextQuestionAsWritten(db, s, Some(m), |pairs|, pairs, gen, fuel).1.None?
  {
    if fuel > 0 {
      AsWrittenSpins(db1, s, n, |pairs|, gen, fuel - 1);
    }
  }

  /** A store holding one source, created at time 0 and never quizzed. */
  function OneDueSource(): Db {
    Db(map[Quiz.SOURCES := [map[ID_KEY := VOid(1), Objects.CREATED := VInt(0)]]], map[], 2)
  }

  /** A question writer that finds nothing to ask. */
  function NoQuestions(o: Objects.Obj): seq<QA> {
    []
  }

  lemma OneDueSourceWindow(now: int)
    requires now == 10 * Quiz.DAY
    ensures var w := Quiz.Candidates(OneDueSource(), now);
      && w.Success?
      && w.value.sources == Docs(OneDueSource(), Quiz.SOURCES)
      && Quiz.Items(w.value.today) == []
      && Quiz.Get(w.value.counts, IdText(VOid(1))) == 0
  {
    var db := OneDueSource();
    var d := map[ID_KEY := VOid(1), Objects.CREATED := VInt(0)];
    assert Docs(db, Quiz.QUIZ) == [];
    assert Docs(db, Quiz.SOURCES) == [d];
    var f := Quiz.Since(Quiz.Threshold(now));
    assert Matches(d, f) by {
      assert Holds(d, f[0]);
    }
    assert Select([d][1..], f) == [];
    assert Select([d], f) == [d];
    assert Query(db, Quiz.QUIZ, f) == [];
    assert Quiz.LastMatch(Docs(db, Quiz.QUIZ), Quiz.Since(Quiz.StartOfDay(now))).None?;
  }

  /** Ten days after it was created, the source is due. */
  lemma OneDueSourcePicked(now: int)
    requires now == 10 * Quiz.DAY
    ensures Quiz.NextQuizNote(OneDueSource(), now).Success? && Quiz.NextQuizNote(OneDueSource(), now).value.Some?
  {
    var d := map[ID_KEY := VOid(1), Objects.CREATED := VInt(0)];
    OneDueSourceWindow(now);
    var w := Quiz.Candidates(OneDueSource(), now).value;
    var skip := Quiz.TodaySkip(w.today);
    assert !skip(VOid(1));
    assert w.sources == [d];
    assert Quiz.Due(now - 0, 0);
    assert Quiz.FirstDue(w.sources, w.counts, now, skip) == Success(Some(0));
    OneDueSourceBuilds();
  }

  lemma OneDueSourceBuilds()
    ensures Objects.Construct(Objects.Source, map[ID_KEY := VOid(1), Objects.CREATED := VInt(0)]).Success?
  {
  }

  /** The store is in the shape the tab relies on. */
  lemma OneDueSourceInv()
    ensures Inv(OneDueSource())
  {
    assert Docs(OneDueSource(), Quiz.QUIZ) == [];
  }

  /** The discrepancy on a concrete store: the user has just answered the
      one question of the current note (the index is 1), the note due next
      has no questions, and the as-written loop runs without end. */
  lemma StaleIndexCounterexample(fuel: nat)
    ensures var now := 10 * Quiz.DAY;
      var next := Quiz.NextQuizNote(OneDueSource(), now);
      && next.Success? && next.value.Some?
      && AdvanceAsWritten(OneDueSource(), Live(now), next.value, 1, [], NoQuestions, fuel) == (OneDueSource(), None)
  {
    var now := 10 * Quiz.DAY;
    OneDueSourcePicked(now);
    var n := Quiz.NextQuizNote(OneDueSource(), now).value.value;
    assert Live(now).next(OneDueSource()) == Success(Some(n));
    AsWrittenSpins(OneDueSource(), Live(now), n, 1, NoQuestions, fuel);
  }

  /** On the same store the corrected loop answers within two rounds. */
  lemma StaleIndexCorrected()
    ensures var now := 10 * Quiz.DAY;
      var next := Quiz.NextQuizNote(OneDueSource(), now);
      && next.Success? && next.value.Some?
      && Advance(OneDueSource(), Live(now), next.value, 0, [], NoQuestions, 2).1.Some?
  {
    var now := 10 * Quiz.DAY;
    OneDueSourcePicked(now);
    OneDueSourceInv();
    var n := Quiz.NextQuizNote(OneDueSource(), now).value.value;
    assert n.Id().VOid?;
    LiveSound(now);
    assert Pending(Live(now), OneDueSource()) <= 1;
    AdvanceEnds(OneDueSource(), Live(now), Some(n), 0, [], NoQuestions, 2);
  }

  /** What `judge_answer` shows. */
  datatype Judged = Judged(judgedGroup: bool, display: string, askedJudge: bool)

  const CORRECT := "\U{2714}\U{FE0F} Correct!"
  const INCORRECT := "\U{274C} Incorrect!"

  /** `judge_answer`: a blank answer is wrong without asking the judge;
      otherwise the judge's `verdict` decides. */
  function JudgeAnswer(answer: string, verdict: bool): (r: Judged)
    ensures r.judgedGroup
    ensures r.askedJudge <==> exists i | 0 <= i < |answer| :: !Text.IsSpace(answer[i])
    ensures r.display == CORRECT <==> r.askedJudge && verdict
    ensures r.display == INCORRECT <==> !(r.askedJudge && verdict)
  {
    Text.StripBlank(answer);
    var asked := Text.Strip(answer) != [];
    var correct := asked && verdict;
    Judged(true, if correct then CORRECT else INCORRECT, asked)
  }
}

=== FILE: records.dfy ===
/** `RecordModel` of `remind/domain/base.py`: one process-wide instance per
    `record_id`, loaded from the `record` collection and written back to it by
    upsert.  The two record classes are `DefaultModels`
    (`remind/domain/models.py`) and `DefaultPrompts`
    (`remind/domain/transformation.py`); neither sets `auto_save`. */
module Records {
  import opened Wrappers
  import opened Store
  import Objects

  datatype RecordClass = DefaultModels | DefaultPrompts

  const RECORD_TABLE := "record"
  const RECORD_ID_KEY := "record_id"

  function RecordId(c: RecordClass): string {
    match c
    case DefaultModels => "default_models"
    case DefaultPrompts => "default_prompts"
  }

  lemma RecordIdInjective(a: RecordClass, b: RecordClass)
    requires RecordId(a) == RecordId(b)
    ensures a == b
  {
  }

  const CHAT_SLOT := "default_chat_model"
  const TRANSFORMATION_SLOT := "default_transformation_model"
  const LARGE_CONTEXT_SLOT := "default_large_context_model"
  const TEXT_TO_SPEECH_SLOT := "default_text_to_speech_model"
  const SPEECH_TO_TEXT_SLOT := "default_speech_to_text_model"
  const EMBEDDING_SLOT := "default_embedding_model"
  const TOOLS_SLOT := "default_tools_model"

  /** The slots `DefaultModels` declares, in declaration order. */
  const SLOTS: seq<string> := [CHAT_SLOT, TRANSFORMATION_SLOT, LARGE_CONTEXT_SLOT, TEXT_TO_SPEECH_SLOT,
                               SPEECH_TO_TEXT_SLOT, EMBEDDING_SLOT, TOOLS_SLOT]

  /** Declared fields; every one is optional with default None. */
  function FieldNames(c: RecordClass): set<string> {
    match c
    case DefaultModels => set s | s in SLOTS
    case DefaultPrompts => {"transformation_instructions"}
  }

  /** The type of a declared field: `Optional[PyObjectId]` for the model
      slots, `Optional[str]` for the prompt. */
  function FieldType(c: RecordClass, k: string): (r: Option<Objects.FieldType>)
    ensures r.Some? <==> k in FieldNames(c)
  {
    match c
    case DefaultModels => if k in SLOTS then Some(Objects.TOptOid) else None
    case DefaultPrompts => if k == "transformation_instructions" then Some(Objects.TOptStr) else None
  }

  /** An instance: its declared fields and the extra attributes
      (`extra = "allow"`). */
  datatype Inst = Inst(fields: Doc, extra: Doc)

  /** `RecordModel._instances` */
  type Registry = map<string, Inst>

  /** Keyword arguments, in call order. */
  type Kwargs = seq<(string, Value)>

  /** The instance is fully built: every declared field holds a validated
      value, and no extra attribute shadows a declared one. */
  predicate WellFormed(c: RecordClass, i: Inst) {
    && i.fields.Keys == FieldNames(c)
    && (forall k | k in i.fields :: Objects.Coerce(i.fields[k], FieldType(c, k).value) == Some(i.fields[k]))
    && (forall k | k in i.extra :: k !in FieldNames(c))
  }

  /** `setattr(instance, k, v)` with `validate_assignment`: a declared field
      is validated, anything else becomes an extra attribute. */
  function SetAttr(c: RecordClass, i: Inst, k: string, v: Value): (r: Result<Inst>)
    ensures r.Failure? <==> k in FieldNames(c) && Objects.Coerce(v, FieldType(c, k).value).None?
    ensures r.Failure? ==> r.error == ValidationError
    ensures r.Success? && k in FieldNames(c) ==>
      r.value == i.(fields := i.fields[k := Objects.Coerce(v, FieldType(c, k).value).value])
    ensures r.Success? && k !in FieldNames(c) ==> r.value == i.(extra := i.extra[k := v])
  {
    match FieldType(c, k)
    case Some(t) =>
      (match Objects.Coerce(v, t)
       case Some(w) => Success(i.(fields := i.fields[k := w]))
       case None => Failure(ValidationError))
    case None => Success(i.(extra := i.extra[k := v]))
  }

  /** Assign the keyword arguments one by one; on a failure the earlier
      assignments have already happened, and the partly updated instance is
      returned beside the error. */
  function ApplyKwargs(c: RecordClass, i: Inst, kw: Kwargs): (r: (Inst, Result<()>))
    ensures WellFormed(c, i) ==> WellFormed(c, r.0)
    ensures r.1.Failure? ==> r.1.error == ValidationError
    ensures |kw| == 0 ==> r == (i, Success(()))
    decreases |kw|
  {
    if |kw| == 0 then (i, Success(()))
    else
      match SetAttr(c, i, kw[0].0, kw[0].1)
      case Failure(e) => (i, Failure(e))
      case Success(i1) =>
        assert WellFormed(c, i) ==> WellFormed(c, i1) by {
          if WellFormed(c, i) && kw[0].0 in FieldNames(c) {
            Objects.CoerceStrict(kw[0].1, FieldType(c, kw[0].0).value);
          }
        }
        ApplyKwargs(c, i1, kw[1..])
  }

  /** `init_data.update(kwargs)` */
  function Overlay(d: Doc, kw: Kwargs): (r: Doc)
    ensures forall j | 0 <= j < |kw| :: kw[j].0 in r
    ensures forall k | k in r :: k in d || exists j | 0 <= j < |kw| :: kw[j].0 == k
    ensures forall k | k in d && (forall j | 0 <= j < |kw| :: kw[j].0 != k) :: k in r && r[k] == d[k]
    decreases |kw|
  {
    if |kw| == 0 then d else Overlay(d[kw[0].0 := kw[0].1], kw[1..])
  }

  /** pydantic construction from `init_data`: declared fields validated or
      defaulted to None, every other key kept as an extra attribute. */
  function Init(c: RecordClass, data: Doc): (r: Result<Inst>)
    ensures r.Failure? <==> exists k | k in data && k in FieldNames(c) :: Objects.Coerce(data[k], FieldType(c, k).value).None?
    ensures r.Failure? ==> r.error == ValidationError
    ensures r.Success? ==> WellFormed(c, r.value)
    ensures r.Success? ==> forall k | k in FieldNames(c) ::
      r.value.fields[k] == if k in data then Objects.Coerce(data[k], FieldType(c, k).value).value else VNull
    ensures r.Success? ==> r.value.extra == map k | k in data && k !in FieldNames(c) :: data[k]
  {
    if exists k | k in data && k in FieldNames(c) :: Objects.Coerce(data[k], FieldType(c, k).value).None? then
      Failure(ValidationError)
    else
      var fs := map k | k in FieldNames(c) :: if k in data then Objects.Coerce(data[k], FieldType(c, k).value).value else VNull;
      var r := Inst(fs, map k | k in data && k !in FieldNames(c) :: data[k]);
      assert WellFormed(c, r) by {
        forall k | k in fs ensures Objects.Coerce(fs[k], FieldType(c, k).value) == Some(fs[k]) {
          if k in data {
            Objects.CoerceStrict(data[k], FieldType(c, k).value);
          } else {
            DefaultKept(c, k);
          }
        }
      }
      Success(r)
  }

  lemma DefaultKept(c: RecordClass, k: string)
    requires k in FieldNames(c)
    ensures Objects.Coerce(VNull, FieldType(c, k).value) == Some(VNull)
  {
  }

  /** The stored record of a class: the first document with its record id. */
  function Stored(db: Db, c: RecordClass): (r: Option<Doc>)
    ensures r.Some? ==> r.value in Docs(db, RECORD_TABLE)
  {
    var docs := Query(db, RECORD_TABLE, [Eq(RECORD_ID_KEY, VStr(RecordId(c)))]);
    if |docs| > 0 then (assert docs[0] in docs; Some(docs[0])) else None
  }

  /** `cls(**kwargs)` (and `get_instance()` with no arguments): the
      registered instance with the keyword arguments assigned to it, without
      reading the database; or, the first time, an instance built from the
      stored record overlaid with the keyword arguments, then registered. */
  function New(reg: Registry, db: Db, c: RecordClass, kw: Kwargs): (r: (Registry, Result<Inst>))
    ensures RecordId(c) in reg ==> r.0.Keys == reg.Keys
    ensures RecordId(c) in reg ==> r == (reg[RecordId(c) := ApplyKwargs(c, reg[RecordId(c)], kw).0],
                                         match ApplyKwargs(c, reg[RecordId(c)], kw).1
                                         case Success(_) => Success(ApplyKwargs(c, reg[RecordId(c)], kw).0)
                                         case Failure(e) => Failure(e))
    ensures RecordId(c) !in reg && r.1.Success? ==>
      && r.0 == reg[RecordId(c) := r.1.value]
      && Init(c, Overlay(if Stored(db, c).Some? then Stored(db, c).value else map[], kw)) == r.1
    ensures r.1.Failure? ==> r.1.error == ValidationError
    ensures forall k | k in reg && k != RecordId(c) :: k in r.0 && r.0[k] == reg[k]
  {
    var rid := RecordId(c);
    if rid in reg then
      var (i, res) := ApplyKwargs(c, reg[rid], kw);
      (reg[rid := i], match res case Success(_) => Success(i) case Failure(e) => Failure(e))
    else
      var base := if Stored(db, c).Some? then Stored(db, c).value else map[];
      match Init(c, Overlay(base, kw))
      case Success(i) => (reg[rid := i], Success(i))
      case Failure(e) => (reg, Failure(e))
  }

  /** The instance is a singleton: asking for it again, whatever the
      database now holds, returns the same instance and leaves the registry
      as it was. */
  lemma NewIsSingleton(reg: Registry, db: Db, db': Db, c: RecordClass, kw: Kwargs)
    requires New(reg, db, c, kw).1.Success?
    ensures var (reg1, i) := New(reg, db, c, kw);
      New(reg1, db', c, []) == (reg1, i)
  {
    var (reg1, i) := New(reg, db, c, kw);
    assert RecordId(c) in reg1 && reg1[RecordId(c)] == i.value;
    RegisteredNoArgs(reg1, db', c);
  }

  /** With an instance registered, asking again without arguments returns it
      and leaves the registry alone. */
  lemma RegisteredNoArgs(reg: Registry, db: Db, c: RecordClass)
    requires RecordId(c) in reg
    ensures New(reg, db, c, []) == (reg, Success(reg[RecordId(c)]))
  {
    assert reg[RecordId(c) := reg[RecordId(c)]] == reg;
  }

  /** Every instance in the registry is fully built. */
  predicate RegistryWellFormed(reg: Registry) {
    forall c: RecordClass | RecordId(c) in reg :: WellFormed(c, reg[RecordId(c)])
  }

  lemma NewKeepsWellFormed(reg: Registry, db: Db, c: RecordClass, kw: Kwargs)
    requires RegistryWellFormed(reg)
    ensures RegistryWellFormed(New(reg, db, c, kw).0)
  {
    var reg1 := New(reg, db, c, kw).0;
    forall c' | RecordId(c') in reg1 ensures WellFormed(c', reg1[RecordId(c')]) {
      if c' != c {
        assert RecordId(c') != RecordId(c);
      }
    }
  }

  /** `clear_instance`: forget the instance of this class only. */
  function ClearInstance(reg: Registry, c: RecordClass): (r: Registry)
    ensures RecordId(c) !in r
    ensures forall k | k in reg && k != RecordId(c) :: k in r && r[k] == reg[k]
    ensures r.Keys == reg.Keys - {RecordId(c)}
  {
    map k | k in reg && k != RecordId(c) :: reg[k]
  }

  /** The declared fields with their values, as `update` collects them. */
  function Dump(i: Inst): Doc {
    i.fields
  }

  /** The read-back step of `update`: attributes the instance has take the
      stored values; `_id` is not an attribute. */
  function Refresh(c: RecordClass, i: Inst, stored: Doc): (r: Inst)
    ensures r.fields.Keys == i.fields.Keys && r.extra.Keys == i.extra.Keys
  {
    Inst(map k | k in i.fields :: if k in stored then stored[k] else i.fields[k],
         map k | k in i.extra :: if k in stored then stored[k] else i.extra[k])
  }

  /** `RecordModel.update`: upsert the declared fields (None included) into
      the record with this id, then read the record back. */
  function Update(db: Db, c: RecordClass, i: Inst): (r: (Db, Result<Inst>))
    ensures r.1.Failure? ==> r.0 == db
    ensures forall t | t != RECORD_TABLE :: Docs(r.0, t) == Docs(db, t)
    ensures r.1.Success? ==> r.1.value.fields.Keys == i.fields.Keys
  {
    match Upsert(db, RECORD_TABLE, [Eq(RECORD_ID_KEY, VStr(RecordId(c)))], Dump(i))
    case Failure(e) => (db, Failure(e))
    case Success((db', _)) =>
      match Stored(db', c)
      case Some(d) => (db', Success(Refresh(c, i, d)))
      case None => (db', Success(i))
  }

  /** The stored record after `update` holds the instance's declared fields
      exactly, and the instance's declared fields are unchanged. */
  lemma UpdateStoresFields(db: Db, c: RecordClass, i: Inst)
    requires RECORD_ID_KEY !in i.fields && ID_KEY !in i.fields
    requires Update(db, c, i).1.Success?
    ensures var (db', r) := Update(db, c, i);
      && Stored(db', c).Some?
      && (forall k | k in i.fields :: k in Stored(db', c).value && Stored(db', c).value[k] == i.fields[k])
      && r.value.fields == i.fields
  {
    UpsertReadBack(db, RECORD_TABLE, RECORD_ID_KEY, VStr(RecordId(c)), Dump(i));
  }

  /** Writing the instance and loading it afresh gives back its declared
      fields: `update`, `clear_instance`, then `get_instance`. */
  lemma UpdateReloadRoundTrip(reg: Registry, db: Db, c: RecordClass, i: Inst)
    requires WellFormed(c, i)
    requires Update(db, c, i).1.Success?
    ensures var db' := Update(db, c, i).0;
      var (_, r) := New(ClearInstance(reg, c), db', c, []);
      r.Success? && r.value.fields == i.fields
  {
    ReservedUndeclared(c);
    UpdateStoresFields(db, c, i);
    var db' := Update(db, c, i).0;
    FirstLoad(ClearInstance(reg, c), db', c);
    InitFromStored(c, i, Stored(db', c).value);
  }

  /** The record id and the document id are never declared fields. */
  lemma ReservedUndeclared(c: RecordClass)
    ensures RECORD_ID_KEY !in FieldNames(c) && ID_KEY !in FieldNames(c)
  {
  }

  /** With no registered instance, `get_instance()` builds one from the
      stored record as it is. */
  lemma FirstLoad(reg: Registry, db: Db, c: RecordClass)
    requires RecordId(c) !in reg && Stored(db, c).Some?
    ensures New(reg, db, c, []).1 == Init(c, Stored(db, c).value)
  {
    var d := Stored(db, c).value;
    assert Overlay(d, []) == d;
  }

  /** Building an instance from a record that holds a well-formed instance's
      declared fields gives back those fields. */
  lemma InitFromStored(c: RecordClass, i: Inst, d: Doc)
    requires WellFormed(c, i)
    requires forall k | k in i.fields :: k in d && d[k] == i.fields[k]
    ensures Init(c, d).Success? && Init(c, d).value.fields == i.fields
  {
    forall k | k in FieldNames(c) ensures k in d && Objects.Coerce(d[k], FieldType(c, k).value) == Some(i.fields[k]) {
    }
  }

  /** The value the last entry for `k` assigns, if any entry names `k`. */
  function LastKw(kw: Kwargs, k: string): (r: Option<Value>)
    ensures r.None? <==> forall j | 0 <= j < |kw| :: kw[j].0 != k
    decreases |kw|
  {
    if |kw| == 0 then None
    else if kw[|kw| - 1].0 == k then Some(kw[|kw| - 1].1)
    else LastKw(kw[..|kw| - 1], k)
  }

  /** Seen from the front: a later entry for `k` overrides the first. */
  lemma {:induction false} LastKwFront(kw: Kwargs, k: string)
    requires |kw| > 0
    ensures LastKw(kw, k) ==
      if LastKw(kw[1..], k).Some? then LastKw(kw[1..], k)
      else if kw[0].0 == k then Some(kw[0].1) else None
    decreases |kw|
  {
    if |kw| > 1 {
      assert kw[..|kw| - 1][1..] == kw[1..][..|kw[1..]| - 1];
      LastKwFront(kw[..|kw| - 1], k);
    }
  }

  /** `d` holds, for every declared field, the validated value of the last
      entry naming it, and the instance's own value for a field no entry
      names. */
  ghost predicate Patched(c: RecordClass, i: Inst, kw: Kwargs, d: Doc) {
    forall k | k in FieldNames(c) ::
      && k in d
      && (LastKw(kw, k).Some? ==> Objects.Coerce(LastKw(kw, k).value, FieldType(c, k).value) == Some(d[k]))
      && (LastKw(kw, k).None? ==> k in i.fields && d[k] == i.fields[k])
  }

  /** Assigning the entries of a successful run leaves each declared field
      at its last entry's validated value. */
  lemma {:induction false} ApplyKwargsAssigns(c: RecordClass, i: Inst, kw: Kwargs)
    requires WellFormed(c, i) && ApplyKwargs(c, i, kw).1.Success?
    ensures Patched(c, i, kw, ApplyKwargs(c, i, kw).0.fields)
    decreases |kw|
  {
    var out := ApplyKwargs(c, i, kw).0;
    if |kw| > 0 {
      var i1 := SetAttr(c, i, kw[0].0, kw[0].1).value;
      assert WellFormed(c, i1) by {
        if kw[0].0 in FieldNames(c) {
          Objects.CoerceStrict(kw[0].1, FieldType(c, kw[0].0).value);
        }
      }
      assert ApplyKwargs(c, i, kw) == ApplyKwargs(c, i1, kw[1..]);
      ApplyKwargsAssigns(c, i1, kw[1..]);
      AssignFirst(c, i, kw, out.fields);
    }
  }

  /** The first entry's assignment, followed by the rest's. */
  lemma AssignFirst(c: RecordClass, i: Inst, kw: Kwargs, d: Doc)
    requires WellFormed(c, i) && |kw| > 0 && SetAttr(c, i, kw[0].0, kw[0].1).Success?
    requires Patched(c, SetAttr(c, i, kw[0].0, kw[0].1).value, kw[1..], d)
    ensures Patched(c, i, kw, d)
  {
    forall k | k in FieldNames(c)
      ensures && k in d
              && (LastKw(kw, k).Some? ==> Objects.Coerce(LastKw(kw, k).value, FieldType(c, k).value) == Some(d[k]))
              && (LastKw(kw, k).None? ==> k in i.fields && d[k] == i.fields[k])
    {
      LastKwFront(kw, k);
    }
  }

  /** `patch`: assign each entry, then `update`.  An entry that fails
      validation stops before anything is written; a successful patch of a
      well-formed instance stores every declared field at its last entry's
      validated value, or at the instance's value when no entry names it. */
  function Patch(db: Db, c: RecordClass, i: Inst, kw: Kwargs): (r: (Db, Inst, Result<()>))
    ensures ApplyKwargs(c, i, kw).1.Failure? ==> r.0 == db && r.2.Failure?
    ensures r.2.Success? ==> ApplyKwargs(c, i, kw).1.Success?
    ensures forall t | t != RECORD_TABLE :: Docs(r.0, t) == Docs(db, t)
    ensures r.2.Success? && WellFormed(c, i) ==>
      && Stored(r.0, c).Some?
      && Patched(c, i, kw, Stored(r.0, c).value)
      && Patched(c, i, kw, r.1.fields)
  {
    var (i1, res) := ApplyKwargs(c, i, kw);
    match res
    case Failure(e) => (db, i1, Failure(e))
    case Success(_) =>
      match Update(db, c, i1)
      case (db', Success(i2)) =>
        if WellFormed(c, i) then
          PatchStores(db, c, i, kw);
          (db', i2, Success(()))
        else (db', i2, Success(()))
      case (db', Failure(e)) => (db', i1, Failure(e))
  }

  /** The update after a successful assignment stores the assigned fields. */
  lemma PatchStores(db: Db, c: RecordClass, i: Inst, kw: Kwargs)
    requires WellFormed(c, i) && ApplyKwargs(c, i, kw).1.Success?
    requires Update(db, c, ApplyKwargs(c, i, kw).0).1.Success?
    ensures var i1 := ApplyKwargs(c, i, kw).0; var (db', r) := Update(db, c, i1);
      Stored(db', c).Some? && Patched(c, i, kw, Stored(db', c).value) && Patched(c, i, kw, r.value.fields)
  {
    var i1 := ApplyKwargs(c, i, kw).0;
    ReservedUndeclared(c);
    ApplyKwargsAssigns(c, i, kw);
    UpdateStoresFields(db, c, i1);
  }
}

=== FILE: routing.dfy ===
/** `provision_langchain_model` of `remind/graphs/utils.py`: which language
    model serves a prompt.  The token count of the content (tiktoken's
    `o200k_base` encoding) is an input; the chosen wrapper stands for its
    LangChain client. */
module Routing {
  import opened Wrappers
  import opened Store
  import Objects
  import Catalog
  import Manager

  /** Prompts longer than this many tokens go to the large-context model. */
  const LARGE_CONTEXT_THRESHOLD := 105000

  /** The lookup step: the large-context default above the threshold, else
      the requested model, else the default of `defaultType`.  `lookup` is
      `get_default_model` (as written or as intended). */
  function Lookup(m: Manager.Mgr, db: Db, tokens: nat, modelId: Objects.IdArg, defaultType: string, kw: string,
                  large: (Manager.Mgr, Result<Option<Manager.ModelInst>>)): (Manager.Mgr, Result<Option<Manager.ModelInst>>)
  {
    if tokens > LARGE_CONTEXT_THRESHOLD then large
    else if Objects.IdGiven(modelId) then Manager.GetModel(m, db, modelId, kw)
    else Manager.GetDefaultModel(m, db, defaultType, kw)
  }

  /** The final `isinstance(model, LanguageModel)` assertion. */
  function RequireLanguage(g: (Manager.Mgr, Result<Option<Manager.ModelInst>>)): (r: (Manager.Mgr, Result<Manager.ModelInst>))
    ensures r.0 == g.0
    ensures g.1.Failure? ==> r.1 == Failure(g.1.error)
    ensures r.1.Success? <==> g.1.Success? && g.1.value.Some? && g.1.value.value.mtype == Catalog.LANGUAGE
    ensures r.1.Success? ==> r.1.value == g.1.value.value
    ensures g.1.Success? && r.1.Failure? ==> r.1.error == AssertionError
  {
    match g.1
    case Failure(e) => (g.0, Failure(e))
    case Success(None) => (g.0, Failure(AssertionError))
    case Success(Some(x)) => if x.mtype == Catalog.LANGUAGE then (g.0, Success(x)) else (g.0, Failure(AssertionError))
  }

  /** `provision_langchain_model`, with the large-context role reading the
      slot `DefaultModels` declares. */
  function Provision(m: Manager.Mgr, db: Db, tokens: nat, modelId: Objects.IdArg, defaultType: string, kw: string)
    : (r: (Manager.Mgr, Result<Manager.ModelInst>))
    ensures r.1.Success? ==> r.1.value.mtype == Catalog.LANGUAGE
    ensures tokens > LARGE_CONTEXT_THRESHOLD ==>
      r == RequireLanguage(Manager.GetDefaultModel(m, db, "large_context", kw))
    ensures tokens <= LARGE_CONTEXT_THRESHOLD && Objects.IdGiven(modelId) ==>
      r == RequireLanguage(Manager.GetModel(m, db, modelId, kw))
    ensures tokens <= LARGE_CONTEXT_THRESHOLD && !Objects.IdGiven(modelId) ==>
      r == RequireLanguage(Manager.GetDefaultModel(m, db, defaultType, kw))
  {
    RequireLanguage(Lookup(m, db, tokens, modelId, defaultType, kw, Manager.GetDefaultModel(m, db, "large_context", kw)))
  }

  /** `provision_langchain_model` as written: its large-context branch goes
      through the code's `get_default_model`, which reads an undeclared
      attribute. */
  function ProvisionAsWritten(m: Manager.Mgr, db: Db, tokens: nat, modelId: Objects.IdArg, defaultType: string, kw: string)
    : (r: (Manager.Mgr, Result<Manager.ModelInst>))
    requires Manager.MgrWellFormed(m)
    ensures tokens <= LARGE_CONTEXT_THRESHOLD ==> r == Provision(m, db, tokens, modelId, defaultType, kw)
    ensures tokens > LARGE_CONTEXT_THRESHOLD && "large_context_model" !in m.defaults.extra ==>
      r == (m, Failure(AttributeError))
  {
    RequireLanguage(Lookup(m, db, tokens, modelId, defaultType, kw, Manager.GetDefaultModelAsWritten(m, db, "large_context", kw)))
  }

  /** Above the threshold neither the requested model nor the default type
      plays any part. */
  lemma LargeContextOverrides(m: Manager.Mgr, db: Db, tokens: nat, id1: Objects.IdArg, id2: Objects.IdArg,
                              t1: string, t2: string, kw: string)
    requires tokens > LARGE_CONTEXT_THRESHOLD
    ensures Provision(m, db, tokens, id1, t1, kw) == Provision(m, db, tokens, id2, t2, kw)
  {
  }

  /** The threshold is strict: exactly 105000 tokens routes like a short
      prompt. */
  lemma ThresholdIsStrict(m: Manager.Mgr, db: Db, id: Objects.IdArg, t: string, kw: string)
    ensures Provision(m, db, LARGE_CONTEXT_THRESHOLD, id, t, kw) == Provision(m, db, 0, id, t, kw)
    ensures Provision(m, db, LARGE_CONTEXT_THRESHOLD + 1, id, t, kw) == Provision(m, db, LARGE_CONTEXT_THRESHOLD + 1, id, "chat", kw)
  {
  }

  /** No model at all (an unset default) fails the assertion rather than
      returning None. */
  lemma UnsetDefaultFails(m: Manager.Mgr, db: Db, tokens: nat, t: string, kw: string)
    requires tokens <= LARGE_CONTEXT_THRESHOLD
    requires Manager.DefaultId(m, t).None?
    ensures Provision(m, db, tokens, Objects.TextArg(""), t, kw) == (m, Failure(AssertionError))
  {
  }
}

=== FILE: search.dfy ===
/** The retrieval side of the ask graph, `remind/graphs/ask.py`: the vector
    search over chunks and insights, the fan-out of one branch per planned
    search, and the answer each branch contributes.

    The Atlas `$vectorSearch` aggregation is an input: for a collection, a
    query vector and a limit it yields (score, projected document) rows in
    its own order.  Scores are Python floats compared as reals. */
module Search {
  import opened Wrappers
  import opened Store
  import opened Objects
  import Sorting
  import Manager
  import Routing

  /** `vector_search`'s default `minimum_score`. */
  const DEFAULT_MINIMUM_SCORE: real := 0.2

  /** How many hits `provide_answer` asks for. */
  const ANSWER_RESULTS := 10

  /** One aggregation: collection, query vector and limit to rows. */
  type Backend = (string, seq<real>, int) -> seq<(real, Doc)>

  /** A kept hit: its score, its position in discovery order, its object. */
  datatype Hit = Hit(score: real, pos: nat, obj: Obj)

  /** The order of the stable descending sort on score: a higher score
      first, and among equal scores the earlier discovered. */
  predicate Before(a: Hit, b: Hit) {
    a.score > b.score || (a.score == b.score && a.pos < b.pos)
  }

  /** The rows scoring at least `minimum`, in their order: the reference
      the scans below are measured against. */
  function Passing<A(==,!new)>(rows: seq<(real, A)>, minimum: real): (r: seq<(real, A)>)
    ensures |r| <= |rows|
    ensures forall x :: x in r <==> x in rows && x.0 >= minimum
    ensures (forall i | 0 <= i < |rows| :: rows[i].0 >= minimum) ==> r == rows
    decreases |rows|
  {
    if |rows| == 0 then []
    else
      assert rows == [rows[0]] + rows[1..];
      (if rows[0].0 >= minimum then [rows[0]] else []) + Passing(rows[1..], minimum)
  }

  /** The rows of one collection with `score >= minimum`, each built into
      an object of the collection's class (a row that does not validate
      raises). */
  function Keep(rows: seq<(real, Doc)>, k: Kind, minimum: real): (r: Result<seq<(real, Obj)>>)
    ensures r.Failure? ==> r.error == ValidationError
    ensures r.Failure? <==> exists i | 0 <= i < |rows| :: rows[i].0 >= minimum && Construct(k, rows[i].1).Failure?
    ensures r.Success? ==> forall j | 0 <= j < |r.value| ::
      r.value[j].0 >= minimum && r.value[j].1.kind == k &&
      exists i | 0 <= i < |rows| :: rows[i].0 == r.value[j].0 && Construct(k, rows[i].1) == Success(r.value[j].1)
    ensures r.Success? ==> |r.value| == |Passing(rows, minimum)| <= |rows|
    ensures r.Success? ==> forall i | 0 <= i < |rows| && rows[i].0 >= minimum ::
      Construct(k, rows[i].1).Success? && (rows[i].0, Construct(k, rows[i].1).value) in r.value
    ensures r.Success? && (forall i | 0 <= i < |rows| :: rows[i].0 < minimum) ==> r.value == []
  {
    KeepFacts(rows, k, minimum);
    Scored(rows, Build(k), minimum)
  }

  /** Building a row's document into an object of class `k`. */
  function Build(k: Kind): (f: Doc -> Result<Obj>)
    ensures forall d :: f(d) == Construct(k, d)
  {
    d => Construct(k, d)
  }

  /** What `Keep` promises beyond the generic scan: the count of passing
      rows, and every passing row built and kept. */
  lemma KeepFacts(rows: seq<(real, Doc)>, k: Kind, minimum: real)
    ensures var r := Scored(rows, Build(k), minimum);
      r.Success? ==> |r.value| == |Passing(rows, minimum)| && forall i | 0 <= i < |rows| && rows[i].0 >= minimum ::
        Construct(k, rows[i].1).Success? && (rows[i].0, Construct(k, rows[i].1).value) in r.value
  {
    var r := Scored(rows, Build(k), minimum);
    if r.Success? {
      ScoredPassing(rows, Build(k), minimum);
      forall i | 0 <= i < |rows| && rows[i].0 >= minimum
        ensures Construct(k, rows[i].1).Success? && (rows[i].0, Construct(k, rows[i].1).value) in r.value
      {
        ScoredHas(rows, Build(k), minimum, i);
      }
    }
  }

  /** The rows scoring at least `minimum`, in order, each mapped through
      `f`; the first failure of `f` on such a row stops the scan. */
  function Scored<A(==,!new), B>(rows: seq<(real, A)>, f: A -> Result<B>, minimum: real): (r: Result<seq<(real, B)>>)
    ensures r.Failure? <==> exists i | 0 <= i < |rows| :: rows[i].0 >= minimum && f(rows[i].1).Failure?
    ensures r.Failure? ==> exists i | 0 <= i < |rows| :: f(rows[i].1) == Failure(r.error)
    ensures r.Success? ==> |r.value| <= |rows|
    ensures r.Success? ==> forall j | 0 <= j < |r.value| ::
      r.value[j].0 >= minimum &&
      exists i | 0 <= i < |rows| :: rows[i].0 == r.value[j].0 && f(rows[i].1) == Success(r.value[j].1)
    ensures r.Success? && (forall i | 0 <= i < |rows| :: rows[i].0 < minimum) ==> r.value == []
    decreases |rows|
  {
    if |rows| == 0 then Success([])
    else
      var rest := Scored(rows[1..], f, minimum);
      assert forall i | 0 <= i < |rows[1..]| :: rows[1..][i] == rows[i + 1];
      if rows[0].0 >= minimum then
        match f(rows[0].1)
        case Failure(e) => Failure(e)
        case Success(o) =>
          (match rest
           case Failure(e) => Failure(e)
           case Success(xs) => Success([(rows[0].0, o)] + xs))
      else rest
  }

  /** A successful scan maps exactly the passing rows, one for one and in
      their order. */
  ghost predicate MapsPassing<A(!new), B>(rows: seq<(real, A)>, f: A -> Result<B>, minimum: real, out: seq<(real, B)>) {
    var ps := Passing(rows, minimum);
    |out| == |ps| && forall j | 0 <= j < |out| :: out[j].0 == ps[j].0 && f(ps[j].1) == Success(out[j].1)
  }

  lemma {:induction false} ScoredPassing<A(!new), B>(rows: seq<(real, A)>, f: A -> Result<B>, minimum: real)
    requires Scored(rows, f, minimum).Success?
    ensures MapsPassing(rows, f, minimum, Scored(rows, f, minimum).value)
    decreases |rows|
  {
    if |rows| > 0 {
      ScoredPassing(rows[1..], f, minimum);
      var xs := Scored(rows[1..], f, minimum).value;
      if rows[0].0 >= minimum {
        PassingCons(rows[0], rows[1..], f, minimum, f(rows[0].1).value, xs);
        assert rows == [rows[0]] + rows[1..];
      } else {
        PassingSkip(rows, minimum);
      }
    }
  }

  /** A passing row in front adds its image in front. */
  lemma PassingCons<A(!new), B>(row: (real, A), rest: seq<(real, A)>, f: A -> Result<B>, minimum: real, o: B, xs: seq<(real, B)>)
    requires row.0 >= minimum && f(row.1) == Success(o) && MapsPassing(rest, f, minimum, xs)
    ensures MapsPassing([row] + rest, f, minimum, [(row.0, o)] + xs)
  {
    assert ([row] + rest)[1..] == rest;
    assert Passing([row] + rest, minimum) == [row] + Passing(rest, minimum);
  }

  /** A row below the minimum is passed over. */
  lemma PassingSkip<A(!new)>(rows: seq<(real, A)>, minimum: real)
    requires |rows| > 0 && rows[0].0 < minimum
    ensures Passing(rows, minimum) == Passing(rows[1..], minimum)
  {
  }

  /** Every row that passes is mapped into a successful scan's result. */
  lemma ScoredHas<A(!new), B>(rows: seq<(real, A)>, f: A -> Result<B>, minimum: real, i: nat)
    requires Scored(rows, f, minimum).Success? && i < |rows| && rows[i].0 >= minimum
    ensures f(rows[i].1).Success? && (rows[i].0, f(rows[i].1).value) in Scored(rows, f, minimum).value
  {
    var ps := Passing(rows, minimum);
    ScoredPassing(rows, f, minimum);
    assert rows[i] in ps;
    var j :| 0 <= j < |ps| && ps[j] == rows[i];
    assert Scored(rows, f, minimum).value[j] == (rows[i].0, f(rows[i].1).value);
  }

  /** Tag each kept hit with its discovery position. */
  function Tag(xs: seq<(real, Obj)>): (r: seq<Hit>)
    ensures |r| == |xs|
    ensures forall i | 0 <= i < |r| :: r[i] == Hit(xs[i].0, i, xs[i].1)
  {
    seq(|xs|, i requires 0 <= i < |xs| => Hit(xs[i].0, i, xs[i].1))
  }

  /** On tagged hits the order is strict and total, and no hit repeats. */
  lemma TagOrdered(xs: seq<(real, Obj)>)
    ensures Sorting.StrictTotalOn(Tag(xs), Before) && Sorting.Distinct(Tag(xs))
  {
  }

  /** `search_results[:results]` for any integer `results`, negative ones
      counting from the end as Python slices do. */
  function PrefixSlice<T>(s: seq<T>, n: int): (r: seq<T>)
    ensures n >= 0 ==> r == s[..if n < |s| then n else |s|]
    ensures n < 0 ==> r == s[..if |s| + n > 0 then |s| + n else 0]
    ensures |r| <= |s| && forall i | 0 <= i < |r| :: r[i] == s[i]
  {
    if n >= 0 then s[..if n < |s| then n else |s|]
    else s[..if |s| + n > 0 then |s| + n else 0]
  }

  /** A hit `vector_search` may return: above the minimum score, and of an
      enabled kind. */
  predicate Eligible(score: real, o: Obj, minimum: real, source: bool, insights: bool) {
    && score >= minimum
    && o.kind in {SourceEmbedding, SourceInsight}
    && (o.kind == SourceEmbedding ==> source)
    && (o.kind == SourceInsight ==> insights)
  }

  /** The rows the aggregation yields for the collection of class `k`. */
  function RowsOf(k: Kind, keyword: seq<real>, results: int, backend: Backend): seq<(real, Doc)> {
    backend(TableName(k), keyword, results)
  }

  /** One collection's kept hits, or none when its kind is not enabled. */
  function KeptOf(on: bool, k: Kind, keyword: seq<real>, results: int, minimum: real, backend: Backend)
    : (r: Result<seq<(real, Obj)>>)
    ensures !on ==> r == Success([])
    ensures on ==> r == Keep(RowsOf(k, keyword, results, backend), k, minimum)
    ensures r.Success? ==> Kept(on, RowsOf(k, keyword, results, backend), k, minimum, r.value)
  {
    if on then Keep(RowsOf(k, keyword, results, backend), k, minimum) else Success([])
  }

  /** Every row of the collection of class `k` that scores at least
      `minimum` is built and found in `out`. */
  ghost predicate HasPassing(rows: seq<(real, Doc)>, k: Kind, minimum: real, out: seq<(real, Obj)>) {
    forall i | 0 <= i < |rows| && rows[i].0 >= minimum ::
      Construct(k, rows[i].1).Success? && (rows[i].0, Construct(k, rows[i].1).value) in out
  }

  /** What a collection contributes: nothing when disabled, otherwise one
      object of its class per passing row, every passing row among them. */
  ghost predicate Kept(on: bool, rows: seq<(real, Doc)>, k: Kind, minimum: real, xs: seq<(real, Obj)>) {
    && (!on ==> xs == [])
    && (on ==> |xs| == |Passing(rows, minimum)| && HasPassing(rows, k, minimum, xs))
    && (forall i | 0 <= i < |xs| :: xs[i].0 >= minimum && xs[i].1.kind == k)
  }

  /** The kept hits in discovery order: chunk hits (when enabled) before
      insight hits (when enabled). */
  function Discovered(keyword: seq<real>, results: int, source: bool, insights: bool, minimum: real, backend: Backend)
    : (r: Result<seq<(real, Obj)>>)
    ensures r.Success? ==> forall i | 0 <= i < |r.value| :: Eligible(r.value[i].0, r.value[i].1, minimum, source, insights)
    ensures r.Success? ==> forall i, j | 0 <= i < j < |r.value| ::
      r.value[j].1.kind == SourceEmbedding ==> r.value[i].1.kind == SourceEmbedding
    ensures !source && !insights ==> r == Success([])
    ensures r.Failure? <==>
      KeptOf(source, SourceEmbedding, keyword, results, minimum, backend).Failure? ||
      KeptOf(insights, SourceInsight, keyword, results, minimum, backend).Failure?
    ensures r.Success? ==>
      |r.value| == (if source then |Passing(RowsOf(SourceEmbedding, keyword, results, backend), minimum)| else 0) +
                   (if insights then |Passing(RowsOf(SourceInsight, keyword, results, backend), minimum)| else 0)
    ensures r.Success? && source ==> HasPassing(RowsOf(SourceEmbedding, keyword, results, backend), SourceEmbedding, minimum, r.value)
    ensures r.Success? && insights ==> HasPassing(RowsOf(SourceInsight, keyword, results, backend), SourceInsight, minimum, r.value)
  {
    match KeptOf(source, SourceEmbedding, keyword, results, minimum, backend)
    case Failure(e) => Failure(e)
    case Success(cs) =>
      match KeptOf(insights, SourceInsight, keyword, results, minimum, backend)
      case Failure(e) => Failure(e)
      case Success(ins) =>
        Joined(RowsOf(SourceEmbedding, keyword, results, backend), RowsOf(SourceInsight, keyword, results, backend),
               source, insights, minimum, cs, ins);
        Success(cs + ins)
  }

  /** The chunk hits followed by the insight hits: eligible, chunks first,
      and every passing row of an enabled collection found. */
  lemma Joined(crows: seq<(real, Doc)>, irows: seq<(real, Doc)>, source: bool, insights: bool, minimum: real,
               cs: seq<(real, Obj)>, ins: seq<(real, Obj)>)
    requires Kept(source, crows, SourceEmbedding, minimum, cs) && Kept(insights, irows, SourceInsight, minimum, ins)
    ensures forall i | 0 <= i < |cs + ins| :: Eligible((cs + ins)[i].0, (cs + ins)[i].1, minimum, source, insights)
    ensures forall i, j | 0 <= i < j < |cs + ins| ::
      (cs + ins)[j].1.kind == SourceEmbedding ==> (cs + ins)[i].1.kind == SourceEmbedding
    ensures |cs + ins| == (if source then |Passing(crows, minimum)| else 0) + (if insights then |Passing(irows, minimum)| else 0)
    ensures source ==> HasPassing(crows, SourceEmbedding, minimum, cs + ins)
    ensures insights ==> HasPassing(irows, SourceInsight, minimum, cs + ins)
  {
    forall i, j | 0 <= i < j < |cs + ins| && (cs + ins)[j].1.kind == SourceEmbedding
      ensures (cs + ins)[i].1.kind == SourceEmbedding
    {
      assert j < |cs|;
    }
  }

  /** Among hits of equal score no chunk follows an insight. */
  predicate ChunksFirst(hs: seq<Hit>) {
    forall i, j | 0 <= i < j < |hs| ::
      hs[i].score == hs[j].score && hs[j].obj.kind == SourceEmbedding ==> hs[i].obj.kind == SourceEmbedding
  }

  /** The sort is stable: hits of equal score keep discovery order, in
      which every chunk precedes every insight. */
  lemma {:induction false} SortKeepsChunksFirst(xs: seq<(real, Obj)>)
    requires forall i, j | 0 <= i < j < |xs| :: xs[j].1.kind == SourceEmbedding ==> xs[i].1.kind == SourceEmbedding
    requires Sorting.StrictTotalOn(Tag(xs), Before) && Sorting.Distinct(Tag(xs))
    ensures ChunksFirst(Sorting.Sort(Tag(xs), Before))
  {
    StableChunks(xs, Sorting.Sort(Tag(xs), Before));
  }

  /** Any arrangement of the tagged hits in `Before` order keeps chunks
      first among equal scores. */
  lemma StableChunks(xs: seq<(real, Obj)>, sorted: seq<Hit>)
    requires forall i, j | 0 <= i < j < |xs| :: xs[j].1.kind == SourceEmbedding ==> xs[i].1.kind == SourceEmbedding
    requires multiset(sorted) == multiset(Tag(xs)) && Sorting.Increasing(sorted, Before)
    ensures ChunksFirst(sorted)
  {
    forall i, j | 0 <= i < j < |sorted| && sorted[i].score == sorted[j].score && sorted[j].obj.kind == SourceEmbedding
      ensures sorted[i].obj.kind == SourceEmbedding
    {
      assert sorted[i] in multiset(Tag(xs)) && sorted[j] in multiset(Tag(xs));
      var a :| 0 <= a < |xs| && Tag(xs)[a] == sorted[i];
      var b :| 0 <= b < |xs| && Tag(xs)[b] == sorted[j];
      assert Before(sorted[i], sorted[j]);
      assert a < b;
    }
  }

  /** Sorting the tagged hits keeps every hit eligible. */
  lemma SortKeepsEligible(xs: seq<(real, Obj)>, minimum: real, source: bool, insights: bool)
    requires forall i | 0 <= i < |xs| :: Eligible(xs[i].0, xs[i].1, minimum, source, insights)
    ensures Sorting.StrictTotalOn(Tag(xs), Before) && Sorting.Distinct(Tag(xs))
    ensures var sorted := Sorting.Sort(Tag(xs), Before);
      forall i | 0 <= i < |sorted| :: Eligible(sorted[i].score, sorted[i].obj, minimum, source, insights)
  {
    TagOrdered(xs);
    var sorted := Sorting.Sort(Tag(xs), Before);
    forall i | 0 <= i < |sorted|
      ensures Eligible(sorted[i].score, sorted[i].obj, minimum, source, insights)
    {
      assert sorted[i] in multiset(Tag(xs));
    }
  }

  /** How many elements `s[:n]` keeps of a sequence of length `len`. */
  function SliceLength(len: nat, n: int): (r: nat)
    ensures r <= len
    ensures n >= 0 ==> r == (if n < len then n else len)
  {
    if n >= 0 then (if n < len then n else len) else if len + n > 0 then len + n else 0
  }

  /** `r` is the best `s[:n]`'s worth of `hs`: that many of its hits, and
      every hit of `hs` left out comes after each one kept. */
  ghost predicate Best(r: seq<Hit>, hs: seq<Hit>, n: int) {
    && |r| == SliceLength(|hs|, n)
    && multiset(r) <= multiset(hs)
    && forall j, h | 0 <= j < |r| && h in hs && h !in r :: Before(r[j], h)
  }

  /** A prefix of the sorted hits is the best of them. */
  lemma SliceIsBest(hs: seq<Hit>, n: int)
    requires Sorting.StrictTotalOn(hs, Before) && Sorting.Distinct(hs)
    ensures Best(PrefixSlice(Sorting.Sort(hs, Before), n), hs, n)
  {
    PrefixIsBest(Sorting.Sort(hs, Before), hs, n);
  }

  /** A prefix of any arrangement of `hs` in `Before` order is the best of
      them. */
  lemma PrefixIsBest(sorted: seq<Hit>, hs: seq<Hit>, n: int)
    requires multiset(sorted) == multiset(hs) && |sorted| == |hs| && Sorting.Increasing(sorted, Before)
    ensures Best(PrefixSlice(sorted, n), hs, n)
  {
    var r := PrefixSlice(sorted, n);
    assert sorted == r + sorted[|r|..];
    forall j, h | 0 <= j < |r| && h in hs && h !in r
      ensures Before(r[j], h)
    {
      assert h in multiset(sorted);
      var t :| 0 <= t < |sorted| && sorted[t] == h;
      assert t >= |r|;
    }
  }

  /** The sorted, truncated hits `vector_search` returns the objects of. */
  function Ranked(keyword: string, results: int, source: bool, insights: bool, minimum: real,
                  embedder: Result<Option<EmbedFn>>, backend: Backend): (r: Result<seq<Hit>>)
    ensures |keyword| == 0 ==> r == Success([])
    ensures |keyword| > 0 && embedder.Failure? ==> r == Failure(embedder.error)
    ensures |keyword| > 0 && embedder == Success(None) ==> r == Failure(AttributeError)
    ensures r.Success? ==> results >= 0 ==> |r.value| <= results
    ensures r.Success? ==> forall i | 0 <= i < |r.value| :: Eligible(r.value[i].score, r.value[i].obj, minimum, source, insights)
    ensures r.Success? ==> forall i, j | 0 <= i < j < |r.value| :: Before(r.value[i], r.value[j])
    ensures r.Success? ==> ChunksFirst(r.value)
    ensures |keyword| > 0 && embedder.Success? && embedder.value.Some? ==>
      var d := Discovered(embedder.value.value(keyword), results, source, insights, minimum, backend);
      && (r.Failure? <==> d.Failure?)
      && (r.Success? ==> Best(r.value, Tag(d.value), results))
  {
    if |keyword| == 0 then Success([])
    else
      match embedder
      case Failure(e) => Failure(e)
      case Success(None) => Failure(AttributeError)
      case Success(Some(embed)) =>
        match Discovered(embed(keyword), results, source, insights, minimum, backend)
        case Failure(e) => Failure(e)
        case Success(xs) => Success(Rank(xs, results, minimum, source, insights))
  }

  /** `sorted(..., key=score, reverse=True)[:results]` over the discovered
      hits, tagged with their discovery positions. */
  function Rank(xs: seq<(real, Obj)>, results: int, minimum: real, source: bool, insights: bool): (r: seq<Hit>)
    requires forall i | 0 <= i < |xs| :: Eligible(xs[i].0, xs[i].1, minimum, source, insights)
    requires forall i, j | 0 <= i < j < |xs| :: xs[j].1.kind == SourceEmbedding ==> xs[i].1.kind == SourceEmbedding
    ensures results >= 0 ==> |r| <= results
    ensures forall i | 0 <= i < |r| :: Eligible(r[i].score, r[i].obj, minimum, source, insights)
    ensures forall i, j | 0 <= i < j < |r| :: Before(r[i], r[j])
    ensures ChunksFirst(r)
    ensures Best(r, Tag(xs), results)
  {
    SortKeepsEligible(xs, minimum, source, insights);
    SortKeepsChunksFirst(xs);
    SliceIsBest(Tag(xs), results);
    PrefixSlice(Sorting.Sort(Tag(xs), Before), results)
  }

  /** `vector_search`: the objects of the ranked hits. */
  function VectorSearch(keyword: string, results: int, source: bool, insights: bool, minimum: real,
                        embedder: Result<Option<EmbedFn>>, backend: Backend): (r: Result<seq<Obj>>)
    ensures |keyword| == 0 ==> r == Success([])
    ensures r.Success? ==> results >= 0 ==> |r.value| <= results
    ensures r.Success? ==> forall i | 0 <= i < |r.value| ::
      && r.value[i].kind in {SourceEmbedding, SourceInsight}
      && (r.value[i].kind == SourceEmbedding ==> source)
      && (r.value[i].kind == SourceInsight ==> insights)
    ensures r.Failure? <==> Ranked(keyword, results, source, insights, minimum, embedder, backend).Failure?
    ensures r.Success? ==> var hs := Ranked(keyword, results, source, insights, minimum, embedder, backend).value;
      |r.value| == |hs| && forall i | 0 <= i < |hs| :: r.value[i] == hs[i].obj
  {
    match Ranked(keyword, results, source, insights, minimum, embedder, backend)
    case Failure(e) => Failure(e)
    case Success(hs) =>
      ObjsEligible(hs, minimum, source, insights);
      Success(Objs(hs))
  }

  /** The objects of the hits, in order. */
  function Objs(hs: seq<Hit>): (r: seq<Obj>)
    ensures |r| == |hs| && forall i | 0 <= i < |hs| :: r[i] == hs[i].obj
  {
    seq(|hs|, i requires 0 <= i < |hs| => hs[i].obj)
  }

  /** The objects of eligible hits come from the enabled collections. */
  lemma ObjsEligible(hs: seq<Hit>, minimum: real, source: bool, insights: bool)
    requires forall i | 0 <= i < |hs| :: Eligible(hs[i].score, hs[i].obj, minimum, source, insights)
    ensures forall i | 0 <= i < |Objs(hs)| ::
      && Objs(hs)[i].kind in {SourceEmbedding, SourceInsight}
      && (Objs(hs)[i].kind == SourceEmbedding ==> source)
      && (Objs(hs)[i].kind == SourceInsight ==> insights)
  {
    forall i | 0 <= i < |Objs(hs)| ensures Eligible(hs[i].score, Objs(hs)[i], minimum, source, insights) {
    }
  }

  // ---------------------------------------------------------------- fan-out

  /** A planned search: `Search(term, instructions)`. */
  datatype SearchSpec = SearchSpec(term: string, instructions: string)

  /** The state each `provide_answer` branch receives. */
  datatype Branch = Branch(question: string, instructions: string, term: string)

  /** `trigger_queries`: one branch per planned search, in plan order. */
  function TriggerQueries(question: string, searches: seq<SearchSpec>): (r: seq<Branch>)
    ensures |r| == |searches|
    ensures forall i | 0 <= i < |r| ::
      r[i].question == question && r[i].term == searches[i].term && r[i].instructions == searches[i].instructions
  {
    seq(|searches|, i requires 0 <= i < |searches| => Branch(question, searches[i].instructions, searches[i].term))
  }

  /** One entry of the answer payload. */
  datatype PayloadItem = PayloadItem(id: string, content: string)

  /** What the answer prompt is rendered from. */
  datatype Payload = Payload(question: string, term: string, instructions: string, results: seq<PayloadItem>, ids: seq<string>)

  /** `note:<id>` for a chunk, `insight:<id>` for an insight. */
  function Label(o: Obj): (r: string)
    requires o.kind in {SourceEmbedding, SourceInsight}
    ensures o.kind == SourceEmbedding ==> r == "note:" + IdText(o.Id())
    ensures o.kind == SourceInsight ==> r == "insight:" + IdText(o.Id())
  {
    (if o.kind == SourceEmbedding then "note" else "insight") + ":" + IdText(o.Id())
  }

  function Content(o: Obj): string {
    if o.At("content").VStr? then o.At("content").s else ""
  }

  /** The payload entries of the hits, in result order. */
  function PayloadItems(hits: seq<Obj>): (r: seq<PayloadItem>)
    requires forall i | 0 <= i < |hits| :: hits[i].kind in {SourceEmbedding, SourceInsight}
    ensures |r| == |hits|
    ensures forall i | 0 <= i < |r| :: r[i] == PayloadItem(Label(hits[i]), Content(hits[i]))
  {
    seq(|hits|, i requires 0 <= i < |hits| => PayloadItem(Label(hits[i]), Content(hits[i])))
  }

  /** The payload of a branch whose search found `hits`: the branch's
      fields, one labelled entry per hit, and the labels alone. */
  function AnswerPayload(b: Branch, hits: seq<Obj>): (r: Payload)
    requires forall i | 0 <= i < |hits| :: hits[i].kind in {SourceEmbedding, SourceInsight}
    ensures r.question == b.question && r.term == b.term && r.instructions == b.instructions
    ensures |r.results| == |r.ids| == |hits|
    ensures forall i | 0 <= i < |hits| :: r.ids[i] == r.results[i].id == Label(hits[i]) && r.results[i].content == Content(hits[i])
  {
    Payload(b.question, b.term, b.instructions, PayloadItems(hits), seq(|hits|, i requires 0 <= i < |hits| => Label(hits[i])))
  }

  /** The search every `provide_answer` branch runs. */
  function BranchSearch(b: Branch, embedder: Result<Option<EmbedFn>>, backend: Backend): Result<seq<Obj>> {
    VectorSearch(b.term, ANSWER_RESULTS, true, true, DEFAULT_MINIMUM_SCORE, embedder, backend)
  }

  /** `provide_answer`: search the branch's term (ten hits, both kinds, the
      default minimum score); no hit gives no answer; otherwise the payload
      labels every hit, a model is provisioned for the rendered prompt
      (`answer_model`, default type "tools", `max_tokens=2000`), and its
      reply is the branch's one answer.  `tokens` and `reply` stand for the
      token count of the rendered prompt and the model's output. */
  function ProvideAnswer(m: Manager.Mgr, db: Db, b: Branch, embedder: Result<Option<EmbedFn>>, backend: Backend,
                         answerModel: IdArg, tokens: Payload -> nat, reply: (Manager.ModelInst, Payload) -> string)
    : (r: (Manager.Mgr, Result<seq<string>>))
    ensures r.1.Success? ==> |r.1.value| <= 1
    ensures BranchSearch(b, embedder, backend) == Success([]) ==> r == (m, Success([]))
    ensures BranchSearch(b, embedder, backend).Failure? ==> r == (m, Failure(BranchSearch(b, embedder, backend).error))
    ensures BranchSearch(b, embedder, backend).Success? && |BranchSearch(b, embedder, backend).value| > 0 ==>
      var p := AnswerPayload(b, BranchSearch(b, embedder, backend).value);
      var g := Routing.Provision(m, db, tokens(p), answerModel, "tools", MAX_TOKENS_KW);
      && r.0 == g.0
      && (g.1.Failure? ==> r.1 == Failure(g.1.error))
      && (g.1.Success? ==> r.1 == Success([reply(g.1.value, p)]))
  {
    match BranchSearch(b, embedder, backend)
    case Failure(e) => (m, Failure(e))
    case Success(hits) =>
      if |hits| == 0 then (m, Success([]))
      else
        var p := AnswerPayload(b, hits);
        match Routing.Provision(m, db, tokens(p), answerModel, "tools", MAX_TOKENS_KW)
        case (m1, Failure(e)) => (m1, Failure(e))
        case (m1, Success(x)) => (m1, Success([reply(x, p)]))
  }

  /** The keyword arguments `provide_answer` passes when provisioning. */
  const MAX_TOKENS_KW := "{'max_tokens': 2000}"

  /** The `answers` channel of the thread state: updates are concatenated
      (`operator.add`). */
  function AddAnswers(answers: seq<string>, update: seq<string>): (r: seq<string>)
    ensures |r| == |answers| + |update|
    ensures r[..|answers|] == answers && r[|answers|..] == update
  {
    answers + update
  }

  /** The answers gathered from every branch. */
  function Gather(updates: seq<seq<string>>): (r: seq<string>)
    decreases |updates|
  {
    if |updates| == 0 then [] else AddAnswers(Gather(updates[..|updates| - 1]), updates[|updates| - 1])
  }

  /** How many branches contributed an answer. */
  function Answering(updates: seq<seq<string>>): nat
    decreases |updates|
  {
    if |updates| == 0 then 0
    else Answering(updates[..|updates| - 1]) + if |updates[|updates| - 1]| > 0 then 1 else 0
  }

  /** Each branch adds at most one answer, so the gathered list has one
      answer per branch whose search found something, and the order the
      branches finish in changes only the order of the list. */
  lemma {:induction false} GatherCounts(updates: seq<seq<string>>)
    requires forall i | 0 <= i < |updates| :: |updates[i]| <= 1
    ensures |Gather(updates)| == Answering(updates)
    ensures forall a :: multiset(Gather(updates))[a] == CountOf(updates, a)
    decreases |updates|
  {
    if |updates| > 0 {
      GatherCounts(updates[..|updates| - 1]);
    }
  }

  /** Occurrences of `a` over all updates, whatever their order. */
  function CountOf(updates: seq<seq<string>>, a: string): nat
    decreases |updates|
  {
    if |updates| == 0 then 0
    else CountOf(updates[..|updates| - 1], a) + multiset(updates[|updates| - 1])[a]
  }
}

=== FILE: selector.dfy ===
/** The model picker of the web UI, `remind/webui/components/model_selector.py`:
    a dropdown of the models of one type, labelled `provider - name` and
    sorted by (provider, name), and the way a chosen label is mapped back to
    a model. */
module Selector {
  import opened Wrappers
  import opened Store
  import Objects
  import Manager
  import Sorting

  // ---------------------------------------------------------------- string order

  /** Python's `<` on `str`: lexicographic on code points, a proper prefix
      first. */
  predicate StrLess(a: string, b: string)
    decreases |a|
  {
    if |a| == 0 then |b| > 0
    else if |b| == 0 then false
    else a[0] < b[0] || (a[0] == b[0] && StrLess(a[1..], b[1..]))
  }

  lemma {:induction false} StrLessIrreflexive(a: string)
    ensures !StrLess(a, a)
    decreases |a|
  {
    if |a| > 0 {
      StrLessIrreflexive(a[1..]);
    }
  }

  lemma {:induction false} StrLessTransitive(a: string, b: string, c: string)
    requires StrLess(a, b) && StrLess(b, c)
    ensures StrLess(a, c)
    decreases |a|
  {
    if |a| > 0 && |b| > 0 && |c| > 0 && a[0] == b[0] == c[0] {
      StrLessTransitive(a[1..], b[1..], c[1..]);
    }
  }

  lemma {:induction false} StrLessTotal(a: string, b: string)
    ensures a == b || StrLess(a, b) || StrLess(b, a)
    decreases |a|
  {
    if |a| > 0 && |b| > 0 && a[0] == b[0] {
      StrLessTotal(a[1..], b[1..]);
      if a[1..] == b[1..] {
        assert a == [a[0]] + a[1..] && b == [b[0]] + b[1..];
      }
    }
  }

  // ---------------------------------------------------------------- models

  function Provider(o: Objects.Obj): string { Manager.Str(o.At("provider")) }
  function Name(o: Objects.Obj): string { Manager.Str(o.At("name")) }

  /** `f"{x.provider} - {x.name}"` */
  function Label(o: Objects.Obj): (r: string)
    ensures |r| >= 3
  {
    Provider(o) + " - " + Name(o)
  }

  function Labels(ms: seq<Objects.Obj>): (r: seq<string>)
    ensures |r| == |ms| && forall i | 0 <= i < |ms| :: r[i] == Label(ms[i])
  {
    Sorting.Map(ms, Label)
  }

  /** The sort key `(x.provider, x.name)`, compared as Python compares tuples. */
  predicate KeyLess(a: Objects.Obj, b: Objects.Obj) {
    StrLess(Provider(a), Provider(b)) || (Provider(a) == Provider(b) && StrLess(Name(a), Name(b)))
  }

  /** A model tagged with its position in the fetched list. */
  datatype Entry = Entry(pos: nat, obj: Objects.Obj)

  /** The stable sort's order on tagged models. */
  predicate Before(a: Entry, b: Entry) {
    KeyLess(a.obj, b.obj) || (Provider(a.obj) == Provider(b.obj) && Name(a.obj) == Name(b.obj) && a.pos < b.pos)
  }

  function Tag(ms: seq<Objects.Obj>): (r: seq<Entry>)
    ensures |r| == |ms| && forall i | 0 <= i < |ms| :: r[i] == Entry(i, ms[i])
  {
    seq(|ms|, i requires 0 <= i < |ms| => Entry(i, ms[i]))
  }

  /** On tagged models the stable order is a strict total order. */
  lemma TagOrdered(ms: seq<Objects.Obj>)
    ensures Sorting.StrictTotalOn(Tag(ms), Before) && Sorting.Distinct(Tag(ms))
  {
    var u := Tag(ms);
    forall a | a in u ensures !Before(a, a) {
      StrLessIrreflexive(Provider(a.obj));
      StrLessIrreflexive(Name(a.obj));
    }
    forall a, b, c | a in u && b in u && c in u && Before(a, b) && Before(b, c) ensures Before(a, c) {
      if StrLess(Provider(a.obj), Provider(b.obj)) && StrLess(Provider(b.obj), Provider(c.obj)) {
        StrLessTransitive(Provider(a.obj), Provider(b.obj), Provider(c.obj));
      }
      if Provider(a.obj) == Provider(b.obj) == Provider(c.obj) && StrLess(Name(a.obj), Name(b.obj)) && StrLess(Name(b.obj), Name(c.obj)) {
        StrLessTransitive(Name(a.obj), Name(b.obj), Name(c.obj));
      }
    }
    forall a, b | a in u && b in u ensures a == b || Before(a, b) || Before(b, a) {
      StrLessTotal(Provider(a.obj), Provider(b.obj));
      StrLessTotal(Name(a.obj), Name(b.obj));
    }
  }

  function EntryObj(e: Entry): Objects.Obj { e.obj }

  /** `models.sort(key=lambda x: (x.provider, x.name))`: a permutation,
      ordered by key. The contract states only these two facts; that models
      of equal key keep their fetched order comes from sorting the
      position-tagged entries under `Before`, a strict total order whose
      increasing arrangement `Sorting.IncreasingUnique` shows is unique. */
  function SortModels(ms: seq<Objects.Obj>): (r: seq<Objects.Obj>)
    ensures |r| == |ms| && multiset(r) == multiset(ms)
    ensures forall i, j | 0 <= i < j < |r| :: !KeyLess(r[j], r[i])
  {
    TagOrdered(ms);
    var sorted := Sorting.Sort(Tag(ms), Before);
    SortedProjection(ms, sorted);
    Sorting.Map(sorted, EntryObj)
  }

  lemma SortedProjection(ms: seq<Objects.Obj>, sorted: seq<Entry>)
    requires multiset(sorted) == multiset(Tag(ms)) && |sorted| == |ms|
    requires Sorting.Increasing(sorted, Before)
    ensures multiset(Sorting.Map(sorted, EntryObj)) == multiset(ms)
    ensures var r := Sorting.Map(sorted, EntryObj); forall i, j | 0 <= i < j < |r| :: !KeyLess(r[j], r[i])
  {
    var r := Sorting.Map(sorted, EntryObj);
    forall i, j | 0 <= i < j < |r| ensures !KeyLess(r[j], r[i]) {
      assert Before(sorted[i], sorted[j]);
      NotBoth(r[i], r[j]);
    }
    Sorting.MapPermutes(Tag(ms), sorted, EntryObj);
    assert Sorting.Map(Tag(ms), EntryObj) == ms;
  }

  /** The key order is asymmetric. */
  lemma NotBoth(a: Objects.Obj, b: Objects.Obj)
    requires KeyLess(a, b) || (Provider(a) == Provider(b) && Name(a) == Name(b))
    ensures !KeyLess(b, a)
  {
    StrLessIrreflexive(Provider(a));
    StrLessIrreflexive(Name(a));
    if StrLess(Provider(a), Provider(b)) && StrLess(Provider(b), Provider(a)) {
      StrLessTransitive(Provider(a), Provider(b), Provider(a));
    }
    if StrLess(Name(a), Name(b)) && StrLess(Name(b), Name(a)) {
      StrLessTransitive(Name(a), Name(b), Name(a));
    }
  }

  /** The first index of `v` among the ids, if any. */
  function FirstId(ms: seq<Objects.Obj>, v: Value): (r: Option<nat>)
    ensures r.Some? ==> r.value < |ms| && ms[r.value].Id() == v
    ensures r.Some? ==> forall j | 0 <= j < r.value :: ms[j].Id() != v
    ensures r.None? <==> forall j | 0 <= j < |ms| :: ms[j].Id() != v
  {
    Sorting.FirstWith(ms, (o: Objects.Obj) => o.Id(), v)
  }

  /** The first index of `key` among the labels, if any. */
  function FirstLabel(ms: seq<Objects.Obj>, key: string): (r: Option<nat>)
    ensures r.Some? ==> r.value < |ms| && Label(ms[r.value]) == key
    ensures r.Some? ==> forall j | 0 <= j < r.value :: Label(ms[j]) != key
    ensures r.None? <==> forall j | 0 <= j < |ms| :: Label(ms[j]) != key
  {
    Sorting.FirstWith(ms, Label, key)
  }

  // ---------------------------------------------------------------- operations

  /** What the dropdown shows. */
  datatype Dropdown = Dropdown(choices: seq<string>, value: Option<string>)

  /** `model_selector`: the dropdown over the stored models of the type; a
      failing query fails the selector. */
  function ModelSelector(db: Db, t: string, selected: Option<Value>): (r: Result<Dropdown>)
    ensures r.Failure? <==> Manager.ModelsByType(db, t).Failure?
    ensures r.Success? ==> r.value == Choose(Manager.ModelsByType(db, t).value, selected)
  {
    match Manager.ModelsByType(db, t)
    case Failure(e) => Failure(e)
    case Success(ms) => Success(Choose(ms, selected))
  }

  /** The dropdown built from the models of one type: the sorted labels; the
      value is the label of the first sorted model with the selected id, else
      of the first model, and None when there are no models. */
  function Choose(ms: seq<Objects.Obj>, selected: Option<Value>): (r: Dropdown)
    ensures r.choices == Labels(SortModels(ms))
    ensures multiset(r.choices) == multiset(Labels(ms))
    ensures r.value.None? <==> |ms| == 0
    ensures selected.Some? && FirstId(SortModels(ms), selected.value).Some? ==>
      r.value == Some(Label(SortModels(ms)[FirstId(SortModels(ms), selected.value).value]))
    ensures r.value.Some? && (selected.None? || FirstId(SortModels(ms), selected.value).None?) ==>
      r.value == Some(Label(SortModels(ms)[0]))
  {
    var sorted := SortModels(ms);
    Sorting.MapPermutes(sorted, ms, Label);
    var index := if selected.None? then 0 else match FirstId(sorted, selected.value) case Some(k) => k case None => 0;
    Dropdown(Labels(sorted), if |sorted| == 0 then None else Some(Labels(sorted)[index]))
  }

  /** `get_model_from_key`: an empty key gives None without a query; no
      models gives None; otherwise the first model (in stored order) with
      that label, else the first model. */
  function GetModelFromKey(db: Db, key: string, t: string): (r: Result<Option<Objects.Obj>>)
    ensures key == "" ==> r == Success(None)
    ensures key != "" ==> (r.Failure? <==> Manager.ModelsByType(db, t).Failure?)
    ensures r.Success? && key != "" ==> var ms := Manager.ModelsByType(db, t).value;
      && (r.value.None? <==> |ms| == 0)
      && (FirstLabel(ms, key).Some? ==> r.value == Some(ms[FirstLabel(ms, key).value]))
      && (FirstLabel(ms, key).None? && |ms| > 0 ==> r.value == Some(ms[0]))
  {
    if key == "" then Success(None)
    else
      match Manager.ModelsByType(db, t)
      case Failure(e) => Failure(e)
      case Success(ms) =>
        if |ms| == 0 then Success(None)
        else Success(Some(ms[match FirstLabel(ms, key) case Some(k) => k case None => 0]))
  }

  /** The dropdown's value maps back to a model with that label; when no two
      models share a label, to the very model the dropdown selected. */
  lemma SelectionRoundTrip(db: Db, t: string, selected: Option<Value>)
    requires ModelSelector(db, t, selected).Success? && ModelSelector(db, t, selected).value.value.Some?
    ensures var v := ModelSelector(db, t, selected).value.value.value;
      && GetModelFromKey(db, v, t).Success? && GetModelFromKey(db, v, t).value.Some?
      && Label(GetModelFromKey(db, v, t).value.value) == v
    ensures var ms := Manager.ModelsByType(db, t).value;
      (forall i, j | 0 <= i < j < |ms| :: Label(ms[i]) != Label(ms[j])) && selected.Some? &&
      FirstId(ms, selected.value).Some? ==>
        GetModelFromKey(db, ModelSelector(db, t, selected).value.value.value, t).value.value.Id() == selected.value
  {
    ChooseRoundTrip(Manager.ModelsByType(db, t).value, selected);
  }

  /** `SelectionRoundTrip` for a given list of models: the chosen label is
      found again, and with distinct labels it is the selected model's. */
  lemma ChooseRoundTrip(ms: seq<Objects.Obj>, selected: Option<Value>)
    requires Choose(ms, selected).value.Some?
    ensures var v := Choose(ms, selected).value.value;
      FirstLabel(ms, v).Some? && Label(ms[FirstLabel(ms, v).value]) == v
    ensures ((forall i, j | 0 <= i < j < |ms| :: Label(ms[i]) != Label(ms[j])) && selected.Some? &&
             FirstId(ms, selected.value).Some?) ==>
      ms[FirstLabel(ms, Choose(ms, selected).value.value).value].Id() == selected.value
  {
    var sorted := SortModels(ms);
    var v := Choose(ms, selected).value.value;
    var k := if selected.Some? && FirstId(sorted, selected.value).Some? then FirstId(sorted, selected.value).value else 0;
    assert v == Label(sorted[k]);
    LabelFoundBack(ms, sorted, k);
    if (forall i, j | 0 <= i < j < |ms| :: Label(ms[i]) != Label(ms[j])) && selected.Some? && FirstId(ms, selected.value).Some? {
      IdFoundAfterSort(ms, sorted, selected.value);
      UniqueLabelBack(ms, sorted, k);
    }
  }

  /** A label of the sorted list is a label of the fetched list. */
  lemma LabelFoundBack(ms: seq<Objects.Obj>, sorted: seq<Objects.Obj>, k: nat)
    requires multiset(sorted) == multiset(ms) && k < |sorted|
    ensures FirstLabel(ms, Label(sorted[k])).Some?
  {
    assert sorted[k] in multiset(ms);
    var i :| 0 <= i < |ms| && ms[i] == sorted[k];
  }

  /** An id of the fetched list is an id of the sorted list. */
  lemma IdFoundAfterSort(ms: seq<Objects.Obj>, sorted: seq<Objects.Obj>, v: Value)
    requires multiset(sorted) == multiset(ms) && FirstId(ms, v).Some?
    ensures FirstId(sorted, v).Some?
  {
    assert ms[FirstId(ms, v).value] in multiset(sorted);
    var i :| 0 <= i < |sorted| && sorted[i] == ms[FirstId(ms, v).value];
  }

  /** With distinct labels, looking a label up finds the model it came from. */
  lemma UniqueLabelBack(ms: seq<Objects.Obj>, sorted: seq<Objects.Obj>, k: nat)
    requires multiset(sorted) == multiset(ms) && k < |sorted|
    requires forall i, j | 0 <= i < j < |ms| :: Label(ms[i]) != Label(ms[j])
    ensures FirstLabel(ms, Label(sorted[k])).Some? && ms[FirstLabel(ms, Label(sorted[k])).value] == sorted[k]
  {
    assert sorted[k] in multiset(ms);
    var i :| 0 <= i < |ms| && ms[i] == sorted[k];
  }
}

=== FILE: sorting.dfy ===
/** Python's `list.sort` is stable.  Sorting by a key stably is the same as
    sorting the elements tagged with their original positions by the strict
    order "smaller key, or equal key and earlier position"; on tagged
    elements that order is total, so the sorted result is the unique
    strictly increasing arrangement.  This module sorts by such an order,
    given as a function, by insertion. */
module Sorting {
  import opened Wrappers

  /** `lt` is a strict total order on the elements of `u`. */
  predicate StrictTotalOn<T(==)>(u: seq<T>, lt: (T, T) -> bool) {
    && (forall a | a in u :: !lt(a, a))
    && (forall a, b, c | a in u && b in u && c in u :: lt(a, b) && lt(b, c) ==> lt(a, c))
    && (forall a, b | a in u && b in u :: a == b || lt(a, b) || lt(b, a))
  }

  /** No element occurs twice. */
  predicate Distinct<T(==)>(s: seq<T>) {
    forall i, j | 0 <= i < j < |s| :: s[i] != s[j]
  }

  /** Strictly increasing under `lt`. */
  predicate Increasing<T>(s: seq<T>, lt: (T, T) -> bool) {
    forall i, j | 0 <= i < j < |s| :: lt(s[i], s[j])
  }

  /** Insert `x` before the first element it precedes. */
  function Insert<T(==)>(x: T, s: seq<T>, u: seq<T>, lt: (T, T) -> bool): (r: seq<T>)
    requires StrictTotalOn(u, lt) && x in u && (forall y | y in s :: y in u)
    requires Increasing(s, lt) && x !in s
    ensures multiset(r) == multiset(s) + multiset{x}
    ensures Increasing(r, lt)
    decreases |s|
  {
    if |s| == 0 || lt(x, s[0]) then
      HeadBelow(x, s, u, lt);
      ConsIncreasing(x, s, lt);
      [x] + s
    else
      InsertStep(x, s, u, lt);
      var rest := Insert(x, s[1..], u, lt);
      RestAbove(s[0], s[1..], x, rest, lt);
      ConsIncreasing(s[0], rest, lt);
      [s[0]] + rest
  }

  /** When `x` does not go first, the head of `s` goes first, below `x`
      and below the rest, into which `x` is inserted. */
  lemma InsertStep<T>(x: T, s: seq<T>, u: seq<T>, lt: (T, T) -> bool)
    requires StrictTotalOn(u, lt) && x in u && (forall y | y in s :: y in u)
    requires Increasing(s, lt) && x !in s && |s| > 0 && !lt(x, s[0])
    ensures lt(s[0], x) && (forall y | y in s[1..] :: y in u) && Increasing(s[1..], lt) && x !in s[1..]
    ensures forall j | 0 <= j < |s[1..]| :: lt(s[0], s[1..][j])
    ensures multiset(s) == multiset{s[0]} + multiset(s[1..]) && s == [s[0]] + s[1..]
  {
    assert s[0] in u;
    assert s == [s[0]] + s[1..];
  }

  /** An element below everything in an increasing sequence can go first. */
  lemma ConsIncreasing<T>(h: T, t: seq<T>, lt: (T, T) -> bool)
    requires Increasing(t, lt) && forall j | 0 <= j < |t| :: lt(h, t[j])
    ensures Increasing([h] + t, lt)
  {
    var r := [h] + t;
    forall i, j | 0 <= i < j < |r| ensures lt(r[i], r[j]) {
      assert r[j] == t[j - 1];
      if i > 0 {
        assert r[i] == t[i - 1];
      }
    }
  }

  /** An element below the head of an increasing sequence is below all of it. */
  lemma HeadBelow<T>(x: T, s: seq<T>, u: seq<T>, lt: (T, T) -> bool)
    requires StrictTotalOn(u, lt) && x in u && (forall y | y in s :: y in u)
    requires Increasing(s, lt) && (|s| == 0 || lt(x, s[0]))
    ensures forall j | 0 <= j < |s| :: lt(x, s[j])
  {
    forall j | 0 <= j < |s| ensures lt(x, s[j]) {
      if j > 0 {
        assert s[0] in u && s[j] in u;
      }
    }
  }

  /** Whatever is below every element of `s1` and below `x` is below every
      element of a rearrangement of `s1` with `x` added. */
  lemma RestAbove<T>(h: T, s1: seq<T>, x: T, rest: seq<T>, lt: (T, T) -> bool)
    requires multiset(rest) == multiset(s1) + multiset{x}
    requires lt(h, x) && forall j | 0 <= j < |s1| :: lt(h, s1[j])
    ensures forall j | 0 <= j < |rest| :: lt(h, rest[j])
  {
    forall j | 0 <= j < |rest| ensures lt(h, rest[j]) {
      assert rest[j] in multiset(rest);
      if rest[j] != x {
        assert rest[j] in multiset(s1);
        var k :| 0 <= k < |s1| && s1[k] == rest[j];
      }
    }
  }

  /** Insertion sort of `s`, whose elements are drawn from `u`. */
  function SortFrom<T(==)>(s: seq<T>, u: seq<T>, lt: (T, T) -> bool): (r: seq<T>)
    requires StrictTotalOn(u, lt) && (forall y | y in s :: y in u) && Distinct(s)
    ensures multiset(r) == multiset(s)
    ensures Increasing(r, lt)
    decreases |s|
  {
    if |s| == 0 then []
    else
      assert s == [s[0]] + s[1..];
      var rest := SortFrom(s[1..], u, lt);
      assert s[0] !in s[1..] by {
        forall j | 0 <= j < |s[1..]| ensures s[1..][j] != s[0] {
          assert s[1..][j] == s[j + 1];
        }
      }
      assert s[0] !in multiset(s[1..]);
      assert s[0] !in multiset(rest);
      assert forall y | y in rest :: y in u by {
        forall y | y in rest ensures y in u {
          assert y in multiset(s[1..]);
        }
      }
      Insert(s[0], rest, u, lt)
  }

  /** Sorting by a strict total order: the increasing arrangement of `s`. */
  function Sort<T(==)>(s: seq<T>, lt: (T, T) -> bool): (r: seq<T>)
    requires StrictTotalOn(s, lt) && Distinct(s)
    ensures multiset(r) == multiset(s) && |r| == |s|
    ensures Increasing(r, lt)
  {
    var r := SortFrom(s, s, lt);
    assert |r| == |multiset(r)| == |multiset(s)| == |s|;
    r
  }

  /** Two increasing arrangements of the same elements start alike. */
  lemma HeadsEqual<T>(a: seq<T>, b: seq<T>, u: seq<T>, lt: (T, T) -> bool)
    requires StrictTotalOn(u, lt) && (forall y | y in a :: y in u)
    requires multiset(a) == multiset(b) && |a| > 0
    requires Increasing(a, lt) && Increasing(b, lt)
    ensures |b| > 0 && a[0] == b[0]
  {
    assert a[0] in multiset(b);
    var j :| 0 <= j < |b| && b[j] == a[0];
    assert b[0] in multiset(a);
    var i :| 0 <= i < |a| && a[i] == b[0];
  }

  /** Removing the head removes one occurrence of it. */
  lemma Behead<T>(a: seq<T>)
    requires |a| > 0
    ensures multiset(a[1..]) == multiset(a) - multiset{a[0]}
  {
    assert a == [a[0]] + a[1..];
  }

  /** Increasing sequences with the same elements are equal: the sort result
      does not depend on how it is computed. */
  lemma {:induction false} IncreasingUnique<T>(a: seq<T>, b: seq<T>, u: seq<T>, lt: (T, T) -> bool)
    requires StrictTotalOn(u, lt) && (forall y | y in a :: y in u)
    requires multiset(a) == multiset(b)
    requires Increasing(a, lt) && Increasing(b, lt)
    ensures a == b
    decreases |a|
  {
    assert |a| == |multiset(a)| == |b|;
    if |a| > 0 {
      HeadsEqual(a, b, u, lt);
      Behead(a);
      Behead(b);
      IncreasingUnique(a[1..], b[1..], u, lt);
    }
  }

  /** `[f(x) for x in s]` */
  function Map<A, B>(s: seq<A>, f: A -> B): (r: seq<B>)
    ensures |r| == |s| && forall i | 0 <= i < |s| :: r[i] == f(s[i])
    decreases |s|
  {
    if |s| == 0 then [] else [f(s[0])] + Map(s[1..], f)
  }

  /** The first position whose image under `f` is `key`, if any. */
  function FirstWith<A, B(==)>(s: seq<A>, f: A -> B, key: B): (r: Option<nat>)
    ensures r.Some? ==> r.value < |s| && f(s[r.value]) == key
    ensures r.Some? ==> forall j | 0 <= j < r.value :: f(s[j]) != key
    ensures r.None? <==> forall j | 0 <= j < |s| :: f(s[j]) != key
    decreases |s|
  {
    if |s| == 0 then None
    else if f(s[0]) == key then Some(0)
    else match FirstWith(s[1..], f, key)
      case None =>
        assert forall j | 1 <= j < |s| :: s[j] == s[1..][j - 1];
        None
      case Some(k) =>
        assert forall j | 1 <= j <= k :: s[j] == s[1..][j - 1];
        Some(k + 1)
  }

  lemma {:induction false} MapAppend<A, B>(a: seq<A>, b: seq<A>, f: A -> B)
    ensures Map(a + b, f) == Map(a, f) + Map(b, f)
  {
    assert Map(a + b, f) == Map(a, f) + Map(b, f);
  }

  /** Mapping a permutation gives a permutation. */
  lemma {:induction false} MapPermutes<A, B>(a: seq<A>, b: seq<A>, f: A -> B)
    requires multiset(a) == multiset(b)
    ensures multiset(Map(a, f)) == multiset(Map(b, f))
    decreases |a|
  {
    assert |a| == |multiset(a)| == |b|;
    if |a| > 0 {
      var k := Pick(a, b);
      var rest := b[..k] + b[k + 1..];
      MapPermutes(a[1..], rest, f);
      MapSplice(b, k, f);
      assert Map(a, f) == [f(a[0])] + Map(a[1..], f);
      assert multiset(Map(a, f)) == multiset{f(a[0])} + multiset(Map(a[1..], f));
    }
  }

  /** Where the head of `a` sits in a rearrangement `b`, and what is left. */
  lemma Pick<T>(a: seq<T>, b: seq<T>) returns (k: nat)
    requires multiset(a) == multiset(b) && |a| > 0
    ensures k < |b| && b[k] == a[0] && multiset(a[1..]) == multiset(b[..k] + b[k + 1..])
  {
    var x := a[0];
    assert x in multiset(b);
    k :| 0 <= k < |b| && b[k] == x;
    SplitAt(b, k);
    Splice(b[..k], x, b[k + 1..]);
    Behead(a);
    assert multiset(b[..k] + b[k + 1..]) == multiset(b) - multiset{x};
  }

  /** Mapping, then taking out the `k`-th image, is taking out the `k`-th
      element, then mapping. */
  lemma MapSplice<A, B>(b: seq<A>, k: nat, f: A -> B)
    requires k < |b|
    ensures multiset(Map(b, f)) == multiset{f(b[k])} + multiset(Map(b[..k] + b[k + 1..], f))
  {
    SplitAt(b, k);
    var p, q := Map(b[..k], f), Map(b[k + 1..], f);
    MapAppend(b[..k], [b[k]] + b[k + 1..], f);
    MapAppend([b[k]], b[k + 1..], f);
    assert Map(b, f) == p + ([f(b[k])] + q);
    MapAppend(b[..k], b[k + 1..], f);
    Splice(p, f(b[k]), q);
  }

  /** A sequence is what comes before position `k`, the element there, and
      what comes after. */
  lemma SplitAt<T>(b: seq<T>, k: nat)
    requires k < |b|
    ensures b == b[..k] + ([b[k]] + b[k + 1..])
  {
  }

  /** Taking one element out of the middle leaves the rest of the multiset. */
  lemma Splice<T>(p: seq<T>, y: T, q: seq<T>)
    ensures multiset(p + ([y] + q)) == multiset{y} + multiset(p + q)
  {
  }
}

=== FILE: speech.dfy ===
/** `sanitize_text` of `remind/process_content/text_to_speech.py`: the text a
    transcript is cleaned to before speech synthesis.

    Unicode NFKC normalisation is a table-driven library routine and is a
    parameter of the model. */
module Speech {
  import Text

  /** One entry of the replacement table: every `find` becomes `put`. */
  datatype Rule = Rule(find: char, put: string)

  /** The replacement table, in the order the loop visits it. */
  const RULES: seq<Rule> := [
    Rule('\U{2026}', "..."),   // horizontal ellipsis
    Rule('\U{2013}', "-"),     // en dash
    Rule('\U{2014}', "-"),     // em dash
    Rule('\U{200B}', ""),      // zero-width space
    Rule('\U{200C}', ""),      // zero-width non-joiner
    Rule('\U{200D}', ""),      // zero-width joiner
    Rule('\U{FEFF}', ""),      // byte order mark
    Rule('\U{A0}', " ")        // no-break space
  ]

  /** `c` is replaced by some rule. */
  predicate IsOld(c: char, rules: seq<Rule>) {
    exists k | 0 <= k < |rules| :: rules[k].find == c
  }

  /** No rule produces a character that some rule replaces. */
  predicate Settled(rules: seq<Rule>) {
    forall k, j | 0 <= k < |rules| && 0 <= j < |rules[k].put| :: !IsOld(rules[k].put[j], rules)
  }

  /** The characters of the table, spelled out. */
  predicate Special(c: char) {
    || c == '\U{2026}' || c == '\U{2013}' || c == '\U{2014}' || c == '\U{200B}'
    || c == '\U{200C}' || c == '\U{200D}' || c == '\U{FEFF}' || c == '\U{A0}'
  }

  lemma SpecialIsOld(c: char)
    ensures Special(c) <==> IsOld(c, RULES)
  {
    if Special(c) {
      if c == '\U{2026}' { assert RULES[0].find == c; }
      else if c == '\U{2013}' { assert RULES[1].find == c; }
      else if c == '\U{2014}' { assert RULES[2].find == c; }
      else if c == '\U{200B}' { assert RULES[3].find == c; }
      else if c == '\U{200C}' { assert RULES[4].find == c; }
      else if c == '\U{200D}' { assert RULES[5].find == c; }
      else if c == '\U{FEFF}' { assert RULES[6].find == c; }
      else { assert RULES[7].find == c; }
    }
  }

  lemma RulesSettled()
    ensures Settled(RULES)
  {
    forall k, j | 0 <= k < |RULES| && 0 <= j < |RULES[k].put|
      ensures !IsOld(RULES[k].put[j], RULES)
    {
      var x := RULES[k].put[j];
      assert x == '.' || x == '-' || x == ' ';
      SpecialIsOld(x);
    }
  }

  // ---------------------------------------------------------------- the loop

  /** `for old, new in replacements.items(): s = s.replace(old, new)` */
  function ApplyAll(s: string, rules: seq<Rule>): string
    decreases |rules|
  {
    if |rules| == 0 then s
    else ApplyAll(Text.Replace(s, [rules[0].find], rules[0].put), rules[1..])
  }

  /** `sanitize_text(text)`. */
  function SanitizeText(text: string, nfkc: string -> string): (r: string)
    ensures r == Text.Strip(ExpandBy(nfkc(text), RULES))
    ensures forall i | 0 <= i < |r| :: !Special(r[i])
    ensures |r| > 0 ==> !Text.IsSpace(r[0]) && !Text.IsSpace(r[|r| - 1])
  {
    SanitizeFacts(nfkc(text));
    Text.Strip(ApplyAll(nfkc(text), RULES))
  }

  // ---------------------------------------------------------------- one pass

  /** What the table makes of one character: the first rule for it wins. */
  function Table(x: char, rules: seq<Rule>): string
    decreases |rules|
  {
    if |rules| == 0 then [x]
    else if x == rules[0].find then rules[0].put
    else Table(x, rules[1..])
  }

  /** Every character put through the table at once. */
  function ExpandBy(s: string, rules: seq<Rule>): string
    decreases |s|
  {
    if |s| == 0 then "" else Table(s[0], rules) + ExpandBy(s[1..], rules)
  }

  /** Every character put through one rule. */
  function StepAll(s: string, r: Rule): string
    decreases |s|
  {
    if |s| == 0 then "" else (if s[0] == r.find then r.put else [s[0]]) + StepAll(s[1..], r)
  }

  /** Replacing a single character is a character-wise rewrite. */
  lemma {:induction false} ReplaceIsStep(s: string, r: Rule)
    ensures Text.Replace(s, [r.find], r.put) == StepAll(s, r)
    decreases |s|
  {
    if |s| > 0 {
      assert s[..1] == [s[0]];
      ReplaceIsStep(s[1..], r);
    }
  }

  lemma {:induction false} ExpandConcat(a: string, b: string, rules: seq<Rule>)
    ensures ExpandBy(a + b, rules) == ExpandBy(a, rules) + ExpandBy(b, rules)
    decreases |a|
  {
    if |a| > 0 {
      assert (a + b)[1..] == a[1..] + b;
      ExpandConcat(a[1..], b, rules);
    } else {
      assert a + b == b;
    }
  }

  /** A character no rule replaces passes through unchanged. */
  lemma {:induction false} TableMiss(x: char, rules: seq<Rule>)
    requires !IsOld(x, rules)
    ensures Table(x, rules) == [x]
    decreases |rules|
  {
    if |rules| > 0 {
      assert rules[0].find != x;
      assert !IsOld(x, rules[1..]) by {
        forall k | 0 <= k < |rules[1..]| ensures rules[1..][k].find != x {
          assert rules[1..][k] == rules[k + 1];
        }
      }
      TableMiss(x, rules[1..]);
    }
  }

  /** A text free of replaced characters is its own expansion. */
  lemma {:induction false} ExpandFixed(t: string, rules: seq<Rule>)
    requires forall j | 0 <= j < |t| :: !IsOld(t[j], rules)
    ensures ExpandBy(t, rules) == t
    decreases |t|
  {
    if |t| > 0 {
      TableMiss(t[0], rules);
      ExpandFixed(t[1..], rules);
    }
  }

  /** Applying the first rule, then expanding by the rest, is expanding by
      the whole table. */
  lemma {:induction false} ExpandStep(s: string, r: Rule, rest: seq<Rule>)
    requires forall j | 0 <= j < |r.put| :: !IsOld(r.put[j], rest)
    ensures ExpandBy(StepAll(s, r), rest) == ExpandBy(s, [r] + rest)
    decreases |s|
  {
    if |s| > 0 {
      var head := if s[0] == r.find then r.put else [s[0]];
      ExpandConcat(head, StepAll(s[1..], r), rest);
      ExpandStep(s[1..], r, rest);
      assert ([r] + rest)[1..] == rest;
      if s[0] == r.find {
        ExpandFixed(r.put, rest);
      } else {
        assert ExpandBy(head, rest) == Table(s[0], rest) + ExpandBy([], rest);
      }
    }
  }

  /** A later rule's replaced characters are replaced characters of the
      whole table. */
  lemma OldOfTail(x: char, rules: seq<Rule>)
    requires |rules| > 0
    ensures IsOld(x, rules[1..]) ==> IsOld(x, rules)
    ensures IsOld(x, rules) && x != rules[0].find ==> IsOld(x, rules[1..])
  {
    if IsOld(x, rules[1..]) {
      var k :| 0 <= k < |rules[1..]| && rules[1..][k].find == x;
      assert rules[k + 1].find == x;
    }
    if IsOld(x, rules) && x != rules[0].find {
      var k :| 0 <= k < |rules| && rules[k].find == x;
      assert rules[1..][k - 1].find == x;
    }
  }

  /** The rules after the first are settled too, and the first rule's text
      holds nothing they replace. */
  lemma SettledTail(rules: seq<Rule>)
    requires |rules| > 0 && Settled(rules)
    ensures Settled(rules[1..])
    ensures forall j | 0 <= j < |rules[0].put| :: !IsOld(rules[0].put[j], rules[1..])
  {
    var rest := rules[1..];
    forall k, j | 0 <= k < |rest| && 0 <= j < |rest[k].put| ensures !IsOld(rest[k].put[j], rest) {
      assert rest[k] == rules[k + 1];
      OldOfTail(rest[k].put[j], rules);
    }
    forall j | 0 <= j < |rules[0].put| ensures !IsOld(rules[0].put[j], rest) {
      OldOfTail(rules[0].put[j], rules);
    }
  }

  /** The sequential loop equals the one-pass table, for a settled table. */
  lemma {:induction false} ApplyExpand(s: string, rules: seq<Rule>)
    requires Settled(rules)
    ensures ApplyAll(s, rules) == ExpandBy(s, rules)
    decreases |rules|
  {
    if |rules| == 0 {
      ExpandFixed(s, rules);
    } else {
      var r, rest := rules[0], rules[1..];
      SettledTail(rules);
      ReplaceIsStep(s, r);
      ApplyExpand(Text.Replace(s, [r.find], r.put), rest);
      ExpandStep(s, r, rest);
      assert [r] + rest == rules;
    }
  }

  // ---------------------------------------------------------------- results

  /** The table gives a character back alone exactly when no rule replaces
      it, and otherwise gives some rule's text. */
  lemma {:induction false} TableCases(x: char, rules: seq<Rule>)
    ensures || (Table(x, rules) == [x] && !IsOld(x, rules))
            || (exists k | 0 <= k < |rules| :: rules[k].find == x && Table(x, rules) == rules[k].put)
    decreases |rules|
  {
    if |rules| > 0 {
      OldOfTail(x, rules);
      if x == rules[0].find {
        assert rules[0].find == x && Table(x, rules) == rules[0].put;
      } else {
        TableCases(x, rules[1..]);
        if exists k | 0 <= k < |rules[1..]| :: rules[1..][k].find == x && Table(x, rules[1..]) == rules[1..][k].put {
          var k :| 0 <= k < |rules[1..]| && rules[1..][k].find == x && Table(x, rules[1..]) == rules[1..][k].put;
          assert rules[k + 1] == rules[1..][k];
        }
      }
    }
  }

  /** Nothing the table replaces survives the table. */
  lemma TableClean(x: char, rules: seq<Rule>)
    requires Settled(rules)
    ensures forall j | 0 <= j < |Table(x, rules)| :: !IsOld(Table(x, rules)[j], rules)
  {
    TableCases(x, rules);
  }

  /** The first rule for a character decides what it becomes. */
  lemma {:induction false} TableHit(rules: seq<Rule>, k: nat)
    requires k < |rules|
    requires forall j | 0 <= j < k :: rules[j].find != rules[k].find
    ensures Table(rules[k].find, rules) == rules[k].put
    decreases k
  {
    if k > 0 {
      forall j | 0 <= j < k - 1 ensures rules[1..][j].find != rules[1..][k - 1].find {
        assert rules[1..][j] == rules[j + 1];
      }
      TableHit(rules[1..], k - 1);
    }
  }

  lemma {:induction false} ExpandClean(s: string, rules: seq<Rule>)
    requires Settled(rules)
    ensures forall j | 0 <= j < |ExpandBy(s, rules)| :: !IsOld(ExpandBy(s, rules)[j], rules)
    decreases |s|
  {
    if |s| > 0 {
      TableClean(s[0], rules);
      ExpandClean(s[1..], rules);
    }
  }

  /** The loop applied to `t`: the one-pass table, with no special character
      left, even after stripping. */
  lemma SanitizeFacts(t: string)
    ensures ApplyAll(t, RULES) == ExpandBy(t, RULES)
    ensures forall i | 0 <= i < |Text.Strip(ApplyAll(t, RULES))| :: !Special(Text.Strip(ApplyAll(t, RULES))[i])
  {
    RulesSettled();
    ApplyExpand(t, RULES);
    var s := ExpandBy(t, RULES);
    ExpandClean(t, RULES);
    forall j | 0 <= j < |s| ensures !Special(s[j]) {
      SpecialIsOld(s[j]);
    }
    StripKeepsClean(s);
  }

  /** Stripping only cuts the ends off, so it brings no special character
      in. */
  lemma StripKeepsClean(s: string)
    requires forall i | 0 <= i < |s| :: !Special(s[i])
    ensures forall i | 0 <= i < |Text.Strip(s)| :: !Special(Text.Strip(s)[i])
  {
    Text.TrimKeeps(s, Text.IsSpace, c => !Special(c));
  }

  /** Text with no special character is its own expansion. */
  lemma PlainFixed(t: string)
    requires forall i | 0 <= i < |t| :: !Special(t[i])
    ensures ExpandBy(t, RULES) == t
  {
    forall j | 0 <= j < |t| ensures !IsOld(t[j], RULES) {
      SpecialIsOld(t[j]);
    }
    ExpandFixed(t, RULES);
  }

  /** No character has two rules. */
  lemma RulesDistinct()
    ensures forall j, k | 0 <= j < k < |RULES| :: RULES[j].find != RULES[k].find
  {
  }

  /** Already clean text comes back unchanged. */
  lemma SanitizeClean(text: string, nfkc: string -> string)
    requires nfkc(text) == text
    requires forall i | 0 <= i < |text| :: !Special(text[i])
    requires |text| > 0 ==> !Text.IsSpace(text[0]) && !Text.IsSpace(text[|text| - 1])
    ensures SanitizeText(text, nfkc) == text
  {
    PlainFixed(text);
    Text.TrimIdentity(text, Text.IsSpace);
  }

  /** A single special character between clean text becomes its table
      entry. */
  lemma SanitizeRewrites(a: string, k: nat, b: string)
    requires k < |RULES|
    requires forall i | 0 <= i < |a| :: !Special(a[i])
    requires forall i | 0 <= i < |b| :: !Special(b[i])
    ensures ExpandBy(a + [RULES[k].find] + b, RULES) == a + RULES[k].put + b
  {
    var c := RULES[k].find;
    PlainFixed(a);
    PlainFixed(b);
    ExpandOne(k);
    ExpandMiddle(a, c, b, RULES);
  }

  lemma ExpandMiddle(a: string, c: char, b: string, rules: seq<Rule>)
    requires ExpandBy(a, rules) == a && ExpandBy(b, rules) == b
    ensures ExpandBy(a + [c] + b, rules) == a + ExpandBy([c], rules) + b
  {
    ExpandConcat(a, [c] + b, rules);
    ExpandConcat([c], b, rules);
    assert a + ([c] + b) == a + [c] + b;
  }

  /** A special character alone expands to its rule's text. */
  lemma ExpandOne(k: nat)
    requires k < |RULES|
    ensures ExpandBy([RULES[k].find], RULES) == RULES[k].put
  {
    RulesDistinct();
    TableHit(RULES, k);
    assert ExpandBy([RULES[k].find], RULES) == Table(RULES[k].find, RULES) + ExpandBy([], RULES);
  }
}

=== FILE: store.dfy ===
/** The document store behind `remind/database/mongodb.py`.

    The database is a map from collection name to the ordered sequence of its
    documents (natural order: insertion order, which is the order `find`
    returns), plus the search indexes of each collection.  Every function here
    is one `collection_*` helper; connection handling and logging are not part
    of the model. */
module Store {
  import opened Wrappers
  import Text

  /** ObjectIds are 12 bytes, written as 24 hexadecimal digits: 16^24 = 2^96
      distinct values. */
  const OID_SPACE: nat := Pow16(24)

  /** A BSON value as the code stores it.  Dates are `VInt` microseconds since
      0001-01-01 00:00; an ObjectId is `VOid`. */
  datatype Value =
    | VNull
    | VBool(b: bool)
    | VInt(i: int)
    | VReal(r: real)
    | VStr(s: string)
    | VOid(oid: nat)
    | VList(items: seq<Value>)
    | VOpaque(tag: string)

  type Doc = map<string, Value>

  const ID_KEY := "_id"
  const VECTOR_INDEX_NAME := "vector_knn_index"

  /** One clause of a query filter: `{key: value}`, `{key: {"$gte": b}}` or
      `{key: {"$lt": b}}` (the only shapes the code uses). */
  datatype Cond = Eq(key: string, value: Value) | Gte(key: string, bound: int) | Lt(key: string, bound: int)

  type Filter = seq<Cond>

  datatype SearchIndex = SearchIndex(name: string, indexType: string, numDimensions: int, path: string, similarity: string)

  datatype Db = Db(colls: map<string, seq<Doc>>, indexes: map<string, seq<SearchIndex>>, next: nat)

  // ---------------------------------------------------------------- ObjectId text

  function HexChar(d: nat): char
    requires d < 16
  {
    "0123456789abcdef"[d]
  }

  predicate IsHex(c: char) {
    ('0' <= c <= '9') || ('a' <= c <= 'f') || ('A' <= c <= 'F')
  }

  function HexVal(c: char): (r: nat)
    requires IsHex(c)
    ensures r < 16
  {
    if '0' <= c <= '9' then c as int - '0' as int
    else if 'a' <= c <= 'f' then c as int - 'a' as int + 10
    else c as int - 'A' as int + 10
  }

  /** The `width` low hexadecimal digits of `n`, most significant first. */
  function HexDigits(n: nat, width: nat): (r: string)
    ensures |r| == width
    ensures forall i | 0 <= i < |r| :: IsHex(r[i])
  {
    if width == 0 then [] else HexDigits(n / 16, width - 1) + [HexChar(n % 16)]
  }

  function HexValue(s: string): nat
    requires forall i | 0 <= i < |s| :: IsHex(s[i])
  {
    if |s| == 0 then 0 else 16 * HexValue(s[..|s| - 1]) + HexVal(s[|s| - 1])
  }

  function Pow16(w: nat): (r: nat)
    ensures r >= 1
  {
    if w == 0 then 1 else 16 * Pow16(w - 1)
  }

  /** `str(ObjectId)`: 24 lower-case hexadecimal digits. */
  function OidText(n: nat): string {
    HexDigits(n, 24)
  }

  /** `ObjectId(text)`: 24 hexadecimal digits, either case, or `InvalidId`.
      The id read back prints as the text in lower case. */
  function ParseOid(s: string): (r: Option<nat>)
    ensures r.Some? ==> |s| == 24
    ensures r.Some? <==> |s| == 24 && forall i | 0 <= i < |s| :: IsHex(s[i])
  {
    if |s| == 24 && forall i | 0 <= i < |s| :: IsHex(s[i]) then Some(HexValue(s)) else None
  }

  /** An accepted text names an ObjectId that prints back as the text in
      lower case. */
  lemma ParseOidPrints(s: string)
    requires ParseOid(s).Some?
    ensures ParseOid(s).value < OID_SPACE && OidText(ParseOid(s).value) == Lowered(s)
  {
    HexTextRoundTrip(s);
  }

  /** A hexadecimal digit in lower case. */
  function HexLower(c: char): (r: char)
    requires IsHex(c)
  {
    if 'A' <= c <= 'F' then (c as int - 'A' as int + 'a' as int) as char else c
  }

  /** The hexadecimal text in lower case. */
  function Lowered(s: string): (r: string)
    requires forall i | 0 <= i < |s| :: IsHex(s[i])
    ensures |r| == |s| && forall i | 0 <= i < |s| :: r[i] == HexLower(s[i])
  {
    if |s| == 0 then [] else Lowered(s[..|s| - 1]) + [HexLower(s[|s| - 1])]
  }

  /** A digit's value printed back is the digit in lower case. */
  lemma HexValueChar(c: char)
    requires IsHex(c)
    ensures HexChar(HexVal(c)) == HexLower(c)
  {
    var digits := "0123456789abcdef";
    var d := HexVal(c);
    if d < 10 {
      assert digits[d] as int == '0' as int + d;
    } else {
      assert digits[d] as int == 'a' as int + d - 10;
    }
  }

  /** Reading hexadecimal text and printing it back at the same width gives
      the text in lower case. */
  lemma {:induction false} HexTextRoundTrip(s: string)
    requires forall i | 0 <= i < |s| :: IsHex(s[i])
    ensures HexValue(s) < Pow16(|s|) && HexDigits(HexValue(s), |s|) == Lowered(s)
    decreases |s|
  {
    if |s| > 0 {
      var t := s[..|s| - 1];
      var c := s[|s| - 1];
      HexTextRoundTrip(t);
      HexValueChar(c);
      var v := HexValue(s);
      assert v == 16 * HexValue(t) + HexVal(c);
      assert v / 16 == HexValue(t) && v % 16 == HexVal(c);
    }
  }

  lemma {:induction false} HexRoundTrip(n: nat, width: nat)
    requires n < Pow16(width)
    ensures HexValue(HexDigits(n, width)) == n
  {
    if width > 0 {
      var s := HexDigits(n, width);
      assert s[..|s| - 1] == HexDigits(n / 16, width - 1);
      assert n / 16 < Pow16(width - 1);
      HexRoundTrip(n / 16, width - 1);
      HexCharValue(n % 16);
    }
  }

  /** Every digit's character reads back as that digit. */
  lemma HexCharValue(d: nat)
    requires d < 16
    ensures IsHex(HexChar(d)) && HexVal(HexChar(d)) == d
  {
    var digits := "0123456789abcdef";
    if d < 10 {
      assert digits[d] as int == '0' as int + d;
    } else {
      assert digits[d] as int == 'a' as int + d - 10;
    }
  }

  /** Parsing the text of an ObjectId gives the ObjectId back. */
  lemma OidRoundTrip(n: nat)
    requires n < OID_SPACE
    ensures ParseOid(OidText(n)) == Some(n)
  {
    var s := OidText(n);
    assert |s| == 24 && forall i | 0 <= i < |s| :: IsHex(s[i]);
    HexRoundTrip(n, 24);
  }

  /** `str(v)` for a value used as an id: an ObjectId, a string or None. */
  function IdText(v: Value): string {
    match v
    case VOid(n) => OidText(n)
    case VStr(s) => s
    case VNull => "None"
    case _ => ""
  }

  // ---------------------------------------------------------------- queries

  function Docs(db: Db, coll: string): seq<Doc> {
    if coll in db.colls then db.colls[coll] else []
  }

  function WithDocs(db: Db, coll: string, docs: seq<Doc>): (r: Db)
    ensures Docs(r, coll) == docs
    ensures forall c | c != coll :: Docs(r, c) == Docs(db, c)
  {
    db.(colls := db.colls[coll := docs])
  }

  /** MongoDB matching of one clause: equality with null also matches a
      missing field; range operators only compare dates with dates. */
  predicate Holds(d: Doc, c: Cond) {
    match c
    case Eq(k, v) => if k in d then d[k] == v else v == VNull
    case Gte(k, b) => k in d && d[k].VInt? && d[k].i >= b
    case Lt(k, b) => k in d && d[k].VInt? && d[k].i < b
  }

  predicate Matches(d: Doc, f: Filter) {
    forall i | 0 <= i < |f| :: Holds(d, f[i])
  }

  /** The documents of `docs` matching `f`, in their stored order. */
  function Select(docs: seq<Doc>, f: Filter): (r: seq<Doc>)
    ensures forall d :: d in r <==> d in docs && Matches(d, f)
    ensures |r| <= |docs|
  {
    if |docs| == 0 then []
    else (if Matches(docs[0], f) then [docs[0]] else []) + Select(docs[1..], f)
  }

  /** A single matching document selects itself. */
  lemma SelectOne(d: Doc, f: Filter)
    requires Matches(d, f)
    ensures Select([d], f) == [d]
  {
    assert [d][1..] == [];
  }

  lemma {:induction false} SelectNone(docs: seq<Doc>, f: Filter)
    requires forall d | d in docs :: !Matches(d, f)
    ensures Select(docs, f) == []
  {
    if |docs| > 0 {
      assert docs[0] in docs;
      SelectNone(docs[1..], f);
    }
  }

  lemma {:induction false} SelectAppend(a: seq<Doc>, b: seq<Doc>, f: Filter)
    ensures Select(a + b, f) == Select(a, f) + Select(b, f)
  {
    if |a| > 0 {
      assert (a + b)[1..] == a[1..] + b;
      SelectAppend(a[1..], b, f);
    } else {
      assert a + b == b;
    }
  }

  /** A document matching an `_id` equality that is not null holds that id. */
  lemma MatchesId(d: Doc, v: Value)
    requires v != VNull && Matches(d, [Eq(ID_KEY, v)])
    ensures ID_KEY in d && d[ID_KEY] == v
  {
    assert Holds(d, [Eq(ID_KEY, v)][0]);
  }

  /** The first selected document is the one `FirstMatch` picks. */
  lemma {:induction false} SelectHead(docs: seq<Doc>, f: Filter)
    ensures |Select(docs, f)| > 0 <==> FirstMatch(docs, f).Some?
    ensures FirstMatch(docs, f).Some? ==> Select(docs, f)[0] == docs[FirstMatch(docs, f).value]
  {
    if |docs| > 0 {
      SelectHead(docs[1..], f);
    }
  }

  /** `collection_query`: exactly the documents of the collection that match
      the filter, in stored order. */
  function Query(db: Db, coll: string, f: Filter): (r: seq<Doc>)
    ensures forall d :: d in r <==> d in Docs(db, coll) && Matches(d, f)
    ensures |r| <= |Docs(db, coll)|
  {
    Select(Docs(db, coll), f)
  }

  /** Index of the first document `update_one` / `delete_one` would pick. */
  function FirstMatch(docs: seq<Doc>, f: Filter): (r: Option<nat>)
    ensures r.Some? ==> r.value < |docs| && Matches(docs[r.value], f)
    ensures r.Some? ==> forall j | 0 <= j < r.value :: !Matches(docs[j], f)
    ensures r.None? ==> forall j | 0 <= j < |docs| :: !Matches(docs[j], f)
  {
    if |docs| == 0 then None
    else if Matches(docs[0], f) then Some(0)
    else match FirstMatch(docs[1..], f)
      case None => None
      case Some(k) => Some(k + 1)
  }

  // ---------------------------------------------------------------- writes

  /** The id `insert_one` stores: the document's own `_id`, or a fresh one. */
  function NewId(db: Db, data: Doc): Value {
    if ID_KEY in data then data[ID_KEY] else VOid(db.next)
  }

  predicate IdTaken(docs: seq<Doc>, id: Value) {
    exists i | 0 <= i < |docs| :: ID_KEY in docs[i] && docs[i][ID_KEY] == id
  }

  /** Every document has an `_id` and no two share one (MongoDB's unique
      `_id` index). */
  predicate UniqueIds(docs: seq<Doc>) {
    && (forall i | 0 <= i < |docs| :: ID_KEY in docs[i])
    && (forall i, j | 0 <= i < j < |docs| :: docs[i][ID_KEY] != docs[j][ID_KEY])
  }

  /** `collection_create`: append one document and return its id; a clash
      with an existing `_id` is a duplicate-key error. */
  function Create(db: Db, coll: string, data: Doc): (r: Result<(Db, Value)>)
    ensures r.Failure? <==> IdTaken(Docs(db, coll), NewId(db, data))
    ensures r.Failure? ==> r.error == DuplicateKey
    ensures r.Success? ==> r.value.1 == NewId(db, data)
    ensures r.Success? ==> Docs(r.value.0, coll) == Docs(db, coll) + [data[ID_KEY := r.value.1]]
    ensures r.Success? ==> forall c | c != coll :: Docs(r.value.0, c) == Docs(db, c)
    ensures r.Success? ==> r.value.0.indexes == db.indexes
  {
    var id := NewId(db, data);
    if IdTaken(Docs(db, coll), id) then Failure(DuplicateKey)
    else
      var db' := WithDocs(db, coll, Docs(db, coll) + [data[ID_KEY := id]]);
      Success((db'.(next := if ID_KEY in data then db.next else db.next + 1), id))
  }

  /** A successful create keeps ids unique, and reading the new id back finds
      exactly the stored document. */
  lemma CreateReadBack(db: Db, coll: string, data: Doc)
    requires UniqueIds(Docs(db, coll))
    requires Create(db, coll, data).Success?
    ensures var (db', id) := Create(db, coll, data).value;
      && UniqueIds(Docs(db', coll))
      && Query(db', coll, [Eq(ID_KEY, id)]) == [data[ID_KEY := id]]
  {
    var (db', id) := Create(db, coll, data).value;
    AppendFresh(Docs(db, coll), data[ID_KEY := id], id);
  }

  /** Appending a document whose id no stored document carries keeps ids
      unique, and selecting that id finds only the new document. */
  lemma AppendFresh(prev: seq<Doc>, d: Doc, id: Value)
    requires UniqueIds(prev) && !IdTaken(prev, id)
    requires ID_KEY in d && d[ID_KEY] == id
    ensures UniqueIds(prev + [d])
    ensures Select(prev + [d], [Eq(ID_KEY, id)]) == [d]
  {
    SelectAppend(prev, [d], [Eq(ID_KEY, id)]);
    forall x | x in prev ensures !Matches(x, [Eq(ID_KEY, id)]) {
      var i :| 0 <= i < |prev| && prev[i] == x;
      assert ID_KEY in x && x[ID_KEY] != id;
      assert !Holds(x, [Eq(ID_KEY, id)][0]);
    }
    SelectNone(prev, [Eq(ID_KEY, id)]);
    assert Matches(d, [Eq(ID_KEY, id)]);
    assert Select([d], [Eq(ID_KEY, id)]) == [d];
  }

  /** `update_one(filter, {"$set": data})`: the first matching document gets
      the fields of `data`; the result is the modified count (0 when nothing
      matched or nothing changed).  Changing `_id` is refused. */
  function Update(db: Db, coll: string, f: Filter, data: Doc): (r: Result<(Db, nat)>)
    ensures r.Failure? <==> (
      && FirstMatch(Docs(db, coll), f).Some? && ID_KEY in data
      && (ID_KEY !in Docs(db, coll)[FirstMatch(Docs(db, coll), f).value]
          || data[ID_KEY] != Docs(db, coll)[FirstMatch(Docs(db, coll), f).value][ID_KEY]))
    ensures r.Failure? ==> r.error == ImmutableField
    ensures r.Success? ==> r.value.1 <= 1
    ensures r.Success? ==> r.value.0.indexes == db.indexes
    ensures r.Success? ==> forall c | c != coll :: Docs(r.value.0, c) == Docs(db, c)
    ensures r.Success? ==> |Docs(r.value.0, coll)| == |Docs(db, coll)|
    ensures FirstMatch(Docs(db, coll), f).None? ==> r == Success((db, 0))
    ensures r.Success? && FirstMatch(Docs(db, coll), f).Some? ==>
      var i := FirstMatch(Docs(db, coll), f).value;
      && Docs(r.value.0, coll)[i] == Docs(db, coll)[i] + data
      && forall j | 0 <= j < |Docs(db, coll)| && j != i :: Docs(r.value.0, coll)[j] == Docs(db, coll)[j]
  {
    var docs := Docs(db, coll);
    match FirstMatch(docs, f)
    case None => Success((db, 0))
    case Some(i) =>
      if ID_KEY in data && (ID_KEY !in docs[i] || data[ID_KEY] != docs[i][ID_KEY]) then Failure(ImmutableField)
      else
        var d := docs[i] + data;
        Success((WithDocs(db, coll, docs[i := d]), if d == docs[i] then 0 else 1))
  }

  /** The equality clauses of a filter, as the fields an upsert inserts. */
  function EqFields(f: Filter): (r: Doc)
    ensures forall i | 0 <= i < |f| && f[i].Eq? :: f[i].key in r
  {
    if |f| == 0 then map[]
    else
      var rest := EqFields(f[1..]);
      if f[0].Eq? && f[0].key !in rest then rest[f[0].key := f[0].value] else rest
  }

  /** `update_one(filter, {"$set": data}, upsert=True)`: update the first
      match, or insert the filter's equality fields plus `data`; the result
      carries the upserted id, None when an existing document was updated. */
  function Upsert(db: Db, coll: string, f: Filter, data: Doc): (r: Result<(Db, Option<Value>)>)
    ensures FirstMatch(Docs(db, coll), f).Some? ==>
      match Update(db, coll, f, data)
      case Success((db', _)) => r == Success((db', None))
      case Failure(e) => r == Failure(e)
    ensures FirstMatch(Docs(db, coll), f).None? && r.Success? ==>
      && r.value.1.Some?
      && Docs(r.value.0, coll) == Docs(db, coll) + [(EqFields(f) + data)[ID_KEY := r.value.1.value]]
  {
    match FirstMatch(Docs(db, coll), f)
    case Some(_) =>
      (match Update(db, coll, f, data)
       case Success((db', _)) => Success((db', None))
       case Failure(e) => Failure(e))
    case None =>
      (match Create(db, coll, EqFields(f) + data)
       case Success((db', id)) => Success((db', Some(id)))
       case Failure(e) => Failure(e))
  }

  /** After an upsert on one equality clause that `data` does not touch, the
      first document the clause selects holds every field of `data`. */
  lemma UpsertReadBack(db: Db, coll: string, key: string, v: Value, data: Doc)
    requires key !in data && ID_KEY !in data
    requires Upsert(db, coll, [Eq(key, v)], data).Success?
    ensures var q := Query(Upsert(db, coll, [Eq(key, v)], data).value.0, coll, [Eq(key, v)]);
      |q| > 0 && forall k | k in data :: k in q[0] && q[0][k] == data[k]
  {
    var f := [Eq(key, v)];
    var docs := Docs(db, coll);
    SelectHead(docs, f);
    if FirstMatch(docs, f).Some? {
      UpsertUpdated(db, coll, key, v, data);
      SelectHead(Docs(Upsert(db, coll, f, data).value.0, coll), f);
    } else {
      UpsertInserted(db, coll, key, v, data);
    }
  }

  lemma UpsertUpdated(db: Db, coll: string, key: string, v: Value, data: Doc)
    requires key !in data && ID_KEY !in data
    requires FirstMatch(Docs(db, coll), [Eq(key, v)]).Some?
    ensures var db' := Upsert(db, coll, [Eq(key, v)], data).value.0;
      var i := FirstMatch(Docs(db, coll), [Eq(key, v)]).value;
      FirstMatch(Docs(db', coll), [Eq(key, v)]) == Some(i)
      && Docs(db', coll)[i] == Docs(db, coll)[i] + data
  {
    var f := [Eq(key, v)];
    var docs := Docs(db, coll);
    var i := FirstMatch(docs, f).value;
    var db' := Upsert(db, coll, f, data).value.0;
    var docs' := Docs(db', coll);
    assert docs'[i] == docs[i] + data;
    assert Holds(docs[i], f[0]);
    assert Matches(docs'[i], f) by { assert Holds(docs'[i], f[0]); }
    forall m | 0 <= m < i ensures !Matches(docs'[m], f) {
      assert docs'[m] == docs[m];
    }
    FirstMatchAt(docs', f, i);
  }

  lemma UpsertInserted(db: Db, coll: string, key: string, v: Value, data: Doc)
    requires key !in data && ID_KEY !in data
    requires FirstMatch(Docs(db, coll), [Eq(key, v)]).None?
    requires Upsert(db, coll, [Eq(key, v)], data).Success?
    ensures var db' := Upsert(db, coll, [Eq(key, v)], data).value.0;
      var q := Query(db', coll, [Eq(key, v)]);
      |q| > 0 && forall k | k in data :: k in q[0] && q[0][k] == data[k]
  {
    var f := [Eq(key, v)];
    var docs := Docs(db, coll);
    var (db', id) := Upsert(db, coll, f, data).value;
    var docs' := Docs(db', coll);
    var row := (EqFields(f) + data)[ID_KEY := id.value];
    assert docs' == docs + [row];
    assert EqFields(f) == map[key := v] by {
      assert f[1..] == [];
    }
    assert Matches(row, f) by { assert Holds(row, f[0]); }
    forall m | 0 <= m < |docs| ensures !Matches(docs'[m], f) {
      assert docs'[m] == docs[m];
    }
    FirstMatchAt(docs', f, |docs|);
    SelectHead(docs', f);
  }

  /** The first match is determined by which documents match. */
  lemma FirstMatchAt(docs: seq<Doc>, f: Filter, i: nat)
    requires i < |docs| && Matches(docs[i], f)
    requires forall j | 0 <= j < i :: !Matches(docs[j], f)
    ensures FirstMatch(docs, f) == Some(i)
  {
  }

  /** `delete_one(filter)`: remove the first matching document; the result is
      the deleted count. */
  function Delete(db: Db, coll: string, f: Filter): (r: (Db, nat))
    ensures r.1 <= 1
    ensures |Docs(r.0, coll)| == |Docs(db, coll)| - r.1
    ensures r.1 == 0 <==> forall j | 0 <= j < |Docs(db, coll)| :: !Matches(Docs(db, coll)[j], f)
    ensures r.1 == 1 ==> var i := FirstMatch(Docs(db, coll), f).value;
      Docs(r.0, coll) == Docs(db, coll)[..i] + Docs(db, coll)[i + 1..]
    ensures r.1 == 0 ==> r.0 == db
    ensures forall d | d in Docs(r.0, coll) :: d in Docs(db, coll)
    ensures forall c | c != coll :: Docs(r.0, c) == Docs(db, c)
    ensures r.0.indexes == db.indexes
  {
    var docs := Docs(db, coll);
    match FirstMatch(docs, f)
    case None => (db, 0)
    case Some(i) =>
      assert forall d | d in docs[..i] + docs[i + 1..] :: d in docs;
      (WithDocs(db, coll, docs[..i] + docs[i + 1..]), 1)
  }

  /** The documents of `docs` that do not match `f`, in order. */
  function Reject(docs: seq<Doc>, f: Filter): (r: seq<Doc>)
    ensures forall d :: d in r <==> d in docs && !Matches(d, f)
    ensures |r| <= |docs|
  {
    if |docs| == 0 then []
    else (if Matches(docs[0], f) then [] else [docs[0]]) + Reject(docs[1..], f)
  }

  /** `delete_many(filter)`: remove every matching document. */
  function DeleteMany(db: Db, coll: string, f: Filter): (r: (Db, nat))
    ensures forall d | d in Docs(r.0, coll) :: !Matches(d, f)
    ensures forall d | d in Docs(db, coll) && !Matches(d, f) :: d in Docs(r.0, coll)
    ensures r.1 == |Docs(db, coll)| - |Docs(r.0, coll)|
    ensures forall c | c != coll :: Docs(r.0, c) == Docs(db, c)
    ensures r.0.indexes == db.indexes
  {
    var kept := Reject(Docs(db, coll), f);
    (WithDocs(db, coll, kept), |Docs(db, coll)| - |kept|)
  }

  // ---------------------------------------------------------------- search indexes

  function Indexes(db: Db, coll: string): seq<SearchIndex> {
    if coll in db.indexes then db.indexes[coll] else []
  }

  /** The definition `collection_create_vector_index_if_not_exists` creates. */
  function VectorIndex(dim: int): SearchIndex {
    SearchIndex(VECTOR_INDEX_NAME, "vectorSearch", dim, "embedding", "cosine")
  }

  predicate HasIndexNamed(ixs: seq<SearchIndex>, name: string) {
    exists i | 0 <= i < |ixs| :: ixs[i].name == name
  }

  function CountNamed(ixs: seq<SearchIndex>, name: string): nat {
    if |ixs| == 0 then 0 else (if ixs[0].name == name then 1 else 0) + CountNamed(ixs[1..], name)
  }

  /** `collection_create_vector_index_if_not_exists`: check, then create. */
  function EnsureVectorIndex(db: Db, coll: string, dim: int): (r: Db)
    ensures HasIndexNamed(Indexes(r, coll), VECTOR_INDEX_NAME)
    ensures HasIndexNamed(Indexes(db, coll), VECTOR_INDEX_NAME) ==> r == db
    ensures !HasIndexNamed(Indexes(db, coll), VECTOR_INDEX_NAME) ==>
      Indexes(r, coll) == Indexes(db, coll) + [VectorIndex(dim)]
    ensures forall c | c != coll :: Indexes(r, c) == Indexes(db, c)
    ensures r.colls == db.colls && r.next == db.next
  {
    var ixs := Indexes(db, coll);
    if HasIndexNamed(ixs, VECTOR_INDEX_NAME) then db
    else
      var ixs' := ixs + [VectorIndex(dim)];
      assert ixs'[|ixs|].name == VECTOR_INDEX_NAME;
      db.(indexes := db.indexes[coll := ixs'])
  }

  lemma {:induction false} CountNamedAppend(a: seq<SearchIndex>, b: seq<SearchIndex>, name: string)
    ensures CountNamed(a + b, name) == CountNamed(a, name) + CountNamed(b, name)
  {
    if |a| > 0 {
      assert (a + b)[1..] == a[1..] + b;
      CountNamedAppend(a[1..], b, name);
    } else {
      assert a + b == b;
    }
  }

  lemma {:induction false} CountNamedZero(ixs: seq<SearchIndex>, name: string)
    ensures CountNamed(ixs, name) == 0 <==> !HasIndexNamed(ixs, name)
  {
    if |ixs| > 0 {
      CountNamedZero(ixs[1..], name);
      if ixs[0].name != name {
        if HasIndexNamed(ixs, name) {
          var i :| 0 <= i < |ixs| && ixs[i].name == name;
          assert ixs[1..][i - 1].name == name;
        }
      }
    }
  }

  /** Ensuring the index twice, whatever the dimensions, leaves the store as
      ensuring it once, with exactly one index of that name when there was at
      most one before. */
  lemma EnsureVectorIndexIdempotent(db: Db, coll: string, d1: int, d2: int)
    requires CountNamed(Indexes(db, coll), VECTOR_INDEX_NAME) <= 1
    ensures EnsureVectorIndex(EnsureVectorIndex(db, coll, d1), coll, d2) == EnsureVectorIndex(db, coll, d1)
    ensures CountNamed(Indexes(EnsureVectorIndex(EnsureVectorIndex(db, coll, d1), coll, d2), coll), VECTOR_INDEX_NAME) == 1
  {
    var ixs := Indexes(db, coll);
    CountNamedZero(ixs, VECTOR_INDEX_NAME);
    if !HasIndexNamed(ixs, VECTOR_INDEX_NAME) {
      CountNamedAppend(ixs, [VectorIndex(d1)], VECTOR_INDEX_NAME);
      assert CountNamed([VectorIndex(d1)], VECTOR_INDEX_NAME) == 1;
    }
  }
}

=== FILE: text.dfy ===
/** The Python `str` operations the modelled code relies on, over `seq<char>`. */
module Text {

  /** `str.isspace()` for one character, which is also what `\s` matches in a
      Python `re` pattern over `str`. */
  predicate IsSpace(c: char) {
    || c == ' ' || c == '\t' || c == '\n' || c == '\r'
    || c == '\U{0B}' || c == '\U{0C}'
    || ('\U{1C}' <= c <= '\U{1F}')
    || c == '\U{85}' || c == '\U{A0}' || c == '\U{1680}'
    || ('\U{2000}' <= c <= '\U{200A}')
    || c == '\U{2028}' || c == '\U{2029}' || c == '\U{202F}'
    || c == '\U{205F}' || c == '\U{3000}'
  }

  /** What `\w` matches in the modelled patterns (ASCII letters, digits, `_`). */
  predicate IsWordChar(c: char) {
    ('a' <= c <= 'z') || ('A' <= c <= 'Z') || ('0' <= c <= '9') || c == '_'
  }

  predicate IsDigit(c: char) { '0' <= c <= '9' }

  /** `t` occurs in `s` starting at index `i`. */
  predicate OccursAt(s: string, t: string, i: int) {
    0 <= i && i + |t| <= |s| && s[i..i + |t|] == t
  }

  /** Python's `t in s` for strings. */
  predicate Contains(s: string, t: string) {
    exists i | 0 <= i <= |s| - |t| :: OccursAt(s, t, i)
  }

  /** `s` is `s'` with only `p`-characters removed from its two ends. */
  ghost predicate IsTrimOf(s: string, r: string, p: char -> bool) {
    exists a :: TrimmedAt(s, r, p, a)
  }

  /** `r` is the slice of `s` starting at `a`, and all of `s` outside it is `p`. */
  ghost predicate TrimmedAt(s: string, r: string, p: char -> bool, a: int) {
    && 0 <= a <= |s| - |r|
    && r == s[a..a + |r|]
    && (forall i | 0 <= i < a :: p(s[i]))
    && (forall i | a + |r| <= i < |s| :: p(s[i]))
  }

  /** Drop the leading run of `p`-characters. */
  function TrimLeft(s: string, p: char -> bool): (r: string)
    ensures |r| <= |s| && r == s[|s| - |r|..]
    ensures forall i | 0 <= i < |s| - |r| :: p(s[i])
    ensures |r| > 0 ==> !p(r[0])
    decreases |s|
  {
    if |s| > 0 && p(s[0]) then TrimLeft(s[1..], p) else s
  }

  /** Drop the trailing run of `p`-characters. */
  function TrimRight(s: string, p: char -> bool): (r: string)
    ensures |r| <= |s| && r == s[..|r|]
    ensures forall i | |r| <= i < |s| :: p(s[i])
    ensures |r| > 0 ==> !p(r[|r| - 1])
    decreases |s|
  {
    if |s| > 0 && p(s[|s| - 1]) then TrimRight(s[..|s| - 1], p) else s
  }

  /** Both ends: `s.strip(chars)` when `p` is membership in `chars`. */
  function Trim(s: string, p: char -> bool): (r: string)
    ensures IsTrimOf(s, r, p)
    ensures |r| > 0 ==> !p(r[0]) && !p(r[|r| - 1])
  {
    var l := TrimLeft(s, p);
    var r := TrimRight(l, p);
    assert TrimmedAt(s, r, p, |s| - |l|);
    r
  }

  /** `s.strip()` */
  function Strip(s: string): (r: string)
    ensures IsTrimOf(s, r, IsSpace)
    ensures |r| > 0 ==> !IsSpace(r[0]) && !IsSpace(r[|r| - 1])
  {
    Trim(s, IsSpace)
  }

  /** `not s.strip()`: stripping leaves nothing exactly when every character
      is whitespace. */
  lemma {:induction false} StripBlank(s: string)
    ensures Strip(s) == [] <==> forall i | 0 <= i < |s| :: IsSpace(s[i])
  {
    var r := Strip(s);
    var a :| TrimmedAt(s, r, IsSpace, a);
    if r != [] {
      assert s[a] == r[0];
    }
  }

  /** Trimming only cuts the ends off, so a property of every character is
      kept. */
  lemma TrimKeeps(s: string, p: char -> bool, q: char -> bool)
    requires forall i | 0 <= i < |s| :: q(s[i])
    ensures forall i | 0 <= i < |Trim(s, p)| :: q(Trim(s, p)[i])
  {
    var r := Trim(s, p);
    var a :| TrimmedAt(s, r, p, a);
    forall i | 0 <= i < |r| ensures q(r[i]) {
      assert r[i] == s[a + i];
    }
  }

  /** `s.strip(c)` for a one-character argument. */
  function StripChar(s: string, c: char): (r: string)
    ensures IsTrimOf(s, r, x => x == c)
    ensures |r| > 0 ==> r[0] != c && r[|r| - 1] != c
  {
    Trim(s, x => x == c)
  }

  /** A string with no `p`-character at either end is its own trim. */
  lemma {:induction false} TrimIdentity(s: string, p: char -> bool)
    requires |s| > 0 ==> !p(s[0]) && !p(s[|s| - 1])
    ensures Trim(s, p) == s
  {
  }

  /** `s.replace(pat, rep)`: every non-overlapping occurrence of `pat`, scanned
      left to right, becomes `rep`; an empty `pat` inserts `rep` around every
      character. */
  function Replace(s: string, pat: string, rep: string): string
    decreases |s|
  {
    if |pat| == 0 then
      (if |s| == 0 then rep else rep + [s[0]] + Replace(s[1..], pat, rep))
    else if |s| < |pat| then s
    else if s[..|pat|] == pat then rep + Replace(s[|pat|..], pat, rep)
    else [s[0]] + Replace(s[1..], pat, rep)
  }

  /** Replacing a string that does not occur changes nothing. */
  lemma {:induction false} ReplaceAbsent(s: string, pat: string, rep: string)
    requires |pat| > 0 && !Contains(s, pat)
    ensures Replace(s, pat, rep) == s
    decreases |s|
  {
    if |s| >= |pat| {
      assert !OccursAt(s, pat, 0);
      forall i | OccursAt(s[1..], pat, i) ensures OccursAt(s, pat, i + 1) {
        assert s[1..][i..i + |pat|] == s[i + 1..i + 1 + |pat|];
      }
      ReplaceAbsent(s[1..], pat, rep);
    }
  }

  /** A character absent from `s` and from `rep` is absent from the result. */
  lemma {:induction false} ReplaceKeepsAbsent(s: string, pat: string, rep: string, c: char)
    requires |pat| > 0 && c !in s && c !in rep
    ensures c !in Replace(s, pat, rep)
    decreases |s|
  {
    if |s| >= |pat| {
      if s[..|pat|] == pat {
        ReplaceKeepsAbsent(s[|pat|..], pat, rep, c);
      } else {
        ReplaceKeepsAbsent(s[1..], pat, rep, c);
      }
    }
  }

  /** Replacing a single character by a string without it removes it. */
  lemma {:induction false} ReplaceRemovesChar(s: string, c: char, rep: string)
    requires c !in rep
    ensures c !in Replace(s, [c], rep)
    decreases |s|
  {
    if |s| >= 1 {
      if s[..1] == [c] {
        ReplaceRemovesChar(s[1..], c, rep);
      } else {
        assert s[0] != c by { assert s[..1] == [s[0]]; }
        ReplaceRemovesChar(s[1..], c, rep);
      }
    }
  }

  /** Every occurrence of `pat` is rewritten: an input of the form
      `a + pat + b` whose prefix `a` holds no occurrence ends up with `rep`
      right after the rewritten prefix. */
  lemma {:induction false} ReplaceRewritesFirstOccurrence(a: string, pat: string, b: string, rep: string)
    requires |pat| > 0
    requires forall i | 0 <= i < |a| :: !OccursAt(a + pat + b, pat, i)
    ensures Replace(a + pat + b, pat, rep) == a + rep + Replace(b, pat, rep)
    decreases |a|
  {
    if |a| == 0 {
      ReplaceAtStart(pat, b, rep);
      assert a + pat + b == pat + b;
    } else {
      var s := a + pat + b;
      ReplaceSkips(s, pat, rep);
      assert s[1..] == a[1..] + pat + b;
      NoOccurrenceShifts(a, pat, b);
      ReplaceRewritesFirstOccurrence(a[1..], pat, b, rep);
      assert [a[0]] + a[1..] == a;
    }
  }

  /** An occurrence at the very start is replaced. */
  lemma ReplaceAtStart(pat: string, b: string, rep: string)
    requires |pat| > 0
    ensures Replace(pat + b, pat, rep) == rep + Replace(b, pat, rep)
  {
    assert (pat + b)[..|pat|] == pat;
    assert (pat + b)[|pat|..] == b;
  }

  /** A first character that starts no occurrence is kept. */
  lemma ReplaceSkips(s: string, pat: string, rep: string)
    requires |pat| > 0 && |s| >= |pat| && !OccursAt(s, pat, 0)
    ensures Replace(s, pat, rep) == [s[0]] + Replace(s[1..], pat, rep)
  {
  }

  /** Dropping the first character keeps the prefix free of occurrences. */
  lemma NoOccurrenceShifts(a: string, pat: string, b: string)
    requires |a| > 0
    requires forall i | 0 <= i < |a| :: !OccursAt(a + pat + b, pat, i)
    ensures forall i | 0 <= i < |a[1..]| :: !OccursAt(a[1..] + pat + b, pat, i)
  {
    var s := a + pat + b;
    var t := a[1..] + pat + b;
    assert t == s[1..];
    forall i | 0 <= i < |a[1..]| ensures !OccursAt(t, pat, i) {
      assert !OccursAt(s, pat, i + 1);
      assert s[1..][i..i + |pat|] == s[i + 1..i + 1 + |pat|];
    }
  }

  /** Position of the first `c` in `s`. */
  function IndexOf(s: string, c: char): (r: nat)
    requires c in s
    ensures r < |s| && s[r] == c && c !in s[..r]
  {
    if s[0] == c then 0 else 1 + IndexOf(s[1..], c)
  }

  /** `sep.join(parts)` */
  function Join(parts: seq<string>, sep: string): string {
    if |parts| == 0 then ""
    else if |parts| == 1 then parts[0]
    else parts[0] + sep + Join(parts[1..], sep)
  }

  /** `s.split(c)` for a one-character separator: the pieces between
      occurrences of `c`, which joined with `c` give back `s`. */
  function Split(s: string, c: char): (r: seq<string>)
    ensures |r| >= 1
    ensures forall k | 0 <= k < |r| :: c !in r[k]
    ensures Join(r, [c]) == s
    decreases |s|
  {
    if c !in s then [s]
    else
      var i := IndexOf(s, c);
      var rest := Split(s[i + 1..], c);
      assert s == s[..i] + [c] + s[i + 1..];
      [s[..i]] + rest
  }

  /** The prefix of `s` before its first `c`: `s.split(c)[0]`. */
  function BeforeFirst(s: string, c: char): (r: string)
    ensures r == Split(s, c)[0]
  {
    if c in s then s[..IndexOf(s, c)] else s
  }

  function DigitChar(d: nat): char
    requires d < 10
  {
    ['0', '1', '2', '3', '4', '5', '6', '7', '8', '9'][d]
  }

  /** `str(n)` for a natural number. */
  function DecimalText(n: nat): (r: string)
    ensures |r| >= 1 && forall i | 0 <= i < |r| :: IsDigit(r[i])
    decreases n
  {
    if n < 10 then [DigitChar(n)] else DecimalText(n / 10) + [DigitChar(n % 10)]
  }

  function DecimalValue(s: string): nat
    requires forall i | 0 <= i < |s| :: IsDigit(s[i])
  {
    if |s| == 0 then 0
    else
      assert IsDigit(s[|s| - 1]);
      10 * DecimalValue(s[..|s| - 1]) + (s[|s| - 1] as int - '0' as int)
  }

  /** `int(str(n)) == n` */
  lemma {:induction false} DecimalRoundTrip(n: nat)
    ensures DecimalValue(DecimalText(n)) == n
    decreases n
  {
    var s := DecimalText(n);
    if n >= 10 {
      DecimalRoundTrip(n / 10);
      assert s[..|s| - 1] == DecimalText(n / 10);
    }
  }
}

=== FILE: title.dfy ===
/** `run_title` of `remind/graphs/title.py`: a title is asked of the
    language model for a piece of content and cleaned of surrounding
    whitespace and quotes.

    The language model and the rendering of the system prompt are one
    parameter, the function from the content to the model's answer. */
module Title {
  import opened Wrappers
  import Text

  /** The answer of the language model for the given content. */
  type Responder = string -> Result<string>

  /** What may surround a title in the model's answer. */
  predicate Wrapping(c: char) {
    Text.IsSpace(c) || c == '\'' || c == '"'
  }

  /** `r` is the slice of `s` at `a`, and everything around it is wrapping. */
  ghost predicate FramedAt(s: string, r: string, a: int) {
    && 0 <= a <= |s| - |r|
    && r == s[a..a + |r|]
    && (forall i | 0 <= i < a :: Wrapping(s[i]))
    && (forall i | a + |r| <= i < |s| :: Wrapping(s[i]))
  }

  /** `s` is `r` with some wrapping characters around it. */
  ghost predicate Framed(s: string, r: string) {
    exists a :: FramedAt(s, r, a)
  }

  /** `title.strip().strip("'").strip('"').strip()` */
  function CleanTitle(answer: string): (r: string)
    ensures Framed(answer, r)
    ensures |r| > 0 ==> !Text.IsSpace(r[0]) && !Text.IsSpace(r[|r| - 1])
  {
    var t1 := Text.Strip(answer);
    var t2 := Text.StripChar(t1, '\'');
    var t3 := Text.StripChar(t2, '"');
    var t4 := Text.Strip(t3);
    StripFramed(answer);
    StripCharFramed(t1, '\'');
    StripCharFramed(t2, '"');
    StripFramed(t3);
    FramedTrans(answer, t1, t2);
    FramedTrans(answer, t2, t3);
    FramedTrans(answer, t3, t4);
    t4
  }

  /** `run_title(state)`: an AssertionError for missing or empty content,
      else the cleaned answer. */
  function RunTitle(content: Option<string>, respond: Responder): (r: Result<string>)
    ensures content.None? || content.value == "" ==> r == Failure(AssertionError)
    ensures content.Some? && content.value != "" && respond(content.value).Failure?
      ==> r == Failure(respond(content.value).error)
    ensures content.Some? && content.value != "" && respond(content.value).Success?
      ==> r.Success? && Framed(respond(content.value).value, r.value)
  {
    if content.None? || content.value == "" then Failure(AssertionError)
    else
      var answer :- respond(content.value);
      Success(CleanTitle(answer))
  }

  // ---------------------------------------------------------------- proofs

  lemma StripFramed(s: string)
    ensures Framed(s, Text.Strip(s))
  {
    var r := Text.Strip(s);
    var a :| Text.TrimmedAt(s, r, Text.IsSpace, a);
    assert FramedAt(s, r, a);
  }

  lemma StripCharFramed(s: string, c: char)
    requires c == '\'' || c == '"'
    ensures Framed(s, Text.StripChar(s, c))
  {
    var r := Text.StripChar(s, c);
    var a :| Text.TrimmedAt(s, r, x => x == c, a);
    assert FramedAt(s, r, a);
  }

  /** A frame inside a frame is a frame. */
  lemma FramedTrans(s: string, m: string, r: string)
    requires Framed(s, m) && Framed(m, r)
    ensures Framed(s, r)
  {
    var a :| FramedAt(s, m, a);
    var b :| FramedAt(m, r, b);
    forall i | a <= i < a + b ensures Wrapping(s[i]) {
      assert s[i] == m[i - a];
    }
    forall i | a + b + |r| <= i < a + |m| ensures Wrapping(s[i]) {
      assert s[i] == m[i - a];
    }
    forall i | 0 <= i < |r| ensures r[i] == s[a + b + i] {
      assert r[i] == m[b + i];
    }
    assert r == s[a + b..a + b + |r|];
    assert FramedAt(s, r, a + b);
  }

  /** An answer that is already a bare title is kept as it is. */
  lemma BareTitleKept(answer: string)
    requires |answer| > 0 ==> !Wrapping(answer[0]) && !Wrapping(answer[|answer| - 1])
    ensures CleanTitle(answer) == answer
  {
    Text.TrimIdentity(answer, Text.IsSpace);
    Text.TrimIdentity(answer, x => x == '\'');
    Text.TrimIdentity(answer, x => x == '"');
  }

  /** Trimming a run of `p` off each end of a text whose own ends are not
      `p` gives the text. */
  lemma TrimWrapped(pre: string, t: string, post: string, p: char -> bool)
    requires |t| > 0 && !p(t[0]) && !p(t[|t| - 1])
    requires forall i | 0 <= i < |pre| :: p(pre[i])
    requires forall i | 0 <= i < |post| :: p(post[i])
    ensures Text.Trim(pre + t + post, p) == t
  {
    TrimLeftRun(pre, t + post, p);
    assert pre + t + post == pre + (t + post);
    TrimRightRun(t, post, p);
  }

  lemma {:induction false} TrimLeftRun(pre: string, rest: string, p: char -> bool)
    requires |rest| > 0 && !p(rest[0])
    requires forall i | 0 <= i < |pre| :: p(pre[i])
    ensures Text.TrimLeft(pre + rest, p) == rest
    decreases |pre|
  {
    if |pre| > 0 {
      assert (pre + rest)[1..] == pre[1..] + rest;
      TrimLeftRun(pre[1..], rest, p);
    } else {
      assert pre + rest == rest;
    }
  }

  lemma {:induction false} TrimRightRun(rest: string, post: string, p: char -> bool)
    requires |rest| > 0 && !p(rest[|rest| - 1])
    requires forall i | 0 <= i < |post| :: p(post[i])
    ensures Text.TrimRight(rest + post, p) == rest
    decreases |post|
  {
    if |post| > 0 {
      var init := post[..|post| - 1];
      assert (rest + post)[..|rest + post| - 1] == rest + init;
      TrimRightRun(rest, init, p);
    } else {
      assert rest + post == rest;
    }
  }

  lemma StripCharWrapped(pre: string, t: string, post: string, c: char)
    requires |t| > 0 && t[0] != c && t[|t| - 1] != c
    requires forall i | 0 <= i < |pre| :: pre[i] == c
    requires forall i | 0 <= i < |post| :: post[i] == c
    ensures Text.StripChar(pre + t + post, c) == t
  {
    TrimWrapped(pre, t, post, x => x == c);
  }

  lemma StripCharKeeps(t: string, c: char)
    requires |t| > 0 ==> t[0] != c && t[|t| - 1] != c
    ensures Text.StripChar(t, c) == t
  {
    Text.TrimIdentity(t, x => x == c);
  }

  /** The four steps of the cleaning, one at a time. */
  lemma CleanSteps(answer: string, t1: string, t2: string, t3: string, r: string)
    requires Text.Strip(answer) == t1 && Text.StripChar(t1, '\'') == t2
    requires Text.StripChar(t2, '"') == t3 && Text.Strip(t3) == r
    ensures CleanTitle(answer) == r
  {
  }

  /** Every character of `s` is `c`. */
  predicate RunOf(s: string, c: char) {
    forall i | 0 <= i < |s| :: s[i] == c
  }

  /** Every character of `s` is whitespace. */
  predicate Blank(s: string) {
    forall i | 0 <= i < |s| :: Text.IsSpace(s[i])
  }

  /** Whitespace, then single quotes, then double quotes around a bare
      title are all removed. */
  lemma QuotedTitle(w1: string, q1: string, d1: string, title: string, d2: string, q2: string, w2: string)
    requires |title| > 0 && !Wrapping(title[0]) && !Wrapping(title[|title| - 1])
    requires Blank(w1) && Blank(w2) && RunOf(q1, '\'') && RunOf(q2, '\'') && RunOf(d1, '"') && RunOf(d2, '"')
    ensures CleanTitle(w1 + (q1 + d1 + title + d2 + q2) + w2) == title
  {
    var t1 := q1 + d1 + title + d2 + q2;
    QuotesRemoved(q1, d1, title, d2, q2);
    assert Text.Strip(w1 + t1 + w2) == t1 by {
      StripWrapped(w1, t1, w2);
    }
    assert Text.Strip(title) == title by {
      Text.TrimIdentity(title, Text.IsSpace);
    }
    CleanSteps(w1 + t1 + w2, t1, d1 + title + d2, title, title);
  }

  /** The two quote steps of the cleaning peel the quote runs. */
  lemma QuotesRemoved(q1: string, d1: string, title: string, d2: string, q2: string)
    requires |title| > 0 && !Wrapping(title[0]) && !Wrapping(title[|title| - 1])
    requires RunOf(q1, '\'') && RunOf(q2, '\'') && RunOf(d1, '"') && RunOf(d2, '"')
    ensures var t1 := q1 + d1 + title + d2 + q2;
      && !Text.IsSpace(t1[0]) && !Text.IsSpace(t1[|t1| - 1])
      && Text.StripChar(t1, '\'') == d1 + title + d2
      && Text.StripChar(d1 + title + d2, '"') == title
  {
    var t2 := d1 + title + d2;
    assert |t2| > 0 && t2[0] != '\'' && t2[|t2| - 1] != '\'' by {
      EndsOf(d1, title, d2);
    }
    var t1 := q1 + t2 + q2;
    assert q1 + d1 + title + d2 + q2 == t1;
    assert !Text.IsSpace(t1[0]) && !Text.IsSpace(t1[|t1| - 1]) by {
      EndsOf(q1, t2, q2);
    }
    assert Text.StripChar(t1, '\'') == t2 by {
      StripCharWrapped(q1, t2, q2, '\'');
    }
    assert Text.StripChar(t2, '"') == title by {
      StripCharWrapped(d1, title, d2, '"');
    }
  }

  /** The ends of a framed text are those of the frame, or of the text
      where the frame is empty. */
  lemma EndsOf(pre: string, t: string, post: string)
    requires |t| > 0
    ensures var s := pre + t + post;
      && s[0] == (if |pre| > 0 then pre[0] else t[0])
      && s[|s| - 1] == (if |post| > 0 then post[|post| - 1] else t[|t| - 1])
  {
  }

  lemma StripWrapped(pre: string, t: string, post: string)
    requires |t| > 0 && !Text.IsSpace(t[0]) && !Text.IsSpace(t[|t| - 1])
    requires Blank(pre) && Blank(post)
    ensures Text.Strip(pre + t + post) == t
  {
    TrimWrapped(pre, t, post, Text.IsSpace);
  }

  /** Double quotes outside single quotes are removed but the single quotes
      they enclose survive: `"'x'"` becomes `'x'`. */
  lemma InnerQuotesSurvive(d1: string, q1: string, x: string, q2: string, d2: string)
    requires |x| > 0 && !Wrapping(x[0]) && !Wrapping(x[|x| - 1])
    requires |d1| > 0 && |d2| > 0 && |q1| > 0 && |q2| > 0
    requires RunOf(q1, '\'') && RunOf(q2, '\'') && RunOf(d1, '"') && RunOf(d2, '"')
    ensures CleanTitle(d1 + (q1 + x + q2) + d2) == q1 + x + q2
  {
    var t := q1 + x + q2;
    var s := d1 + t + d2;
    InnerEnds(d1, q1, x, q2, d2);
    EndsKeep(s, '"');
    EndsKeep(t, '\'');
    StripCharWrapped(d1, t, d2, '"');
    CleanSteps(s, s, s, t, t);
  }

  /** A text that starts and ends with a quote is left alone by stripping
      whitespace and by stripping the other quote. */
  lemma EndsKeep(s: string, c: char)
    requires c == '\'' || c == '"'
    requires |s| > 0 && s[0] == c && s[|s| - 1] == c
    ensures Text.Strip(s) == s
    ensures Text.StripChar(s, if c == '"' then '\'' else '"') == s
  {
    QuotesNotSpace();
    Text.TrimIdentity(s, Text.IsSpace);
    StripCharKeeps(s, if c == '"' then '\'' else '"');
  }

  lemma QuotesNotSpace()
    ensures !Text.IsSpace('\'') && !Text.IsSpace('"')
  {
  }

  lemma InnerEnds(d1: string, q1: string, x: string, q2: string, d2: string)
    requires |x| > 0 && |d1| > 0 && |d2| > 0 && |q1| > 0 && |q2| > 0
    requires RunOf(q1, '\'') && RunOf(q2, '\'') && RunOf(d1, '"') && RunOf(d2, '"')
    ensures var t := q1 + x + q2; t[0] == '\'' && t[|t| - 1] == '\''
    ensures var s := d1 + (q1 + x + q2) + d2; s[0] == '"' && s[|s| - 1] == '"'
  {
  }
}

=== FILE: transformgraph.dfy ===
/** The transformation graph of `remind/graphs/transformation.py`: prompt and
    content composition, the language-model call (an oracle here), the
    optional insight on the source, and the extraction of a fenced markdown
    block from the response. */
module TransformGraph {
  import opened Wrappers
  import opened Store
  import Objects
  import Notes
  import Text
  import TransformTab
  import Records

  const OPEN := "```markdown"
  const TICKS := "```"

  // ---------------------------------------------------------------- fence extraction

  /** End of the run of `\s` characters starting at position `i`. */
  function WsEnd(s: string, i: nat): (j: nat)
    requires i <= |s|
    ensures i <= j <= |s|
    ensures forall k | i <= k < j :: Text.IsSpace(s[k])
    ensures j < |s| ==> !Text.IsSpace(s[j])
    decreases |s| - i
  {
    if i < |s| && Text.IsSpace(s[i]) then WsEnd(s, i + 1) else i
  }

  /** Three backticks start at `i`. */
  predicate TicksAt(s: string, i: nat) {
    i + 3 <= |s| && s[i] == '`' && s[i + 1] == '`' && s[i + 2] == '`'
  }

  /** ```` ```markdown ```` starts at `i`. */
  predicate OpenAt(s: string, i: nat) {
    i + |OPEN| <= |s| && forall k | 0 <= k < |OPEN| :: s[i + k] == OPEN[k]
  }

  /** `\s*```` matches at `i`. */
  predicate ClosesAt(s: string, i: nat)
    requires i <= |s|
  {
    TicksAt(s, WsEnd(s, i))
  }

  /** The lazy group `(.*?)` begun at `i` ends at the first position where
      `\s*```` matches. */
  function CloseFrom(s: string, i: nat): (r: Option<nat>)
    requires i <= |s|
    ensures r.Some? ==> i <= r.value <= |s| && ClosesAt(s, r.value)
    ensures r.Some? ==> forall k | i <= k < r.value :: !ClosesAt(s, k)
    ensures r.None? ==> forall k | i <= k <= |s| :: !ClosesAt(s, k)
    decreases |s| - i
  {
    if ClosesAt(s, i) then Some(i)
    else if i == |s| then None
    else CloseFrom(s, i + 1)
  }

  /** The first closing position is the one `CloseFrom` finds. */
  lemma CloseFromAt(s: string, i: nat, e: nat)
    requires i <= e <= |s| && ClosesAt(s, e)
    requires forall k | i <= k < e :: !ClosesAt(s, k)
    ensures CloseFrom(s, i) == Some(e)
  {
  }

  /** No three backticks in a row. */
  predicate NoTicks(g: string) {
    forall i | 0 <= i < |g| - 2 :: !(g[i] == '`' && g[i + 1] == '`' && g[i + 2] == '`')
  }

  /** Neither end is whitespace. */
  predicate Trimmed(g: string) {
    |g| > 0 ==> !Text.IsSpace(g[0]) && !Text.IsSpace(g[|g| - 1])
  }

  /** A match of the pattern: the group is `s[start..end]` and the search
      resumes at `next`. */
  datatype Match = Match(start: nat, end: nat, next: nat)

  /** One match of ```` ```markdown\s*(.*?)\s*``` ```` at position `p`.  The
      greedy `\s*` takes the whole whitespace run first; giving some back
      never helps, because the closing backticks cannot start inside a
      whitespace run. */
  function FenceAt(s: string, p: nat): (r: Option<Match>)
    requires p <= |s|
    ensures r.Some? ==> OpenAt(s, p)
    ensures r.Some? ==> p + |OPEN| <= r.value.start <= r.value.end && r.value.end + |TICKS| <= r.value.next <= |s|
  {
    if !OpenAt(s, p) then None
    else
      var b := WsEnd(s, p + |OPEN|);
      match CloseFrom(s, b)
      case None => None
      case Some(e) => Some(Match(b, e, WsEnd(s, e) + |TICKS|))
  }

  /** Dropping one whitespace character leaves the run's end in place. */
  lemma WsEndStep(s: string, i: nat)
    requires i < |s| && Text.IsSpace(s[i])
    ensures WsEnd(s, i) == WsEnd(s, i + 1)
  {
  }

  /** A matched group has no surrounding whitespace and no backtick fence. */
  lemma FenceGroup(s: string, p: nat)
    requires p <= |s| && FenceAt(s, p).Some?
    ensures var m := FenceAt(s, p).value; Trimmed(s[m.start..m.end]) && NoTicks(s[m.start..m.end])
  {
    var m := FenceAt(s, p).value;
    if m.start < m.end && Text.IsSpace(s[m.end - 1]) {
      WsEndStep(s, m.end - 1);
      assert ClosesAt(s, m.end - 1);
    }
    GroupNoTicks(s, m.start, m.end);
  }

  /** A lazy group that stops at the first `\s*```` holds no fence. */
  lemma GroupNoTicks(s: string, b: nat, e: nat)
    requires b <= e <= |s| && forall k | b <= k < e :: !ClosesAt(s, k)
    ensures NoTicks(s[b..e])
  {
    var g := s[b..e];
    forall i | 0 <= i < |g| - 2 ensures !(g[i] == '`' && g[i + 1] == '`' && g[i + 2] == '`') {
      var k := b + i;
      assert g[i] == s[k] && g[i + 1] == s[k + 1] && g[i + 2] == s[k + 2];
      assert b <= k < e;
      assert !ClosesAt(s, k);
      if s[k] == '`' {
        assert WsEnd(s, k) == k;
        assert !TicksAt(s, WsEnd(s, k));
        assert !TicksAt(s, k);
      }
    }
  }

  /** `re.findall` from position `p`: matches scanned left to right, each
      search resuming where the previous match ended. */
  function FindAllFrom(s: string, p: nat): (r: seq<string>)
    requires p <= |s|
    decreases |s| - p
  {
    if p == |s| then []
    else match FenceAt(s, p)
      case Some(m) => [s[m.start..m.end]] + FindAllFrom(s, m.next)
      case None => FindAllFrom(s, p + 1)
  }

  function FindAll(s: string): seq<string> {
    FindAllFrom(s, 0)
  }

  /** Every group `findall` returns is trimmed and fence-free. */
  lemma {:induction false} FindAllGroups(s: string, p: nat)
    requires p <= |s|
    ensures forall g | g in FindAllFrom(s, p) :: Trimmed(g) && NoTicks(g)
    decreases |s| - p
  {
    if p < |s| {
      match FenceAt(s, p)
      case Some(m) =>
        FenceGroup(s, p);
        FindAllGroups(s, m.next);
      case None =>
        FindAllGroups(s, p + 1);
    }
  }

  /** `extract_markdown_from_string`: the group of the only fenced block, or
      the input unchanged when there are none or several. */
  function ExtractMarkdown(s: string): (r: string)
    ensures |FindAll(s)| == 1 ==> r == FindAll(s)[0] && Trimmed(r) && NoTicks(r)
    ensures |FindAll(s)| != 1 ==> r == s
  {
    var m := FindAll(s);
    FindAllGroups(s, 0);
    if |m| == 1 then m[0] else s
  }

  /** A block as a model writes it. */
  function Wrap(body: string): (w: string)
    ensures |w| == |body| + |OPEN| + 5
    ensures forall k | 0 <= k < |OPEN| :: w[k] == OPEN[k]
    ensures w[|OPEN|] == '\n' && w[|OPEN| + 1 + |body|] == '\n'
    ensures forall k | 0 <= k < |body| :: w[|OPEN| + 1 + k] == body[k]
    ensures w[|w| - 3] == '`' && w[|w| - 2] == '`' && w[|w| - 1] == '`'
  {
    OPEN + "\n" + body + "\n" + TICKS
  }

  /** `s` holds `w` from position `p` on. */
  predicate HoldsAt(s: string, p: nat, w: string) {
    p + |w| <= |s| && forall k | 0 <= k < |w| :: s[p + k] == w[k]
  }

  /** Position by position, `s` holds the block of `body` at `p`; its body
      starts at `p + |OPEN| + 1` and its closing newline is at `Close(p, body)`. */
  predicate Framed(s: string, p: nat, body: string) {
    && OpenAt(s, p)
    && p + |OPEN| + |body| + 5 <= |s|
    && s[p + |OPEN|] == '\n'
    && (forall k | 0 <= k < |body| :: s[p + |OPEN| + 1 + k] == body[k])
    && s[p + |OPEN| + 1 + |body|] == '\n'
    && TicksAt(s, p + |OPEN| + 2 + |body|)
  }

  lemma HoldsFramed(s: string, p: nat, body: string)
    requires HoldsAt(s, p, Wrap(body))
    ensures Framed(s, p, body)
  {
    var w := Wrap(body);
    var n := |OPEN|;
    forall k | 0 <= k < n ensures s[p + k] == OPEN[k] {
      assert s[p + k] == w[k];
    }
    assert s[p + n] == w[n];
    forall k | 0 <= k < |body| ensures s[p + n + 1 + k] == body[k] {
      assert s[p + n + 1 + k] == w[n + 1 + k];
    }
    var e := p + n + 1 + |body|;
    assert s[e] == w[n + 1 + |body|];
    assert s[e + 1] == w[|w| - 3] && s[e + 2] == w[|w| - 2] && s[e + 3] == w[|w| - 1];
  }

  /** The closing `\n```` of a framed block matches `\s*````. */
  lemma FramedCloses(s: string, p: nat, body: string)
    requires Framed(s, p, body)
    ensures var e := p + |OPEN| + 1 + |body|; WsEnd(s, e) == e + 1 && ClosesAt(s, e) && ClosesAt(s, e + 1)
  {
    var e := p + |OPEN| + 1 + |body|;
    assert WsEnd(s, e + 1) == e + 1;
    WsEndStep(s, e);
  }

  /** A wrapped trimmed fence-free body is matched whole, whatever surrounds
      it. */
  lemma FenceWrap(s: string, p: nat, body: string)
    requires Trimmed(body) && NoTicks(body) && HoldsAt(s, p, Wrap(body))
    ensures FenceAt(s, p).Some?
    ensures var m := FenceAt(s, p).value; s[m.start..m.end] == body && m.next == p + |Wrap(body)|
  {
    HoldsFramed(s, p, body);
    if body == [] {
      FenceWrapEmpty(s, p);
    } else {
      FenceWrapBody(s, p, body);
    }
  }

  lemma FenceWrapEmpty(s: string, p: nat)
    requires Framed(s, p, [])
    ensures FenceAt(s, p) == Some(Match(p + |OPEN| + 2, p + |OPEN| + 2, p + |OPEN| + 5))
  {
    var e := p + |OPEN| + 1;
    FramedCloses(s, p, []);
    WsEndStep(s, p + |OPEN|);
    CloseFromAt(s, e + 1, e + 1);
  }

  lemma FenceWrapBody(s: string, p: nat, body: string)
    requires Trimmed(body) && NoTicks(body) && Framed(s, p, body) && body != []
    ensures FenceAt(s, p).Some?
    ensures var m := FenceAt(s, p).value;
      m.start == p + |OPEN| + 1 && m.end == m.start + |body| && m.next == m.end + 4
      && s[m.start..m.end] == body
  {
    var b := p + |OPEN| + 1;
    var e := b + |body|;
    FramedCloses(s, p, body);
    assert s[b] == body[0];
    assert WsEnd(s, b) == b;
    WsEndStep(s, p + |OPEN|);
    forall k | b <= k < e ensures !ClosesAt(s, k) {
      NotClosedInBody(s, p, body, k);
    }
    CloseFromAt(s, b, e);
    assert s[b..e] == body;
  }

  /** Inside a framed trimmed fence-free body, `\s*```` never matches. */
  lemma NotClosedInBody(s: string, p: nat, body: string, k: nat)
    requires Trimmed(body) && NoTicks(body) && Framed(s, p, body)
    requires p + |OPEN| + 1 <= k < p + |OPEN| + 1 + |body|
    ensures !ClosesAt(s, k)
  {
    var b := p + |OPEN| + 1;
    var e := b + |body|;
    assert s[e - 1] == body[|body| - 1];
    var j := WsEnd(s, k);
    assert j < e;
    assert s[e] == '\n';
    if j + 2 < e {
      var i := j - b;
      assert body[i] == s[j] && body[i + 1] == s[j + 1] && body[i + 2] == s[j + 2];
    }
  }

  /** A single wrapped block is extracted exactly. */
  lemma ExtractWrapped(body: string)
    requires Trimmed(body) && NoTicks(body)
    ensures ExtractMarkdown(Wrap(body)) == body
  {
    var w := Wrap(body);
    assert HoldsAt(w, 0, w);
    FenceWrap(w, 0, body);
    assert FindAllFrom(w, |w|) == [];
    assert FindAll(w) == [body];
  }

  lemma HoldsConcat(a: string, b: string)
    ensures HoldsAt(a + b, 0, a) && HoldsAt(a + b, |a|, b)
  {
  }

  /** Two blocks leave the response unchanged. */
  lemma ExtractTwo(x: string, y: string)
    requires Trimmed(x) && NoTicks(x) && Trimmed(y) && NoTicks(y)
    ensures ExtractMarkdown(Wrap(x) + Wrap(y)) == Wrap(x) + Wrap(y)
  {
    var s := Wrap(x) + Wrap(y);
    HoldsConcat(Wrap(x), Wrap(y));
    FenceWrap(s, 0, x);
    FenceWrap(s, |Wrap(x)|, y);
    assert FindAllFrom(s, |s|) == [];
    assert FindAllFrom(s, |Wrap(x)|) == [y] + FindAllFrom(s, |s|);
    assert FindAll(s) == [x] + FindAllFrom(s, |Wrap(x)|);
  }

  /** Without an opening fence anywhere, nothing matches and the response is
      returned as it is. */
  lemma {:induction false} NoOpenNoMatch(s: string, p: nat)
    requires p <= |s| && forall i | p <= i <= |s| :: !OpenAt(s, i)
    ensures FindAllFrom(s, p) == []
    decreases |s| - p
  {
    if p < |s| {
      NoOpenNoMatch(s, p + 1);
    }
  }

  lemma NoOpenUnchanged(s: string)
    requires forall i | 0 <= i <= |s| :: !OpenAt(s, i)
    ensures ExtractMarkdown(s) == s
  {
    NoOpenNoMatch(s, 0);
  }

  // ---------------------------------------------------------------- prompt and content

  const INPUT_HEADER := "\n\n# INPUT"

  predicate StartsWith(s: string, p: string) {
    |p| <= |s| && s[..|p|] == p
  }

  /** The system prompt text before template rendering: the default
      instructions (when set and non-empty) and a blank line, the
      transformation's prompt, and the input header. */
  function PromptText(prompt: string, instructions: Option<string>): (r: string)
  {
    var body := if instructions.Some? && instructions.value != "" then instructions.value + "\n\n" + prompt else prompt;
    body + INPUT_HEADER
  }

  /** Recovers the transformation's prompt from a composed prompt text. */
  function PromptOf(text: string, instructions: Option<string>): (r: Option<string>)
  {
    var pre := if instructions.Some? && instructions.value != "" then instructions.value + "\n\n" else "";
    if |text| >= |pre| + |INPUT_HEADER| && text[..|pre|] == pre && text[|text| - |INPUT_HEADER|..] == INPUT_HEADER
    then Some(text[|pre|..|text| - |INPUT_HEADER|])
    else None
  }

  /** The composed prompt ends with the input header, starts with the
      instructions when there are any, and gives the prompt back. */
  lemma PromptRoundTrip(prompt: string, instructions: Option<string>)
    ensures var r := PromptText(prompt, instructions);
      && |r| >= |INPUT_HEADER| && r[|r| - |INPUT_HEADER|..] == INPUT_HEADER
      && (instructions.Some? && instructions.value != "" ==> StartsWith(r, instructions.value + "\n\n"))
      && PromptOf(r, instructions) == Some(prompt)
  {
  }

  /** The text the model is asked to transform: the input text when it is
      non-empty, else the source's full text; with neither the assertion
      fails.  A source object is always truthy. */
  function Content(inputText: Option<string>, source: Option<Objects.Obj>): (r: Result<Value>)
    ensures r.Failure? <==> (inputText.None? || inputText.value == "") && source.None?
    ensures r.Failure? ==> r.error == AssertionError
    ensures r.Success? && inputText.Some? && inputText.value != "" ==> r.value == VStr(inputText.value)
    ensures r.Success? && (inputText.None? || inputText.value == "") ==> r.value == source.value.At(FULL_TEXT)
  {
    if (inputText.None? || inputText.value == "") && source.None? then Failure(AssertionError)
    else if inputText.Some? && inputText.value != "" then Success(VStr(inputText.value))
    else Success(source.value.At(FULL_TEXT))
  }

  const FULL_TEXT := "full_text"

  // ---------------------------------------------------------------- the graph run

  /** The graph's state: `input_text`, `source` and `transformation`, each of
      which may be absent. */
  datatype GraphInput = GraphInput(inputText: Option<string>, source: Option<Objects.Obj>, transformation: Option<Objects.Obj>)

  /** The language model behind `provision_langchain_model(...).invoke`:
      prompt text and content in, response text out, or the error raised
      while provisioning or calling it. */
  type Responder = (string, Value) -> Result<string>

  /** `str(v)` in an f-string for the text fields of a transformation. */
  function Text_(v: Value): string {
    match v
    case VStr(s) => s
    case _ => "None"
  }

  /** The response of the model for this input, or the error raised before
      or by the call. */
  function Respond(g: GraphInput, instructions: Option<string>, respond: Responder): (r: Result<string>)
    ensures r.Success? ==> Content(g.inputText, g.source).Success? && g.transformation.Some?
    ensures Content(g.inputText, g.source).Failure? ==> r == Failure(AssertionError)
    ensures Content(g.inputText, g.source).Success? && g.transformation.None? ==> r == Failure(AttributeError)
  {
    match Content(g.inputText, g.source)
    case Failure(e) => Failure(e)
    case Success(content) =>
      match g.transformation
      case None => Failure(AttributeError)
      case Some(t) => respond(PromptText(Text_(t.At(TransformTab.PROMPT)), instructions), content)
  }

  /** `run_transformation` as written: with a source it reads
      `transformation.title`, a field `Transformation` does not declare. */
  function RunAsWritten(db: Db, g: GraphInput, instructions: Option<string>, respond: Responder): (r: (Db, Result<string>))
    ensures r.0 == db
    ensures g.source.Some? ==> r.1.Failure?
    ensures g.source.None? ==> r.1 == (match Respond(g, instructions, respond) case Success(x) => Success(ExtractMarkdown(x)) case Failure(e) => Failure(e))
  {
    match Respond(g, instructions, respond)
    case Failure(e) => (db, Failure(e))
    case Success(response) =>
      if g.source.Some? then (db, Failure(AttributeError))
      else (db, Success(ExtractMarkdown(response)))
  }

  /** Whenever a source is given, the run as written raises AttributeError
      after the model has answered, so no insight is ever stored and no
      output returned. */
  lemma AsWrittenNeverStoresInsight(db: Db, g: GraphInput, instructions: Option<string>, respond: Responder)
    requires g.source.Some? && Respond(g, instructions, respond).Success?
    ensures RunAsWritten(db, g, instructions, respond) == (db, Failure(AttributeError))
  {
  }

  /** `run_transformation` with the insight typed by the transformation's
      name: with a source, the response is stored as an insight of it before
      the extracted output is returned. A failed call leaves every document
      as it was, though saving may already have created the vector index. */
  function RunTransformation(db: Db, g: GraphInput, instructions: Option<string>, respond: Responder,
                             now: int, model: Result<Option<Objects.EmbedFn>>): (r: (Db, Result<string>))
    ensures forall c | c != Notes.INSIGHTS :: Docs(r.0, c) == Docs(db, c)
    ensures g.source.None? ==> r == RunAsWritten(db, g, instructions, respond)
    ensures r.1.Success? ==>
      && Respond(g, instructions, respond).Success?
      && r.1.value == ExtractMarkdown(Respond(g, instructions, respond).value)
    ensures Respond(g, instructions, respond).Failure? ==> r == (db, Failure(Respond(g, instructions, respond).error))
    ensures r.1.Failure? ==> r.0.colls == db.colls
    ensures g.source.Some? && r.1.Success? && UniqueIds(Docs(db, Notes.INSIGHTS)) ==>
      var n := |Docs(db, Notes.INSIGHTS)|;
      var t := g.transformation.value;
      && |Docs(r.0, Notes.INSIGHTS)| == n + 1
      && Docs(r.0, Notes.INSIGHTS)[..n] == Docs(db, Notes.INSIGHTS)
      && Notes.INSIGHT_TYPE in Docs(r.0, Notes.INSIGHTS)[n]
      && Docs(r.0, Notes.INSIGHTS)[n][Notes.INSIGHT_TYPE] == VStr(Text_(t.At(TransformTab.NAME)))
      && Notes.CONTENT in Docs(r.0, Notes.INSIGHTS)[n]
      && Docs(r.0, Notes.INSIGHTS)[n][Notes.CONTENT] == VStr(Respond(g, instructions, respond).value)
  {
    match Respond(g, instructions, respond)
    case Failure(e) => (db, Failure(e))
    case Success(response) =>
      match g.source
      case None => (db, Success(ExtractMarkdown(response)))
      case Some(src) =>
        var t := g.transformation.value;
        var (db', added) := Notes.AddInsight(db, src, Text_(t.At(TransformTab.NAME)), response, now, now, model);
        if added.Failure? then (db', Failure(added.error))
        else
          (if UniqueIds(Docs(db, Notes.INSIGHTS)) then
             Notes.AddInsightStores(db, src, Text_(t.At(TransformTab.NAME)), response, now, now, model);
             (db', Success(ExtractMarkdown(response)))
           else (db', Success(ExtractMarkdown(response))))
  }
  // ---------------------------------------------------------------- the prompt record

  const INSTRUCTIONS := "transformation_instructions"

  /** `default_prompts.transformation_instructions`: its text when it holds one. */
  function InstructionsOf(i: Records.Inst): (r: Option<string>)
    ensures r.Some? <==> INSTRUCTIONS in i.fields && i.fields[INSTRUCTIONS].VStr?
  {
    if INSTRUCTIONS in i.fields && i.fields[INSTRUCTIONS].VStr? then Some(i.fields[INSTRUCTIONS].s) else None
  }

  /** `DefaultPrompts()` and its `transformation_instructions`: the registered
      instance's, or, the first time, those of the instance built from the
      stored record and registered; a stored record that does not validate
      raises. */
  function LoadInstructions(reg: Records.Registry, db: Db): (r: (Records.Registry, Result<Option<string>>))
    ensures r.0 == Records.New(reg, db, Records.DefaultPrompts, []).0
    ensures r.1.Failure? <==> Records.New(reg, db, Records.DefaultPrompts, []).1.Failure?
    ensures r.1.Failure? ==> r.1.error == ValidationError
    ensures r.1.Success? ==>
      && Records.RecordId(Records.DefaultPrompts) in r.0
      && r.1.value == InstructionsOf(r.0[Records.RecordId(Records.DefaultPrompts)])
  {
    var (reg1, res) := Records.New(reg, db, Records.DefaultPrompts, []);
    match res
    case Failure(e) => (reg1, Failure(e))
    case Success(i) => (reg1, Success(InstructionsOf(i)))
  }

  /** Once registered, the instance's instructions are used and the stored
      record is not read again. */
  lemma LoadRegistered(reg: Records.Registry, db: Db)
    requires Records.RecordId(Records.DefaultPrompts) in reg
    ensures LoadInstructions(reg, db) == (reg, Success(InstructionsOf(reg[Records.RecordId(Records.DefaultPrompts)])))
  {
    var rid := Records.RecordId(Records.DefaultPrompts);
    assert reg[rid := reg[rid]] == reg;
  }

  /** The first time, the text stored in the `record` collection is used. */
  lemma LoadStored(reg: Records.Registry, db: Db, text: string)
    requires Records.RecordId(Records.DefaultPrompts) !in reg && Records.Stored(db, Records.DefaultPrompts).Some?
    requires var d := Records.Stored(db, Records.DefaultPrompts).value; INSTRUCTIONS in d && d[INSTRUCTIONS] == VStr(text)
    ensures LoadInstructions(reg, db).1 == Success(Some(text))
  {
    Records.FirstLoad(reg, db, Records.DefaultPrompts);
    var d := Records.Stored(db, Records.DefaultPrompts).value;
    assert INSTRUCTIONS in Records.FieldNames(Records.DefaultPrompts);
    assert Objects.Coerce(VStr(text), Objects.TOptStr) == Some(VStr(text));
  }

  /** What `run_transformation` has read when it reaches `DefaultPrompts()`:
      the content assertion and `transformation.prompt` come first, then the
      record is loaded. */
  function Loaded(reg: Records.Registry, db: Db, g: GraphInput): (r: (Records.Registry, Result<Option<string>>))
    ensures Content(g.inputText, g.source).Failure? ==> r == (reg, Failure(AssertionError))
    ensures Content(g.inputText, g.source).Success? && g.transformation.None? ==> r == (reg, Failure(AttributeError))
    ensures Content(g.inputText, g.source).Success? && g.transformation.Some? ==> r == LoadInstructions(reg, db)
  {
    if Content(g.inputText, g.source).Failure? then (reg, Failure(AssertionError))
    else if g.transformation.None? then (reg, Failure(AttributeError))
    else LoadInstructions(reg, db)
  }

  /** The node as written, with its prompt record: the registry after
      `DefaultPrompts()`, the database and the result. */
  function RunNodeAsWritten(reg: Records.Registry, db: Db, g: GraphInput, respond: Responder)
    : (r: (Records.Registry, Db, Result<string>))
    ensures r.0 == Loaded(reg, db, g).0
    ensures Loaded(reg, db, g).1.Failure? ==> r.1 == db && r.2 == Failure(Loaded(reg, db, g).1.error)
    ensures Loaded(reg, db, g).1.Success? ==> (r.1, r.2) == RunAsWritten(db, g, Loaded(reg, db, g).1.value, respond)
  {
    var (reg1, ins) := Loaded(reg, db, g);
    match ins
    case Failure(e) => (reg1, db, Failure(e))
    case Success(x) =>
      var (db1, res) := RunAsWritten(db, g, x, respond);
      (reg1, db1, res)
  }

  /** The corrected node, with its prompt record. */
  function RunNode(reg: Records.Registry, db: Db, g: GraphInput, respond: Responder,
                   now: int, model: Result<Option<Objects.EmbedFn>>): (r: (Records.Registry, Db, Result<string>))
    ensures r.0 == Loaded(reg, db, g).0
    ensures Loaded(reg, db, g).1.Failure? ==> r.1 == db && r.2 == Failure(Loaded(reg, db, g).1.error)
    ensures Loaded(reg, db, g).1.Success? ==>
      (r.1, r.2) == RunTransformation(db, g, Loaded(reg, db, g).1.value, respond, now, model)
  {
    var (reg1, ins) := Loaded(reg, db, g);
    match ins
    case Failure(e) => (reg1, db, Failure(e))
    case Success(x) =>
      var (db1, res) := RunTransformation(db, g, x, respond, now, model);
      (reg1, db1, res)
  }

  /** A stored prompt record that does not validate makes the node raise
      before the model is called, writing nothing. */
  lemma InvalidRecordRaises(reg: Records.Registry, db: Db, g: GraphInput, respond: Responder,
                            now: int, model: Result<Option<Objects.EmbedFn>>)
    requires Content(g.inputText, g.source).Success? && g.transformation.Some?
    requires Records.RecordId(Records.DefaultPrompts) !in reg && Records.Stored(db, Records.DefaultPrompts).Some?
    requires var d := Records.Stored(db, Records.DefaultPrompts).value;
      INSTRUCTIONS in d && !d[INSTRUCTIONS].VStr? && !d[INSTRUCTIONS].VNull?
    ensures RunNode(reg, db, g, respond, now, model) == (reg, db, Failure(ValidationError))
  {
    Records.FirstLoad(reg, db, Records.DefaultPrompts);
    assert INSTRUCTIONS in Records.FieldNames(Records.DefaultPrompts);
  }
}

=== FILE: transformtab.dfy ===
/** The transformations tab of the web UI (`webui/tabs/transformations.py`):
    creating, editing and deleting transformations, remembering which of
    their accordions are open, and running one from the playground.

    Each handler returns `datetime.now()` only to make the tab reload the
    list; that value is not modelled. */
module TransformTab {
  import opened Wrappers
  import opened Store
  import Objects
  import Selector

  const TABLE := "transformation"

  const NAME := "name"
  const DESCRIPTION := "description"
  const PROMPT := "prompt"

  // ---------------------------------------------------------------- open states

  /** The `while len(...) <= index: append(False)` loop. */
  function Pad(s: seq<bool>, index: int): (r: seq<bool>)
    ensures |r| == if index < |s| then |s| else index + 1
    ensures r[..|s|] == s
    ensures forall i | |s| <= i < |r| :: !r[i]
    decreases if index < |s| then 0 else index + 1 - |s|
  {
    if |s| <= index then Pad(s + [false], index) else s
  }

  /** `set_transformation_open_state(index, states, state)`: the list grown
      with closed entries until `index` is in range, then entry `index` set.
      A negative index is Python's count from the end, and raises
      IndexError past the front. */
  function SetOpenState(index: int, s: seq<bool>, state: bool): (r: Result<seq<bool>>)
    ensures r.Failure? <==> index < -|s|
    ensures r.Failure? ==> r.error == IndexError
    ensures 0 <= index ==> r.Success? && |r.value| == (if index < |s| then |s| else index + 1)
    ensures 0 <= index ==> r.value[index] == state
    ensures 0 <= index ==> forall i | 0 <= i < |r.value| && i != index :: r.value[i] == (i < |s| && s[i])
    ensures index < 0 && r.Success? ==> r.value == s[|s| + index := state]
  {
    var p := Pad(s, index);
    if index >= 0 then
      assert forall i | 0 <= i < |s| :: p[i] == p[..|s|][i];
      Success(p[index := state])
    else if -|s| <= index then Success(p[|s| + index := state])
    else Failure(IndexError)
  }

  /** How the accordions read the list: `open_states[idx] if
      len(open_states) > idx else False`. */
  function OpenAt(s: seq<bool>, idx: nat): bool {
    if idx < |s| then s[idx] else false
  }

  /** Setting entry `index` changes what the accordion at `index` reads, to
      `state`, and nothing any other accordion reads. */
  lemma OpenStateReadBack(index: nat, s: seq<bool>, state: bool, idx: nat)
    ensures SetOpenState(index, s, state).Success?
    ensures OpenAt(SetOpenState(index, s, state).value, idx) == if idx == index then state else OpenAt(s, idx)
  {
  }

  /** Setting the same entry twice to the same value is setting it once. */
  lemma {:induction false} SetOpenStateIdempotent(index: nat, s: seq<bool>, state: bool)
    ensures var once := SetOpenState(index, s, state).value;
      SetOpenState(index, once, state) == Success(once)
  {
    var once := SetOpenState(index, s, state).value;
    var twice := SetOpenState(index, once, state).value;
    assert |twice| == |once|;
    forall i | 0 <= i < |once| ensures twice[i] == once[i] {
      if i != index {
        assert twice[i] == (i < |once| && once[i]);
      }
    }
    assert twice == once;
  }

  // ---------------------------------------------------------------- running

  /** The transformation's name matches: `t.name == transformation_name`. */
  predicate Named(t: Objects.Obj, name: string) {
    t.At(NAME) == VStr(name)
  }

  /** Index of the first transformation with that name. */
  function FirstNamed(ts: seq<Objects.Obj>, name: string): (r: Option<nat>)
    ensures r.Some? ==> r.value < |ts| && Named(ts[r.value], name)
    ensures r.Some? ==> forall j | 0 <= j < r.value :: !Named(ts[j], name)
    ensures r.None? <==> forall j | 0 <= j < |ts| :: !Named(ts[j], name)
    decreases |ts|
  {
    if |ts| == 0 then None
    else if Named(ts[0], name) then Some(0)
    else match FirstNamed(ts[1..], name)
      case None => None
      case Some(k) => Some(k + 1)
  }

  /** `next(filter(lambda t: t.name == name, transformations), None)` */
  function Lookup(ts: seq<Objects.Obj>, name: string): (r: Option<Objects.Obj>)
    ensures r.None? <==> forall t | t in ts :: !Named(t, name)
    ensures r.Some? ==> r.value in ts && Named(r.value, name)
    ensures r.Some? ==> exists i | 0 <= i < |ts| :: ts[i] == r.value && forall j | 0 <= j < i :: !Named(ts[j], name)
  {
    match FirstNamed(ts, name)
    case None => None
    case Some(i) => Some(ts[i])
  }

  /** What `run_transformation` hands the transformation graph: the input
      text, the transformation (or None) and the model id. */
  datatype Invocation = Invocation(input: string, transformation: Option<Objects.Obj>, modelId: Value)

  /** `run_transformation` up to the graph call: the first stored
      transformation with the picked name (or None) and the id of the
      language model picked by key.  With no such model, reading `model.id`
      of None raises AttributeError. */
  function RunTransformation(db: Db, name: string, key: string, input: string): (r: Result<Invocation>)
    ensures var m := Selector.GetModelFromKey(db, key, "language");
      && (m.Failure? ==> r == Failure(m.error))
      && (m == Success(None) ==> r == Failure(AttributeError))
      && (m.Success? && m.value.Some? ==> r.Success? && r.value.input == input && r.value.modelId == m.value.value.Id())
    ensures r.Success? ==>
      var ts := Objects.GetAll(db, Objects.Sub(Objects.Transformation)).value;
      var t := r.value.transformation;
      && (t.None? <==> forall u | u in ts :: !Named(u, name))
      && (t.Some? ==> t.value in ts && Named(t.value, name))
      && t == Lookup(ts, name)
    ensures r.Success? && r.value.transformation.Some? ==>
      var t := r.value.transformation.value;
      t.kind == Objects.Transformation && Objects.Valid(t)
  {
    var ts := Objects.GetAll(db, Objects.Sub(Objects.Transformation)).value;
    var t := Lookup(ts, name);
    match Selector.GetModelFromKey(db, key, "language")
    case Failure(e) => Failure(e)
    case Success(None) => Failure(AttributeError)
    case Success(Some(m)) => Success(Invocation(input, t, m.Id()))
  }

  // ---------------------------------------------------------------- editing

  /** `Transformation(name="", description="", prompt="")` */
  function Blank(): (r: Objects.Obj)
    ensures r.kind == Objects.Transformation && r.Id() == VNull && Objects.Valid(r)
    ensures r.At(NAME) == VStr("") && r.At(DESCRIPTION) == VStr("") && r.At(PROMPT) == VStr("")
  {
    BlankConstructs();
    BlankValid();
    Objects.Construct(Objects.Transformation, BlankDoc()).value
  }

  /** The keyword arguments of the blank transformation. */
  function BlankDoc(): Doc {
    map[NAME := VStr(""), DESCRIPTION := VStr(""), PROMPT := VStr("")]
  }

  /** The blank transformation validates, has no id and three empty texts. */
  lemma BlankConstructs()
    ensures var c := Objects.Construct(Objects.Transformation, BlankDoc());
      && c.Success? && c.value.kind == Objects.Transformation && c.value.Id() == VNull
      && c.value.At(NAME) == VStr("") && c.value.At(DESCRIPTION) == VStr("") && c.value.At(PROMPT) == VStr("")
  {
    var doc := BlankDoc();
    var s := Objects.Schema(Objects.Transformation);
    BlankBuilds();
    assert s[0] == Objects.FieldSpec(ID_KEY, Objects.TOptOid, Some(VNull)) && ID_KEY !in doc;
    assert s[3] == Objects.FieldSpec(NAME, Objects.TStr, None);
    assert s[4] == Objects.FieldSpec(DESCRIPTION, Objects.TStr, None);
    assert s[5] == Objects.FieldSpec(PROMPT, Objects.TStr, None);
    Objects.ConstructField(Objects.Transformation, doc, 0);
    Objects.ConstructField(Objects.Transformation, doc, 3);
    Objects.ConstructField(Objects.Transformation, doc, 4);
    Objects.ConstructField(Objects.Transformation, doc, 5);
  }

  /** Every field of the transformation schema resolves from the blank
      keyword arguments. */
  lemma BlankBuilds()
    ensures Objects.Construct(Objects.Transformation, BlankDoc()).Success?
  {
    var doc := BlankDoc();
    var s := Objects.Schema(Objects.Transformation);
    assert s == [Objects.FieldSpec(ID_KEY, Objects.TOptOid, Some(VNull)),
                 Objects.FieldSpec(Objects.CREATED, Objects.TOptTime, Some(VNull)),
                 Objects.FieldSpec(Objects.UPDATED, Objects.TOptTime, Some(VNull)),
                 Objects.FieldSpec(NAME, Objects.TStr, None),
                 Objects.FieldSpec(DESCRIPTION, Objects.TStr, None),
                 Objects.FieldSpec(PROMPT, Objects.TStr, None)];
    assert Objects.Resolve(s[3], doc).Some? && Objects.Resolve(s[4], doc).Some? && Objects.Resolve(s[5], doc).Some?;
  }

  lemma BlankValid()
    ensures Objects.Construct(Objects.Transformation, BlankDoc()).Success?
    ensures Objects.Valid(Objects.Construct(Objects.Transformation, BlankDoc()).value)
  {
    BlankConstructs();
    Objects.ConstructRoundTrip(Objects.Transformation, BlankDoc());
  }

  /** `create_transformation`: one new record whose name, description and
      prompt are empty.  A failed insert changes nothing. */
  function CreateTransformation(db: Db, now: int): (r: (Db, Result<Objects.Obj>))
    ensures Created(db, r)
  {
    SaveBlank(db, now);
    Objects.Save(db, Blank(), now, now, Success(None))
  }

  /** What creating a transformation promises: a failure changes nothing;
      only the transformation table changes; a success returns a stored
      transformation, and on a table with unique ids appends exactly one
      record, carrying the returned id and an empty name, description and
      prompt. */
  ghost predicate Created(db: Db, r: (Db, Result<Objects.Obj>)) {
    && (r.1.Failure? ==> r.0 == db)
    && (forall c | c != TABLE :: Docs(r.0, c) == Docs(db, c))
    && (r.1.Success? ==> r.1.value.kind == Objects.Transformation && r.1.value.Id() != VNull)
    && (r.1.Success? && UniqueIds(Docs(db, TABLE)) ==>
          var old_ := Docs(db, TABLE);
          var new_ := Docs(r.0, TABLE);
          && |new_| == |old_| + 1 && new_[..|old_|] == old_
          && ID_KEY in new_[|old_|] && new_[|old_|][ID_KEY] == r.1.value.Id()
          && Empty(new_[|old_|]) && r.1.value.At(NAME) == VStr("") && r.1.value.At(DESCRIPTION) == VStr("")
          && r.1.value.At(PROMPT) == VStr(""))
  }

  /** The stored record has an empty name, description and prompt. */
  predicate Empty(d: Doc) {
    && NAME in d && d[NAME] == VStr("")
    && DESCRIPTION in d && d[DESCRIPTION] == VStr("")
    && PROMPT in d && d[PROMPT] == VStr("")
  }

  lemma SaveBlank(db: Db, now: int)
    ensures Created(db, Objects.Save(db, Blank(), now, now, Success(None)))
  {
    var r := Objects.Save(db, Blank(), now, now, Success(None));
    BlankConstructs();
    assert Objects.TableName(Blank().kind) == TABLE;
    if r.1.Failure? {
      SaveBlankFails(db, now);
    } else if UniqueIds(Docs(db, TABLE)) {
      SaveBlankInserts(db, now);
    }
  }

  /** A non-embedding object saves without touching the vector index, so a
      failed save leaves the store as it was. */
  lemma SaveBlankFails(db: Db, now: int)
    requires Objects.Save(db, Blank(), now, now, Success(None)).1.Failure?
    ensures Objects.Save(db, Blank(), now, now, Success(None)).0 == db
  {
    var o := Blank();
    assert !Objects.Embeds(o);
    assert Objects.SaveData(o, now, Success(None)).value.1.None?;
  }

  lemma SaveBlankInserts(db: Db, now: int)
    requires UniqueIds(Docs(db, TABLE))
    requires Objects.Save(db, Blank(), now, now, Success(None)).1.Success?
    ensures var r := Objects.Save(db, Blank(), now, now, Success(None));
      var old_ := Docs(db, TABLE);
      var new_ := Docs(r.0, TABLE);
      && |new_| == |old_| + 1 && new_[..|old_|] == old_
      && ID_KEY in new_[|old_|] && new_[|old_|][ID_KEY] == r.1.value.Id()
      && Empty(new_[|old_|]) && r.1.value.At(NAME) == VStr("") && r.1.value.At(DESCRIPTION) == VStr("")
      && r.1.value.At(PROMPT) == VStr("")
  {
    BlankConstructs();
    SaveEmptyInserts(db, Blank(), now);
  }

  /** Saving a new transformation whose three texts are empty appends one
      empty record carrying the id it was given. */
  lemma SaveEmptyInserts(db: Db, o: Objects.Obj, now: int)
    requires o.kind == Objects.Transformation && o.Id() == VNull
    requires o.At(NAME) == VStr("") && o.At(DESCRIPTION) == VStr("") && o.At(PROMPT) == VStr("")
    requires UniqueIds(Docs(db, TABLE))
    requires Objects.Save(db, o, now, now, Success(None)).1.Success?
    ensures var r := Objects.Save(db, o, now, now, Success(None));
      var old_ := Docs(db, TABLE);
      var new_ := Docs(r.0, TABLE);
      && |new_| == |old_| + 1 && new_[..|old_|] == old_
      && ID_KEY in new_[|old_|] && new_[|old_|][ID_KEY] == r.1.value.Id()
      && Empty(new_[|old_|]) && r.1.value.At(NAME) == VStr("") && r.1.value.At(DESCRIPTION) == VStr("")
      && r.1.value.At(PROMPT) == VStr("")
  {
    assert Objects.TableName(o.kind) == TABLE;
    assert NAME in o.fields && DESCRIPTION in o.fields && PROMPT in o.fields;
    TextFieldsNamed();
    Objects.SaveInserts(db, o, now, now, Success(None));
  }

  /** Name, description and prompt are fields of the transformation schema. */
  lemma TextFieldsNamed()
    ensures var names := Objects.Names(Objects.Schema(Objects.Transformation));
      NAME in names && DESCRIPTION in names && PROMPT in names
  {
    assert Objects.Schema(Objects.Transformation)[3].name == NAME;
    assert Objects.Schema(Objects.Transformation)[4].name == DESCRIPTION;
    assert Objects.Schema(Objects.Transformation)[5].name == PROMPT;
  }

  /** The object `update_transformation` saves: the given one with exactly
      its name, description and prompt replaced. */
  function Edited(t: Objects.Obj, name: string, description: string, prompt: string): (r: Objects.Obj)
    ensures r.kind == t.kind && r.Id() == t.Id()
    ensures r.At(NAME) == VStr(name) && r.At(DESCRIPTION) == VStr(description) && r.At(PROMPT) == VStr(prompt)
    ensures forall k | k !in {NAME, DESCRIPTION, PROMPT} :: r.At(k) == t.At(k)
    ensures r.fields.Keys == t.fields.Keys + {NAME, DESCRIPTION, PROMPT}
  {
    t.(fields := t.fields[NAME := VStr(name)][DESCRIPTION := VStr(description)][PROMPT := VStr(prompt)])
  }

  /** `update_transformation`: set the three fields, then save.  Saving a
      stored transformation keeps its `created` and reads the new values
      back. */
  function UpdateTransformation(db: Db, t: Objects.Obj, name: string, description: string, prompt: string, now: int)
    : (r: (Db, Result<Objects.Obj>))
    ensures forall c | c != Objects.TableName(t.kind) :: Docs(r.0, c) == Docs(db, c)
    ensures r.1.Success? ==> r.1.value.kind == t.kind
    ensures r.1.Success? && t.Id() != VNull ==> r.1.value.Id() == t.Id()
    ensures (r.1.Success? && t.kind == Objects.Transformation && t.Id() != VNull
             && |Query(db, TABLE, [Eq(ID_KEY, t.Id())])| > 0) ==>
      && |Docs(r.0, TABLE)| == |Docs(db, TABLE)|
      && r.1.value.At(NAME) == VStr(name)
      && r.1.value.At(DESCRIPTION) == VStr(description)
      && r.1.value.At(PROMPT) == VStr(prompt)
      && r.1.value.At(Objects.CREATED) == t.At(Objects.CREATED)
  {
    var e := Edited(t, name, description, prompt);
    var r := Objects.Save(db, e, now, now, Success(None));
    if r.1.Success? && t.kind == Objects.Transformation && t.Id() != VNull && |Query(db, TABLE, [Eq(ID_KEY, t.Id())])| > 0 then
      SaveEdited(db, e, now);
      r
    else r
  }

  lemma SaveEdited(db: Db, e: Objects.Obj, now: int)
    requires e.kind == Objects.Transformation && e.Id() != VNull
    requires |Query(db, TABLE, [Eq(ID_KEY, e.Id())])| > 0
    requires Objects.Save(db, e, now, now, Success(None)).1.Success?
    ensures var r := Objects.Save(db, e, now, now, Success(None));
      && |Docs(r.0, TABLE)| == |Docs(db, TABLE)|
      && (forall n | n in {NAME, DESCRIPTION, PROMPT} && e.At(n) != VNull :: r.1.value.At(n) == e.At(n))
      && r.1.value.At(Objects.CREATED) == e.At(Objects.CREATED)
  {
    Objects.SaveUpdates(db, e, now, now, Success(None));
    TextFieldsNamed();
  }

  /** `delete_transformation` */
  function DeleteTransformation(db: Db, t: Objects.Obj): (r: (Db, Result<nat>))
    ensures t.Id() == VNull <==> r.1.Failure?
    ensures r.1.Failure? ==> r.0 == db
    ensures forall c | c != Objects.TableName(t.kind) :: Docs(r.0, c) == Docs(db, c)
    ensures r.1.Success? ==> r.1.value <= 1 && |Docs(r.0, Objects.TableName(t.kind))| == |Docs(db, Objects.TableName(t.kind))| - r.1.value
  {
    var r := Objects.Delete(db, t);
    if t.Id() != VNull then
      assert r.0 == Store.Delete(db, Objects.TableName(t.kind), [Eq(ID_KEY, t.Id())]).0;
      r
    else r
  }

  /** Deleting a transformation just created restores the table. */
  lemma CreateThenDelete(db: Db, now: int)
    requires UniqueIds(Docs(db, TABLE))
    requires CreateTransformation(db, now).1.Success?
    ensures var (db1, r) := CreateTransformation(db, now);
      var (db2, n) := DeleteTransformation(db1, r.value);
      n == Success(1) && Docs(db2, TABLE) == Docs(db, TABLE)
  {
    var (db1, r) := CreateTransformation(db, now);
    var o := r.value;
    var old_ := Docs(db, TABLE);
    var docs := Docs(db1, TABLE);
    assert Objects.TableName(o.kind) == TABLE;
    assert UniqueIds(docs) by {
      Objects.SaveInserts(db, Blank(), now, now, Success(None));
    }
    RemoveLast(old_, docs, o.Id());
  }

  /** In a table with unique ids whose last record is the only new one, the
      first record with the new id is that last record, and removing it
      gives back the old table. */
  lemma RemoveLast(old_: seq<Doc>, docs: seq<Doc>, id: Value)
    requires |docs| == |old_| + 1 && docs[..|old_|] == old_ && UniqueIds(docs)
    requires ID_KEY in docs[|old_|] && docs[|old_|][ID_KEY] == id
    ensures FirstMatch(docs, [Eq(ID_KEY, id)]) == Some(|old_|)
    ensures docs[..|old_|] + docs[|old_| + 1..] == old_
  {
    var f := [Eq(ID_KEY, id)];
    assert Holds(docs[|old_|], f[0]);
    forall j | 0 <= j < |old_| ensures !Matches(docs[j], f) {
      assert docs[j][ID_KEY] != docs[|old_|][ID_KEY];
      assert !Holds(docs[j], f[0]);
    }
  }
}

=== FILE: wrappers.dfy ===
/** Failure-compatible result types shared by every module of the model.

    The Python code signals failure by raising; here each raise becomes a
    `Failure` carrying the kind of exception that escapes to the caller. */
module Wrappers {

  datatype Option<+T> = None | Some(value: T) {
    predicate IsFailure() { None? }

    function PropagateFailure<U>(): Option<U>
      requires None?
    {
      None
    }

    function Extract(): T
      requires Some?
    {
      value
    }
  }

  /** The exceptions that can leave a modelled operation.  The first four are
      the application's own error classes (remind/exceptions.py); the rest are
      the Python, pydantic and pymongo errors that the code lets escape. */
  datatype Error =
    | NotFound
    | InvalidInput
    | DatabaseOperation
    | ValidationError
    | ValueError
    | KeyError
    | TypeError
    | IndexError
    | AttributeError
    | AssertionError
    | InvalidId
    | DuplicateKey
    | ImmutableField
    | BackendError

  datatype Result<+T> = Success(value: T) | Failure(error: Error) {
    predicate IsFailure() { Failure? }

    function PropagateFailure<U>(): Result<U>
      requires Failure?
    {
      Failure(error)
    }

    function Extract(): T
      requires Success?
    {
      value
    }
  }

  /** Apply `f` to every element in order, stopping at the first failure: a
      list comprehension whose body may raise. */
  function MapAll<A, B>(f: A -> Result<B>, xs: seq<A>): (r: Result<seq<B>>)
    ensures r.Success? <==> forall j | 0 <= j < |xs| :: f(xs[j]).Success?
    ensures r.Success? ==> |r.value| == |xs| && forall j | 0 <= j < |xs| :: f(xs[j]) == Success(r.value[j])
    ensures r.Failure? ==> exists j | 0 <= j < |xs| :: f(xs[j]) == Failure(r.error)
    decreases |xs|
  {
    if |xs| == 0 then Success([])
    else
      match f(xs[0])
      case Failure(e) => Failure(e)
      case Success(y) =>
        match MapAll(f, xs[1..])
        case Failure(e) =>
          assert exists j | 0 <= j < |xs| :: f(xs[j]) == Failure(e) by {
            var j :| 0 <= j < |xs[1..]| && f(xs[1..][j]) == Failure(e);
            assert xs[j + 1] == xs[1..][j];
          }
          Failure(e)
        case Success(ys) =>
          assert forall j | 1 <= j < |xs| :: xs[j] == xs[1..][j - 1];
          Success([y] + ys)
  }

  /** The results of `f` on the elements where it succeeds, in order: a
      loop that skips the elements whose body raises. */
  function Successes<A, B>(f: A -> Result<B>, xs: seq<A>): (r: seq<B>)
    ensures |r| <= |xs|
    ensures forall y | y in r :: exists x | x in xs :: f(x) == Success(y)
    ensures forall x | x in xs && f(x).Success? :: f(x).value in r
    decreases |xs|
  {
    if |xs| == 0 then []
    else
      var rest := Successes(f, xs[1..]);
      assert forall x | x in xs :: x == xs[0] || x in xs[1..];
      assert forall x | x in xs[1..] :: x in xs;
      match f(xs[0])
      case Success(y) => [y] + rest
      case Failure(_) => rest
  }

  /** The loop keeps order: what it collects from `a + b` is what it
      collects from `a`, followed by what it collects from `b`. */
  lemma {:induction false} SuccessesAppend<A, B>(f: A -> Result<B>, a: seq<A>, b: seq<A>)
    ensures Successes(f, a + b) == Successes(f, a) + Successes(f, b)
    decreases |a|
  {
    if |a| > 0 {
      assert (a + b)[0] == a[0] && (a + b)[1..] == a[1..] + b;
      SuccessesAppend(f, a[1..], b);
    } else {
      assert a + b == b;
    }
  }

  /** Test every element in order until one passes, stopping at the first
      failure: the position of the first element for which `f` holds, after
      elements for which it does not; None when it holds for none. */
  function FindFirst<A>(f: A -> Result<bool>, xs: seq<A>): (r: Result<Option<nat>>)
    ensures r.Success? && r.value.Some? ==>
      && r.value.value < |xs| && f(xs[r.value.value]) == Success(true)
      && forall j | 0 <= j < r.value.value :: f(xs[j]) == Success(false)
    ensures r == Success(None) <==> forall j | 0 <= j < |xs| :: f(xs[j]) == Success(false)
    ensures r.Failure? ==> exists j | 0 <= j < |xs| :: f(xs[j]) == Failure(r.error)
    decreases |xs|
  {
    if |xs| == 0 then Success(None)
    else
      match f(xs[0])
      case Failure(e) => Failure(e)
      case Success(true) => Success(Some(0))
      case Success(false) =>
        var rest := FindFirst(f, xs[1..]);
        assert forall j | 1 <= j < |xs| :: xs[j] == xs[1..][j - 1];
        match rest
        case Success(Some(k)) => Success(Some(k + 1))
        case Success(None) => rest
        case Failure(e) =>
          var j :| 0 <= j < |xs[1..]| && f(xs[1..][j]) == Failure(e);
          assert f(xs[j + 1]) == Failure(e);
          rest
  }

  /** A prefix extended by the next element is the next prefix. */
  lemma PrefixSnoc<T>(s: seq<T>, i: nat)
    requires i < |s|
    ensures s[..i] + [s[i]] == s[..i + 1]
  {
  }
}

=== FILE: youtube.dfy ===
/** `get_youtube_id` and `TranscriptFormatter` of
    `remind/process_content/youtube_to_text.py`.

    The URL arrives already split by `urlparse` into hostname, path and query
    string; `parse_qs` is modelled on the query string (pairs split on `&`,
    name and value split on the first `=`, pairs without `=` or with an
    empty value dropped); percent-decoding is not modelled.  Fetching a
    transcript and downloading audio are network calls and are not part of
    the model. */
module YouTube {
  import opened Wrappers
  import Text

  /** The parts of `urlparse(url)` that `get_youtube_id` reads. */
  datatype Url = Url(text: string, hostname: Option<string>, path: string, query: string)

  const SHORT_HOST := "youtu.be"
  const HOSTS: set<string> := {"www.youtube.com", "youtube.com", "music.youtube.com"}

  // ---------------------------------------------------------------- parse_qs

  /** One `name=value` piece of a query string, or None when `parse_qs`
      drops it. */
  function Pair(piece: string): Option<(string, string)> {
    if '=' !in piece then None
    else
      var i := Text.IndexOf(piece, '=');
      if i + 1 == |piece| then None else Some((piece[..i], piece[i + 1..]))
  }

  /** `parse_qs(query).get(key, [])`: the values of `key`, in order. */
  function ValuesOf(pieces: seq<string>, key: string): (r: seq<string>)
    ensures forall v | v in r :: v != ""
  {
    if |pieces| == 0 then []
    else
      var rest := ValuesOf(pieces[1..], key);
      var p := Pair(pieces[0]);
      if p.Some? && p.value.0 == key then [p.value.1] + rest else rest
  }

  function QueryValues(query: string, key: string): seq<string> {
    ValuesOf(Text.Split(query, '&'), key)
  }

  /** `parse_qs(query)[key][0]`, or KeyError. */
  function FirstValue(query: string, key: string): (r: Result<string>)
    ensures r.Failure? <==> |QueryValues(query, key)| == 0
    ensures r.Failure? ==> r.error == KeyError
    ensures r.Success? ==> r.value == QueryValues(query, key)[0] && r.value != ""
  {
    var vs := QueryValues(query, key);
    if |vs| == 0 then Failure(KeyError) else assert vs[0] in vs; Success(vs[0])
  }

  // ---------------------------------------------------------------- get_youtube_id

  /** Python's `s[:n]` */
  function Prefix(s: string, n: nat): string {
    if |s| <= n then s else s[..n]
  }

  /** Python's `s[1:]` */
  function Rest(s: string): string {
    if |s| == 0 then s else s[1..]
  }

  /** `path.split('/')[2]` for a path known to have at least two slashes. */
  function Segment2(path: string): string
    requires |Text.Split(path, '/')| > 2
  {
    Text.Split(path, '/')[2]
  }

  /** `c` occurs at `k` and nowhere before: `k` is its first index. */
  lemma {:induction false} FirstIndex(s: string, c: char, k: int)
    requires 0 <= k < |s| && s[k] == c && c !in s[..k]
    ensures Text.IndexOf(s, c) == k
  {
    if s[0] != c {
      assert s[1..][..k - 1] == s[..k][1..];
      FirstIndex(s[1..], c, k - 1);
    }
  }

  /** Splitting at the first separator. */
  lemma SplitAt(x: string, c: char, y: string)
    requires c !in x
    ensures Text.Split(x + [c] + y, c) == [x] + Text.Split(y, c)
  {
    var s := x + [c] + y;
    assert s[|x|] == c;
    FirstIndex(s, c, |x|);
    assert forall j | 0 <= j < |x| :: s[j] == x[j];
    assert s[..|x|] == x && s[|x| + 1..] == y;
  }

  /** The path starts with `/name/`. */
  predicate Slashed(path: string, name: string) {
    |path| >= |name| + 2 && path[..|name| + 2] == "/" + name + "/"
  }

  /** `path[:n] == "/name/"` is the same as the path starting with `/name/`. */
  lemma PrefixSlashed(path: string, name: string)
    ensures Prefix(path, |name| + 2) == "/" + name + "/" <==> Slashed(path, name)
  {
  }

  /** The path starts with `/name/`, so it splits into at least three
      pieces, the third being what follows `/name/` up to the next `/`. */
  lemma SlashedHasSegment(path: string, name: string)
    requires '/' !in name && Slashed(path, name)
    ensures |Text.Split(path, '/')| > 2
    ensures Text.Split(path, '/')[1] == name
    ensures Text.Split(path, '/')[2] == Text.BeforeFirst(path[|name| + 2..], '/')
  {
    var rest := path[|name| + 2..];
    assert path == "" + ['/'] + (name + ['/'] + rest);
    SplitAt("", '/', name + ['/'] + rest);
    SplitAt(name, '/', rest);
  }

  /** A YouTube host whose playlist id is not taken: no `list` value, or
      the playlist is ignored. */
  predicate VideoHost(u: Url, ignorePlaylist: bool) {
    u.hostname.Some? && u.hostname.value in HOSTS && (ignorePlaylist || |QueryValues(u.query, "list")| == 0)
  }

  /** The id `/name/<id>...` carries: what follows `/name/` up to the next `/`. */
  function AfterSlashed(path: string, name: string): string
    requires Slashed(path, name)
  {
    Text.BeforeFirst(path[|name| + 2..], '/')
  }

  /** The path holds its id after `/watch/`, `/embed/` or `/v/`. */
  predicate SegmentPath(path: string) {
    Slashed(path, "watch") || Slashed(path, "embed") || Slashed(path, "v")
  }

  /** The video id of a path of that shape. */
  function SegmentId(path: string): string
    requires SegmentPath(path)
  {
    if Slashed(path, "watch") then AfterSlashed(path, "watch")
    else if Slashed(path, "embed") then AfterSlashed(path, "embed")
    else AfterSlashed(path, "v")
  }

  /** The third piece of a path starting with `/name/` is its id. */
  lemma SegmentIs(path: string, name: string)
    requires '/' !in name && Slashed(path, name)
    ensures |Text.Split(path, '/')| > 2 && Segment2(path) == AfterSlashed(path, name)
  {
    SlashedHasSegment(path, name);
  }

  /** A path passing one of the three prefix tests has its id as third piece. */
  lemma SegmentOf(path: string)
    requires Prefix(path, 7) == "/watch/" || Prefix(path, 7) == "/embed/" || Prefix(path, 3) == "/v/"
    ensures SegmentPath(path) && |Text.Split(path, '/')| > 2 && Segment2(path) == SegmentId(path)
  {
    PrefixSlashed(path, "watch");
    PrefixSlashed(path, "embed");
    PrefixSlashed(path, "v");
    if Slashed(path, "watch") {
      SegmentIs(path, "watch");
    } else if Slashed(path, "embed") {
      SegmentIs(path, "embed");
    } else {
      SegmentIs(path, "v");
    }
  }

  /** A path failing the three prefix tests has no id segment. */
  lemma NoSegment(path: string)
    requires Prefix(path, 7) != "/watch/" && Prefix(path, 7) != "/embed/" && Prefix(path, 3) != "/v/"
    ensures !SegmentPath(path)
  {
    PrefixSlashed(path, "watch");
    PrefixSlashed(path, "embed");
    PrefixSlashed(path, "v");
  }

  /** The path dispatch of `get_youtube_id` on a YouTube host: `/watch`
      reads the first `v` value, `/watch/`, `/embed/` and `/v/` paths carry
      the id as their third piece, and any other path gives the URL back. */
  function PathId(u: Url): (r: Result<string>)
    ensures u.path == "/watch" ==> r == FirstValue(u.query, "v")
    ensures u.path != "/watch" && SegmentPath(u.path) ==> r == Success(SegmentId(u.path))
    ensures u.path != "/watch" && !SegmentPath(u.path) ==> r == Success(u.text)
  {
    if u.path == "/watch" then FirstValue(u.query, "v")
    else if Prefix(u.path, 7) == "/watch/" || Prefix(u.path, 7) == "/embed/" || Prefix(u.path, 3) == "/v/" then
      SegmentOf(u.path);
      Success(Segment2(u.path))
    else
      NoSegment(u.path);
      Success(u.text)
  }

  /** `get_youtube_id(url, ignore_playlist)`. */
  function YoutubeId(u: Url, ignorePlaylist: bool): (r: Result<string>)
    ensures u.hostname == Some(SHORT_HOST) ==> r == Success(Rest(u.path))
    ensures u.hostname.None? || (u.hostname.value != SHORT_HOST && u.hostname.value !in HOSTS) ==> r == Success(u.text)
    ensures u.hostname.Some? && u.hostname.value in HOSTS && !ignorePlaylist && |QueryValues(u.query, "list")| > 0
      ==> r == Success(QueryValues(u.query, "list")[0])
    ensures r.Failure? ==> r.error == KeyError && u.path == "/watch"
    ensures r.Failure? <==> VideoHost(u, ignorePlaylist) && u.path == "/watch" && |QueryValues(u.query, "v")| == 0
    ensures VideoHost(u, ignorePlaylist) && u.path == "/watch" ==> r == FirstValue(u.query, "v")
    ensures VideoHost(u, ignorePlaylist) && u.path != "/watch" && SegmentPath(u.path) ==> r == Success(SegmentId(u.path))
    ensures VideoHost(u, ignorePlaylist) && u.path != "/watch" && !SegmentPath(u.path) ==> r == Success(u.text)
  {
    if u.hostname == Some(SHORT_HOST) then Success(Rest(u.path))
    else if u.hostname.Some? && u.hostname.value in HOSTS then
      if !ignorePlaylist && FirstValue(u.query, "list").Success? then FirstValue(u.query, "list")
      else PathId(u)
    else Success(u.text)
  }

  /** A piece without `&` or `=` that is not empty. */
  predicate Plain(id: string) {
    id != "" && '&' !in id && '=' !in id && '/' !in id
  }

  /** `https://youtu.be/<id>` gives the id back. */
  lemma ShortLinkRoundTrip(text: string, id: string)
    ensures YoutubeId(Url(text, Some(SHORT_HOST), "/" + id, ""), false) == Success(id)
  {
    assert Rest("/" + id) == id;
  }

  /** The pair `name=value` as `parse_qs` reads it. */
  lemma PairOf(name: string, value: string)
    requires '=' !in name && value != ""
    ensures Pair(name + "=" + value) == Some((name, value))
  {
    var p := name + "=" + value;
    assert p == name + ['='] + value;
    assert p[|name|] == '=';
    FirstIndex(p, '=', |name|);
    assert forall j | 0 <= j < |name| :: p[j] == name[j];
    assert p[..|name|] == name && p[|name| + 1..] == value;
  }

  /** `https://www.youtube.com/watch?v=<id>` gives the id back. */
  lemma WatchRoundTrip(text: string, host: string, id: string)
    requires host in HOSTS && Plain(id)
    ensures YoutubeId(Url(text, Some(host), "/watch", "v=" + id), false) == Success(id)
  {
    var q := "v=" + id;
    assert '&' !in q by { assert q == ['v', '='] + id; }
    assert Text.Split(q, '&') == [q];
    PairOf("v", id);
    assert "v" + "=" + id == q;
    assert [q][1..] == [];
    assert ValuesOf([q], "v") == [id] + ValuesOf([], "v");
    assert "v" != "list";
    assert ValuesOf([q], "list") == ValuesOf([], "list");
  }

  /** `https://www.youtube.com/embed/<id>` gives the id back. */
  lemma EmbedRoundTrip(text: string, host: string, id: string)
    requires host in HOSTS && Plain(id)
    ensures YoutubeId(Url(text, Some(host), "/embed/" + id, ""), false) == Success(id)
  {
    var path := "/embed/" + id;
    assert path[..7] == "/embed/";
    assert Prefix(path, 7) == "/embed/" != "/watch/";
    assert |path| > |"/watch"|;
    assert QueryValues("", "list") == [];
    assert FirstValue("", "list").Failure?;
    assert host != SHORT_HOST;
    EmbedSegment(id);
    var u := Url(text, Some(host), path, "");
    assert YoutubeId(u, false) == Success(Segment2(path));
  }

  /** `https://www.youtube.com/v/<id>?<query>` gives the id back whatever
      the query holds, as long as it names no playlist. */
  lemma VPathRoundTrip(text: string, host: string, id: string, query: string)
    requires host in HOSTS && Plain(id) && |QueryValues(query, "list")| == 0
    ensures YoutubeId(Url(text, Some(host), "/v/" + id, query), false) == Success(id)
  {
    var path := "/v/" + id;
    assert path[..3] == "/v/" && path[1] == 'v';
    assert !Slashed(path, "watch") && !Slashed(path, "embed") && Slashed(path, "v");
    assert path[3..] == id;
    assert Text.BeforeFirst(id, '/') == id;
    assert host != SHORT_HOST && path != "/watch";
  }

  /** `https://www.youtube.com/watch/<id>` gives the id back. */
  lemma WatchPathRoundTrip(text: string, host: string, id: string)
    requires host in HOSTS && Plain(id)
    ensures YoutubeId(Url(text, Some(host), "/watch/" + id, ""), false) == Success(id)
  {
    var path := "/watch/" + id;
    assert path[..7] == "/watch/";
    assert Slashed(path, "watch") && path != "/watch";
    assert path[7..] == id;
    assert Text.BeforeFirst(id, '/') == id;
    assert QueryValues("", "list") == [];
    assert host != SHORT_HOST;
  }

  /** The third piece of `/embed/<id>` is the id. */
  lemma EmbedSegment(id: string)
    requires Plain(id)
    ensures |Text.Split("/embed/" + id, '/')| > 2 && Segment2("/embed/" + id) == id
  {
    assert "/embed/" + id == "" + ['/'] + ("embed" + ['/'] + id);
    SplitAt("", '/', "embed" + ['/'] + id);
    SplitAt("embed", '/', id);
    assert Text.Split(id, '/') == [id];
  }

  /** The query `v=<vid>&list=<lid>` holds one value for each name. */
  lemma PlaylistQuery(vid: string, lid: string)
    requires Plain(vid) && Plain(lid)
    ensures QueryValues("v=" + vid + "&list=" + lid, "list") == [lid]
    ensures QueryValues("v=" + vid + "&list=" + lid, "v") == [vid]
  {
    var a, b := "v=" + vid, "list=" + lid;
    assert '&' !in a by { assert a == ['v', '='] + vid; }
    assert '&' !in b by { assert b == ['l', 'i', 's', 't', '='] + lid; }
    assert "v=" + vid + "&list=" + lid == a + ['&'] + b;
    SplitAt(a, '&', b);
    assert Text.Split(b, '&') == [b];
    PairValues(a, b, vid, lid);
  }

  lemma PairValues(a: string, b: string, vid: string, lid: string)
    requires Plain(vid) && Plain(lid) && a == "v=" + vid && b == "list=" + lid
    ensures ValuesOf([a, b], "list") == [lid] && ValuesOf([a, b], "v") == [vid]
  {
    PairOf("v", vid);
    PairOf("list", lid);
    assert "v" + "=" + vid == a && "list" + "=" + lid == b;
    assert [a, b][1..] == [b] && [b][1..] == [];
    assert "v" != "list";
    assert ValuesOf([b], "list") == [lid] + ValuesOf([], "list");
    assert ValuesOf([a, b], "list") == ValuesOf([b], "list");
    assert ValuesOf([b], "v") == ValuesOf([], "v");
    assert ValuesOf([a, b], "v") == [vid] + ValuesOf([b], "v");
  }

  /** With a `list` parameter and the playlist not ignored, the playlist id
      wins over the video id; with the playlist ignored the video id is
      returned. */
  lemma PlaylistWins(text: string, host: string, vid: string, lid: string)
    requires host in HOSTS && Plain(vid) && Plain(lid)
    ensures YoutubeId(Url(text, Some(host), "/watch", "v=" + vid + "&list=" + lid), false) == Success(lid)
    ensures YoutubeId(Url(text, Some(host), "/watch", "v=" + vid + "&list=" + lid), true) == Success(vid)
  {
    PlaylistQuery(vid, lid);
  }

  // ---------------------------------------------------------------- transcripts

  /** A snippet is kept unless it is blank after stripping or is wholly
      bracketed, like `[Music]`. */
  predicate Keep(snippet: string) {
    var t := Text.Strip(snippet);
    t != "" && !(t[0] == '[' && t[|t| - 1] == ']')
  }

  /** Newlines become spaces. */
  function Flatten(t: string): (r: string)
    ensures |r| == |t|
    ensures forall i | 0 <= i < |t| :: r[i] == (if t[i] == '\n' then ' ' else t[i])
  {
    seq(|t|, i requires 0 <= i < |t| => if t[i] == '\n' then ' ' else t[i])
  }

  /** `text.replace("\n", " ")` is `Flatten`. */
  lemma {:induction false} ReplaceNewlines(t: string)
    ensures Text.Replace(t, "\n", " ") == Flatten(t)
    decreases |t|
  {
    if |t| > 0 {
      ReplaceNewlines(t[1..]);
      if t[..1] == "\n" {
        assert t[0] == '\n';
        assert Text.Replace(t, "\n", " ") == " " + Text.Replace(t[1..], "\n", " ");
      } else {
        assert t[0] != '\n' by { assert t[..1] == [t[0]]; }
      }
    }
  }

  /** Replacing newlines in a stripped text keeps its ends non-blank and
      leaves no newline. */
  lemma FlattenStripped(t: string)
    requires |t| > 0 ==> !Text.IsSpace(t[0]) && !Text.IsSpace(t[|t| - 1])
    ensures var r := Text.Replace(t, "\n", " ");
      && (|r| > 0 ==> !Text.IsSpace(r[0]) && !Text.IsSpace(r[|r| - 1]))
      && '\n' !in r
  {
    ReplaceNewlines(t);
    assert Text.IsSpace('\n');
    var f := Flatten(t);
    assert forall i | 0 <= i < |f| :: f[i] != '\n';
  }

  /** The text a kept snippet contributes. */
  function Clean(snippet: string): (r: string)
    ensures |r| > 0 ==> !Text.IsSpace(r[0]) && !Text.IsSpace(r[|r| - 1])
    ensures '\n' !in r
  {
    var t := Text.Strip(snippet);
    FlattenStripped(t);
    Text.Replace(t, "\n", " ")
  }

  /** A contribution of a kept snippet. */
  predicate Line(piece: string) {
    piece != "" && '\n' !in piece && !Text.IsSpace(piece[0]) && !Text.IsSpace(piece[|piece| - 1])
  }

  /** The contributions of the kept snippets, in order. */
  function Kept(snippets: seq<string>): (r: seq<string>)
    ensures |r| <= |snippets|
    ensures forall k | 0 <= k < |r| :: Line(r[k])
  {
    if |snippets| == 0 then []
    else
      var last := snippets[|snippets| - 1];
      Kept(snippets[..|snippets| - 1]) + (if Keep(last) then [Clean(last)] else [])
  }

  /** One more snippet read by the loop. */
  lemma KeptStep(snippets: seq<string>, i: nat)
    requires i < |snippets|
    ensures Kept(snippets[..i + 1]) == Kept(snippets[..i]) + (if Keep(snippets[i]) then [Clean(snippets[i])] else [])
  {
    assert snippets[..i + 1][..i] == snippets[..i];
  }

  /** The text accumulated by the loop: each piece followed by a newline. */
  function Lines(pieces: seq<string>): string {
    if |pieces| == 0 then "" else Lines(pieces[..|pieces| - 1]) + pieces[|pieces| - 1] + "\n"
  }

  lemma {:induction false} LinesJoin(pieces: seq<string>)
    requires |pieces| > 0
    ensures Lines(pieces) == Text.Join(pieces, "\n") + "\n"
    decreases |pieces|
  {
    if |pieces| > 1 {
      var init := pieces[..|pieces| - 1];
      LinesJoin(init);
      JoinSnoc(init, pieces[|pieces| - 1], "\n");
      assert init + [pieces[|pieces| - 1]] == pieces;
    } else {
      assert pieces[..0] == [];
    }
  }

  lemma {:induction false} JoinSnoc(parts: seq<string>, p: string, sep: string)
    requires |parts| > 0
    ensures Text.Join(parts + [p], sep) == Text.Join(parts, sep) + sep + p
    decreases |parts|
  {
    if |parts| > 1 {
      assert (parts + [p])[1..] == parts[1..] + [p];
      JoinSnoc(parts[1..], p, sep);
    } else {
      assert (parts + [p])[1..] == [p];
    }
  }

  lemma LinesSnoc(pieces: seq<string>, t: string)
    ensures Lines(pieces + [t]) == Lines(pieces) + t + "\n"
  {
    assert (pieces + [t])[..|pieces|] == pieces;
  }

  /** `TranscriptFormatter.format_transcript`: the kept snippets, one per
      line. */
  method FormatTranscript(snippets: seq<string>) returns (r: string)
    ensures r == Text.Join(Kept(snippets), "\n")
    ensures |r| > 0 ==> !Text.IsSpace(r[0]) && !Text.IsSpace(r[|r| - 1])
  {
    var acc := "";
    var i := 0;
    while i < |snippets|
      invariant 0 <= i <= |snippets|
      invariant acc == Lines(Kept(snippets[..i]))
    {
      KeptStep(snippets, i);
      var text := Text.Strip(snippets[i]);
      if text == "" || (text[0] == '[' && text[|text| - 1] == ']') {
        assert !Keep(snippets[i]);
        assert Kept(snippets[..i + 1]) == Kept(snippets[..i]);
        i := i + 1;
        continue;
      }
      assert Keep(snippets[i]);
      text := Text.Replace(text, "\n", " ");
      assert text == Clean(snippets[i]);
      LinesSnoc(Kept(snippets[..i]), text);
      acc := acc + text + "\n";
      i := i + 1;
    }
    assert snippets[..i] == snippets;
    if |Kept(snippets)| > 0 {
      LinesJoin(Kept(snippets));
      StripLines(Kept(snippets));
    }
    r := Text.Strip(acc);
  }

  /** Stripping the accumulated lines removes exactly the final newline. */
  lemma StripLines(kept: seq<string>)
    requires |kept| > 0
    requires forall k | 0 <= k < |kept| :: Line(kept[k])
    ensures Text.Strip(Text.Join(kept, "\n") + "\n") == Text.Join(kept, "\n")
  {
    var j := Text.Join(kept, "\n");
    JoinEnds(kept);
    var s := j + "\n";
    assert s[..|s| - 1] == j;
    assert Text.TrimLeft(s, Text.IsSpace) == s;
    assert Text.TrimRight(s, Text.IsSpace) == Text.TrimRight(j, Text.IsSpace);
    assert Text.TrimRight(j, Text.IsSpace) == j;
  }

  /** A join of pieces with non-blank ends has non-blank ends. */
  lemma {:induction false} JoinEnds(parts: seq<string>)
    requires |parts| > 0
    requires forall k | 0 <= k < |parts| :: Line(parts[k])
    ensures var j := Text.Join(parts, "\n"); |j| > 0 && !Text.IsSpace(j[0]) && !Text.IsSpace(j[|j| - 1])
    decreases |parts|
  {
    if |parts| > 1 {
      JoinEnds(parts[1..]);
    }
  }

  /** Splitting the formatted transcript at newlines gives back exactly the
      kept snippets. */
  lemma FormatSplits(snippets: seq<string>)
    requires |Kept(snippets)| > 0
    ensures Text.Split(Text.Join(Kept(snippets), "\n"), '\n') == Kept(snippets)
  {
    SplitJoin(Kept(snippets), '\n');
  }

  /** Joining pieces free of the separator and splitting again is the
      identity. */
  lemma {:induction false} SplitJoin(parts: seq<string>, c: char)
    requires |parts| > 0 && forall k | 0 <= k < |parts| :: c !in parts[k]
    ensures Text.Split(Text.Join(parts, [c]), c) == parts
    decreases |parts|
  {
    var s := Text.Join(parts, [c]);
    if |parts| == 1 {
      assert s == parts[0];
    } else {
      var rest := Text.Join(parts[1..], [c]);
      assert s == parts[0] + [c] + rest;
      SplitAt(parts[0], c, rest);
      SplitJoin(parts[1..], c);
      assert [parts[0]] + parts[1..] == parts;
    }
  }
}
